=== FILE: README.md ===
# PS4 PKG Manager — a Dafny model of its core

PS4 PKG Manager is a desktop program that lists PlayStation 4 package files (`.pkg`) in tabs, shows
their metadata, keeps the tabs in sync with watched directories or a console's FTP server, and runs
user-defined shell commands on selected packages. This project models the program's deterministic
core as pure Dafny functions over immutable values, with proved contracts and lemmas:

- **Package parsing** (`Bytes`, `Hex`, `Utf8`, `Pkg`, `PkgQuery`): the big-endian header, the
  entry table, the file-name table, the digest table, the little-endian `param.sfo` block and the
  changelog. Also the accessors built on them: the compatibility checksum, the changelog version
  and the SFO lookup.
- **Table rows** (`TableRow`, `ReleaseTags`, `Columns`, `Decimal`, `JavaInt`, `Strings`): the texts
  of a package's row, including region, version, type, SDK, firmware, size, release tags and the
  insertion stamp. Also the merge of hard-coded and user release tags, and the column comparators.
- **The sorted tab buffer** (`SortedIndex`): insertion at the scanned position for each sort
  direction, replacement by path, removal by path and by directory, the filter, and the
  sort-direction cycle.
- **Custom actions** (`CustomActions`, `CustomAction`): substring counting, the selection-validity
  decision, the saved line format, tokenizing with single quotes, variable substitution and the
  CONFIRM prefix.
- **Directory watcher** (`Watcher`): the synchronized-directory list, the watch-key set, the
  per-directory existence state machine and the classification of file-system events.
- **FTP client** (`Ftp`): reading replies as the client does, next to the multi-line reply of
  section 4.2 of RFC 959 that it evidently means, and the commands built on the reader as written:
  the greeting, the login sequence (section 6 of RFC 959), TYPE, the 227 passive-mode reply and
  LIST. Also Unix-style listing lines and the directory and file filters.
- **Package queue** (`PkgQueue`): its first-in, first-out behaviour.
- **Pure parts of the windows** (`Gui`, `Settings`, `PkgProperties`, `FtpDialogs`):
  - the settings-string round trips, the synchronized-selection predicates, tab naming and tab moves;
  - the release-tag text boxes and the shared column layout;
  - the properties window's title, tables and previous/next navigation;
  - the `ftp://` path derivation and rewrite, the most-recently-used IP and port, the download
    length and the progress percentage.

File-system facts (existence, regular file, size, listings) are oracle parameters. So are socket
data (the lines the server sends) and the user's answers. Java's 32- and 64-bit wrap-around is
written out explicitly wherever a sum or cast can overflow.

## Model

| member | source | states |
|---|---|---|
| Hex.HexString | src/Hex.java:4-11 | the digest string has exactly two characters per byte, each an upper-case hexadecimal digit |
| Hex.HexDigitIsTableEntry | src/Hex.java:2 | the digit for nibble d is entry d of the lookup table 0-9, A-F |
| Hex.HexStringNibbles | src/Hex.java:6-9 | character 2i is the high nibble of byte i and character 2i+1 its low nibble |
| Hex.HexRoundTrip | src/Hex.java:4-11 | reading the digest string back as pairs of hexadecimal digits yields the original bytes |
| Hex.HexStringInjective | src/Hex.java:6-9 | different byte strings never give the same digest string |
| Hex.HexStringConcat | src/Hex.java:6-9 | the digest of a concatenation is the concatenation of the digests |
| Hex.FormatHex | src/PS4PKG.java:251 | `%08X` gives at least eight upper-case digits whose hexadecimal value is the number |
| Hex.HexValueFixedHex | src/PS4PKG.java:251 | fixed-width digits read back as the number they were made from |
| Hex.FixedHexIsHexString | src/PS4PKG.java:251 | the fixed-width hexadecimal of an int is the digest string of its big-endian bytes |
| Bytes.GetInt | src/PS4PKG.java:108 | a big-endian int read succeeds exactly when its four bytes lie in the buffer, and encoding the result gives those four bytes |
| Bytes.GetShort | src/PS4PKG.java:115 | a big-endian short read succeeds exactly when its two bytes lie in the buffer, and encoding the result gives them back |
| Bytes.GetLong | src/PS4PKG.java:118 | a big-endian long read succeeds exactly when its eight bytes lie in the buffer, and encoding the result gives them back |
| Bytes.GetIntLE | src/PS4PKG.java:228-232 | after the switch to little-endian order, an int read is the little-endian value of its four bytes, and fails outside the buffer |
| Bytes.GetShortLE | src/PS4PKG.java:236-237 | a little-endian short read is the value of its two bytes, and fails outside the buffer |
| Bytes.Slice | src/PS4PKG.java:123-124 | a bulk get succeeds exactly when the range lies inside the buffer, and returns exactly those bytes |
| Bytes.GetIntOfEncoded | src/PS4PKG.java:108 | writing an int big-endian anywhere in a buffer and reading it back at that offset gives the same int |
| Bytes.BeEncodeValue | src/PS4PKG.java:112-163 | big-endian decoding loses nothing: re-encoding the value of some bytes reproduces them |
| Bytes.LeEncodeValue | src/PS4PKG.java:228-240 | little-endian decoding loses nothing: re-encoding the value of some bytes reproduces them |
| Pkg.LoadHeader | src/PS4PKG.java:107-109 | the header loads exactly when the buffer covers the header and the big-endian int at 0 is 0x7f434e54; a short buffer is an out-of-bounds failure, a wrong magic a bad-magic failure |
| Pkg.ReadHeader | src/PS4PKG.java:123-160 | the content id is the decoded 36 bytes at 0x40, and pfs_signed_digest stays unassigned |
| Pkg.HeaderFieldsRoundTrip | src/PS4PKG.java:112-163 | each numeric header field, written back big-endian at its documented offset and width, reproduces the package's bytes there |
| Pkg.HeaderDigestsRoundTrip | src/PS4PKG.java:136-166 | each header digest string decodes to the 32 bytes it was read from; pfs_image_digest holds the bytes at 0x460, not 0x440 |
| Pkg.Digest | src/PS4PKG.java:136-138 | a digest string decodes back to the 32 bytes at its offset |
| Pkg.CStringEnd | src/PS4PKG.java:202-204 | the scan stops at the first NUL at or after the start, and fails when there is none |
| Pkg.ReadRowFields | src/PS4PKG.java:175-183 | the six row fields are the big-endian ints at row position +0, +4, +8, +12, +16 and +20, in the order read |
| Pkg.ReadRow | src/PS4PKG.java:175-183 | a row reads exactly when its 24 bytes lie inside the buffer |
| Pkg.Payload | src/PS4PKG.java:195-196 | a payload copy succeeds exactly when offset and size describe a range inside the buffer, and is that range |
| Pkg.EntryName | src/PS4PKG.java:199-206 | the name is read exactly when a name table is present and holds a NUL after the offset, and it is the decoded bytes up to that NUL |
| Pkg.LoadEntries | src/PS4PKG.java:169-174 | the entry list has exactly entry_count elements, and a negative count fails as a negative array size |
| Pkg.LoadEntriesSpec | src/PS4PKG.java:169-207 | the entry loop succeeds exactly when every counted row loads, and entry i is row i, named from the latest id-0x200 table at or before it |
| Pkg.EntriesFromSpec | src/PS4PKG.java:174-207 | from any row on, the loop succeeds exactly when every remaining row loads, and its k-th entry is the row k places further |
| Pkg.LoadRowSpec | src/PS4PKG.java:175-206 | with the name table the earlier rows leave in force, one pass loads exactly when the row, its name table and its name can be read, and yields the entry the row describes |
| Pkg.TableInForceStep | src/PS4PKG.java:194-197 | the name table in force after a row is that row's payload if its id is 0x200, and otherwise the one before it |
| Pkg.CollectSpec | src/PS4PKG.java:174-207 | a row-by-row loop that stops at the first failure succeeds exactly when every row succeeds, and its k-th result belongs to row i+k |
| Pkg.FindEntry | src/PS4PKG.java:267-268 | the index found is the first entry with that id, and none is found only when no entry has it |
| Pkg.GetFile | src/PS4PKG.java:265-278 | a payload is returned exactly when some first entry has the id and its payload lies inside the buffer, and it is that entry's payload |
| Pkg.DigestOf | src/PS4PKG.java:217-219 | digest i is the hex of the 32 bytes at digest_offset + 32 i of the digest table |
| Pkg.ReadDigests | src/PS4PKG.java:216-220 | the digest loop succeeds exactly when every digest lies inside the table, and then yields digest i at position i |
| Pkg.LoadDigests | src/PS4PKG.java:210-221 | without an id-0x1 entry loading fails with a null pointer; otherwise there is one digest per entry, digest i read at the int at 0x10 of the table plus 32 i |
| Pkg.SfoRowAt | src/PS4PKG.java:236-240 | row i of the SFO index is read at 0x14 + 16 i and exists exactly when its 16 bytes lie in the SFO |
| Pkg.SfoParamOf | src/PS4PKG.java:242-253 | the name is the C string at key_table + key_offset; format 0x404 gives the int there as `0x%08X`, any other format the len-1 bytes as text; it fails exactly when a read leaves the SFO |
| Pkg.ReadSfoParams | src/PS4PKG.java:235-254 | the parameter loop succeeds exactly when every row's parameter reads, yields parameter n at position n, and otherwise fails out of bounds |
| Pkg.SfoTables | src/PS4PKG.java:228-232 | key table offset, data table offset and count are the little-endian ints at 0x08, 0x0C and 0x10 |
| Pkg.LoadParamSfo | src/PS4PKG.java:223-255 | a short SFO fails out of bounds, a negative count as a negative array size, and a loaded SFO has exactly count parameters |
| Pkg.Load | src/PS4PKG.java:99-105 | a loaded package has one entry and one digest per counted entry, its extras are those LoadExtras reads, and a header failure is the load's failure |
| Pkg.LoadExtras | src/PS4PKG.java:223-263 | params are present exactly when an id-0x1000 payload is, and the changelog is the decoded id-0x1260 payload when there is one |
| Pkg.Mapped | src/PS4PKG.java:88-89 | at most Integer.MAX_VALUE bytes from the start of the file are mapped, all of them when the file is no longer |
| Pkg.Open | src/PS4PKG.java:78-92 | a path that is not a regular file fails; a regular file whose path has no parent fails with a null pointer; otherwise opening succeeds exactly when loading the mapped bytes does, and the location is the path's parent and file name |
| Pkg.CollapseSeparators | src/PS4PKG.java:84 | runs of separators become one, a path without doubled separators is left alone, and the first character is kept |
| Pkg.Normalize | src/PS4PKG.java:84 | `Paths.get` leaves no doubled separator and no trailing one except the root, empties only the empty path, and leaves a normal path alone |
| Pkg.LocationOf | src/PS4PKG.java:84-85 | no parent exactly when the normal path has no separator or is the root; otherwise the parent and a non-empty, separator-free file name join back into the normal path |
| Pkg.BareNameHasNoParent | src/PS4PKG.java:84 | opening a regular file named by a bare relative name such as "x.pkg" throws a null pointer |
| Pkg.LocationRoundTrip | src/PS4PKG.java:84-85 | a normal directory and a file name are recovered from the path they make, the root's children included |
| Pkg.FromBytes | src/PS4PKG.java:94-97 | the byte-array constructor succeeds exactly when loading the buffer does, and has no location |
| PkgQuery.SfoValue | src/PS4PKG.java:298-305 | "ERROR" without a param.sfo; otherwise null exactly when no parameter has that name, else the value of the first one that does |
| PkgQuery.FindParam | src/PS4PKG.java:301-303 | the parameter found is the first with that name, and none is found only when none has it |
| PkgQuery.VersionFromSpec | src/PS4PKG.java:283-292 | from any search position: an exception exactly when a later marker has fewer than five characters after it; null exactly when there is no best yet and no later marker; otherwise the best so far or a later version, and no less than either |
| PkgQuery.VersionFromFails | src/PS4PKG.java:285-287 | the loop throws exactly when some later `app_ver="` has fewer than five characters after it |
| PkgQuery.VersionFromNone | src/PS4PKG.java:281-292 | the loop answers null exactly when there is no best version yet and no later marker |
| PkgQuery.VersionFromBest | src/PS4PKG.java:288-291 | an answered version is the best so far or one named later, and compares at least as great as both |
| PkgQuery.VersionFromStep | src/PS4PKG.java:285-291 | one pass moves the search past the marker and keeps the version only if it compares greater |
| PkgQuery.MarkersApart | src/PS4PKG.java:285-286 | two `app_ver="` occurrences never overlap, so skipping nine characters skips no marker |
| PkgQuery.ChangelogVersionSpec | src/PS4PKG.java:280-296 | with a changelog: an exception exactly when a marker is truncated, null exactly when there is no marker, otherwise the compareTo-greatest of the versions that follow the markers |
| PkgQuery.MaskedFlags | src/PS4PKG.java:312 | masking with 0x0F000000 keeps only bits 24 to 27 |
| PkgQuery.ChecksumEntryIdByNibble | src/PS4PKG.java:312-321 | selector 0xA picks entry id 0x1001, selector 0x2 picks 0x1008, and any other selector picks none |
| PkgQuery.CompatibilityChecksum | src/PS4PKG.java:307-328 | none for content type 0x1B or an unknown selector; otherwise the digest of the first entry with the selected id, or "ERROR" when no entry has it |
| Utf8.Decode | src/PS4PKG.java:125 | decoding never yields more characters than there are bytes |
| Utf8.Encode | src/PS4PKG.java:125 | each character takes one to four bytes |
| Utf8.DecodeEncode | src/PS4PKG.java:125 | text encoded as UTF-8 decodes back to the same text, so names and values written in UTF-8 are read as written |
| Utf8.DecodeEncodeChar | src/PS4PKG.java:205 | the bytes of one encoded character decode to that character, and decoding carries on right after them |
| Utf8.DecodeFromSuffix | src/PS4PKG.java:248 | decoding from inside the second of two joined byte runs does not depend on the first |
| Columns.Ordinal | src/Column.java:10-28 | a column's ordinal is its position in the declaration |
| Columns.GetFrom | src/Column.java:52-55 | the scan from position k finds a column exactly when k <= ordinal < length, and the column it finds has that ordinal |
| Columns.Get | src/Column.java:51-56 | `get` returns a column exactly when 0 <= ordinal < length, and that column has the ordinal; otherwise null |
| Columns.GetOrdinal | src/Column.java:51-56 | `get` inverts `ordinal` for every column |
| Columns.OrdinalOfValue | src/Column.java:35 | each position of `values()` holds the column with that ordinal |
| Columns.OrderIsPermutation | src/Column.java:38-40 | the default display order has one slot per column and lists every ordinal exactly once |
| Columns.LongCompare | src/Column.java:60 | defined exactly when both texts parse as longs; the result is -1, 0 or 1, and 0 exactly when the numbers are equal |
| Columns.LongCompareOrders | src/Column.java:60 | when the difference does not overflow, the result is the sign of the numeric difference |
| Columns.Wrap64Zero | src/Column.java:60 | a long difference wraps to zero exactly when it is zero |
| Columns.StringCompare | src/Column.java:62 | the text comparator answers 0 exactly when the strings agree ignoring case |
| Columns.StringCompareIgnoresCase | src/Column.java:62 | strings that agree ignoring case compare alike against any other string, on either side |
| Columns.StringCompareAntisymmetric | src/Column.java:62 | swapping the arguments negates the result |
| Columns.BoolCompare | src/Column.java:64-65 | 0 exactly for equal lengths, -1 exactly when the first is longer, 1 exactly when it is shorter |
| Columns.ToKB | src/Column.java:88-99 | `toKB` is defined exactly when splitting at spaces gives a second piece, and its result holds no decimal separator |
| Columns.ToKBUnits | src/Column.java:88-99 | "N GB" becomes N without separators followed by "000000", "N MB" followed by "000", any other unit just N |
| Columns.ToKBWithoutUnit | src/Column.java:89-91 | a size text without a space has no unit and makes `toKB` throw |
| Columns.SplitSizeText | src/Column.java:89 | "number unit" splits at the space into exactly the number and the unit |
| Columns.SizeCompare | src/Column.java:101 | a size comparison is -1, 0 or 1 and is defined only when both sizes convert to kilobytes |
| Columns.MegabytesInKB | src/Column.java:94-95 | a size written as "m MB" becomes the digits of m followed by "000" |
| Columns.SizeCompareMegabytes | src/Column.java:101 | two "m MB" and "n MB" texts compare as the sign of m - n |
| Columns.ThousandsText | src/Column.java:60 | the digits of n followed by "000" parse as 1000 n |
| Decimal.ParseLong | src/Column.java:60 | `Long.valueOf` succeeds exactly for an optional sign, at least one digit and a value in the long range |
| Decimal.ParseLongDecimalString | src/Column.java:60 | parsing back the decimal text of a long gives the long |
| Decimal.ParseIntDecimalString | src/GUI.java:615-621 | parsing back the decimal text of an int gives the int |
| Decimal.DecimalStringInjective | src/GUI.java:544 | different numbers have different decimal texts |
| Decimal.NatString | src/TableThread.java:144-151 | the decimal digits of a natural number, without leading zeros, read back as that number |
| Strings.IndexOfFrom | src/PS4PKG.java:285 | `indexOf` from a position gives the first occurrence at or after it, or -1 when there is none |
| Strings.CompareTo | src/PS4PKG.java:290 | `compareTo` answers 0 exactly for equal strings |
| Strings.CompareToAntisymmetric | src/PS4PKG.java:290 | swapping the arguments of `compareTo` negates its result |
| Strings.CompareToTransitive | src/PS4PKG.java:290 | `compareTo` orders strings transitively |
| Strings.SplitJoin | src/Column.java:89 | splitting a join at its separator gives the pieces back when none holds the separator's first character and the last is not empty |
| Strings.TrimAround | src/CustomAction.java:199-204 | `trim` of a string padded with trimmable characters is the string between the padding |
| Strings.LowerIdempotent | src/TabContent.java:95-103 | lower-casing twice is lower-casing once, and leaves no upper-case letter |
| Strings.ContainsOccurs | src/TabContent.java:95-103 | `contains` finds a substring exactly when it occurs somewhere |
| JavaInt.Wrap32 | src/PS4PKG.java:175 | an int computation's result is the unique int congruent to the exact value modulo 2^32, and the exact value when it fits |
| JavaInt.Sign | src/Column.java:60 | `Long.signum` is -1, 0 or 1 with the sign of its argument |
| JavaInt.JavaDiv | src/AddFtpFilesDialog.java:158-159 | integer division rounds toward zero: the floor for non-negative dividends, never positive for negative ones |
| JavaInt.JavaDivNegate | src/AddFtpFilesDialog.java:158-159 | negating the dividend negates the quotient |
| SortedIndex.Keys | src/TabContent.java:124-125 | the sort keys of the rows are their texts in the sort column, one per row |
| SortedIndex.FilterOf | src/TabContent.java:174 | the stored filter is what was typed, lower-cased, of the same length |
| SortedIndex.FilterFindsPart | src/TabContent.java:95-103 | typing any part of a row's file name, title or title ID, in any case, keeps the row shown |
| SortedIndex.FilterIgnoresCase | src/TabContent.java:95-103 | a part of the title typed as it appears is found by the search |
| SortedIndex.LowerOccursAt | src/TabContent.java:98-100 | lower-casing keeps an occurrence at its position |
| SortedIndex.EmptyFilterShowsAll | src/TabContent.java:95-103 | an empty search text matches every row |
| SortedIndex.Visible | src/TabContent.java:176-181 | the table shows exactly the buffer rows that match the filter |
| SortedIndex.VisibleWithoutFilter | src/TabContent.java:96-97 | with a null filter the table shows the whole buffer, in order |
| SortedIndex.SetFilter | src/TabContent.java:172-183 | typing in the search box keeps the buffer and the sort, stores the lower-cased filter and shows exactly the buffer rows that match it |
| SortedIndex.OrdFlip | src/TabContent.java:658-661 | negating a comparator for the descending sort swaps "before" and "after" |
| SortedIndex.OrdTransitive | src/TabContent.java:658-661 | the comparator and its negation both order keys transitively |
| SortedIndex.InsertAt | src/TabContent.java:139 | `add(p, x)` puts x at p, shifts the later rows by one and adds exactly one copy of x |
| SortedIndex.KeysInsertAt | src/TabContent.java:139 | the keys after an insertion are the old keys with the new key inserted at the same place |
| SortedIndex.InsertKeepsSorted | src/TabContent.java:139 | inserting a key after everything that sorts no later and before what sorts later keeps the keys sorted |
| SortedIndex.Scan | src/TabContent.java:121-137 | the scan passes only rows the new key advances past, stops at the first it does not or at the bound, and throws exactly when it runs off the buffer first |
| SortedIndex.BufferIndex | src/TabContent.java:119-133 | the buffer position never exceeds the visible row count, and exists whenever the buffer holds at least the visible rows |
| SortedIndex.ItemIndex | src/TabContent.java:127-136 | the table position is after every item the new key advances past and before the first it does not |
| SortedIndex.AddTableItem | src/TabContent.java:114-141 | the buffer gains exactly the new row; the table gains it at its position only if it matches the filter; filter and sort are unchanged; it fails exactly when the buffer scan throws |
| SortedIndex.ScanFitsSort | src/TabContent.java:123-137 | the scanned position is after every key that sorts no later than the new one and before one that sorts later |
| SortedIndex.AddKeepsSorted | src/TabContent.java:114-141 | with every row visible, adding a row keeps both the sorted buffer and the sorted table sorted |
| SortedIndex.AddPlacesEqualKeys | src/TabContent.java:123-136 | ascending insertion goes after every row with an equal key, descending insertion before them |
| SortedIndex.AddStopsAtVisibleCount | src/TabContent.java:119-133 | with rows hidden by the filter, the buffer scan stops at the visible count even when later rows sort lower |
| SortedIndex.FirstWithPath | src/TabContent.java:145-149 | the row found is the first whose path, as the key reads it, is the given one, and none is found only when no row has it |
| SortedIndex.ProcessNewRow | src/TabContent.java:143-160 | a package whose path a buffer row's package has replaces its first buffer row in place with the length unchanged; a new path is added as one new row; the new row is in the buffer either way |
| SortedIndex.InsertKeepsPathsUnique | src/TabContent.java:139 | inserting a row whose path is not listed keeps the paths unique |
| SortedIndex.ProcessKeepsPathsUnique | src/TabContent.java:143-160 | processing a row keeps the buffer free of duplicate paths |
| SortedIndex.ProcessAgainChangesNothing | src/TabContent.java:143-160 | processing a row that is already listed with the same texts leaves the tab unchanged |
| SortedIndex.RemoveIf | src/TabContent.java:238 | `removeIf` keeps exactly the rows the predicate rejects |
| SortedIndex.RemoveIfConcat | src/TabContent.java:238 | `removeIf` works piecewise, so the rows that stay keep their relative order |
| SortedIndex.RemoveIfKeepsAll | src/TabContent.java:238 | rows the predicate rejects all stay, unchanged and in order |
| SortedIndex.RemoveFile | src/TabContent.java:236-248 | exactly the buffer rows and table items with that path are removed; filter and sort are unchanged |
| SortedIndex.RemoveFiles | src/TabContent.java:255-265 | exactly the rows whose path has the directory text as a raw prefix are removed, from the buffer and the table |
| SortedIndex.RemoveFilesTakesSibling | src/TabContent.java:257 | a file in directory "/a/bc" is removed when directory "/a/b" is removed |
| SortedIndex.RemoveFilesUnder | src/TabContent.java:250-265 | exactly the rows whose path lies in the directory or below, compared by component, are removed |
| SortedIndex.RemoveFilesUnderKeepsSibling | src/TabContent.java:250-257 | the component-wise removal keeps a file of a sibling directory whose name extends the removed one |
| SortedIndex.RemoveFilesUnderAgrees | src/TabContent.java:250-257 | for paths inside the directory, the component-wise removal and the raw-prefix removal agree |
| SortedIndex.FirstWithPkg | src/TabContent.java:511-513 | the row found is the first showing that package object, and none is found only when no row shows it |
| SortedIndex.RemoveTableItem | src/TabContent.java:510-517 | the item is disposed of, and the first buffer row showing the same package is removed, or the buffer is unchanged when none does |
| SortedIndex.RemoveInserted | src/TabContent.java:510-517 | a row inserted for a new package object is the first one showing it, and removing it gives the list back |
| SortedIndex.AddThenRemoveItem | src/TabContent.java:510-517 | adding a row and then removing its table item gives the buffer back as it was |
| SortedIndex.NextSorting | src/TabContent.java:639-651 | a click always sorts by the clicked column; a new column starts ascending; the current column changes direction |
| SortedIndex.ThreeClicksCycle | src/TabContent.java:641-647 | three clicks on the sort column bring the sort back to where it was |
| SortedIndex.NewColumnCycle | src/TabContent.java:641-651 | clicking a new column and then twice more goes ascending, descending, unsorted |
| SortedIndex.SortPosition | src/TabContent.java:656-663 | a stable sort inserts a key after every key that does not sort after it and before the first that does |
| SortedIndex.InsertSorted | src/TabContent.java:656-663 | one insertion step of the sort adds exactly the row |
| SortedIndex.Sort | src/TabContent.java:656-663 | the sort permutes the buffer |
| SortedIndex.InsertSortedKeepsSorted | src/TabContent.java:656-663 | one insertion step keeps a sorted list sorted |
| SortedIndex.SortSorts | src/TabContent.java:656-663 | the sorted buffer is in the order of the comparator, or of its negation when descending |
| SortedIndex.SortOfSorted | src/TabContent.java:656-663 | sorting an already sorted buffer leaves it unchanged, ties included |
| SortedIndex.ClickColumn | src/TabContent.java:635-672 | after a click the sort is the next one, the buffer is a permutation of the old one, and the table shows exactly the buffer rows that match the filter |
| SortedIndex.ClickColumnSorts | src/TabContent.java:656-671 | after a click the buffer is in the new sort's order (INDEX order when unsorted) and the table is the buffer filtered, in that order |
| SortedIndex.StringCompareIsOrdering | src/Column.java:62 | the case-insensitive text comparator meets the comparator contract: antisymmetric and transitive |
| TableRow.OrMissing | src/TableThread.java:20-23 | a found value is shown as it is, a missing one as the missing-data marker |
| TableRow.RegionName | src/TableThread.java:26-33 | E, H, I, J and U name their regions, and exactly every other character gives "Unknown" |
| TableRow.Region | src/TableThread.java:26 | the region fails exactly for an empty content id, and is otherwise named by its first character |
| TableRow.VersionText | src/TableThread.java:36-41 | with no changelog version, APP_VER or VERSION the column shows the missing-data marker |
| TableRow.VersionTextDropsOneZero | src/TableThread.java:37-41 | the shown version is the first one found (changelog, APP_VER, VERSION), without one leading '0' when it is longer than one character |
| TableRow.TypeText | src/TableThread.java:43-57 | a missing CATEGORY, and only that, shows the missing-data marker; "App" exactly for a CATEGORY starting with "gd", "Patch" exactly for one starting with "gp" (and not "gd"), "DLC" exactly for "ac", and "Other" exactly for every other CATEGORY |
| TableRow.TypeTextAgreesWithKind | src/TableThread.java:43-57 | the type column and the selection check of custom actions (CustomActions.java lines 137-150) agree on applications and patches; a column showing "DLC" is a DLC to the check, and a DLC to the check not shown as "DLC" (an "ac…" CATEGORY other than "ac") is shown as "Other" |
| TableRow.SdkText | src/TableThread.java:66-86 | "?" without PUBTOOLINFO or without `sdk_ver=` in it; after the first `sdk_ver=`, "?" exactly when fewer than four characters follow it; otherwise a dot followed by characters 3-4 after the marker, preceded by characters 1-2, of which a leading '0' is dropped |
| TableRow.SdkTextOfDigits | src/TableThread.java:71-80 | whatever precedes the first `sdk_ver=`, the column is digits 1-2 after it (without a leading '0') and digits 3-4, joined by a dot |
| TableRow.SdkTextAfterKeys | src/TableThread.java:71-80 | after keys in which no `sdk_ver=` starts (every 's' followed by something other than 'd'), the column is read from the four digits after the marker |
| TableRow.SdkTextOfPubToolInfo | src/TableThread.java:66-86 | a PUBTOOLINFO laid out as packages carry it, "c_date=…,img0_l0_size=…,sdk_ver=05050001…", shows SDK "5.05" for any date, image size and later keys |
| TableRow.SdkTextTruncated | src/TableThread.java:76-83 | fewer than four characters after the first marker give "?", whatever precedes it |
| TableRow.MarkerAfterPrefix | src/TableThread.java:71 | the first `sdk_ver=` is the one right after a prefix in which every 's' is followed by a character other than 'd' |
| TableRow.FirmwareText | src/TableThread.java:89-94 | "?" without SYSTEM_VER; with it, an exception exactly when it is shorter than six characters |
| TableRow.FirmwareOfSfoInteger | src/TableThread.java:93-94 | for a SYSTEM_VER integer rendered as "0x" and eight digits, the column is the top byte in hexadecimal without a leading zero, a dot and the second byte as two hexadecimal digits; the part before the dot reads back as the top byte |
| TableRow.FirmwareOf505 | src/TableThread.java:93-94 | SYSTEM_VER 0x05050000 shows firmware "5.05" |
| TableRow.FirmwareWithoutParamSfo | src/TableThread.java:89-94 | a package without param.sfo answers "ERROR" for SYSTEM_VER, and reading its firmware throws |
| TableRow.BackportText | src/TableThread.java:97-104 | a check mark exactly for SDK "5.05", "bp" or "backport" in the lower-cased file name, or "backport" in the lower-cased changelog; otherwise empty |
| TableRow.BackportSortsFirst | src/Column.java:64-65 | marked rows sort before unmarked ones |
| TableRow.GroupsIn | src/TableThread.java:111-116 | the found groups are exactly the listed groups whose lower-cased text occurs in the lower-cased file name |
| TableRow.ReleasesIn | src/TableThread.java:117-123 | the found releases are exactly the listed releases whose lower-cased text occurs in the lower-cased file name or changelog |
| TableRow.GroupsInAppend | src/TableThread.java:111-116 | groups are checked one by one: the found groups of a longer list extend those of its start, so list order is kept |
| TableRow.ReleasesInAppend | src/TableThread.java:117-123 | releases are checked one by one: the found releases of a longer list extend those of its start, so list order is kept |
| TableRow.TagsTextJoins | src/TableThread.java:113-115 | appending non-empty tags one by one, with ", " before every tag but the first, is joining them with ", " |
| TableRow.ReleaseTagsTextIsJoin | src/TableThread.java:107-123 | with no empty tag in effect, the release column is the found groups and then the found releases, joined by ", " |
| TableRow.SizeText | src/TableThread.java:144-151 | above 1 GB the floating-point text; above 1 000 000 bytes whole megabytes and " MB"; otherwise whole kilobytes and " KB", truncated toward zero; below -16 777 216 999 bytes the kilobytes are rounded to a float, and from -2 147 483 904 000 bytes down the text is the smallest int |
| TableRow.SizeTextRoundsThroughFloat | src/TableThread.java:150 | a size of -16 777 217 000 bytes shows as -16777216 KB, the nearest float |
| JavaInt.FloatSpacing | src/TableThread.java:148-150 | the spacing of floats around a magnitude is at least the starting step, keeps the magnitude below 2^24 steps, and is the smallest such doubling |
| JavaInt.NearestMultiple | src/TableThread.java:148-150 | the result is a multiple of the step at most half a step away, a tie going to the even multiple |
| JavaInt.FloatOfMagnitude | src/TableThread.java:148-150 | widening to float gives a multiple of the float spacing at most half a spacing away, and is exact up to 2^24 |
| JavaInt.FloatOfInt | src/TableThread.java:148-150 | widening to float is exact within 2^24 of zero, keeps the sign, and takes anything at or below -(2^31 + 256) to at most -2^31 |
| JavaInt.RoundFloat | src/TableThread.java:148-150 | `Math.round` of a whole float is the value itself inside the int range and the nearest int bound outside it |
| TableRow.KilobytesInKB | src/Column.java:88-99 | a size written in kilobytes converts back to its number of kilobytes |
| TableRow.SizeTextOrderedKB | src/Column.java:101 | two kilobyte sizes compare by their numbers of kilobytes |
| TableRow.SizeTextOrderedMixed | src/Column.java:101 | a kilobyte size never sorts after a megabyte size |
| TableRow.SizeTextOrdered | src/Column.java:101 | sorting by the size column never puts a smaller package after a larger one, up to 1 GB |
| TableRow.LongCompareNatStrings | src/Column.java:60 | decimal texts of naturals compare by value |
| TableRow.Texts | src/TableThread.java:129-156 | the texts array has one cell per column, and position i holds the cell of the column with ordinal i |
| TableRow.RowTexts | src/TableThread.java:18-158 | the row succeeds exactly when the content id is non-empty, the changelog version can be read and, for a non-DLC, the firmware can be read; every cell is the text its column builder gives, with no SDK or firmware for a DLC |
| TableRow.StampsSortInBuildOrder | src/TableThread.java:132 | rows built one after another get index texts that sort in the order they were built |
| ReleaseTags.MatchIndex | src/ReleaseTags.java:48-49 | the position found is the first hard-coded tag equal to the user tag ignoring case, and none is found only when none is |
| ReleaseTags.AddTag | src/ReleaseTags.java:44-56 | one pass grows the list by at most one tag, changes a hard-coded position only to a tag equal to it ignoring case, and leaves the user tags already added untouched |
| ReleaseTags.MergeTags | src/ReleaseTags.java:43-56 | the merged list starts with one tag per hard-coded position, equal to it ignoring case, and holds no empty tag |
| ReleaseTags.AddReleaseTags | src/ReleaseTags.java:40-73 | both combined lists start with the hard-coded positions, equal ignoring case, and hold no empty tag |
| ReleaseTags.MergeTagsShape | src/ReleaseTags.java:43-56 | the merged list is the hard-coded positions, each holding the last user tag that corrects it, followed by the other user tags in input order, duplicates included |
| ReleaseTags.ExpectedStep | src/ReleaseTags.java:44-56 | one more user tag changes the loop-free description exactly as one pass of the loop does |
| ReleaseTags.MergeTagsLength | src/ReleaseTags.java:55 | the merged list is as long as the hard-coded list plus the appended user tags |
| ReleaseTags.MergeTagsSkipsEmpty | src/ReleaseTags.java:45-46 | an empty user tag changes nothing |
| ReleaseTags.HardCodedTagsNonEmpty | src/ReleaseTags.java:43 | no hard-coded tag is empty |
| ReleaseTags.NewTags | src/ReleaseTags.java:55 | the appended tags are user tags that are neither empty nor a correction |
| ReleaseTags.TagAt | src/ReleaseTags.java:50 | a hard-coded position holds its own tag or a user tag |
| CustomActions.CountSubstrings | src/CustomActions.java:112-120 | the count of non-overlapping occurrences never exceeds the text's length |
| CustomActions.CountSubstringsZero | src/CustomActions.java:112-120 | no occurrence is counted exactly when the text does not contain the variable |
| CustomActions.CountSubstringsFit | src/CustomActions.java:115-117 | the counted occurrences do not overlap: together they fit in the text |
| CustomActions.CountRepeat | src/CustomActions.java:115-117 | n back-to-back copies of a variable count n times |
| CustomActions.CountAfterPrefix | src/CustomActions.java:115-117 | text in front of an occurrence that holds no copy of the variable's first character adds nothing to the count |
| CustomActions.FilesIsNotFile | src/CustomActions.java:127 | "%files%" does not count as a "%file%" |
| CustomActions.KindOf | src/CustomActions.java:137-150 | a missing CATEGORY is a plain file; gd… exactly is an application, gp… exactly a patch, ac… (and neither of those) exactly a DLC, and every other CATEGORY, or none, exactly a plain file |
| CustomActions.TallyOf | src/CustomActions.java:132-151 | the four counts add up to the size of the selection |
| CustomActions.TallyOfConcat | src/CustomActions.java:136-151 | counting a selection in two parts adds up |
| CustomActions.TallyOfSwap | src/CustomActions.java:136-151 | the counts do not depend on the order of the selection |
| CustomActions.TallyOfSingle | src/CustomActions.java:136-151 | a one-package selection counts that package's kind |
| CustomActions.PlusAssoc | src/CustomActions.java:136-151 | adding counts is associative |
| CustomActions.Verdict | src/CustomActions.java:129-165 | a pattern without singular variables accepts any selection; one with them rejects a selection with too few applications, patches or DLCs |
| CustomActions.VerdictSimplified | src/CustomActions.java:153-164 | the exact-match branch is a special case of the last: the decision accepts exactly when the pattern needs nothing, or the typed packages suffice and "nothing left over" differs from "%files% present" |
| CustomActions.IsValidPkgSelection | src/CustomActions.java:123-166 | as written: accepts for a pattern without singular variables, rejects when typed packages are short |
| CustomActions.CorrectedVerdict | src/CustomActions.java:153-164 | an acceptance of a pattern with variables guarantees enough typed packages, and enough packages overall for every variable plus one for "%files%" |
| CustomActions.CorrectedVerdictAgrees | src/CustomActions.java:162-164 | whenever the selection is not short of packages, the corrected and the written decisions agree |
| CustomActions.CorrectedVerdictComplete | src/CustomActions.java:153-164 | with enough typed packages, the corrected decision accepts exactly when a package is spare for "%files%" (when present) and none is left over otherwise |
| CustomActions.IsValidSelection | src/CustomActions.java:123-166 | an accepted selection can fill every singular variable, plus one package for "%files%" |
| CustomActions.ShortCountsAccepted | src/CustomActions.java:162-164 | the counts "two %file%, %files%, one application" are accepted as written and rejected once corrected |
| CustomActions.ShortPatternCounts | src/CustomActions.java:124-127 | "%file% %file% %files%" requires two plain files and contains "%files%" |
| CustomActions.ShortSelectionAccepted | src/CustomActions.java:123-166 | one application and the pattern "%file% %file% %files%": the written check enables the action, the corrected one does not |
| CustomActions.MenuEnabled | src/TabContent.java:476-488 | one enabled flag per action, decided by `isValidPkgSelection` as written: always enabled when the pattern needs no package, never when the typed variables cannot be filled |
| CustomActions.CorrectedMenuEnabled | src/TabContent.java:476-488 | with the corrected check, an enabled action has at least as many packages as its variables need, plus one for "%files%" |
| CustomActions.MenusAgree | src/TabContent.java:485 | both menus agree on an action whenever the selection is not short of packages for it |
| CustomActions.ShortSelectionEnabled | src/TabContent.java:485 | the menu as written enables "%file% %file% %files%" for one application package; the corrected menu does not |
| CustomActions.ActionOfRow | src/CustomActions.java:178-179 | the name holds no vertical bar, and neither field is changed by stripping it again |
| CustomActions.NonBlank | src/CustomActions.java:180-181 | the kept actions are no more than the rows and none is blank |
| CustomActions.NonBlankKeeps | src/CustomActions.java:175-184 | skipping blank actions keeps every property all the actions had |
| CustomActions.NonBlankAll | src/CustomActions.java:180-183 | without blank actions nothing is skipped |
| CustomActions.NonBlankSnoc | src/CustomActions.java:175-184 | one more action is appended exactly when it is not blank |
| CustomActions.EditedActions | src/CustomActions.java:174-185 | no more actions than rows, none blank |
| CustomActions.EditedActionsClean | src/CustomActions.java:178-183 | every saved action has no bar in its name and needs no further stripping |
| CustomActions.EditedActionsSnoc | src/CustomActions.java:175-184 | a row whose fields are blank once cleaned adds no action; any other row adds its action at the end |
| CustomActions.EditedActionsKeepAll | src/CustomActions.java:175-184 | when no row is blank, every row becomes its action, in order |
| CustomActions.SaveActionsToBuffer | src/CustomActions.java:169-186 | with no row the previous actions stay; otherwise they are replaced by the edited actions |
| CustomActions.FileText | src/CustomActions.java:201-202 | the file is the first action's saved line (name, a blank, a bar, a blank, command), a line feed, and the file of the rest |
| CustomActions.SaveActionsToFile | src/CustomActions.java:196-206 | text is written exactly when an action list exists |
| CustomActions.LineEnd | src/CustomActions.java:213 | the position found is the first line break at or after the start, or the end of the text |
| CustomActions.ReadLines | src/CustomActions.java:211-213 | no line read holds a line break |
| CustomActions.ReadLinesCons | src/CustomActions.java:213 | a line without line breaks, followed by a line feed, is read as that line and then the rest |
| CustomActions.ParseLine | src/CustomActions.java:213-216 | a line is accepted exactly when its trimmed text holds a bar; the name and command are then trimmed and the name holds no bar |
| CustomActions.TrimmedIsTrimmed | src/CustomActions.java:213-216 | trimming twice is trimming once |
| CustomActions.TrimmedIsSlice | src/CustomActions.java:215-216 | trimming brings in no new character |
| CustomActions.TrimmedIsFixpoint | src/CustomActions.java:213-216 | a text with no trimmable character at either end is exactly one that trimming leaves alone |
| CustomActions.ParseAll | src/CustomActions.java:212-219 | a successful load has one action per line |
| CustomActions.ParseAllStops | src/CustomActions.java:212-219 | one line that throws fails the whole load |
| CustomActions.ParseAllSucceeds | src/CustomActions.java:212-219 | when every line parses, the load is every line's action in order |
| CustomActions.LoadActionsFromFile | src/CustomActions.java:208-226 | a file that cannot be opened leaves no actions; the load escapes with StringIndexOutOfBoundsException exactly when some line fails to parse; otherwise one action per line |
| CustomActions.LoadEscapesWithoutBar | src/CustomActions.java:211-221 | the load escapes exactly when some line, trimmed, holds no bar |
| CustomActions.BlankLineEscapes | src/CustomActions.java:212-214 | a blank line after the first makes the load escape |
| CustomActions.ParseActionLine | src/CustomActions.java:202-216 | a saved line reads back as the action it was written from |
| CustomActions.ReadLinesOfFileText | src/CustomActions.java:201-202 | the saved file reads back as one line per action |
| CustomActions.ParseLinesOfActions | src/CustomActions.java:213-218 | the saved lines parse back to the actions |
| CustomActions.SaveLoadRoundTrip | src/CustomActions.java:196-226 | saving storable actions and loading the file back gives the same actions |
| CustomActions.StrippedNameCanChange | src/CustomActions.java:178-215 | a name starting with a control character survives `strip` but not `trim`, so it does not read back unchanged |
| CustomAction.AnyIn | src/CustomAction.java:22-24 | an empty variable list matches no pattern |
| CustomAction.AnyInSome | src/CustomAction.java:22-24 | the list matches exactly when one of its variables occurs in the pattern |
| CustomAction.PatternIsValid | src/CustomAction.java:21-33 | a pattern is valid exactly when it uses at most one of the three groups of variables (SFO, singular, plural) |
| CustomAction.FirstWanted | src/CustomAction.java:74-80 | the package found has the requested type, and no package before it does |
| CustomAction.NextPkg | src/CustomAction.java:64-107 | the package found is in the list; the first one for an SFO, directory or file variable; the first of the requested type for a typed one; and only a package on disk for anything but SFO and directory variables. A non-empty list always gives a package for SFO and directory variables |
| CustomAction.NextPkgKind | src/CustomAction.java:73-99 | a package found for %app%, %patch% or %dlc% is counted as that type by the selection check |
| CustomAction.DlcCountedButNotFound | src/CustomAction.java:96 | a package with CATEGORY "acx" counts as DLC for the selection check but is not found for %dlc% |
| CustomAction.Tokenize | src/CustomAction.java:116-137 | a split pattern has no more tokens than characters; the only failure is an unterminated quote |
| CustomAction.TokenizeWithoutQuotes | src/CustomAction.java:116-137 | a pattern without single quotes always splits |
| CustomAction.UnterminatedQuote | src/CustomAction.java:119-125 | an opening quote without a partner makes the pattern invalid |
| CustomAction.TokenizeJoin | src/CustomAction.java:131-136 | splitting words joined by single spaces gives back the words |
| CustomAction.TokenizeQuoted | src/CustomAction.java:119-126 | a quoted argument keeps its spaces and loses its quotes |
| CustomAction.DoubleSpaceKept | src/CustomAction.java:131-136 | a second space in a row starts a token that keeps its leading space |
| CustomAction.SfoValue | src/CustomAction.java:147-151 | only %content_id% and %title_id% have a PARAM.SFO value |
| CustomAction.SfoReplaceAsWritten | src/CustomAction.java:146-156 | when the loop stops, the token no longer contains the variable |
| CustomAction.SfoReplaceDiverges | src/CustomAction.java:146-156 | a TITLE_ID value of "%title_id%" keeps the loop going for any number of rounds |
| CustomAction.SfoReplaceAgrees | src/CustomAction.java:146-156 | when one replacement leaves no occurrence, the loop stops after that round with that replacement |
| CustomAction.ReplaceJoin | src/CustomAction.java:155 | replacing a variable in parts joined by it, whose parts cannot start it, joins the parts with the value |
| CustomAction.SfoToken | src/CustomAction.java:145-156 | the only failure of the single-`replace` SFO substitution is a missing value |
| CustomAction.SfoTokenReplacesAll | src/CustomAction.java:146-156 | with one SFO variable, every occurrence in the token becomes the package's value |
| CustomAction.SfoTokens | src/CustomAction.java:139-157 | with the single-`replace` substitution, every token is substituted independently, one result per token; the only failure is a missing value |
| CustomAction.SfoTokenAsWritten | src/CustomAction.java:145-156 | the SFO substitution of one token as written fails only for a missing value or a loop that does not end, and the latter only when some later variable has a value |
| CustomAction.SfoTokenAgrees | src/CustomAction.java:145-156 | when one `replace` removes every occurrence of each variable, the loop as written gives the single-`replace` result |
| CustomAction.SfoTokenEndless | src/CustomAction.java:146-156 | a TITLE_ID of "%title_id%" makes the loop as written run on for the token "%title_id%", while one `replace` gives "%title_id%" |
| CustomAction.SfoTokenRepeats | src/CustomAction.java:146-156 | with an empty TITLE_ID, "%title_%title_id%id%" becomes "" under the loop as written and "%title_id%" under one `replace` |
| CustomAction.ReplaceNested | src/CustomAction.java:155 | one `replace` of "%title_id%" by "" in "%title_%title_id%id%" leaves "%title_id%" |
| CustomAction.SfoTokensAsWritten | src/CustomAction.java:139-157 | every token is substituted independently by the loop as written, one result per token; the only failures are a missing value and a loop that does not end |
| CustomAction.SfoTokensAgree | src/CustomAction.java:139-157 | when one `replace` settles every token, both SFO branches give the same tokens |
| CustomAction.PkgVars | src/CustomAction.java:164-188 | a round never uses a package it does not take from the list and never raises the work left; it ends on a valid token or unchanged; it fails only for a missing package or an index off the list |
| CustomAction.PkgTokens | src/CustomAction.java:160-189 | the outer loop never adds packages and ends past the last token |
| CustomAction.OnDiskRun | src/CustomAction.java:100-103 | the count is the packages on disk at the front of the list, up to the first missing one |
| CustomAction.PkgVarsSkipPlain | src/CustomAction.java:164-165 | a token without a percent sign is left alone |
| CustomAction.PkgVarsSkipTo | src/CustomAction.java:164-165 | variables that do not occur in the token are passed over |
| CustomAction.SingularToken | src/CustomAction.java:178-187 | a token that is a singular variable becomes the next package's path (or directory for %dir%), and that package is used up |
| CustomAction.SingularTokenMissing | src/CustomAction.java:166-174 | a singular variable with no package to fill it ends the substitution |
| CustomAction.AfterFiles | src/CustomAction.java:166-187 | the %files% token becomes the paths of the packages on disk at the front of the list, which are used up, and the position ends on the last path |
| CustomAction.FilesRound | src/CustomAction.java:180-184 | one %files% round puts the next path in front of a "%files%" token and moves to that token |
| CustomAction.AfterFilesRound | src/CustomAction.java:180-187 | taking one package first ends in the same place |
| CustomAction.FilesStep | src/CustomAction.java:165-187 | the loop step for %files% with a package on disk is one %files% round |
| CustomAction.FilesStop | src/CustomAction.java:167-171 | once %files% has taken a package and none is left on disk, the token is removed and the loop moves to the next variable |
| CustomAction.FilesLoop | src/CustomAction.java:165-187 | the %files% loop, once it has taken a package, ends where the packages on disk at the front are all used |
| CustomAction.FilesToken | src/CustomAction.java:164-188 | a token that is exactly "%files%" becomes the paths of the packages on disk at the front, provided there is one |
| CustomAction.FilesTokenMissing | src/CustomAction.java:166-174 | a fresh "%files%" token without a package on disk at the front ends the substitution |
| CustomAction.FilesTokens | src/CustomAction.java:160-189 | plain words followed by "%files%" become the words followed by every selected path |
| CustomAction.CreateTokens | src/CustomAction.java:111-193 | an SFO pattern succeeds only with a package; an index error with a package only occurs outside the SFO branch; a missing SFO value or an SFO loop that does not end only occurs for an SFO pattern |
| CustomAction.CreateTokensPkgBranch | src/CustomAction.java:158-192 | without SFO variables, the tokens go through the package loop |
| CustomAction.FilesCommand | src/CustomAction.java:111-193 | the pattern "words %files%" runs the words followed by the paths of the whole selection when every file is on disk |
| CustomAction.CommandToRun | src/CustomAction.java:196-204 | a pattern without the CONFIRM prefix runs as it is; one with it runs exactly when confirmed, and never grows |
| CustomAction.ConfirmedCommand | src/CustomAction.java:199-202 | CONFIRM, blanks and a trimmed command run that command once confirmed, and nothing otherwise |
| CustomAction.ConfirmPrefixOfWord | src/CustomAction.java:199-202 | a pattern merely starting with the letters CONFIRM loses them as well |
| CustomAction.ExistingPkgs | src/CustomAction.java:215-218 | the watched packages are local, on disk and taken from the selection |
| CustomAction.ExistingPkgsMembers | src/CustomAction.java:215-218 | exactly the selected local packages on disk are watched |
| CustomAction.GoneAfterRun | src/CustomAction.java:238-243 | every removed path is missing after the run |
| CustomAction.GoneAfterRunWatched | src/CustomAction.java:238-243 | a path is removed exactly when it belongs to a watched package and is missing after the run |
| CustomAction.Run | src/CustomAction.java:195-247 | cancelled exactly when the pattern needs confirmation and the user declines; a started process has a non-empty command and watches no more packages than were selected |
| CustomAction.PkgTokensStep | src/CustomAction.java:160-165 | one round of the outer loop substitutes the current token and moves to the next |
| CustomAction.PkgTokensDone | src/CustomAction.java:160 | the outer loop stops after the last token |
| CustomAction.FilesAllVars | src/CustomAction.java:164-188 | a "%files%" token goes through all variables to the paths of the packages on disk at the front |
| CustomAction.AfterFilesAll | src/CustomAction.java:180-187 | with every package on disk, the last "%files%" token becomes all their paths |
| CustomAction.FilesLastToken | src/CustomAction.java:160-189 | a last token "%files%" takes the packages on disk at the front, and the loop ends |
| CustomAction.FilesPatternSplits | src/CustomAction.java:131-136 | words followed by "%files%", joined by spaces, split back into those tokens |
| Watcher.EndsWithAnySome | src/WatcherThread.java:68-71 | the loop over the extensions answers true exactly when the path ends with one of them |
| Watcher.HasValidExtension | src/WatcherThread.java:66-72 | a path is watched exactly when its lower-cased form ends with one of the listed extensions |
| Watcher.QbNeverMatches | src/WatcherThread.java:51 | a lower-cased path never ends with ".!qB", whose last letter is upper case |
| Watcher.ExtensionIgnoresCase | src/WatcherThread.java:67 | the case of a path does not matter to the extension test |
| Watcher.QbDownloadIgnored | src/WatcherThread.java:51-71 | a qBittorrent partial download ("game.!qB") is not watched |
| Watcher.UpperCasePkgWatched | src/WatcherThread.java:66-71 | an upper-case package name ("GAME.PKG") is watched |
| Watcher.FindDir | src/WatcherThread.java:218-220 | the entry found is the first one for that directory, and none is found only when there is none |
| Watcher.AddDirectory | src/WatcherThread.java:216-231 | no directory gets listed twice; other entries keep their place; the directory ends up listed with the requested flag; a known directory keeps the list length and is replaced by a fresh entry only when its flag changes; a new one is appended fresh |
| Watcher.SynchedDirs | src/WatcherThread.java:365-370 | one directory per entry, in list order |
| Watcher.RecursionStates | src/WatcherThread.java:376-381 | parallel to the directories: 1 exactly for a recursive entry, 0 exactly for the others |
| Watcher.LoadDirectories | src/GUI.java:757-762 | loading saved directories through `addDirectory` lists no directory twice |
| Watcher.Forget | src/WatcherThread.java:31-34 | what survives saving is each entry's directory and flag, existence forgotten |
| Watcher.LoadAppends | src/GUI.java:757-762 | loading the saved arrays after other entries appends the saved entries, when none of them is listed already |
| Watcher.LoadFirst | src/GUI.java:759-761 | the first saved entry is appended, and loading goes on with the rest |
| Watcher.SavedTails | src/WatcherThread.java:365-381 | the saved arrays of all but the first entry are the tails of the saved arrays |
| Watcher.AddNewDirectory | src/WatcherThread.java:228 | a directory not yet listed is appended as a fresh entry |
| Watcher.SaveLoadRoundTrip | src/GUI.java:589-593 | saving the directory list and loading it into an empty watcher gives it back with existence forgotten |
| Watcher.RemoveDirs | src/WatcherThread.java:342 | the remaining entries are exactly those for other directories; no directory becomes listed twice |
| Watcher.RemoveDirsIgnores | src/WatcherThread.java:342 | entries for the removed directory make no difference to what remains |
| Watcher.RemoveUndoesAdd | src/WatcherThread.java:216-231 | removing a directory undoes adding it, whatever the flag or an earlier entry |
| Watcher.HasKey | src/WatcherThread.java:236-241 | a key counts exactly when some watched path is the same (ignoring case on Windows) |
| Watcher.AddWatchKey | src/WatcherThread.java:234-256 | the path is appended exactly when it can be registered and no watched path is the same; otherwise the keys are unchanged; distinct keys stay distinct |
| Watcher.AddWatchKeyIdempotent | src/WatcherThread.java:236-241 | adding a key twice is adding it once |
| Watcher.KeyIndex | src/WatcherThread.java:352-354 | the key found is the first one equal to the path, and none is found only when there is none |
| Watcher.RemoveWatchKey | src/WatcherThread.java:351-362 | a key is removed exactly when the path is watched (exact comparison); then one occurrence is gone and nothing else; otherwise nothing changes |
| Watcher.RemoveKeepsDistinct | src/WatcherThread.java:351-362 | removing a key keeps distinct keys distinct |
| Watcher.RemovedKeyGone | src/WatcherThread.java:351-362 | with distinct keys, a removed path is no longer watched |
| Watcher.RemoveUndoesAddKey | src/WatcherThread.java:234-362 | removing a key that was just added gives back the keys and reports the removal |
| Watcher.WindowsCaseMismatch | src/WatcherThread.java:237-240 | on Windows a path in another case is refused as a duplicate yet does not remove the existing key |
| Watcher.AddWatchKeysSpec | src/WatcherThread.java:270-271 | adding keys for several paths keeps existing keys in place and distinct, adds only registrable paths, and watches every registrable one |
| Watcher.AddsKeysStep | src/WatcherThread.java:270-271 | adding the first path's key and then the rest's adds all of them |
| Watcher.AddedKeyWatched | src/WatcherThread.java:243-253 | a registrable directory is watched once its key is added |
| Watcher.KeepsKey | src/WatcherThread.java:253 | keys that stay in place keep a directory watched |
| Watcher.GenerateWatchKeysSpec | src/WatcherThread.java:261-274 | the rebuilt keys are distinct and registrable, and every registrable synchronized directory is watched |
| Watcher.CheckDir | src/WatcherThread.java:79-90 | an entry that appeared is synchronized and watched, one that disappeared is unwatched, an unchanged one changes nothing; the entry then knows whether it exists; distinct keys stay distinct |
| Watcher.CheckerPass | src/WatcherThread.java:78-91 | every entry learns whether its directory exists; exactly the entries that appeared are synchronized; distinct keys stay distinct |
| Watcher.SettledPassIsIdle | src/WatcherThread.java:79-90 | a pass over entries that already know their existence changes nothing and synchronizes nothing |
| Watcher.CheckerSettles | src/WatcherThread.java:78-91 | while nothing appears or disappears, a second pass does nothing |
| Watcher.WatchCreated | src/WatcherThread.java:161-165 | a created directory is appended at most once, and not at all when it is already watched |
| Watcher.PathStartsWithIgnoresCase | src/WatcherThread.java:162 | on Windows, lower-casing the created path or the synchronized directory does not change `startsWith` |
| Watcher.CreatedUnderOtherCaseWatched | src/WatcherThread.java:159-165 | on Windows, "D:\PKG\new" is watched under the synchronized directory "d:\pkg" |
| Watcher.WatchCreatedOnce | src/WatcherThread.java:159-167 | a created directory under some synchronized directory (by components, ignoring case on Windows) is added once, whatever the recursion flags |
| Watcher.RecursionNotConsulted | src/WatcherThread.java:161-163 | two lists with the same directories watch a created directory the same way |
| Watcher.HandleEvent | src/WatcherThread.java:111-168 | a non-path event is ignored; a deleted file with a watched extension is removed; another deleted path removes the files below it exactly when its key is removed; a created or modified file is added exactly when it is a regular watched file of at least 0x1000 bytes; a modification never changes the keys; a created directory under a synchronized directory is watched; distinct keys stay distinct |
| Watcher.SmallFileSkipped | src/WatcherThread.java:145-146 | a file smaller than a package header is not added, however often it is modified |
| Watcher.DeletedDirectoryWithExtension | src/WatcherThread.java:121-134 | a watched directory whose name carries a watched extension is not unwatched by its deletion: the event is taken for a file |
| Ftp.GetReplyAsWritten | src/FtpClient.java:73-79 | as written: reading never goes past the last line, and the only failure is the index error on a four-character line |
| Ftp.ReadUntilClosed | src/FtpClient.java:75-76 | the reply found is a line that closes the multi-line reply with its code, and reading resumes after it |
| Ftp.GetReply | src/FtpClient.java:73-79 | the reply is a line that was read, reading moves forward, and a line that does not open a multi-line reply is the reply by itself |
| Ftp.ReadsToClosing | src/FtpClient.java:75-76 | reading the middle lines of a multi-line reply stops at its closing line |
| Ftp.ReadsToClosingShifted | src/FtpClient.java:75-76 | the same, counted from the reply's first line |
| Ftp.MultiLineReply | src/FtpClient.java:73-79 | a multi-line reply is read whole: the reply is its last line and reading resumes after it |
| Ftp.GetReplyAsWrittenStopsEarly | src/FtpClient.java:75 | as written, "230-Welcome" is taken for the whole reply and "230 Logged in" is left for the next command; the corrected reading takes the last line |
| Ftp.GetReplyAsWrittenShortLine | src/FtpClient.java:75 | as written, the four-character reply "220 " throws; the corrected reading returns it |
| Ftp.Send | src/FtpClient.java:66-71 | one command is appended to what was sent, and nothing is read |
| Ftp.ReturnCode | src/FtpClient.java:73-87 | a code is the number in the first three characters of the reply that `getReply` as written reads, the reply line is the last line read, and reading moves forward without sending; an index error while reading or a reply too short is an unexpected response; no reply left is a null pointer error |
| Ftp.ReturnCodeOfReply | src/FtpClient.java:73-87 | a single-line reply with a three-digit code and a text that is non-empty and does not start with "-" gives that code and its line, and reading resumes after it |
| Ftp.BareCodeIsUnexpected | src/FtpClient.java:75-85 | a reply of only a code and a space ("220 ") has no fifth character: reading it throws and the command sees an unexpected response |
| Ftp.HyphenTextIsSkipped | src/FtpClient.java:75-76 | a reply whose text starts with "-" ("230 -x") is skipped as a continuation line, and the code is read from the next line |
| Ftp.ThreeDigits | src/FtpClient.java:83 | a code from 100 to 999 is written with three digits |
| Ftp.Connect | src/FtpClient.java:44-54 | connecting answers 0 or -1, sends nothing and reads at least one reply |
| Ftp.ConnectGreeting | src/FtpClient.java:44-54 | with single-line replies read as a whole, the greeting is the first reply, or the second after a 120; connecting succeeds exactly for a 220 (0) or 421 (-1) greeting and reading resumes after it |
| Ftp.MultiLineGreetingBreaksLogin | src/FtpClient.java:44-54 | the greeting "220-Hi", "220 Ready" connects after its first line, and the "220 Ready" left unread then fails the login that follows |
| Ftp.Login | src/FtpClient.java:93-127 | a login sends USER, then possibly PASS, then possibly ACCT, in that order, and reads a reply for each |
| Ftp.LoginPaths | src/FtpClient.java:94-126 | with single-line replies read as a whole, login succeeds exactly for 230; or 331/332 then 202/230; or 331/332, 332, then 202/230 |
| Ftp.SetType | src/FtpClient.java:129-140 | TYPE I in binary mode and TYPE A otherwise is sent, and the command succeeds only on 200 |
| Ftp.FirstDigit | src/FtpClient.java:148-152 | the position is that of the first ASCII digit at or after the start, or 0 when there is none |
| Ftp.LastDigit | src/FtpClient.java:153-157 | the position is that of the last ASCII digit after index 3, or 0 when there is none |
| Ftp.Pasv | src/FtpClient.java:142-177 | PASV is sent, and the command succeeds only on 227 with a readable address |
| Ftp.PasvNumbersEnds | src/FtpClient.java:148-157 | the comma-separated numbers of a 227 reply start and end with a digit |
| Ftp.PasvParses | src/FtpClient.java:147-163 | a 227 reply with digit-free text around the six numbers gives their host and the port p1 * 256 + p2 |
| Ftp.PasvAddressOfNumbers | src/FtpClient.java:159-161 | the six numbers give the dotted host and the port p1 * 256 + p2 |
| Ftp.PortInRange | src/FtpClient.java:161 | shifting and adding two bytes in `int` arithmetic does not overflow |
| Ftp.PasvDigits | src/FtpClient.java:148-157 | in a 227 reply, the first and last digits found bound exactly the numbers |
| Ftp.ParsePasvOf | src/FtpClient.java:159 | once the digits are located, the address is read from the comma-separated pieces between them |
| Ftp.TypeOf | src/FtpClient.java:224-233 | a type exists exactly for the characters d, b, c, l, p, s and - |
| Ftp.SkipSpaces | src/FtpClient.java:220 | the position found is the first non-space at or after the start, or the end |
| Ftp.SplitSpaces | src/FtpClient.java:220 | `split(" +", 9)` gives between one and nine pieces, and the empty line is one empty piece |
| Ftp.SplitSpacesJoin | src/FtpClient.java:220 | words joined by single spaces split back into the words, the last piece keeping its own spaces |
| Ftp.SplitFirstWord | src/FtpClient.java:220 | a word and a single space split off as the first piece |
| Ftp.ParseLine | src/FtpClient.java:217-255 | a line that does not split into nine pieces is skipped; an unknown type character is an unexpected response; otherwise owner, group, date (pieces 5-7 joined by spaces) and file name are the pieces, with permissions 0 |
| Ftp.ParseLineOfWords | src/FtpClient.java:220-254 | a LIST line of eight words and a file name keeps the file name whole, spaces included |
| Ftp.ParseListing | src/FtpClient.java:217-255 | at most one entry per line, and the only failure is an unexpected response |
| Ftp.ShortLinesSkipped | src/FtpClient.java:221-222 | a line that does not split into nine pieces is skipped |
| Ftp.AwaitList | src/FtpClient.java:195-200 | the reply waited for is not 450, and waiting sends nothing |
| Ftp.BusyIsRetried | src/FtpClient.java:195-200 | a 450 reply read as a whole is waited out and the listing goes on with the next reply |
| Ftp.AwaitReply | src/FtpClient.java:195 | a reply other than 450, read as a whole, ends the waiting with that code and line |
| Ftp.List | src/FtpClient.java:191-268 | a listing sends PASV then LIST with the path, and has at most one entry per data line |
| Ftp.Listed | src/FtpClient.java:194-267 | after LIST nothing more is sent, and there is at most one entry per data line |
| Ftp.MissingDirectoryIsEmpty | src/FtpClient.java:208-209 | a 550 reply read as a whole is an empty listing, and the data connection is not read |
| Ftp.ListingNeedsCompletion | src/FtpClient.java:206-267 | after 150, with replies read as a whole, the listing succeeds exactly when the closing reply is 226, and then holds the parsed lines |
| Ftp.Child | src/FtpClient.java:282 | the path starts with the directory and ends with the name, joined by "/" unless the directory is the root |
| Ftp.ChildSeparator | src/FtpClient.java:282 | a child path has exactly one separator between the directory and the name, even below the root |
| Ftp.Directories | src/FtpClient.java:274-284 | the paths are exactly those of the listed directories other than "." and "..", whose names the regular expression (if any) accepts |
| Ftp.DirectoriesAppend | src/FtpClient.java:277-283 | the filter works entry by entry: the paths of a longer listing extend those of its start, so listing order is kept |
| Ftp.Files | src/FtpClient.java:286-295 | the paths are exactly those of the listed regular files whose names end with the extension |
| Ftp.FilesAppend | src/FtpClient.java:289-294 | the filter works entry by entry: the paths of a longer listing extend those of its start |
| Ftp.RegularEntries | src/FtpEntry.java:31-37 | the new list holds exactly the regular entries |
| Ftp.RegularEntriesAppend | src/FtpEntry.java:33-35 | the filter keeps relative order: it distributes over concatenation |
| Ftp.RegularEntriesKeepsAll | src/FtpEntry.java:31-37 | a listing of regular files only is returned unchanged |
| PkgQueue.Empty | src/PkgQueue.java:4 | a new queue has length 0 |
| PkgQueue.Push | src/PkgQueue.java:6-9 | one more element, at the tail; the earlier elements are unchanged |
| PkgQueue.PushArray | src/PkgQueue.java:11-18 | a null array adds one null; otherwise the array's elements are added after the earlier elements, which are unchanged |
| PkgQueue.PushArrayIsPushes | src/PkgQueue.java:15-16 | pushing an array is pushing its elements one by one |
| PkgQueue.Pop | src/PkgQueue.java:20-24 | a pop waits exactly on an empty queue; otherwise it returns the head, and the rest is the queue |
| PkgQueue.PushKeepsHead | src/PkgQueue.java:6-24 | on a non-empty queue a push does not change what is popped next |
| PkgQueue.Step | src/PkgQueue.java:6-24 | one operation keeps "popped so far, then still queued" equal to everything pushed; only a pop adds to the popped elements |
| PkgQueue.FirstInFirstOut | src/PkgQueue.java:3-29 | the popped elements followed by those still queued are exactly the pushed elements, in push order; the length is pushes minus pops |
| PkgQueue.Drain | src/PkgQueue.java:20-24 | popping every element in turn gives them back in queue order |
| Gui.Decimals | src/GUI.java:593 | one decimal text per element, in order |
| Gui.ParseAll | src/GUI.java:618-619 | the pieces are read exactly when every one is a number, and then each reads as its element |
| Gui.IntArrayRoundTrip | src/GUI.java:593-621 | a non-empty array written by `Arrays.toString` is read back by `propertyToIntArray` |
| Gui.ArrayBody | src/GUI.java:616 | without its brackets, the array text is the elements joined by ", ", none holding a comma |
| Gui.ParseDecimals | src/GUI.java:619 | each element's decimal text reads back as the element |
| Gui.EmptyArrayUnreadable | src/GUI.java:615-621 | an empty array is written "[]", which cannot be read back: the empty piece is no number |
| Gui.JoinAvoids | src/GUI.java:592 | a character in neither the pieces nor the separator is not in the joined text |
| Gui.DecimalAvoids | src/GUI.java:582 | decimal text holds neither brackets nor commas nor an "x" |
| Gui.ShellSizeRoundTrip | src/GUI.java:582-735 | the saved window size reads back, negative numbers included |
| Gui.SyncedDirsRoundTrip | src/GUI.java:589-762 | saving and loading a tab's synchronized directories gives them back, each not yet known to exist, and starts the watcher when there is one, provided the paths are distinct, non-empty and free of NUL |
| Gui.LoadSyncedDirs | src/GUI.java:754-765 | the watcher is started only when the first path is non-empty, the flags can be read and there are at least as many flags as paths |
| Gui.SelectSynchronized | src/GUI.java:286-310 | a row is selected exactly when its directory equals a non-recursive synchronized directory or starts with a recursive one |
| Gui.SelectNonSynchronized | src/GUI.java:312-339 | every row when nothing is synchronized; otherwise a row is selected exactly when it fails to belong to at least one synchronized directory |
| Gui.SelectionsComplementary | src/GUI.java:286-339 | with at most one synchronized directory, each row is picked by exactly one of the two selections |
| Gui.SelectionsOverlap | src/GUI.java:286-339 | with two synchronized directories, a row in one of them is picked by both selections |
| Gui.CandidateInjective | src/GUI.java:989 | different numbers give different "New Tab #i" names |
| Gui.FirstFree | src/GUI.java:988-995 | the number found is the first from the start whose name no tab uses, or the last below `Integer.MAX_VALUE` |
| Gui.SomeCandidateFree | src/GUI.java:988-995 | n names cannot use all of n + 1 candidate names |
| Gui.SetOfSeqSize | src/GUI.java:990 | a list holds no more distinct names than elements |
| Gui.NewTabNameFresh | src/GUI.java:973-998 | while there are fewer tabs than about a billion, a new tab's name is unused and is the first unused "New Tab #i" from the tab count on |
| Gui.MoveLeft | src/GUI.java:867-898 | the tab swaps places with its left neighbour and the selection stays on the same tab; the leftmost tab does not move; no tab is lost or added |
| Gui.MoveRight | src/GUI.java:901-932 | the tab swaps places with its right neighbour and the selection stays on the same tab; the rightmost tab does not move; no tab is lost or added |
| Gui.Swap | src/GUI.java:882-885 | the two neighbours exchange places and every other tab stays |
| Gui.MoveRightUndoesLeft | src/GUI.java:867-932 | moving a tab right undoes moving it left |
| Gui.SwapTwice | src/GUI.java:882-885 | exchanging the same two tabs twice restores them |
| Gui.PropertiesSelection | src/GUI.java:421-439 | with one selected row every row opens at that row; otherwise the selected rows open, in order, at the first |
| Gui.PropertiesStartAtSelection | src/GUI.java:421-439 | the window opens at the package of the first selected row |
| Settings.LineBreaksToCommas | src/Settings.java:256 | the text that replaces line breaks with commas holds no line break, and text that had none comes back unchanged |
| Settings.SplitUserInput | src/Settings.java:254-260 | one tag per comma-separated piece of the text (line breaks counting as commas), each tag that piece stripped |
| Settings.SplitAllPieces | src/Settings.java:256 | every piece of a split at one character is free of that character and made of the text's characters |
| Settings.SplitPieces | src/Settings.java:256 | the same for the split that drops trailing empty pieces |
| Settings.StripInside | src/Settings.java:258 | a stripped tag is made of characters of the piece it came from |
| Settings.TagsClean | src/Settings.java:254-260 | no tag read from a text box holds a comma or a line break |
| Settings.CrLfIsOneBreak | src/Settings.java:256 | a CR LF pair between two lines is one break: "a\r\nb" reads as the two tags a and b |
| Settings.CrLfToComma | src/Settings.java:256 | a CR LF pair turns into a single comma |
| Settings.EmptyInputGivesEmptyTag | src/Settings.java:254-260 | an empty text box reads as one empty tag, not as no tags |
| Settings.JoinPrefixed | src/Settings.java:247-248 | a space followed by the tags joined with ", " is the tags, each with a leading space, joined with "," |
| Settings.JoinSpaced | src/Settings.java:247-248 | joining with ", " is joining the first tag and the space-prefixed others with "," |
| Settings.StripSpaced | src/Settings.java:258 | stripping a clean tag with one space in front gives the tag back |
| Settings.TagsRoundTrip | src/Settings.java:227-258 | clean tags written into the text box joined by ", " and read back by splitUserInput are the same tags, in order |
| Settings.StripsToTags | src/Settings.java:254-260 | text whose comma pieces strip to the given tags reads as exactly those tags |
| Settings.StripSpacedAll | src/Settings.java:258 | stripping every space-prefixed clean tag gives the tags back |
| Settings.SplitSpaced | src/Settings.java:247-256 | the joined clean tags split at commas into the first tag and the space-prefixed others |
| Settings.SpacedClean | src/Settings.java:247-256 | no space-prefixed clean tag holds a comma or a line break, and the last one is not empty, so the split keeps it |
| Settings.SpaceKeepsClean | src/Settings.java:247 | a space in front of a clean tag adds neither a comma nor a line break |
| Settings.NoLineBreakInJoin | src/Settings.java:247-256 | joining line-break-free pieces with "," gives text free of line breaks |
| Settings.Copy | src/Settings.java:39-63 | the shared layout takes the table's order; a hidden column (width 0) gives its stored width and is recorded hidden, a shown one gives its width and is recorded shown |
| Settings.Paste | src/Settings.java:66-83 | the table takes the shared order; each column is shown at its shared width or hidden at width 0, and stores the shared width |
| Settings.CopyPasteKeepsLayout | src/Settings.java:39-83 | copying a table's layout and pasting it back keeps its order and every displayed width, and every hidden column keeps its stored width |
| Settings.PasteCopyKeepsShared | src/Settings.java:39-83 | pasting a shared layout and copying it again gives the same shared layout when no shown column has width 0 |
| Settings.ZeroWidthShownBecomesHidden | src/Settings.java:44-48 | a column shared as shown at width 0 is copied back as hidden, because visibility is read from the width alone |
| PkgProperties.TwoDigits | src/PkgProperties.java:46 | `%02d` reads back as the number, and a number below 100 gives exactly two digits |
| PkgProperties.TitleKey | src/PkgProperties.java:46 | the localized title key is "TITLE_" followed by text that reads back as the language number |
| PkgProperties.WindowTitle | src/PkgProperties.java:43-49 | a package without `param.sfo` titles its window "ERROR - Properties" |
| PkgProperties.LocalizedTitle | src/PkgProperties.java:46-48 | with a language chosen and a title in it, the window shows the first such title followed by " - Properties" |
| PkgProperties.PlainTitle | src/PkgProperties.java:46-48 | with no language chosen, or no title in it, the window shows the first plain TITLE |
| PkgProperties.UnknownTitle | src/PkgProperties.java:46-48 | with neither title present the window shows "UNKNOWN TITLE" |
| PkgProperties.OnlyChosenLanguageMatters | src/PkgProperties.java:46-47 | a title in a language other than the chosen one never changes the window title |
| PkgProperties.FirstNamedOfPrefix | src/PkgProperties.java:46-47 | appending a parameter with another name does not change what a key looks up |
| PkgProperties.FirstNamedUnique | src/PkgProperties.java:46-47 | the lookup answers the value of the first parameter with the key |
| PkgProperties.HexCell | src/PkgProperties.java:53-58 | "0x" and exactly the given number of hexadecimal digits, which read back as the value |
| PkgProperties.HeaderItem | src/PkgProperties.java:51-67 | a header row exists exactly when the value is not null; it carries the field name, a string as it is and a number as "0x" with 4, 8 or 16 digits of its unsigned bits |
| PkgProperties.HeaderCellRoundTrip | src/PkgProperties.java:51-67 | a numeric header cell reads back as the value of that width it shows, so no two values share a cell |
| PkgProperties.HeaderFields | src/PkgProperties.java:69-108 | the 37 header fields in table order, of which only the PFS signed digest can be null, and it is null exactly when the header has none |
| PkgProperties.HeaderRows | src/PkgProperties.java:69-108 | at most one row per field, and exactly one per field when none is null |
| PkgProperties.HeaderRowsItems | src/PkgProperties.java:69-108 | without null fields, row k of the table is the item of field k |
| PkgProperties.HeaderRowsAppend | src/PkgProperties.java:69-108 | the rows of two runs of fields are the rows of the first followed by the rows of the second |
| PkgProperties.HeaderTableRows | src/PkgProperties.java:69-112 | the header table has 37 rows, or 36 when the PFS signed digest is null, with that row alone left out and every other row in place |
| PkgProperties.RowsSkipOnlyNull | src/PkgProperties.java:59-62 | when only field n can be null, the table has a row for every field, or for every field but n |
| PkgProperties.RowsSkipNull | src/PkgProperties.java:59-62 | a null field between two runs of fields adds no row |
| PkgProperties.KnownName | src/PkgProperties.java:120-135 | the fixed names of the entries without a file name are non-empty and never look like an "UNKNOWN_" name |
| PkgProperties.KnownNameRoundTrip | src/PkgProperties.java:120-135 | each fixed name belongs to exactly one entry id |
| PkgProperties.Hex04 | src/PkgProperties.java:119 | `%04X` of an int is at least four hexadecimal digits that read back as its unsigned bits |
| PkgProperties.EntryName | src/PkgProperties.java:120-137 | the Name column is the entry's file name, else the fixed name of its id, else "UNKNOWN_0x" followed by the id's hexadecimal digits |
| PkgProperties.UnnamedEntriesDistinct | src/PkgProperties.java:120-137 | two entries without file names and with different ids get different names |
| PkgProperties.FlagsCell | src/PkgProperties.java:138-139 | "-" exactly when the flags are 0, else "0x" and eight hexadecimal digits of their unsigned bits |
| PkgProperties.FlagsCellRoundTrip | src/PkgProperties.java:138-139 | a flags cell reads back as the flags |
| PkgProperties.FileRow | src/PkgProperties.java:117-141 | a file-table row has six cells: id, name, both flags, offset and size |
| PkgProperties.IdCell | src/PkgProperties.java:119 | the ID column is "0x" followed by at least four digits that read back as the id's unsigned bits |
| PkgProperties.NumberCell | src/PkgProperties.java:140-141 | the offset and size columns read back as their numbers |
| PkgProperties.Previous | src/PkgProperties.java:198-200 | the previous button stays in range, moves one back and wraps from the first package to the last |
| PkgProperties.Next | src/PkgProperties.java:206-208 | the next button stays in range, moves one on and wraps from the last package to the first |
| PkgProperties.PreviousNextInverse | src/PkgProperties.java:198-208 | previous and next undo each other on every valid index |
| PkgProperties.NextGoesRound | src/PkgProperties.java:206-208 | k presses of next, k at most the package count, move k places and wrap past the last package |
| PkgProperties.FullCircle | src/PkgProperties.java:206-208 | one press of next per package comes back to the start and visits no package twice on the way |
| PkgProperties.CountLabel | src/PkgProperties.java:164-167 | split at " of ", the count label reads back as the one-based position (with Java's int wrap-around) and the package count |
| FtpDialogs.Prefix | src/AddFtpFilesDialog.java:183 | the server prefix is "ftp://", the IP, a colon and the port, each recoverable at its place |
| FtpDialogs.Locate | src/ChangeFtpPathDialog.java:68-70 | a path with a '/' splits at its last '/' into a directory and a '/'-free file name that rebuild the path; a path without one has no split |
| FtpDialogs.LocateAfterPrefix | src/AddFtpFilesDialog.java:183-187 | splitting the prefixed path at its last '/' puts the prefix in front of the file's directory and keeps its file name |
| FtpDialogs.RootIndex | src/ChangeFtpPathDialog.java:62 | the server part ends at the first '/' after the six-character scheme, or there is none (-1) |
| FtpDialogs.Rehost | src/ChangeFtpPathDialog.java:61-70 | an "ftp://" path with a '/' after the scheme moves to the new prefix, keeping everything from that '/' on, and its directory and file name split the new path at its last '/'; any other path is not moved |
| FtpDialogs.ChangePaths | src/ChangeFtpPathDialog.java:46-79 | nothing changes when the IP or the port is empty or holds a '/'; otherwise every package is moved by Rehost or keeps its location, one result per package |
| FtpDialogs.RootOfPrefixed | src/ChangeFtpPathDialog.java:52-62 | in a path built from an accepted IP and port, the server part ends exactly where the file path starts |
| FtpDialogs.RehostRoundTrip | src/ChangeFtpPathDialog.java:52-70 | moving a package to another address keeps its file path on the server, and moving it back restores the location it had |
| FtpDialogs.FirstIndex | src/AddFtpFilesDialog.java:49-50 | the first position from which the item equals the chosen text, with no earlier match |
| FtpDialogs.MakeDefault | src/AddFtpFilesDialog.java:44-56 | choosing an item trades it with the first item (a permutation of the list); a choice not in the list leaves it unchanged |
| FtpDialogs.MakeDefaultIdempotent | src/AddFtpFilesDialog.java:44-72 | choosing the same IP or port twice is the same as choosing it once |
| FtpDialogs.DownloadLength | src/AddFtpFilesDialog.java:170-174 | the download length is the big-endian body offset plus body size, agreeing with the exact sum in its low 32 bits and equal to it when it fits an int; a header too short for both fields fails |
| FtpDialogs.AddedLocation | src/AddFtpFilesDialog.java:183-194 | a found file gets the server prefix before its path, before its directory, and its own file name; a file name without '/' throws and the package is not added |
| FtpDialogs.ChangeAfterAdd | src/ChangeFtpPathDialog.java:61-70 | a package added from one address and then moved to another is where adding it from the new address would put it |
| FtpDialogs.Percentage | src/AddFtpFilesDialog.java:158-159 | with no overflow, the percentage shown for the i-th of n packages is 100 i / n rounded down: within 0..100, 100 only for the last package |
| FtpDialogs.PercentBounds | src/AddFtpFilesDialog.java:159 | the integer quotient 100 i / n brackets 100 i between consecutive multiples of n and reaches 100 only when i equals n |
| FtpDialogs.PercentageRoundsDown | src/AddFtpFilesDialog.java:159 | one of three packages shows 33 percent, less than a third |
| FtpDialogs.CeilPercentage | src/AddFtpFilesDialog.java:159 | the rounded-up percentage the call to Math.ceil asks for: the least r with 100 i at most r n, between 1 and 100 |
| FtpDialogs.CeilPercentageRoundsUp | src/AddFtpFilesDialog.java:159 | rounded up, one of three is 34 percent where the program shows 33 |
| FtpDialogs.PercentageVersusCeiling | src/AddFtpFilesDialog.java:159 | the shown percentage equals the rounded-up one exactly when n divides 100 i, and is one less otherwise |

## Left out

- SWT user interface: widgets, layouts, menus, dialogs and drag-and-drop are not modelled. Only the values they show or store are.
- Concurrency: the blocking of the queue, the `asyncExec` handoffs, the watcher and checker threads, the release-tag locks and the shutdown order are left out. Each operation is modelled as one sequential step.
- The `TableThread.run` worker loop is left out because it does not match its callers. It skips the null sentinel, does not handle queued directories and leaves the queue's interruption uncaught. Only the row texts it builds are modelled.
- File system and persistence: memory-mapped reads, `Files.exists`, `isRegularFile`, `size`, `walkFileTree`, `Properties` files and the actions file are left out. Existence, file size and directory listings are parameters, and saved settings are strings.
- Network: sockets, `download`, `retr` and `downloadByteArray` are left out. The control channel is the sequence of reply lines the server sends, and the data channel is the sequence of listing lines.
- Process launching: `ProcessBuilder` and the thread that removes packages once the command ends are left out. `CustomAction.Run` stops at the command tokens and the packages whose existence it would then watch.
- Floating point: `numberComparator` (a `Double` comparison) is left out. The gigabyte size text, formatted from a `double`, is a parameter of `TableRow.SizeText`.
- Regular expressions: the directory filter of `getDirectories` is a parameter, the set of names the expression accepts. The `", *"` split of the IP and port settings is left out.
- Case folding is ASCII only. `toLowerCase` and `compareToIgnoreCase` are not modelled for other characters.
- Strings are sequences of code points, not UTF-16 units. `new String(bytes, "UTF-8")` is `Utf8.Decode`, which replaces ill-formed bytes with U+FFFD.
- The locale's decimal separator is a parameter of `Columns.ToKB`.
- The variable lists `sfoVariables`, `singularVariables`, `pluralVariables` and `patternVariables` of `CustomActions` are not part of this model. They are a parameter, the record `CustomAction.Variables`.
- `TableItemData` is not part of this model: a row is a package identity and its cell texts (`SortedIndex.Data`). `QueuedDir` and `addPkgFilesFromWatchedDirectories` are not part of this model either, and are left out.
- `Pkg.LocationOf`: splits at one separator character. Windows roots (a drive such as "C:\", a UNC share) and Windows' acceptance of '/' next to '\' are not modelled, and the root parent is only "/"-style. `Paths.get` rejecting a NUL character is not modelled either.
- `Watcher.PathStartsWithIgnoresCase`: on Windows, components are compared after ASCII lower-casing, as in `Watcher.Same`; a non-ASCII letter's case is not folded.
- `Watcher.AddWatchKey`: on Windows, `equalsIgnoreCase` is modelled as equality after ASCII lower-casing (`Watcher.Same`), so two paths that differ only in a non-ASCII letter's case count as different.
- `Version.checkForUpdates`, `src/PKGQueue.java` (an unused duplicate of the queue) and `src/PkgRename.java` (unfinished, with its entry point commented out) are not modelled.
- `FtpDialogs.Percentage`: states its bounds only when `100 * n` fits in an `int`. Beyond that, the product wraps, and the model computes Java's truncating division without a stated range.
- `FtpDialogs.DownloadLength`: states only that the length agrees with the exact sum in its low 32 bits, and equals it when the sum fits in an `int`. A negative narrowed length, which makes the download fail, is not followed further.
- `FtpDialogs.AddedLocation`: the port is taken as a number. Parsing the port text, which throws before the search starts, is left out.
- `PkgProperties.WindowTitle`: the ensures covers only the package without `param.sfo`. The other cases are stated by `LocalizedTitle`, `PlainTitle` and `UnknownTitle`.
- The SFO table and the changelog text of the properties window are shown verbatim, and the model leaves them out.
- The progress bar's maximum, which is set to the number of directories rather than files, is not modelled.
- `CustomAction.SfoReplaceAsWritten`: the source's loop may never end, so it carries a `fuel` bound. Running out of fuel (`None`) stands for the loop that does not stop.
- `CustomAction.CreateTokens`: the SFO loop is bounded by the `fuel` parameter. The fault `Endless` stands for the loop that does not stop, where the program hangs.
- `CustomAction.Run`: passes its `fuel` to `createTokens`; an `Endless` refusal stands for a `run` that hangs before starting a process.
- `Decimal.ParseInteger`: accepts the ASCII digits only. Java's `parseInt` and `parseLong` also accept the other Unicode decimal digits, which the model reads as no number.
- `Ftp.FirstDigit`: scans for the ASCII digits only. Java's `Character.isDigit` also accepts the other Unicode decimal digits, so for a 227 reply holding such digits the model finds a different start of the address.
- `Ftp.LastDigit`: scans for the ASCII digits only, for the same reason, so for such a reply it finds a different end of the address.
- `SortedIndex.IsOrdering`: sorting is modelled only for comparators that order every pair. The LONG and SIZE comparators give no result for a cell that does not parse, where Java throws, so sorting by those columns is modelled only when every cell parses.
- `Gui.LoadSyncedDirs`: loads one tab. When its flags run out, Java's exception also skips the directories of every later tab, which the model does not follow.
- `Ftp.ReturnCodeOfReply`: stated for reply texts that `getReply` reads as a whole reply, non-empty and not starting with '-'. The other texts are covered by `Ftp.BareCodeIsUnexpected` and `Ftp.HyphenTextIsSkipped`.
- `Ftp.ConnectGreeting`: stated for greeting texts read as a whole reply; `Ftp.MultiLineGreetingBreaksLogin` shows a multi-line greeting.
- `Ftp.LoginPaths`: stated for reply texts read as a whole reply.
- `Ftp.BusyIsRetried`: stated for a 450 text read as a whole reply.
- `Ftp.AwaitReply`: stated for a reply text read as a whole reply.
- `Ftp.MissingDirectoryIsEmpty`: stated for a 550 text read as a whole reply.
- `Ftp.ListingNeedsCompletion`: stated for reply texts read as a whole reply.

## Findings

| source | as written | input that shows it | evidently intended | confidence | as-written member | corrected member |
|---|---|---|---|---|---|---|
| src/FtpClient.java:73-79 | a reply line continues a multi-line reply when its fifth character (index 4) is '-' | the lines "230-Welcome", "230 Logged in": the first is taken as the whole reply; also the four-character line "220 " makes `charAt(4)` throw | the hyphen directly after the three-digit code (index 3), with the reply ending at the line that starts with the code and a space, as section 4.2 of RFC 959 says | not executed; high | Ftp.GetReplyAsWritten | Ftp.GetReply |
| src/TabContent.java:255-257 | `removeFiles` removes every row whose path starts with the directory's text | removing directory "/a/b" also removes "/a/bc/x.pkg" | remove only rows inside the directory, compared component by component | not executed; high | SortedIndex.RemoveFiles | SortedIndex.RemoveFilesUnder |
| src/CustomActions.java:162-164 | with `%files%` in the pattern, the selection is valid when the leftover count is not 0, even when it is negative | one application and the pattern "%file% %file% %files%": leftover -1, and the action is enabled | valid only when the leftover is at least 1 for `%files%` (exactly 0 without it) | not executed; high | CustomActions.IsValidPkgSelection | CustomActions.IsValidSelection |
| src/CustomAction.java:146-156 | each SFO variable is replaced by the value for as long as the token still contains it | a TITLE_ID value of "%title_id%" with the pattern "%title_id%": the loop never ends; an empty TITLE_ID with "%title_%title_id%id%" gives "" | replace every occurrence once | not executed; medium | CustomAction.SfoTokenAsWritten | CustomAction.SfoToken |
| src/AddFtpFilesDialog.java:159 | `Math.ceil` is applied to the already truncated integer quotient `100 * i / n` | the first of three packages shows 33 percent | the percentage rounded up, 34 for one of three | not executed; medium | FtpDialogs.Percentage | FtpDialogs.CeilPercentage |

=== FILE: bytes.dfy ===
/**
 * Bytes and the absolute reads of `java.nio.ByteBuffer`: big-endian (the buffer's default order)
 * and little-endian, signed as Java's `short`, `int` and `long` are, failing outside the buffer.
 */
module Bytes {
  import opened Wrappers
  import opened JavaInt

  type byte = b: int | 0 <= b < 0x100

  function Pow256(n: nat): (r: nat)
    ensures r > 0
  {
    if n == 0 then 1 else 256 * Pow256(n - 1)
  }

  /** The unsigned value of bytes written most significant first. */
  function BeValue(s: seq<byte>): (r: nat)
    ensures r < Pow256(|s|)
  {
    if |s| == 0 then 0 else BeValue(s[..|s| - 1]) * 256 + s[|s| - 1]
  }

  /** The unsigned value of bytes written least significant first. */
  function LeValue(s: seq<byte>): (r: nat)
    ensures r < Pow256(|s|)
  {
    if |s| == 0 then 0 else s[0] + 256 * LeValue(s[1..])
  }

  /** `n` bytes holding `v` most significant first. */
  function BeEncode(v: nat, n: nat): (r: seq<byte>)
    requires v < Pow256(n)
    ensures |r| == n
    ensures BeValue(r) == v
  {
    if n == 0 then []
    else
      var prefix := BeEncode(v / 256, n - 1);
      assert (prefix + [v % 256])[..n - 1] == prefix;
      prefix + [v % 256]
  }

  /** The last byte of a big-endian encoding is the low byte of the value. */
  lemma BeEncodeLast(v: nat, n: nat)
    requires n > 0 && v < Pow256(n)
    ensures v / 256 < Pow256(n - 1)
    ensures BeEncode(v, n) == BeEncode(v / 256, n - 1) + [v % 256]
  {}

  /** `n` bytes holding `v` least significant first. */
  function LeEncode(v: nat, n: nat): (r: seq<byte>)
    requires v < Pow256(n)
    ensures |r| == n
    ensures LeValue(r) == v
  {
    if n == 0 then []
    else
      var rest := LeEncode(v / 256, n - 1);
      assert ([v % 256] + rest)[1..] == rest;
      [v % 256] + rest
  }

  /** Encoding the value of some bytes reproduces those bytes. */
  lemma {:induction false} BeEncodeValue(s: seq<byte>)
    ensures BeEncode(BeValue(s), |s|) == s
  {
    if |s| > 0 {
      var p := s[..|s| - 1];
      BeEncodeValue(p);
      assert BeValue(s) / 256 == BeValue(p);
      assert BeValue(s) % 256 == s[|s| - 1];
      assert s == p + [s[|s| - 1]];
    }
  }

  /** Encoding the little-endian value of some bytes reproduces those bytes. */
  lemma {:induction false} LeEncodeValue(s: seq<byte>)
    ensures LeEncode(LeValue(s), |s|) == s
  {
    if |s| > 0 {
      LeEncodeValue(s[1..]);
      assert LeValue(s) / 256 == LeValue(s[1..]);
      assert LeValue(s) % 256 == s[0];
      assert s == [s[0]] + s[1..];
    }
  }

  /** Bytes `off .. off+n` of `buf` when they lie inside it; otherwise an IndexOutOfBoundsException. */
  function Slice(buf: seq<byte>, off: int, n: int): (r: Option<seq<byte>>)
    ensures r.Some? <==> 0 <= off && 0 <= n && off + n <= |buf|
    ensures r.Some? ==> |r.value| == n && r.value == buf[off..off + n]
  {
    if 0 <= off && 0 <= n && off + n <= |buf| then Some(buf[off..off + n]) else None
  }

  /** `getShort(off)` in big-endian order. */
  function GetShort(buf: seq<byte>, off: int): (r: Option<int16>)
    ensures r.Some? <==> 0 <= off && off + 2 <= |buf|
    ensures r.Some? ==> BeEncode(Unsigned16(r.value), 2) == buf[off..off + 2]
  {
    if 0 <= off && off + 2 <= |buf| then
      var v := BeValue(buf[off..off + 2]);
      BeEncodeValue(buf[off..off + 2]);
      UnsignedOfSigned16(v);
      Some(Signed16(v))
    else None
  }

  lemma UnsignedOfSigned16(v: nat)
    requires v < Pow256(2)
    ensures v < TWO_16 && Unsigned16(Signed16(v)) == v
  {
    assert Pow256(2) == TWO_16 by {
      assert Pow256(1) == 256;
    }
  }

  /** `getInt(off)` in big-endian order. */
  function GetInt(buf: seq<byte>, off: int): (r: Option<int32>)
    ensures r.Some? <==> 0 <= off && off + 4 <= |buf|
    ensures r.Some? ==> BeEncode(Unsigned32(r.value), 4) == buf[off..off + 4]
  {
    if 0 <= off && off + 4 <= |buf| then
      BeEncodeValue(buf[off..off + 4]);
      Some(Signed32(BeValue(buf[off..off + 4])))
    else None
  }

  /** `getLong(off)` in big-endian order. */
  function GetLong(buf: seq<byte>, off: int): (r: Option<int64>)
    ensures r.Some? <==> 0 <= off && off + 8 <= |buf|
    ensures r.Some? ==> BeEncode(Unsigned64(r.value), 8) == buf[off..off + 8]
  {
    if 0 <= off && off + 8 <= |buf| then
      BeEncodeValue(buf[off..off + 8]);
      Some(Signed64(BeValue(buf[off..off + 8])))
    else None
  }

  /** `getShort(off)` after `order(LITTLE_ENDIAN)`. */
  function GetShortLE(buf: seq<byte>, off: int): (r: Option<int16>)
    ensures r.Some? <==> 0 <= off && off + 2 <= |buf|
    ensures r.Some? ==> LeEncode(Unsigned16(r.value), 2) == buf[off..off + 2]
  {
    if 0 <= off && off + 2 <= |buf| then
      LeEncodeValue(buf[off..off + 2]);
      Some(Signed16(LeValue(buf[off..off + 2])))
    else None
  }

  /** `getInt(off)` after `order(LITTLE_ENDIAN)`. */
  function GetIntLE(buf: seq<byte>, off: int): (r: Option<int32>)
    ensures r.Some? <==> 0 <= off && off + 4 <= |buf|
    ensures r.Some? ==> LeEncode(Unsigned32(r.value), 4) == buf[off..off + 4]
  {
    if 0 <= off && off + 4 <= |buf| then
      LeEncodeValue(buf[off..off + 4]);
      Some(Signed32(LeValue(buf[off..off + 4])))
    else None
  }

  /** The byte counts of Java's `short`, `int` and `long` span their unsigned ranges. */
  lemma Pow256Widths()
    ensures Pow256(2) == TWO_16 && Pow256(4) == TWO_32 && Pow256(8) == TWO_64
  {
    assert Pow256(1) == 256;
    assert Pow256(4) == 256 * 256 * 256 * 256;
  }

  /** `putShort`: the two bytes of a `short`, big-endian. */
  function EncodeShort(x: int16): (r: seq<byte>)
    ensures |r| == 2
  {
    Pow256Widths();
    BeEncode(Unsigned16(x), 2)
  }

  /** `putInt`: the four bytes of an `int`, big-endian. */
  function EncodeInt(x: int32): (r: seq<byte>)
    ensures |r| == 4
  {
    Pow256Widths();
    BeEncode(Unsigned32(x), 4)
  }

  /** `putLong`: the eight bytes of a `long`, big-endian. */
  function EncodeLong(x: int64): (r: seq<byte>)
    ensures |r| == 8
  {
    Pow256Widths();
    BeEncode(Unsigned64(x), 8)
  }

  /** Writing an `int` big-endian and reading it back gives the same `int`. */
  lemma GetIntOfEncoded(x: int32, prefix: seq<byte>, suffix: seq<byte>)
    ensures GetInt(prefix + BeEncode(Unsigned32(x), 4) + suffix, |prefix|) == Some(x)
  {
    var buf := prefix + BeEncode(Unsigned32(x), 4) + suffix;
    assert buf[|prefix|..|prefix| + 4] == BeEncode(Unsigned32(x), 4);
  }
}

=== FILE: columns.dfy ===
/**
 * The table columns of the package list (`Column`) and the comparators their headers sort with
 * (`Comparators`): numbers, case-insensitive text, the backport check mark and human-readable
 * sizes.
 */
module Columns {
  import opened Wrappers
  import opened JavaInt
  import opened Strings
  import opened Decimal

  /** The columns in declaration order; a column's ordinal is its position here. */
  datatype Column =
    | Index | Path | Directory | FileName | Title | TitleId | Region | Type | Version | Backport
    | Sdk | Firmware | Size | ReleaseTags | CompatibilityChecksum

  /** `Column.values()`. */
  const VALUES: seq<Column> := [Index, Path, Directory, FileName, Title, TitleId, Region, Type,
                                Version, Backport, Sdk, Firmware, Size, ReleaseTags,
                                CompatibilityChecksum]

  /** `Column.length`. */
  const LENGTH: nat := 15

  /** `column.ordinal()`: the column's position in the declaration. */
  function Ordinal(c: Column): (r: nat)
    ensures r < |VALUES| && VALUES[r] == c
  {
    match c
    case Index => 0
    case Path => 1
    case Directory => 2
    case FileName => 3
    case Title => 4
    case TitleId => 5
    case Region => 6
    case Type => 7
    case Version => 8
    case Backport => 9
    case Sdk => 10
    case Firmware => 11
    case Size => 12
    case ReleaseTags => 13
    case CompatibilityChecksum => 14
  }

  /** Each position of `values()` holds the column with that ordinal. */
  lemma OrdinalOfValue(k: nat)
    requires k < |VALUES|
    ensures Ordinal(VALUES[k]) == k
  {}

  /** The scan of `Column.get` from position `k` of `values()` onwards. */
  function GetFrom(ordinal: int, k: nat): (r: Option<Column>)
    requires k <= |VALUES|
    ensures r.Some? <==> k <= ordinal < |VALUES|
    ensures r.Some? ==> Ordinal(r.value) == ordinal
    decreases |VALUES| - k
  {
    if k == |VALUES| then None
    else
      OrdinalOfValue(k);
      if Ordinal(VALUES[k]) == ordinal then Some(VALUES[k]) else GetFrom(ordinal, k + 1)
  }

  /** `Column.get(ordinal)`: the column with that ordinal, or null (None) when there is none. */
  function Get(ordinal: int): (r: Option<Column>)
    ensures r.Some? <==> 0 <= ordinal < LENGTH
    ensures r.Some? ==> Ordinal(r.value) == ordinal
  {
    GetFrom(ordinal, 0)
  }

  /** `get` inverts `ordinal`. */
  lemma GetOrdinal(c: Column)
    ensures Get(Ordinal(c)) == Some(c)
  {}

  /** `Column.order`: the order in which the columns are displayed by default. */
  const ORDER: seq<int> := [Ordinal(Index), Ordinal(Path), Ordinal(Directory), Ordinal(FileName),
                            Ordinal(Title), Ordinal(TitleId), Ordinal(Region), Ordinal(Type),
                            Ordinal(Version), Ordinal(Backport), Ordinal(Sdk), Ordinal(Firmware),
                            Ordinal(Size), Ordinal(ReleaseTags), Ordinal(CompatibilityChecksum)]

  /** The default display order lists every ordinal exactly once. */
  lemma OrderIsPermutation()
    ensures |ORDER| == LENGTH
    ensures forall o :: 0 <= o < LENGTH ==> o in ORDER
    ensures forall i, j :: 0 <= i < j < |ORDER| ==> ORDER[i] != ORDER[j]
  {}

  /** Which comparator a column's header sorts with. */
  datatype ComparatorKind = LongKind | StringKind | BoolKind | NumberKind | SizeKind

  /** The comparator each column is declared with. */
  function ComparatorOf(c: Column): ComparatorKind {
    match c
    case Index => LongKind
    case Backport => BoolKind
    case Version | Sdk | Firmware => NumberKind
    case Size => SizeKind
    case _ => StringKind
  }

  /** Whether a column is shown in a new table. */
  function EnabledByDefault(c: Column): bool {
    match c
    case Index | Path | Directory | FileName | Size | ReleaseTags => false
    case _ => true
  }

  /** A difference of two `long` values is zero after wrap-around exactly when it is zero. */
  lemma Wrap64Zero(d: int)
    requires -TWO_64 < d < TWO_64
    ensures Wrap64(d) == 0 <==> d == 0
  {
    if Wrap64(d) == 0 {
      var q := d / TWO_64;
      assert d % TWO_64 == 0;
      assert d == q * TWO_64;
      MultipleBound(q, TWO_64);
    }
  }

  /** A non-zero multiple of `m` is at least `m` away from zero. */
  lemma MultipleBound(q: int, m: int)
    requires m > 0
    ensures q >= 1 ==> q * m >= m
    ensures q <= -1 ==> q * m <= -m
  {}

  /**
   * `longComparator`: the sign of the `long` difference of the two numbers, or None where
   * `Long.valueOf` throws. The difference wraps around as Java's `long` subtraction does.
   */
  function LongCompare(a: string, b: string): (r: Option<int>)
    ensures r.Some? <==> ParseLong(a).Some? && ParseLong(b).Some?
    ensures r.Some? ==> -1 <= r.value <= 1
    ensures r.Some? ==> (r.value == 0 <==> ParseLong(a) == ParseLong(b))
  {
    match (ParseLong(a), ParseLong(b))
    case (Some(x), Some(y)) =>
      Wrap64Zero(x as int - y as int);
      Some(Sign(Wrap64(x as int - y as int)))
    case _ => None
  }

  /** Whenever the difference fits in a `long`, the comparator orders the numbers by value. */
  lemma LongCompareOrders(a: string, b: string)
    requires ParseLong(a).Some? && ParseLong(b).Some?
    requires LONG_MIN <= ParseLong(a).value as int - ParseLong(b).value as int <= LONG_MAX
    ensures LongCompare(a, b) == Some(Sign(ParseLong(a).value as int - ParseLong(b).value as int))
  {}

  /** `stringComparator`: `compareToIgnoreCase`, i.e. `compareTo` after ASCII case folding. */
  function StringCompare(a: string, b: string): (r: int)
    ensures r == 0 <==> Lower(a) == Lower(b)
  {
    CompareTo(Lower(a), Lower(b))
  }

  /** Case does not matter: strings that agree ignoring case compare alike against any other. */
  lemma StringCompareIgnoresCase(a: string, a': string, b: string)
    requires Lower(a) == Lower(a')
    ensures StringCompare(a, b) == StringCompare(a', b)
    ensures StringCompare(b, a) == StringCompare(b, a')
  {}

  /** Swapping the arguments of the text comparator negates its result. */
  lemma StringCompareAntisymmetric(a: string, b: string)
    ensures StringCompare(a, b) == -StringCompare(b, a)
  {
    CompareToAntisymmetric(Lower(a), Lower(b));
  }

  /**
   * `boolComparator`: the check-mark column holds either a mark or nothing, so the longer text
   * (the marked row) sorts first and texts of equal length are equal.
   */
  function BoolCompare(a: string, b: string): (r: int)
    ensures r == 0 <==> |a| == |b|
    ensures r == -1 <==> |a| > |b|
    ensures r == 1 <==> |a| < |b|
  {
    if |a| == |b| then 0 else if |a| > |b| then -1 else 1
  }

  /**
   * `toKB`: splits "number unit" at the spaces, removes the locale's decimal separator `sep` from
   * the number and scales it to kilobytes by appending zeros for "GB" and "MB". A text without a
   * second piece makes `split[1]` throw (None).
   */
  function ToKB(size: string, sep: char): (r: Option<string>)
    ensures r.Some? <==> |Split(size, " ")| >= 2
    ensures r.Some? && sep != '0' ==> sep !in r.value
  {
    var parts := Split(size, " ");
    if |parts| < 2 then None
    else
      var number := Replace(parts[0], [sep], "");
      ReplaceRemovesChar(parts[0], sep);
      if parts[1] == "GB" then Some(number + "000000")
      else if parts[1] == "MB" then Some(number + "000")
      else Some(number)
  }

  /** "number unit" splits back into the number and the unit when neither holds a space. */
  lemma SplitSizeText(number: string, unit: string)
    requires ' ' !in number && ' ' !in unit && unit != ""
    ensures Split(number + " " + unit, " ") == [number, unit]
  {
    assert Join(" ", [number, unit]) == number + " " + unit by {
      assert [number, unit][1..] == [unit];
    }
    SplitJoin(" ", [number, unit]);
  }

  /** What `toKB` makes of a size text "number unit" for each of the units. */
  lemma ToKBUnits(number: string, unit: string, sep: char)
    requires ' ' !in number && ' ' !in unit && unit != ""
    ensures unit == "GB" ==> ToKB(number + " " + unit, sep) == Some(Replace(number, [sep], "") + "000000")
    ensures unit == "MB" ==> ToKB(number + " " + unit, sep) == Some(Replace(number, [sep], "") + "000")
    ensures unit != "GB" && unit != "MB" ==> ToKB(number + " " + unit, sep) == Some(Replace(number, [sep], ""))
  {
    SplitSizeText(number, unit);
  }

  /** A text without a space has no unit and makes `toKB` throw. */
  lemma ToKBWithoutUnit(size: string, sep: char)
    requires ' ' !in size
    ensures ToKB(size, sep) == None
  {
    NoOccurrence(size, " ");
  }

  /** `sizeComparator`: the numbers comparator applied to both sizes in kilobytes. */
  function SizeCompare(a: string, b: string, sep: char): (r: Option<int>)
    ensures r.Some? ==> -1 <= r.value <= 1
    ensures r.Some? ==> ToKB(a, sep).Some? && ToKB(b, sep).Some?
  {
    var ka :- ToKB(a, sep);
    var kb :- ToKB(b, sep);
    LongCompare(ka, kb)
  }

  /** The decimal digits of `n` followed by "000" read back as a thousand times `n`. */
  lemma ThousandsText(n: nat)
    requires n * 1000 < TWO_63
    ensures ParseLong(NatString(n) + "000") == Some((n * 1000) as int64)
  {
    var z := "000";
    assert AllDigits(z) && DigitsValue(z) == 0 by {
      assert DigitsValue("0") == 0;
      assert "00"[..1] == "0";
      assert DigitsValue("00") == 0;
      assert z[..2] == "00";
    }
    assert Pow10(3) == 1000;
    DigitsValueAppend(NatString(n), z);
    ParseLongDigits(NatString(n) + z);
  }

  /** A size in megabytes, as the table writes it, becomes the number followed by "000". */
  lemma MegabytesInKB(m: nat, sep: char)
    requires !IsDigit(sep)
    ensures ToKB(NatString(m) + " MB", sep) == Some(NatString(m) + "000")
  {
    var digits := NatString(m);
    NotADigit(digits, ' ');
    NotADigit(digits, sep);
    assert ' ' !in "MB";
    assert digits + " MB" == digits + " " + "MB";
    ToKBUnits(digits, "MB", sep);
    ReplaceAbsent(digits, [sep], "");
  }

  /** A character that is not a digit does not occur among digits. */
  lemma NotADigit(s: string, c: char)
    requires AllDigits(s) && !IsDigit(c)
    ensures c !in s
  {}

  /** Scaling by a thousand keeps the sign of a difference. */
  lemma SignOfThousands(m: int, n: int)
    ensures Sign(m * 1000 - n * 1000) == Sign(m - n)
  {
    assert m * 1000 - n * 1000 == (m - n) * 1000;
  }

  /** Two sizes in megabytes, as the table writes them, are ordered by their numbers. */
  lemma SizeCompareMegabytes(m: nat, n: nat, sep: char)
    requires m * 1000 < TWO_63 && n * 1000 < TWO_63
    requires !IsDigit(sep)
    ensures SizeCompare(NatString(m) + " MB", NatString(n) + " MB", sep) == Some(Sign(m - n))
  {
    MegabytesInKB(m, sep);
    MegabytesInKB(n, sep);
    ThousandsText(m);
    ThousandsText(n);
    SignOfThousands(m, n);
  }
}

=== FILE: customaction.dfy ===
/**
 * Running one custom action (`CustomAction`): the check that keeps SFO, singular and plural
 * variables apart, the split of a command pattern into process arguments, the substitution of
 * the variables by values of the selected packages, and what `run` does around the process.
 */
module CustomAction {
  import opened Wrappers
  import opened Strings
  import opened Lists
  import opened CustomActions

  const DIR: string := "%dir%"
  const CONTENT_ID: string := "%content_id%"
  const TITLE_ID: string := "%title_id%"

  /**
   * The variable lists `sfoVariables`, `singularVariables`, `pluralVariables` and
   * `patternVariables` of `CustomActions`, whose declarations are not part of this model. The
   * last one fixes the order in which the variables of a token are substituted.
   */
  datatype Variables = Variables(sfo: seq<string>, singular: seq<string>, plural: seq<string>,
                                 pattern: seq<string>)

  /** Every variable name is non-empty (each one is a `%…%` literal). */
  predicate Named(vars: seq<string>) {
    forall j :: 0 <= j < |vars| ==> |vars[j]| > 0
  }

  /** Every variable name starts with a percent sign. */
  predicate Marked(vars: seq<string>) {
    forall j :: 0 <= j < |vars| ==> |vars[j]| > 0 && vars[j][0] == '%'
  }

  /**
   * Why `createTokens` gives up: it returns null, an index it uses is out of range, or its SFO
   * loop does not end (`Endless`).
   */
  datatype Fault = Unterminated | NoSfoValue | NoMatchingPkg | OutOfBounds | Endless

  // ---------------------------------------------------------------------------------------------
  // patternIsValid
  // ---------------------------------------------------------------------------------------------

  /** `Arrays.stream(vars).anyMatch(s::contains)`. */
  function AnyIn(vars: seq<string>, s: string): (r: bool)
    ensures |vars| == 0 ==> !r
  {
    if |vars| == 0 then false else Contains(s, vars[0]) || AnyIn(vars[1..], s)
  }

  /** `anyMatch` holds exactly when some variable of the list occurs in the string. */
  lemma {:induction false} AnyInSome(vars: seq<string>, s: string)
    ensures AnyIn(vars, s) <==> exists j :: 0 <= j < |vars| && Contains(s, vars[j])
  {
    if |vars| > 0 {
      AnyInSome(vars[1..], s);
      if AnyIn(vars[1..], s) {
        var j :| 0 <= j < |vars[1..]| && Contains(s, vars[1..][j]);
        assert Contains(s, vars[j + 1]);
      }
      if exists j :: 0 <= j < |vars| && Contains(s, vars[j]) {
        var j :| 0 <= j < |vars| && Contains(s, vars[j]);
        if j > 0 {
          assert Contains(s, vars[1..][j - 1]);
        }
      }
    }
  }

  function Present(b: bool): nat {
    if b then 1 else 0
  }

  /**
   * `patternIsValid`, the editor's check on a command pattern: a pattern may use at most one of
   * the three groups of variables.
   */
  function PatternIsValid(vars: Variables, pattern: string): (r: bool)
    ensures r <==> Present(AnyIn(vars.sfo, pattern)) + Present(AnyIn(vars.singular, pattern))
                   + Present(AnyIn(vars.plural, pattern)) <= 1
  {
    var sfo := AnyIn(vars.sfo, pattern);
    var singular := AnyIn(vars.singular, pattern);
    var plural := AnyIn(vars.plural, pattern);
    if singular && plural then false
    else if sfo && (singular || plural) then false
    else true
  }

  // ---------------------------------------------------------------------------------------------
  // getNextPkg
  // ---------------------------------------------------------------------------------------------

  /** The CATEGORY test of `getNextPkg` for %app%, %patch% and %dlc%. */
  predicate Wanted(v: string, category: Option<string>) {
    category.Some? &&
    if v == APP then StartsWith(category.value, "gd")
    else if v == PATCH then StartsWith(category.value, "gp")
    else category.value == "ac"
  }

  /** The first package at or after `from` whose CATEGORY the variable asks for. */
  function FirstWanted(v: string, pkgs: seq<PkgRef>, from: nat): (r: Option<nat>)
    ensures r.Some? ==> from <= r.value < |pkgs| && Wanted(v, pkgs[r.value].category)
    ensures forall j :: from <= j < |pkgs| && (r.None? || j < r.value) ==> !Wanted(v, pkgs[j].category)
    decreases |pkgs| - from
  {
    if from >= |pkgs| then None
    else if Wanted(v, pkgs[from].category) then Some(from)
    else FirstWanted(v, pkgs, from + 1)
  }

  /**
   * `getNextPkg`, as the position of the package in the remaining list: the first package for
   * an SFO or directory variable, the first package of the requested type for a typed variable,
   * the first package for %file% and %files%, and none for any other name. A typed or file
   * variable only takes a package that is on disk, and a package of the requested type that is
   * missing ends the search rather than being skipped.
   */
  function NextPkg(v: string, pkgs: seq<PkgRef>): (r: Option<nat>)
    ensures r.Some? ==> r.value < |pkgs|
    ensures r.Some? && v != CONTENT_ID && v != TITLE_ID && v != DIR ==> pkgs[r.value].onDisk
    ensures (v == APP || v == PATCH || v == DLC) && r.Some? ==>
      Wanted(v, pkgs[r.value].category)
      && forall j :: 0 <= j < r.value ==> !Wanted(v, pkgs[j].category)
    ensures (v == FILE || v == FILES || v == CONTENT_ID || v == TITLE_ID || v == DIR) && r.Some? ==>
      r.value == 0
    ensures r.None? && |pkgs| > 0 ==> v != CONTENT_ID && v != TITLE_ID && v != DIR
  {
    if |pkgs| == 0 then None
    else if v == CONTENT_ID || v == TITLE_ID || v == DIR then Some(0)
    else if v == APP || v == PATCH || v == DLC then
      match FirstWanted(v, pkgs, 0)
      case None => None
      case Some(n) => if pkgs[n].onDisk then Some(n) else None
    else if v == FILE || v == FILES then
      if pkgs[0].onDisk then Some(0) else None
    else None
  }

  /** A package found for %app% or %patch% is what the selection check counts as that type. */
  lemma NextPkgKind(v: string, pkgs: seq<PkgRef>)
    requires NextPkg(v, pkgs).Some?
    ensures v == APP ==> KindOf(pkgs[NextPkg(v, pkgs).value].category) == App
    ensures v == PATCH ==> KindOf(pkgs[NextPkg(v, pkgs).value].category) == Patch
    ensures v == DLC ==> KindOf(pkgs[NextPkg(v, pkgs).value].category) == Dlc
  {
    var p := pkgs[NextPkg(v, pkgs).value];
    if v == DLC {
      assert p.category == Some("ac");
      assert !StartsWith("ac", "gd") && !StartsWith("ac", "gp") && StartsWith("ac", "ac");
    }
  }

  /**
   * The converse fails for additional content: the selection check counts any CATEGORY starting
   * with "ac" as DLC, while %dlc% only takes a package whose CATEGORY is exactly "ac".
   */
  lemma DlcCountedButNotFound(p: PkgRef)
    requires p.category == Some("acx") && p.onDisk
    ensures KindOf(p.category) == Dlc
    ensures NextPkg(DLC, [p]).None?
  {
    assert "acx"[..2] == "ac";
    assert !Wanted(DLC, p.category);
  }

  // ---------------------------------------------------------------------------------------------
  // createTokens: splitting the pattern
  // ---------------------------------------------------------------------------------------------

  /**
   * The tokenizer loop of `createTokens`, applied to the rest of the pattern: a token opened by a
   * single quote runs to the next single quote, which must exist, and its quotes are dropped;
   * any other token runs from its first character up to the next space. The character after a
   * token is skipped, so a second space in a row starts a token that keeps its leading space.
   */
  function Tokenize(p: string): (r: Result<seq<string>, Fault>)
    ensures r.Success? ==> |r.value| <= |p|
    ensures r.Failure? ==> r.error == Unterminated
    decreases |p|
  {
    if |p| == 0 then Success([])
    else if p[0] == '\'' then
      var close := IndexOfChar(p, '\'', 1);
      if close == -1 then Failure(Unterminated)
      else
        var rest :- Tokenize(p[close + 1..]);
        Success([p[1..close]] + rest)
    else
      var space := IndexOfChar(p, ' ', 1);
      if space == -1 then Success([p])
      else
        var rest :- Tokenize(p[space + 1..]);
        Success([p[..space]] + rest)
  }

  /** A pattern without single quotes always splits. */
  lemma {:induction false} TokenizeWithoutQuotes(p: string)
    requires '\'' !in p
    ensures Tokenize(p).Success?
    decreases |p|
  {
    if |p| > 0 {
      assert p[0] != '\'';
      var space := IndexOfChar(p, ' ', 1);
      if space != -1 {
        TokenizeWithoutQuotes(p[space + 1..]);
      }
    }
  }

  /** A single quote without a partner makes the pattern invalid. */
  lemma UnterminatedQuote(q: string)
    requires '\'' !in q
    ensures Tokenize("'" + q) == Failure(Unterminated)
  {
    var p := "'" + q;
    assert forall k :: 1 <= k < |p| ==> p[k] == q[k - 1];
    assert IndexOfChar(p, '\'', 1) == -1;
  }

  /** A word: non-empty, without a space, and not opening a quote. */
  predicate IsWord(w: string) {
    |w| > 0 && w[0] != '\'' && ' ' !in w
  }

  /** The tokenizer undoes joining words with single spaces. */
  lemma {:induction false} TokenizeJoin(words: seq<string>)
    requires forall j :: 0 <= j < |words| ==> IsWord(words[j])
    ensures Tokenize(Join(" ", words)) == Success(words)
    decreases |words|
  {
    if |words| == 1 {
      var w := words[0];
      assert IndexOfChar(w, ' ', 1) == -1;
      assert Join(" ", words) == w && words == [w];
    } else if |words| > 1 {
      var w := words[0];
      var rest := Join(" ", words[1..]);
      var p := w + " " + rest;
      assert Join(" ", words) == p;
      assert p[0] == w[0];
      assert p[|w|] == ' ';
      assert forall k :: 1 <= k < |w| ==> p[k] == w[k];
      assert IndexOfChar(p, ' ', 1) == |w|;
      assert p[..|w|] == w;
      assert p[|w| + 1..] == rest;
      TokenizeJoin(words[1..]);
      assert [w] + words[1..] == words;
    }
  }

  /** A quoted argument keeps its spaces and loses its quotes. */
  lemma TokenizeQuoted(q: string, rest: string)
    requires '\'' !in q
    ensures Tokenize("'" + q + "'" + rest) ==
      match Tokenize(rest)
      case Success(t) => Success([q] + t)
      case Failure(f) => Failure(f)
  {
    var p := "'" + q + "'" + rest;
    assert forall k :: 1 <= k <= |q| ==> p[k] == q[k - 1];
    assert p[|q| + 1] == '\'';
    assert IndexOfChar(p, '\'', 1) == |q| + 1;
    assert p[1..|q| + 1] == q;
    assert p[|q| + 2..] == rest;
  }

  /** Two spaces in a row: the second one starts the next token. */
  lemma DoubleSpaceKept()
    ensures Tokenize("a  b") == Success(["a", " b"])
  {
    var p := "a  b";
    assert IndexOfChar(p, ' ', 1) == 1;
    assert p[..1] == "a" && p[2..] == " b";
    assert IndexOfChar(" b", ' ', 1) == -1;
    assert Tokenize(" b") == Success([" b"]);
    assert p[0] != '\'';
    assert Tokenize(p) == Success([p[..1]] + [" b"]);
    assert [p[..1]] + [" b"] == ["a", " b"];
  }

  // ---------------------------------------------------------------------------------------------
  // createTokens: SFO variables
  // ---------------------------------------------------------------------------------------------

  /** The PARAM.SFO value an SFO variable stands for, or nothing (null). */
  function SfoValue(v: string, p: PkgRef): (r: Option<string>)
    ensures v != CONTENT_ID && v != TITLE_ID ==> r.None?
  {
    if v == CONTENT_ID then p.contentId
    else if v == TITLE_ID then p.titleId
    else None
  }

  /**
   * The SFO loop for one variable of one token, as written: while the token contains the
   * variable, it is replaced by the value. `fuel` bounds the iterations; `None` means the loop
   * has not stopped within that many.
   */
  function SfoReplaceAsWritten(token: string, v: string, value: string, fuel: nat): (r: Option<string>)
    requires |v| > 0
    ensures r.Some? ==> !Contains(r.value, v)
    decreases fuel
  {
    if !Contains(token, v) then Some(token)
    else if fuel == 0 then None
    else SfoReplaceAsWritten(Replace(token, v, value), v, value, fuel - 1)
  }

  /** `replace` of a target by itself in the target alone changes nothing. */
  lemma ReplaceWhole(v: string, value: string)
    requires |v| > 0
    ensures Replace(v, v, value) == value
  {
    assert v[..|v|] == v;
    assert v[|v|..] == "";
    assert Replace("", v, value) == "";
  }

  /** A string contains itself. */
  lemma ContainsSelf(v: string)
    ensures Contains(v, v)
  {
    assert OccursAt(v, v, 0);
  }

  /**
   * A value that brings the variable back keeps the loop going for ever: an SFO TITLE_ID of
   * "%title_id%" turns the token "%title_id%" into itself.
   */
  lemma {:induction false} SfoReplaceDiverges(fuel: nat)
    ensures SfoReplaceAsWritten(TITLE_ID, TITLE_ID, TITLE_ID, fuel).None?
    decreases fuel
  {
    ContainsSelf(TITLE_ID);
    ReplaceWhole(TITLE_ID, TITLE_ID);
    if fuel > 0 {
      SfoReplaceDiverges(fuel - 1);
    }
  }

  /** A replacement that leaves no occurrence ends the loop after one round. */
  lemma SfoReplaceAgrees(token: string, v: string, value: string, fuel: nat)
    requires |v| > 0 && fuel > 0 && !Contains(Replace(token, v, value), v)
    ensures SfoReplaceAsWritten(token, v, value, fuel) ==
      Some(if Contains(token, v) then Replace(token, v, value) else token)
  {}

  /** `replace` passes over a prefix that cannot start an occurrence. */
  lemma {:induction false} ReplaceSkipsPrefix(p: string, x: string, v: string, value: string)
    requires |v| > 0 && v[0] !in p
    ensures Replace(p + x, v, value) == p + Replace(x, v, value)
    decreases |p|
  {
    if |p| > 0 {
      var s := p + x;
      if |s| < |v| {
        assert |x| < |v|;
      } else {
        assert s[0] == p[0] != v[0];
        assert s[..|v|] != v;
        assert s[1..] == p[1..] + x;
        ReplaceSkipsPrefix(p[1..], x, v, value);
      }
    } else {
      assert p + x == x;
    }
  }

  /** `replace` of a target at the front of the string. */
  lemma ReplaceFront(v: string, x: string, value: string)
    requires |v| > 0
    ensures Replace(v + x, v, value) == value + Replace(x, v, value)
  {
    assert (v + x)[..|v|] == v;
    assert (v + x)[|v|..] == x;
  }

  /**
   * What one round of `replace` does: in a token made of pieces joined by the variable, where no
   * piece holds the variable's first character, every occurrence becomes the value and nothing
   * else changes.
   */
  lemma {:induction false} ReplaceJoin(parts: seq<string>, v: string, value: string)
    requires |v| > 0
    requires forall j :: 0 <= j < |parts| ==> v[0] !in parts[j]
    ensures Replace(Join(v, parts), v, value) == Join(value, parts)
    decreases |parts|
  {
    if |parts| == 1 {
      ReplaceAbsent(parts[0], v, value);
    } else if |parts| > 1 {
      var rest := Join(v, parts[1..]);
      assert Join(v, parts) == parts[0] + (v + rest);
      ReplaceSkipsPrefix(parts[0], v + rest, v, value);
      ReplaceFront(v, rest, value);
      ReplaceJoin(parts[1..], v, value);
      assert Join(value, parts) == parts[0] + value + Join(value, parts[1..]);
    }
  }

  /**
   * The SFO substitution of one token, with the loop replaced by the single `replace` that it
   * evidently means: each SFO variable the token contains is replaced by its value, and a
   * missing value ends the substitution.
   */
  function SfoToken(vars: seq<string>, k: nat, p: PkgRef, token: string): (r: Result<string, Fault>)
    requires Named(vars)
    ensures r.Failure? ==> r.error == NoSfoValue
    decreases |vars| - k
  {
    if k >= |vars| then Success(token)
    else if !Contains(token, vars[k]) then SfoToken(vars, k + 1, p, token)
    else
      match SfoValue(vars[k], p)
      case None => Failure(NoSfoValue)
      case Some(value) => SfoToken(vars, k + 1, p, Replace(token, vars[k], value))
  }

  /** For a single SFO variable, every occurrence in the token becomes the package's value. */
  lemma SfoTokenReplacesAll(v: string, p: PkgRef, parts: seq<string>)
    requires |v| > 0 && SfoValue(v, p).Some?
    requires forall j :: 0 <= j < |parts| ==> v[0] !in parts[j]
    ensures SfoToken([v], 0, p, Join(v, parts)) == Success(Join(SfoValue(v, p).value, parts))
  {
    var value := SfoValue(v, p).value;
    ReplaceJoin(parts, v, value);
    if !Contains(Join(v, parts), v) {
      ReplaceAbsentWhenMissing(Join(v, parts), v, value);
    }
  }

  /** Without an occurrence, `replace` changes nothing. */
  lemma {:induction false} ReplaceAbsentWhenMissing(s: string, v: string, value: string)
    requires |v| > 0 && !Contains(s, v)
    ensures Replace(s, v, value) == s
    decreases |s|
  {
    if |s| >= |v| {
      assert !OccursAt(s, v, 0);
      assert s[..|v|] != v;
      assert !Contains(s[1..], v) by {
        if Contains(s[1..], v) {
          var i := IndexOf(s[1..], v);
          assert s[1..][i..i + |v|] == s[i + 1..i + 1 + |v|];
          assert OccursAt(s, v, i + 1);
        }
      }
      ReplaceAbsentWhenMissing(s[1..], v, value);
    }
  }

  /**
   * The SFO substitution of one token as written: for each SFO variable the token contains, the
   * value is looked up (a missing one ends the substitution) and the `while` loop replaces the
   * variable for as long as the token contains it. A loop that has not stopped within `fuel`
   * rounds is `Endless`.
   */
  function SfoTokenAsWritten(vars: seq<string>, k: nat, p: PkgRef, token: string, fuel: nat): (r: Result<string, Fault>)
    requires Named(vars)
    ensures r.Failure? ==> r.error == NoSfoValue || r.error == Endless
    ensures r.Failure? && r.error == Endless ==> exists j :: k <= j < |vars| && SfoValue(vars[j], p).Some?
    decreases |vars| - k
  {
    if k >= |vars| then Success(token)
    else if !Contains(token, vars[k]) then SfoTokenAsWritten(vars, k + 1, p, token, fuel)
    else
      match SfoValue(vars[k], p)
      case None => Failure(NoSfoValue)
      case Some(value) =>
        match SfoReplaceAsWritten(token, vars[k], value, fuel)
        case None => Failure(Endless)
        case Some(replaced) => SfoTokenAsWritten(vars, k + 1, p, replaced, fuel)
  }

  /** Every round of the single-`replace` substitution leaves no occurrence of its variable. */
  predicate ReplacedOnce(vars: seq<string>, k: nat, p: PkgRef, token: string)
    requires Named(vars)
    decreases |vars| - k
  {
    if k >= |vars| then true
    else if !Contains(token, vars[k]) then ReplacedOnce(vars, k + 1, p, token)
    else
      match SfoValue(vars[k], p)
      case None => true
      case Some(value) =>
        var replaced := Replace(token, vars[k], value);
        !Contains(replaced, vars[k]) && ReplacedOnce(vars, k + 1, p, replaced)
  }

  /**
   * When one `replace` removes every occurrence of each variable, the loop as written stops after
   * that round and gives the same token as the single-`replace` substitution.
   */
  lemma {:induction false} SfoTokenAgrees(vars: seq<string>, k: nat, p: PkgRef, token: string, fuel: nat)
    requires Named(vars) && fuel > 0 && ReplacedOnce(vars, k, p, token)
    ensures SfoTokenAsWritten(vars, k, p, token, fuel) == SfoToken(vars, k, p, token)
    decreases |vars| - k
  {
    if k < |vars| {
      if !Contains(token, vars[k]) {
        SfoTokenAgrees(vars, k + 1, p, token, fuel);
      } else if SfoValue(vars[k], p).Some? {
        var value := SfoValue(vars[k], p).value;
        SfoReplaceAgrees(token, vars[k], value, fuel);
        SfoTokenAgrees(vars, k + 1, p, Replace(token, vars[k], value), fuel);
      }
    }
  }

  /**
   * An SFO TITLE_ID of "%title_id%": the token "%title_id%" keeps the loop as written going,
   * while a single `replace` gives "%title_id%".
   */
  lemma SfoTokenEndless(p: PkgRef, fuel: nat)
    requires p.titleId == Some(TITLE_ID)
    ensures SfoTokenAsWritten([TITLE_ID], 0, p, TITLE_ID, fuel) == Failure(Endless)
    ensures SfoToken([TITLE_ID], 0, p, TITLE_ID) == Success(TITLE_ID)
  {
    ContainsSelf(TITLE_ID);
    ReplaceWhole(TITLE_ID, TITLE_ID);
    SfoReplaceDiverges(fuel);
  }

  /**
   * An occurrence that a `replace` puts together: with an empty SFO TITLE_ID, the token
   * "%title_%title_id%id%" becomes "%title_id%" after one round and "" after the second, which
   * the loop as written goes on to.
   */
  lemma SfoTokenRepeats(p: PkgRef, fuel: nat)
    requires p.titleId == Some("") && fuel >= 2
    ensures SfoTokenAsWritten([TITLE_ID], 0, p, "%title_" + TITLE_ID + "id%", fuel) == Success("")
    ensures SfoToken([TITLE_ID], 0, p, "%title_" + TITLE_ID + "id%") == Success(TITLE_ID)
  {
    var token := "%title_" + TITLE_ID + "id%";
    ReplaceNested();
    assert OccursAt(token, TITLE_ID, 7);
    ContainsOccurs(token, TITLE_ID);
    ContainsSelf(TITLE_ID);
    ReplaceWhole(TITLE_ID, "");
    assert !Contains("", TITLE_ID);
    assert SfoReplaceAsWritten(TITLE_ID, TITLE_ID, "", fuel - 1) == Some("");
    assert SfoReplaceAsWritten(token, TITLE_ID, "", fuel) == Some("");
  }

  /** One `replace` of TITLE_ID by "" in "%title_%title_id%id%" joins the rest into a new occurrence. */
  lemma ReplaceNested()
    ensures Replace("%title_" + TITLE_ID + "id%", TITLE_ID, "") == TITLE_ID
  {
    var t := "%title_" + TITLE_ID + "id%";
    assert t[7..][..10] == TITLE_ID && t[7..][10..] == "id%";
    var k := 7;
    while k > 0
      invariant 0 <= k <= 7
      invariant Replace(t[k..], TITLE_ID, "") == t[k..7] + "id%"
    {
      k := k - 1;
      if k == 0 {
        assert t[k..][..10][7] != TITLE_ID[7];
      } else {
        assert t[k..][..10][0] == t[k] != '%';
      }
      assert t[k..][1..] == t[k + 1..];
      assert t[k..7] + "id%" == [t[k]] + (t[k + 1..7] + "id%");
    }
  }

  /** The SFO branch over all tokens as written; the package is the first of the selection. */
  function SfoTokensAsWritten(vars: seq<string>, p: PkgRef, tokens: seq<string>, fuel: nat): (r: Result<seq<string>, Fault>)
    requires Named(vars)
    ensures r.Success? ==> |r.value| == |tokens|
    ensures r.Failure? ==> r.error == NoSfoValue || r.error == Endless
    ensures r.Success? ==>
      forall j :: 0 <= j < |tokens| ==> SfoTokenAsWritten(vars, 0, p, tokens[j], fuel) == Success(r.value[j])
  {
    if |tokens| == 0 then Success([])
    else
      var first :- SfoTokenAsWritten(vars, 0, p, tokens[0], fuel);
      var rest :- SfoTokensAsWritten(vars, p, tokens[1..], fuel);
      Success([first] + rest)
  }

  /** The SFO branch over all tokens with the single-`replace` substitution. */
  function SfoTokens(vars: seq<string>, p: PkgRef, tokens: seq<string>): (r: Result<seq<string>, Fault>)
    requires Named(vars)
    ensures r.Success? ==> |r.value| == |tokens|
    ensures r.Failure? ==> r.error == NoSfoValue
    ensures r.Success? ==> forall j :: 0 <= j < |tokens| ==> SfoToken(vars, 0, p, tokens[j]) == Success(r.value[j])
  {
    if |tokens| == 0 then Success([])
    else
      var first :- SfoToken(vars, 0, p, tokens[0]);
      var rest :- SfoTokens(vars, p, tokens[1..]);
      Success([first] + rest)
  }

  /** When every token is settled by one `replace` per variable, both SFO branches agree. */
  lemma {:induction false} SfoTokensAgree(vars: seq<string>, p: PkgRef, tokens: seq<string>, fuel: nat)
    requires Named(vars) && fuel > 0
    requires forall j :: 0 <= j < |tokens| ==> ReplacedOnce(vars, 0, p, tokens[j])
    ensures SfoTokensAsWritten(vars, p, tokens, fuel) == SfoTokens(vars, p, tokens)
  {
    if |tokens| > 0 {
      SfoTokenAgrees(vars, 0, p, tokens[0], fuel);
      SfoTokensAgree(vars, p, tokens[1..], fuel);
    }
  }

  // ---------------------------------------------------------------------------------------------
  // createTokens: package variables
  // ---------------------------------------------------------------------------------------------

  /**
   * The state of the package loop: the token list, the current token, the packages not used
   * yet, and whether %files% has taken a package for the current token.
   */
  datatype Expansion = Expansion(tokens: seq<string>, i: int, pkgs: seq<PkgRef>, filesUsed: bool)

  /** Packages still to use plus tokens still to visit; no step of the loop raises it. */
  function Pending(e: Expansion): int {
    |e.pkgs| + |e.tokens| - e.i
  }

  /**
   * The `while` loops over the variables `vars[k..]` for the current token. A typed variable,
   * %dir% and %file% replace every occurrence by the next package's path or directory; %files%
   * puts the next package's path in front of the token, which becomes "%files%", and moves to
   * it; once %files% has taken a package, running out of packages removes the "%files%" token
   * and steps back. A missing package otherwise ends the substitution. The position after a
   * step back can fall off the list, which Java reports with an exception.
   */
  function PkgVars(vars: seq<string>, k: nat, e: Expansion): (r: Result<Expansion, Fault>)
    requires Named(vars)
    ensures r.Success? ==> Pending(r.value) <= Pending(e) && |r.value.pkgs| <= |e.pkgs|
    ensures r.Success? ==> r.value == e || 0 <= r.value.i < |r.value.tokens|
    ensures r.Failure? ==> r.error == NoMatchingPkg || r.error == OutOfBounds
    decreases Pending(e), |e.tokens|, |vars| - k
  {
    if k >= |vars| then Success(e)
    else if !(0 <= e.i < |e.tokens|) then Failure(OutOfBounds)
    else
      var v := vars[k];
      var token := e.tokens[e.i];
      if !Contains(token, v) then PkgVars(vars, k + 1, e)
      else
        match NextPkg(v, e.pkgs)
        case None =>
          if v == FILES && e.filesUsed then
            PkgVars(vars, k, e.(tokens := RemoveAt(e.tokens, e.i), i := e.i - 1))
          else Failure(NoMatchingPkg)
        case Some(n) =>
          var p := e.pkgs[n];
          var rest := RemoveAt(e.pkgs, n);
          if v == DIR then
            PkgVars(vars, k, e.(tokens := e.tokens[e.i := Replace(token, v, p.directory)], pkgs := rest))
          else if v == FILES then
            var tokens := e.tokens[..e.i] + [Replace(token, v, p.path), FILES] + e.tokens[e.i + 1..];
            PkgVars(vars, k, Expansion(tokens, e.i + 1, rest, true))
          else
            PkgVars(vars, k, e.(tokens := e.tokens[e.i := Replace(token, v, p.path)], pkgs := rest))
  }

  /** The outer loop over the tokens, from the current one on. */
  function PkgTokens(vars: seq<string>, e: Expansion): (r: Result<Expansion, Fault>)
    requires Named(vars) && 0 <= e.i
    ensures r.Success? ==> |r.value.pkgs| <= |e.pkgs|
    ensures r.Success? && e.i <= |e.tokens| ==> r.value.i == |r.value.tokens|
    ensures r.Failure? ==> r.error == NoMatchingPkg || r.error == OutOfBounds
    decreases Pending(e)
  {
    if e.i >= |e.tokens| then Success(e)
    else
      var after :- PkgVars(vars, 0, e.(filesUsed := false));
      PkgTokens(vars, after.(i := after.i + 1))
  }

  /** The package paths, in order. */
  function Paths(pkgs: seq<PkgRef>): (r: seq<string>)
    ensures |r| == |pkgs|
    ensures forall j :: 0 <= j < |pkgs| ==> r[j] == pkgs[j].path
  {
    seq(|pkgs|, j requires 0 <= j < |pkgs| => pkgs[j].path)
  }

  /** How many packages at the front of the list are on disk. */
  function OnDiskRun(pkgs: seq<PkgRef>): (r: nat)
    ensures r <= |pkgs|
    ensures forall j :: 0 <= j < r ==> pkgs[j].onDisk
    ensures r < |pkgs| ==> !pkgs[r].onDisk
  {
    if |pkgs| == 0 || !pkgs[0].onDisk then 0 else 1 + OnDiskRun(pkgs[1..])
  }

  /** Text that holds no percent sign, so no variable occurs in it. */
  predicate Plain(s: string) {
    '%' !in s
  }

  lemma PlainHasNoVariable(s: string, v: string)
    requires Plain(s) && |v| > 0 && v[0] == '%'
    ensures !Contains(s, v)
  {
    NoOccurrence(s, v);
  }

  /** A plain token is left alone by the remaining variables. */
  lemma {:induction false} PkgVarsSkipPlain(vars: seq<string>, k: nat, e: Expansion)
    requires Marked(vars) && 0 <= e.i < |e.tokens| && Plain(e.tokens[e.i])
    ensures PkgVars(vars, k, e) == Success(e)
    decreases |vars| - k
  {
    if k < |vars| {
      PlainHasNoVariable(e.tokens[e.i], vars[k]);
      PkgVarsSkipPlain(vars, k + 1, e);
    }
  }

  /** Variables that do not occur in the current token are passed over. */
  lemma {:induction false} PkgVarsSkipTo(vars: seq<string>, k0: nat, k: nat, e: Expansion)
    requires Named(vars) && k0 <= k <= |vars| && 0 <= e.i < |e.tokens|
    requires forall j :: k0 <= j < k ==> !Contains(e.tokens[e.i], vars[j])
    ensures PkgVars(vars, k0, e) == PkgVars(vars, k, e)
    decreases k - k0
  {
    if k0 < k {
      PkgVarsSkipTo(vars, k0 + 1, k, e);
    }
  }

  /**
   * A token that is exactly a singular variable (a typed one, %file% or %dir%) becomes the path
   * or directory of the package `getNextPkg` finds, and that package is used up.
   */
  lemma SingularToken(vars: seq<string>, k: nat, e: Expansion)
    requires Marked(vars) && k < |vars| && 0 <= e.i < |e.tokens|
    requires vars[k] != FILES && e.tokens[e.i] == vars[k]
    requires NextPkg(vars[k], e.pkgs).Some?
    requires Plain(e.pkgs[NextPkg(vars[k], e.pkgs).value].path)
    requires Plain(e.pkgs[NextPkg(vars[k], e.pkgs).value].directory)
    ensures var n := NextPkg(vars[k], e.pkgs).value;
            var value := if vars[k] == DIR then e.pkgs[n].directory else e.pkgs[n].path;
            PkgVars(vars, k, e) == Success(e.(tokens := e.tokens[e.i := value], pkgs := RemoveAt(e.pkgs, n)))
  {
    var v := vars[k];
    var n := NextPkg(v, e.pkgs).value;
    var value := if v == DIR then e.pkgs[n].directory else e.pkgs[n].path;
    ContainsSelf(v);
    ReplaceWhole(v, value);
    var e' := e.(tokens := e.tokens[e.i := value], pkgs := RemoveAt(e.pkgs, n));
    PkgVarsSkipPlain(vars, k, e');
  }

  /** A token that is a singular variable with no package to fill it ends the substitution. */
  lemma SingularTokenMissing(vars: seq<string>, k: nat, e: Expansion)
    requires Named(vars) && k < |vars| && 0 <= e.i < |e.tokens|
    requires vars[k] != FILES && e.tokens[e.i] == vars[k]
    requires NextPkg(vars[k], e.pkgs).None?
    ensures PkgVars(vars, k, e) == Failure(NoMatchingPkg)
  {
    ContainsSelf(vars[k]);
  }

  /**
   * Where the %files% loop ends for the "%files%" token at position `i`: the token turns into
   * the paths of the packages on disk at the front of the list, the first missing package stops
   * it, and the position ends on the last path (the token before when no path was added).
   */
  function AfterFiles(e: Expansion): (r: Expansion)
    requires 0 <= e.i < |e.tokens|
    ensures |r.tokens| == |e.tokens| - 1 + OnDiskRun(e.pkgs)
    ensures |r.pkgs| == |e.pkgs| - OnDiskRun(e.pkgs)
    ensures r.i == e.i - 1 + OnDiskRun(e.pkgs)
    ensures OnDiskRun(e.pkgs) > 0 ==>
      0 <= r.i < |r.tokens| && r.tokens[r.i] == e.pkgs[OnDiskRun(e.pkgs) - 1].path
  {
    var m := OnDiskRun(e.pkgs);
    Expansion(e.tokens[..e.i] + Paths(e.pkgs[..m]) + e.tokens[e.i + 1..], e.i - 1 + m, e.pkgs[m..], true)
  }

  /** One round of %files% with a package on disk: its path goes in front of the token. */
  function FilesRound(e: Expansion): (r: Expansion)
    requires 0 <= e.i < |e.tokens| && |e.pkgs| > 0
    ensures 1 <= r.i < |r.tokens| && r.tokens[r.i] == FILES && r.tokens[r.i - 1] == e.pkgs[0].path
  {
    Expansion(e.tokens[..e.i] + [e.pkgs[0].path, FILES] + e.tokens[e.i + 1..], e.i + 1, e.pkgs[1..], true)
  }

  /** Inserting before the "%files%" token and then replacing it is one splice. */
  lemma SpliceAfterInsert(t: seq<string>, i: nat, x: string, ps: seq<string>)
    requires i < |t|
    ensures var t' := t[..i] + [x, FILES] + t[i + 1..];
            t'[..i + 1] + ps + t'[i + 2..] == t[..i] + ([x] + ps) + t[i + 1..]
  {
    var t' := t[..i] + [x, FILES] + t[i + 1..];
    assert t'[..i + 1] == t[..i] + [x];
    assert t'[i + 2..] == t[i + 1..];
  }

  lemma PathsFront(pkgs: seq<PkgRef>, m: nat)
    requires 0 < m <= |pkgs|
    ensures [pkgs[0].path] + Paths(pkgs[1..][..m - 1]) == Paths(pkgs[..m])
  {}

  /** Taking one package first ends in the same place. */
  lemma AfterFilesRound(e: Expansion)
    requires 0 <= e.i < |e.tokens| && |e.pkgs| > 0 && e.pkgs[0].onDisk
    ensures AfterFiles(FilesRound(e)) == AfterFiles(e)
  {
    var m := OnDiskRun(e.pkgs);
    var m' := OnDiskRun(e.pkgs[1..]);
    assert m' == m - 1;
    SpliceAfterInsert(e.tokens, e.i, e.pkgs[0].path, Paths(e.pkgs[1..][..m']));
    PathsFront(e.pkgs, m);
    assert e.pkgs[1..][m'..] == e.pkgs[m..];
  }

  /** The loop step for "%files%" with a package on disk. */
  lemma FilesStep(vars: seq<string>, k: nat, e: Expansion)
    requires Named(vars) && k < |vars| && vars[k] == FILES
    requires 0 <= e.i < |e.tokens| && e.tokens[e.i] == FILES
    requires |e.pkgs| > 0 && e.pkgs[0].onDisk
    ensures PkgVars(vars, k, e) == PkgVars(vars, k, FilesRound(e))
  {
    ContainsSelf(FILES);
    ReplaceWhole(FILES, e.pkgs[0].path);
    assert NextPkg(FILES, e.pkgs) == Some(0);
    assert RemoveAt(e.pkgs, 0) == e.pkgs[1..];
  }

  /** The loop step for "%files%" once no package on disk is left at the front. */
  lemma FilesStop(vars: seq<string>, k: nat, e: Expansion)
    requires Marked(vars) && k < |vars| && vars[k] == FILES
    requires 1 <= e.i < |e.tokens| && e.tokens[e.i] == FILES && Plain(e.tokens[e.i - 1])
    requires e.filesUsed && OnDiskRun(e.pkgs) == 0
    ensures PkgVars(vars, k, e) == PkgVars(vars, k + 1, AfterFiles(e))
  {
    ContainsSelf(FILES);
    assert NextPkg(FILES, e.pkgs).None?;
    var e' := e.(tokens := RemoveAt(e.tokens, e.i), i := e.i - 1);
    assert e'.tokens[e'.i] == e.tokens[e.i - 1];
    PlainHasNoVariable(e.tokens[e.i - 1], FILES);
    assert PkgVars(vars, k, e') == PkgVars(vars, k + 1, e');
    assert e.pkgs[..0] == [] && e.pkgs[0..] == e.pkgs;
    assert AfterFiles(e) == e';
  }

  /** The %files% loop once it has taken a package, up to the next variable. */
  lemma {:induction false} FilesLoop(vars: seq<string>, k: nat, e: Expansion)
    requires Marked(vars) && k < |vars| && vars[k] == FILES
    requires 1 <= e.i < |e.tokens| && e.tokens[e.i] == FILES && Plain(e.tokens[e.i - 1])
    requires e.filesUsed
    requires forall j :: 0 <= j < |e.pkgs| ==> Plain(e.pkgs[j].path)
    ensures PkgVars(vars, k, e) == PkgVars(vars, k + 1, AfterFiles(e))
    decreases |e.pkgs|
  {
    if OnDiskRun(e.pkgs) == 0 {
      FilesStop(vars, k, e);
    } else {
      FilesStep(vars, k, e);
      var r := FilesRound(e);
      assert Plain(r.tokens[r.i - 1]);
      FilesLoop(vars, k, r);
      AfterFilesRound(e);
    }
  }

  /**
   * A token that is exactly "%files%" becomes the paths of the packages on disk at the front of
   * the list, provided there is at least one.
   */
  lemma FilesToken(vars: seq<string>, k: nat, e: Expansion)
    requires Marked(vars) && k < |vars| && vars[k] == FILES
    requires 0 <= e.i < |e.tokens| && e.tokens[e.i] == FILES
    requires forall j :: 0 <= j < |e.pkgs| ==> Plain(e.pkgs[j].path)
    requires OnDiskRun(e.pkgs) > 0
    ensures PkgVars(vars, k, e) == Success(AfterFiles(e))
  {
    FilesStep(vars, k, e);
    var r := FilesRound(e);
    FilesLoop(vars, k, r);
    AfterFilesRound(e);
    PkgVarsSkipPlain(vars, k + 1, AfterFiles(e));
  }

  /** Without a package on disk at the front, a fresh "%files%" token ends the substitution. */
  lemma FilesTokenMissing(vars: seq<string>, k: nat, e: Expansion)
    requires Named(vars) && k < |vars| && vars[k] == FILES
    requires 0 <= e.i < |e.tokens| && e.tokens[e.i] == FILES && !e.filesUsed
    requires OnDiskRun(e.pkgs) == 0
    ensures PkgVars(vars, k, e) == Failure(NoMatchingPkg)
  {
    ContainsSelf(FILES);
    assert NextPkg(FILES, e.pkgs).None?;
  }

  // ---------------------------------------------------------------------------------------------
  // createTokens and run
  // ---------------------------------------------------------------------------------------------

  /**
   * `createTokens`: split the pattern, then substitute either the SFO variables of the first
   * package (when the pattern holds any) or the package variables of the whole selection.
   */
  function CreateTokens(vars: Variables, pkgs: seq<PkgRef>, pattern: string, fuel: nat): (r: Result<seq<string>, Fault>)
    requires Named(vars.sfo) && Named(vars.pattern)
    ensures r.Success? && AnyIn(vars.sfo, pattern) ==> |pkgs| > 0
    ensures r.Failure? && r.error == OutOfBounds && |pkgs| > 0 ==> !AnyIn(vars.sfo, pattern)
    ensures r.Failure? && (r.error == NoSfoValue || r.error == Endless) ==> AnyIn(vars.sfo, pattern)
  {
    var tokens :- Tokenize(pattern);
    if AnyIn(vars.sfo, pattern) then
      if |pkgs| == 0 then Failure(OutOfBounds)
      else SfoTokensAsWritten(vars.sfo, pkgs[0], tokens, fuel)
    else
      var e :- PkgTokens(vars.pattern, Expansion(tokens, 0, pkgs, false));
      Success(e.tokens)
  }

  /** One round of the outer loop that substitutes successfully. */
  lemma PkgTokensStep(vars: seq<string>, e: Expansion, a: Expansion)
    requires Named(vars) && 0 <= e.i < |e.tokens|
    requires PkgVars(vars, 0, e.(filesUsed := false)) == Success(a)
    ensures 0 <= a.i + 1
    ensures PkgTokens(vars, e) == PkgTokens(vars, a.(i := a.i + 1))
  {}

  /** The outer loop stops after the last token. */
  lemma PkgTokensDone(vars: seq<string>, e: Expansion)
    requires Named(vars) && 0 <= e.i && |e.tokens| <= e.i
    ensures PkgTokens(vars, e) == Success(e)
  {}

  /** Plain tokens pass through the outer loop untouched. */
  lemma {:induction false} PkgTokensSkipPlain(vars: seq<string>, e: Expansion, n: nat)
    requires Marked(vars) && 0 <= e.i <= n <= |e.tokens| && !e.filesUsed
    requires forall j :: e.i <= j < n ==> Plain(e.tokens[j])
    ensures PkgTokens(vars, e) == PkgTokens(vars, e.(i := n))
    decreases n - e.i
  {
    if e.i < n {
      PkgVarsSkipPlain(vars, 0, e);
      PkgTokensSkipPlain(vars, e.(i := e.i + 1), n);
    }
  }

  lemma {:induction false} OnDiskRunAll(pkgs: seq<PkgRef>)
    requires forall j :: 0 <= j < |pkgs| ==> pkgs[j].onDisk
    ensures OnDiskRun(pkgs) == |pkgs|
    decreases |pkgs|
  {
    if |pkgs| > 0 {
      OnDiskRunAll(pkgs[1..]);
    }
  }

  /** %files% is variable `k` and no variable before it occurs in "%files%". */
  predicate FilesAt(vars: seq<string>, k: nat) {
    Marked(vars) && k < |vars| && vars[k] == FILES
    && forall j :: 0 <= j < k ==> !Contains(FILES, vars[j])
  }

  /** Every package is on disk and its path holds no percent sign. */
  predicate PlainOnDisk(pkgs: seq<PkgRef>) {
    forall j :: 0 <= j < |pkgs| ==> pkgs[j].onDisk && Plain(pkgs[j].path)
  }

  /** With every package on disk, the last "%files%" token becomes all their paths. */
  lemma AfterFilesAll(e: Expansion)
    requires 0 <= e.i && e.i == |e.tokens| - 1 && OnDiskRun(e.pkgs) == |e.pkgs|
    ensures AfterFiles(e).tokens == e.tokens[..e.i] + Paths(e.pkgs)
  {
    assert e.tokens[e.i + 1..] == [];
    assert e.pkgs[..|e.pkgs|] == e.pkgs;
  }

  /** All variables of a "%files%" token, from the first one on. */
  lemma FilesAllVars(vars: seq<string>, k: nat, e: Expansion)
    requires FilesAt(vars, k)
    requires 0 <= e.i < |e.tokens| && e.tokens[e.i] == FILES
    requires forall j :: 0 <= j < |e.pkgs| ==> Plain(e.pkgs[j].path)
    requires OnDiskRun(e.pkgs) > 0
    ensures PkgVars(vars, 0, e) == Success(AfterFiles(e))
  {
    PkgVarsSkipTo(vars, 0, k, e);
    FilesToken(vars, k, e);
  }

  /** The last token "%files%" takes the packages on disk at the front, and the loop ends. */
  lemma FilesLastToken(vars: seq<string>, k: nat, e: Expansion)
    requires FilesAt(vars, k)
    requires 0 <= e.i && e.i == |e.tokens| - 1 && e.tokens[e.i] == FILES && !e.filesUsed
    requires PlainOnDisk(e.pkgs) && |e.pkgs| > 0
    ensures PkgTokens(vars, e) == Success(AfterFiles(e).(i := AfterFiles(e).i + 1))
  {
    assert e.(filesUsed := false) == e;
    OnDiskRunAll(e.pkgs);
    FilesAllVars(vars, k, e);
    var a := AfterFiles(e);
    PkgTokensStep(vars, e, a);
    PkgTokensDone(vars, a.(i := a.i + 1));
  }

  /** The package loop over plain words followed by "%files%". */
  lemma FilesTokens(vars: seq<string>, k: nat, words: seq<string>, pkgs: seq<PkgRef>)
    requires FilesAt(vars, k)
    requires forall j :: 0 <= j < |words| ==> Plain(words[j])
    requires PlainOnDisk(pkgs) && |pkgs| > 0
    ensures var r := PkgTokens(vars, Expansion(words + [FILES], 0, pkgs, false));
            r.Success? && r.value.tokens == words + Paths(pkgs)
  {
    var tokens := words + [FILES];
    var e := Expansion(tokens, 0, pkgs, false);
    PkgTokensSkipPlain(vars, e, |words|);
    var e1 := e.(i := |words|);
    assert tokens[..|words|] == words;
    FilesLastToken(vars, k, e1);
    OnDiskRunAll(pkgs);
    AfterFilesAll(e1);
  }

  /**
   * The usual plural pattern, plain words followed by %files%, runs the words followed by the
   * paths of the whole selection, when every selected file is on disk.
   */
  lemma FilesCommand(vars: Variables, k: nat, words: seq<string>, pkgs: seq<PkgRef>, fuel: nat)
    requires Named(vars.sfo) && FilesAt(vars.pattern, k)
    requires forall j :: 0 <= j < |words| ==> IsWord(words[j]) && Plain(words[j])
    requires !AnyIn(vars.sfo, Join(" ", words + [FILES]))
    requires PlainOnDisk(pkgs) && |pkgs| > 0
    ensures CreateTokens(vars, pkgs, Join(" ", words + [FILES]), fuel) == Success(words + Paths(pkgs))
  {
    var pattern := Join(" ", words + [FILES]);
    FilesPatternSplits(words);
    CreateTokensPkgBranch(vars, pkgs, pattern, words + [FILES], fuel);
    FilesTokens(vars.pattern, k, words, pkgs);
  }

  lemma FilesPatternSplits(words: seq<string>)
    requires forall j :: 0 <= j < |words| ==> IsWord(words[j])
    ensures Tokenize(Join(" ", words + [FILES])) == Success(words + [FILES])
  {
    var tokens := words + [FILES];
    FilesIsWord();
    assert forall j :: 0 <= j < |tokens| ==> IsWord(tokens[j]) by {
      forall j | 0 <= j < |tokens|
        ensures IsWord(tokens[j])
      {
        if j < |words| {
          assert tokens[j] == words[j];
        }
      }
    }
    TokenizeJoin(tokens);
  }

  lemma FilesIsWord()
    ensures IsWord(FILES)
  {
    assert FILES[0] == '%';
  }

  /** Without SFO variables, the tokens go through the package loop. */
  lemma CreateTokensPkgBranch(vars: Variables, pkgs: seq<PkgRef>, pattern: string, tokens: seq<string>, fuel: nat)
    requires Named(vars.sfo) && Named(vars.pattern)
    requires Tokenize(pattern) == Success(tokens) && !AnyIn(vars.sfo, pattern)
    ensures CreateTokens(vars, pkgs, pattern, fuel) ==
      match PkgTokens(vars.pattern, Expansion(tokens, 0, pkgs, false))
      case Success(e) => Success(e.tokens)
      case Failure(f) => Failure(f)
  {}

  const CONFIRM: string := "CONFIRM"

  /**
   * The pattern `run` hands to `createTokens`: a pattern starting with CONFIRM runs only after
   * the user agrees, without its first seven characters and trimmed.
   */
  function CommandToRun(pattern: string, confirmed: bool): (r: Option<string>)
    ensures !StartsWith(pattern, CONFIRM) ==> r == Some(pattern)
    ensures StartsWith(pattern, CONFIRM) ==> (r.Some? <==> confirmed)
    ensures r.Some? ==> |r.value| <= |pattern|
  {
    if StartsWith(pattern, CONFIRM) then
      if confirmed then Some(Trim(pattern[7..])) else None
    else Some(pattern)
  }

  /** The prefix and the blanks after it are gone; the command itself is kept. */
  lemma ConfirmedCommand(blanks: string, command: string)
    requires |blanks| > 0 && forall j :: 0 <= j < |blanks| ==> IsTrimmable(blanks[j])
    requires Trimmed(command)
    ensures CommandToRun(CONFIRM + blanks + command, true) == Some(command)
    ensures CommandToRun(CONFIRM + blanks + command, false).None?
  {
    var pattern := CONFIRM + blanks + command;
    assert pattern[..7] == CONFIRM;
    assert pattern[7..] == blanks + command + "";
    TrimAround(blanks, command, "");
  }

  /** Any pattern that merely starts with the letters CONFIRM loses them as well. */
  lemma ConfirmPrefixOfWord()
    ensures CommandToRun("CONFIRMED", true) == Some("ED")
  {
    var pattern := "CONFIRMED";
    assert pattern[..7] == CONFIRM;
    assert pattern[7..] == "" + "ED" + "";
    TrimAround("", "ED", "");
  }

  /** The packages `run` watches: local files that exist before the process starts. */
  function ExistingPkgs(pkgs: seq<PkgRef>): (r: seq<PkgRef>)
    ensures |r| <= |pkgs|
    ensures forall j :: 0 <= j < |r| ==> !StartsWith(r[j].path, "ftp://") && r[j].onDisk
  {
    if |pkgs| == 0 then []
    else
      var rest := ExistingPkgs(pkgs[1..]);
      if !StartsWith(pkgs[0].path, "ftp://") && pkgs[0].onDisk then [pkgs[0]] + rest else rest
  }

  /** Exactly the local packages on disk are watched. */
  lemma {:induction false} ExistingPkgsMembers(pkgs: seq<PkgRef>, p: PkgRef)
    ensures p in ExistingPkgs(pkgs) <==> p in pkgs && !StartsWith(p.path, "ftp://") && p.onDisk
  {
    if |pkgs| > 0 {
      ExistingPkgsMembers(pkgs[1..], p);
      assert pkgs == [pkgs[0]] + pkgs[1..];
    }
  }

  /** The paths the remover thread takes out of the tab: watched packages gone after the run. */
  function GoneAfterRun(watched: seq<PkgRef>, onDiskAfter: set<string>): (r: seq<string>)
    ensures |r| <= |watched|
    ensures forall j :: 0 <= j < |r| ==> r[j] !in onDiskAfter
  {
    if |watched| == 0 then []
    else
      var rest := GoneAfterRun(watched[1..], onDiskAfter);
      if watched[0].path !in onDiskAfter then [watched[0].path] + rest else rest
  }

  /** A removed path belongs to a package that was watched. */
  lemma {:induction false} GoneAfterRunWatched(watched: seq<PkgRef>, onDiskAfter: set<string>, x: string)
    ensures x in GoneAfterRun(watched, onDiskAfter) <==>
      x !in onDiskAfter && exists j :: 0 <= j < |watched| && watched[j].path == x
  {
    if |watched| > 0 {
      GoneAfterRunWatched(watched[1..], onDiskAfter, x);
      if exists j :: 0 <= j < |watched[1..]| && watched[1..][j].path == x {
        var j :| 0 <= j < |watched[1..]| && watched[1..][j].path == x;
        assert watched[j + 1].path == x;
      }
      if exists j :: 0 <= j < |watched| && watched[j].path == x {
        var j :| 0 <= j < |watched| && watched[j].path == x;
        if j > 0 {
          assert watched[1..][j - 1].path == x;
        }
      }
    }
  }

  /** What `run` ends in. */
  datatype Outcome =
    | Cancelled
    | Refused(fault: Fault)
    | Started(command: seq<string>, watched: seq<PkgRef>)

  /**
   * `run`: confirmation, tokens, the packages to watch, and the process; an empty command makes
   * `ProcessBuilder.start` throw. `fuel` bounds the SFO loop of `createTokens`.
   */
  function Run(vars: Variables, action: Action, pkgs: seq<PkgRef>, confirmed: bool, fuel: nat): (r: Outcome)
    requires Named(vars.sfo) && Named(vars.pattern)
    ensures r.Cancelled? <==> StartsWith(action.commandPattern, CONFIRM) && !confirmed
    ensures r.Started? ==> |r.command| > 0 && |r.watched| <= |pkgs|
  {
    match CommandToRun(action.commandPattern, confirmed)
    case None => Cancelled
    case Some(pattern) =>
      match CreateTokens(vars, pkgs, pattern, fuel)
      case Failure(f) => Refused(f)
      case Success(tokens) =>
        if |tokens| == 0 then Refused(OutOfBounds) else Started(tokens, ExistingPkgs(pkgs))
  }
}

=== FILE: customactions.dfy ===
/**
 * The custom actions (`CustomActions`): user-defined context-menu commands with placeholder
 * variables. This module holds the list side: which selections an action accepts, how the
 * editor rows become actions, and the "name | command" line format of the actions file.
 */
module CustomActions {
  import opened Wrappers
  import opened Strings

  /** A custom action: its menu name and the command pattern it runs. */
  datatype Action = Action(name: string, commandPattern: string)

  /**
   * What the custom actions read from a selected package: its identity, path and directory, the
   * param.sfo values CATEGORY, CONTENT_ID and TITLE_ID as `getSFOValue` returns them (None for
   * null), and whether the file currently exists (`onDisk`).
   */
  datatype PkgRef = PkgRef(id: nat, path: string, directory: string, category: Option<string>,
                           contentId: Option<string>, titleId: Option<string>, onDisk: bool)

  const APP: string := "%app%"
  const PATCH: string := "%patch%"
  const DLC: string := "%dlc%"
  const FILE: string := "%file%"
  const FILES: string := "%files%"

  // ---------------------------------------------------------------------------------------------
  // Counting variables
  // ---------------------------------------------------------------------------------------------

  /**
   * `countSubstrings`: the occurrences of `sub` found left to right, each search resuming after
   * the previous match, so occurrences do not overlap. An empty `sub` would make the loop run
   * forever; every caller passes a variable name.
   */
  function CountSubstrings(s: string, sub: string): (r: nat)
    requires |sub| > 0
    ensures r <= |s|
    decreases |s|
  {
    var next := IndexOf(s, sub);
    if next == -1 then 0
    else 1 + CountSubstrings(s[next + |sub|..], sub)
  }

  /** No occurrence is counted exactly when the text does not contain the variable at all. */
  lemma CountSubstringsZero(s: string, sub: string)
    requires |sub| > 0
    ensures CountSubstrings(s, sub) == 0 <==> !Contains(s, sub)
  {}

  /** The counted occurrences do not overlap, so together they fit in the text. */
  lemma {:induction false} CountSubstringsFit(s: string, sub: string)
    requires |sub| > 0
    ensures CountSubstrings(s, sub) * |sub| <= |s|
    decreases |s|
  {
    var next := IndexOf(s, sub);
    if next != -1 {
      var rest := s[next + |sub|..];
      var c := CountSubstrings(rest, sub);
      assert CountSubstrings(s, sub) == 1 + c;
      CountSubstringsFit(rest, sub);
      FitStep(c, |sub|, |rest|, |s|);
    }
  }

  lemma FitStep(c: nat, n: nat, restLength: nat, length: nat)
    requires c * n <= restLength && restLength + n <= length
    ensures (1 + c) * n <= length
  {
    assert (1 + c) * n == n + c * n;
  }

  /** `n` copies of `s` back to back. */
  function Repeat(s: string, n: nat): (r: string)
    ensures |r| == n * |s|
  {
    if n == 0 then "" else s + Repeat(s, n - 1)
  }

  /** Back-to-back copies of the variable count once each: matches do not overlap. */
  lemma {:induction false} CountRepeat(sub: string, n: nat)
    requires |sub| > 0
    ensures CountSubstrings(Repeat(sub, n), sub) == n
  {
    if n > 0 {
      var s := Repeat(sub, n);
      assert OccursAt(s, sub, 0) by {
        assert s[..|sub|] == sub;
      }
      assert IndexOf(s, sub) == 0;
      assert s[|sub|..] == Repeat(sub, n - 1);
      CountRepeat(sub, n - 1);
    }
  }

  /** Text without the variable's first character in front of it adds nothing to the count. */
  lemma CountAfterPrefix(p: string, sub: string, rest: string)
    requires |sub| > 0 && sub[0] !in p
    ensures CountSubstrings(p + sub + rest, sub) == 1 + CountSubstrings(rest, sub)
  {
    FirstOccurrenceAfter(p, sub, rest);
    assert (p + sub + rest)[|p| + |sub|..] == rest;
  }

  /** "%files%" does not count as a "%file%". */
  lemma FilesIsNotFile()
    ensures CountSubstrings(FILES, FILE) == 0
  {
    forall k | 0 <= k
      ensures !OccursAt(FILES, FILE, k)
    {
      if k == 0 {
        assert FILES[5] != FILE[5];
      } else if k == 1 {
        assert FILES[1] != FILE[0];
      }
    }
  }

  // ---------------------------------------------------------------------------------------------
  // Selection validity
  // ---------------------------------------------------------------------------------------------

  /** The package types a pattern can ask for. */
  datatype Kind = App | Patch | Dlc | OtherFile

  /**
   * How `isValidPkgSelection` classifies a package by its CATEGORY: gd… is an application, gp… a
   * patch, ac… additional content, and everything else, a missing value included, a plain file.
   */
  function KindOf(category: Option<string>): (k: Kind)
    ensures category.None? ==> k == OtherFile
    ensures k == App <==> category.Some? && StartsWith(category.value, "gd")
    ensures k == Patch <==> category.Some? && StartsWith(category.value, "gp")
    ensures k == Dlc <==>
      category.Some? && !StartsWith(category.value, "gd") && !StartsWith(category.value, "gp")
      && StartsWith(category.value, "ac")
    ensures k == OtherFile <==>
      category.None? || (!StartsWith(category.value, "gd") && !StartsWith(category.value, "gp")
                         && !StartsWith(category.value, "ac"))
  {
    match category
    case None => OtherFile
    case Some(c) =>
      if StartsWith(c, "gd") then App
      else if StartsWith(c, "gp") then Patch
      else if StartsWith(c, "ac") then Dlc
      else OtherFile
  }

  /** Numbers of applications, patches, DLCs and other files. */
  datatype Tally = Tally(apps: nat, patches: nat, dlcs: nat, files: nat)

  function Total(t: Tally): nat {
    t.apps + t.patches + t.dlcs + t.files
  }

  function Plus(a: Tally, b: Tally): Tally {
    Tally(a.apps + b.apps, a.patches + b.patches, a.dlcs + b.dlcs, a.files + b.files)
  }

  lemma PlusAssoc(x: Tally, y: Tally, z: Tally)
    ensures Plus(Plus(x, y), z) == Plus(x, Plus(y, z))
  {}

  function TallyOfKind(k: Kind): (t: Tally)
    ensures Total(t) == 1
  {
    match k
    case App => Tally(1, 0, 0, 0)
    case Patch => Tally(0, 1, 0, 0)
    case Dlc => Tally(0, 0, 1, 0)
    case OtherFile => Tally(0, 0, 0, 1)
  }

  /** The loop over the selection that counts each kind. */
  function TallyOf(pkgs: seq<PkgRef>): (r: Tally)
    ensures Total(r) == |pkgs|
  {
    if |pkgs| == 0 then Tally(0, 0, 0, 0)
    else Plus(TallyOf(pkgs[..|pkgs| - 1]), TallyOfKind(KindOf(pkgs[|pkgs| - 1].category)))
  }

  /** Counting a selection in two parts adds up. */
  lemma {:induction false} TallyOfConcat(a: seq<PkgRef>, b: seq<PkgRef>)
    ensures TallyOf(a + b) == Plus(TallyOf(a), TallyOf(b))
    decreases |b|
  {
    if |b| == 0 {
      assert a + b == a;
    } else {
      var b' := b[..|b| - 1];
      var last := TallyOfKind(KindOf(b[|b| - 1].category));
      assert (a + b)[..|a + b| - 1] == a + b';
      assert (a + b)[|a + b| - 1] == b[|b| - 1];
      assert TallyOf(a + b) == Plus(TallyOf(a + b'), last);
      assert TallyOf(b) == Plus(TallyOf(b'), last);
      TallyOfConcat(a, b');
      PlusAssoc(TallyOf(a), TallyOf(b'), last);
    }
  }

  /** The counts do not depend on the order of the selection. */
  lemma TallyOfSwap(a: seq<PkgRef>, b: seq<PkgRef>)
    ensures TallyOf(a + b) == TallyOf(b + a)
  {
    TallyOfConcat(a, b);
    TallyOfConcat(b, a);
  }

  /** How many packages of each kind a pattern requires: its singular variables. */
  function Required(pattern: string): Tally {
    Tally(CountSubstrings(pattern, APP), CountSubstrings(pattern, PATCH), CountSubstrings(pattern, DLC),
          CountSubstrings(pattern, FILE))
  }

  /** Packages left over once every singular variable has taken one (negative when short). */
  function Leftover(have: Tally, req: Tally): int {
    have.apps - req.apps + have.patches - req.patches + have.dlcs - req.dlcs + have.files - req.files
  }

  /** Enough applications, patches and DLCs for the pattern's typed variables. */
  predicate TypedSuffice(have: Tally, req: Tally) {
    have.apps >= req.apps && have.patches >= req.patches && have.dlcs >= req.dlcs
  }

  /**
   * The decision of `isValidPkgSelection` from the counts: a pattern without singular variables
   * accepts anything; too few typed packages reject; an exact match accepts unless "%files%" wants
   * more; otherwise the selection is accepted exactly when "no packages left over" differs from
   * "%files% present".
   */
  function Verdict(req: Tally, have: Tally, hasFiles: bool): (r: bool)
    ensures Total(req) == 0 ==> r
    ensures Total(req) > 0 && !TypedSuffice(have, req) ==> !r
  {
    if Total(req) == 0 then true
    else if have.apps < req.apps || have.patches < req.patches || have.dlcs < req.dlcs then false
    else if have == req then !hasFiles
    else (Leftover(have, req) == 0) != hasFiles
  }

  /**
   * The decision without its exact-match branch, which is a special case of the last one:
   * accepted iff the pattern needs nothing, or the typed packages suffice and "nothing left over"
   * differs from "%files% present".
   */
  lemma VerdictSimplified(req: Tally, have: Tally, hasFiles: bool)
    ensures Verdict(req, have, hasFiles)
            <==> Total(req) == 0 || (TypedSuffice(have, req) && (Leftover(have, req) == 0) != hasFiles)
  {}

  /** `isValidPkgSelection` as written. */
  function IsValidPkgSelection(pattern: string, pkgs: seq<PkgRef>): (r: bool)
    ensures Total(Required(pattern)) == 0 ==> r
    ensures Total(Required(pattern)) > 0 && !TypedSuffice(TallyOf(pkgs), Required(pattern)) ==> !r
  {
    Verdict(Required(pattern), TallyOf(pkgs), Contains(pattern, FILES))
  }

  /**
   * The decision as the action needs it: besides what `isValidPkgSelection` asks, the singular
   * variables must not need more packages than were selected, and "%files%" needs one more.
   */
  function CorrectedVerdict(req: Tally, have: Tally, hasFiles: bool): (r: bool)
    ensures r && Total(req) > 0 ==>
      TypedSuffice(have, req) && Total(req) + (if hasFiles then 1 else 0) <= Total(have)
  {
    Total(req) == 0
    || (TypedSuffice(have, req) && Leftover(have, req) >= 0 && (Leftover(have, req) == 0) != hasFiles)
  }

  /** Whenever the selection is not short of packages, both decisions agree. */
  lemma CorrectedVerdictAgrees(req: Tally, have: Tally, hasFiles: bool)
    requires Leftover(have, req) >= 0
    ensures CorrectedVerdict(req, have, hasFiles) == Verdict(req, have, hasFiles)
  {}

  /**
   * With enough packages for every variable, the corrected decision accepts exactly the
   * selections that have a package to spare for "%files%" when it is present and none otherwise.
   */
  lemma CorrectedVerdictComplete(req: Tally, have: Tally, hasFiles: bool)
    requires Total(req) > 0 && TypedSuffice(have, req)
    ensures CorrectedVerdict(req, have, hasFiles)
            <==> (if hasFiles then Total(have) > Total(req) else Total(have) == Total(req))
  {}

  /** The corrected selection check: the corrected decision over the selection's counts. */
  function IsValidSelection(pattern: string, pkgs: seq<PkgRef>): (r: bool)
    ensures r && Total(Required(pattern)) > 0 ==>
      TypedSuffice(TallyOf(pkgs), Required(pattern))
      && Total(Required(pattern)) + (if Contains(pattern, FILES) then 1 else 0) <= |pkgs|
  {
    CorrectedVerdict(Required(pattern), TallyOf(pkgs), Contains(pattern, FILES))
  }

  /**
   * Two plain files asked for, plus "%files%", and a single application package: the counts
   * `isValidPkgSelection` accepts although one package cannot fill two variables.
   */
  lemma ShortCountsAccepted()
    ensures Verdict(Tally(0, 0, 0, 2), Tally(1, 0, 0, 0), true)
    ensures !CorrectedVerdict(Tally(0, 0, 0, 2), Tally(1, 0, 0, 0), true)
  {}

  /** The pattern of the counterexample, and what it requires. */
  const SHORT_PATTERN: string := FILE + " " + FILE + " " + FILES

  lemma ShortPatternCounts()
    ensures Required(SHORT_PATTERN) == Tally(0, 0, 0, 2)
    ensures Contains(SHORT_PATTERN, FILES)
  {
    ShortPatternFiles();
    ShortPatternNoTyped();
    ShortPatternHasFiles();
  }

  lemma ShortPatternFiles()
    ensures CountSubstrings(SHORT_PATTERN, FILE) == 2
  {
    var tail := " " + FILES;
    assert SHORT_PATTERN == "" + FILE + (" " + FILE + tail);
    CountAfterPrefix("", FILE, " " + FILE + tail);
    CountAfterPrefix(" ", FILE, tail);
    NotInTail(tail);
  }

  lemma ShortPatternNoTyped()
    ensures CountSubstrings(SHORT_PATTERN, APP) == 0
    ensures CountSubstrings(SHORT_PATTERN, PATCH) == 0
    ensures CountSubstrings(SHORT_PATTERN, DLC) == 0
  {
    NoVariable(SHORT_PATTERN, APP);
    NoVariable(SHORT_PATTERN, PATCH);
    NoVariable(SHORT_PATTERN, DLC);
  }

  lemma ShortPatternHasFiles()
    ensures Contains(SHORT_PATTERN, FILES)
  {
    var head := FILE + " " + FILE + " ";
    assert SHORT_PATTERN == head + FILES;
    assert OccursAt(SHORT_PATTERN, FILES, |head|) by {
      assert (head + FILES)[|head|..|head| + |FILES|] == FILES;
    }
    ContainsOccurs(SHORT_PATTERN, FILES);
  }

  lemma NotInTail(tail: string)
    requires tail == " " + FILES
    ensures CountSubstrings(tail, FILE) == 0
  {
    forall k | 0 <= k
      ensures !OccursAt(tail, FILE, k)
    {
      if k + |FILE| <= |tail| {
        assert tail[k..k + |FILE|][0] == tail[k] && tail[k..k + |FILE|][5] == tail[k + 5];
        assert tail[k] != FILE[0] || tail[k + 5] != FILE[5];
      }
    }
  }

  /** A variable whose second character does not occur in `s` does not occur in it either. */
  lemma NoVariable(s: string, v: string)
    requires |v| >= 2 && v[1] !in s
    ensures CountSubstrings(s, v) == 0
  {
    forall k | 0 <= k
      ensures !OccursAt(s, v, k)
    {
      if k + |v| <= |s| {
        assert s[k..k + |v|][1] == s[k + 1] != v[1];
      }
    }
  }

  /** A selection of one package counts that package's kind. */
  lemma TallyOfSingle(pkg: PkgRef)
    ensures TallyOf([pkg]) == TallyOfKind(KindOf(pkg.category))
  {
    assert [pkg][..0] == [];
    PlusZero(TallyOfKind(KindOf(pkg.category)));
  }

  lemma PlusZero(t: Tally)
    ensures Plus(Tally(0, 0, 0, 0), t) == t
  {}

  /**
   * The whole counterexample: one application package and the pattern "%file% %file% %files%".
   * `isValidPkgSelection` enables the action; the corrected check does not.
   */
  lemma ShortSelectionAccepted(app: PkgRef)
    requires app.category == Some("gd")
    ensures IsValidPkgSelection(SHORT_PATTERN, [app])
    ensures !IsValidSelection(SHORT_PATTERN, [app])
  {
    assert KindOf(app.category) == App by {
      assert StartsWith("gd", "gd");
    }
    TallyOfSingle(app);
    ShortPatternCounts();
    ShortCountsAccepted();
  }

  /**
   * The enabled state of each custom action's menu entry for a selection, decided by
   * `isValidPkgSelection` as written: an action whose pattern needs no package is always enabled,
   * and one whose typed variables the selection cannot fill never is.
   */
  function MenuEnabled(actions: seq<Action>, pkgs: seq<PkgRef>): (r: seq<bool>)
    ensures |r| == |actions|
    ensures forall i :: 0 <= i < |actions| && Total(Required(actions[i].commandPattern)) == 0 ==> r[i]
    ensures forall i :: (0 <= i < |actions| && Total(Required(actions[i].commandPattern)) > 0
                         && !TypedSuffice(TallyOf(pkgs), Required(actions[i].commandPattern))) ==> !r[i]
  {
    seq(|actions|, i requires 0 <= i < |actions| => IsValidPkgSelection(actions[i].commandPattern, pkgs))
  }

  /** The menu as the action needs it: an entry is only enabled when the selection can fill the pattern. */
  function CorrectedMenuEnabled(actions: seq<Action>, pkgs: seq<PkgRef>): (r: seq<bool>)
    ensures |r| == |actions|
    ensures forall i :: 0 <= i < |actions| && r[i] && Total(Required(actions[i].commandPattern)) > 0 ==>
              Total(Required(actions[i].commandPattern))
              + (if Contains(actions[i].commandPattern, FILES) then 1 else 0) <= |pkgs|
  {
    seq(|actions|, i requires 0 <= i < |actions| => IsValidSelection(actions[i].commandPattern, pkgs))
  }

  /** Both menus agree on every action whose pattern the selection is not short for. */
  lemma MenusAgree(actions: seq<Action>, pkgs: seq<PkgRef>, i: nat)
    requires i < |actions| && Leftover(TallyOf(pkgs), Required(actions[i].commandPattern)) >= 0
    ensures MenuEnabled(actions, pkgs)[i] == CorrectedMenuEnabled(actions, pkgs)[i]
  {
    var pattern := actions[i].commandPattern;
    CorrectedVerdictAgrees(Required(pattern), TallyOf(pkgs), Contains(pattern, FILES));
  }

  /** The menu as written enables "%file% %file% %files%" for a single application package; the corrected one does not. */
  lemma ShortSelectionEnabled(name: string, app: PkgRef)
    requires app.category == Some("gd")
    ensures MenuEnabled([Action(name, SHORT_PATTERN)], [app]) == [true]
    ensures CorrectedMenuEnabled([Action(name, SHORT_PATTERN)], [app]) == [false]
  {
    ShortSelectionAccepted(app);
  }

  // ---------------------------------------------------------------------------------------------
  // The editor
  // ---------------------------------------------------------------------------------------------

  /** One row of the editor: the texts in its name and command fields. */
  datatype EditRow = EditRow(nameText: string, commandText: string)

  /** The action an editor row describes: vertical bars removed from the name, both fields stripped. */
  function ActionOfRow(row: EditRow): (a: Action)
    ensures '|' !in a.name
    ensures Strip(a.name) == a.name && Strip(a.commandPattern) == a.commandPattern
  {
    var cleaned := Replace(row.nameText, "|", "");
    ReplaceRemovesChar(row.nameText, '|');
    var name := Strip(cleaned);
    StripByFixpoint(name, IsWhitespace);
    StripByFixpoint(Strip(row.commandText), IsWhitespace);
    Action(name, Strip(row.commandText))
  }

  /** An action with neither a name nor a command. */
  predicate IsBlank(a: Action) {
    a.name == "" && a.commandPattern == ""
  }

  /** `f` applied to every element. */
  function MapSeq<T, U>(s: seq<T>, f: T -> U): (r: seq<U>)
    ensures |r| == |s|
    ensures forall k :: 0 <= k < |s| ==> r[k] == f(s[k])
  {
    seq(|s|, k requires 0 <= k < |s| => f(s[k]))
  }

  lemma MapSeqSnoc<T, U>(s: seq<T>, x: T, f: T -> U)
    ensures MapSeq(s + [x], f) == MapSeq(s, f) + [f(x)]
  {}

  /** The action of every editor row, blank or not. */
  function RowActions(rows: seq<EditRow>): (r: seq<Action>)
    ensures |r| == |rows|
  {
    MapSeq(rows, ActionOfRow)
  }

  /** The actions in order, blank ones skipped. */
  function NonBlank(actions: seq<Action>): (r: seq<Action>)
    ensures |r| <= |actions|
    ensures forall k :: 0 <= k < |r| ==> !IsBlank(r[k])
  {
    if |actions| == 0 then []
    else (if IsBlank(actions[0]) then [] else [actions[0]]) + NonBlank(actions[1..])
  }

  /** Skipping blanks keeps every property all the actions had. */
  lemma {:induction false} NonBlankKeeps(actions: seq<Action>, p: Action -> bool)
    requires forall k :: 0 <= k < |actions| ==> p(actions[k])
    ensures forall k :: 0 <= k < |NonBlank(actions)| ==> p(NonBlank(actions)[k])
  {
    if |actions| > 0 {
      NonBlankKeeps(actions[1..], p);
      var head := if IsBlank(actions[0]) then [] else [actions[0]];
      var r := NonBlank(actions);
      assert r == head + NonBlank(actions[1..]);
      forall k | 0 <= k < |r|
        ensures p(r[k])
      {
        if k >= |head| {
          assert r[k] == NonBlank(actions[1..])[k - |head|];
        }
      }
    }
  }

  /** Without blanks there is nothing to skip. */
  lemma {:induction false} NonBlankAll(actions: seq<Action>)
    requires forall k :: 0 <= k < |actions| ==> !IsBlank(actions[k])
    ensures NonBlank(actions) == actions
  {
    if |actions| > 0 {
      NonBlankAll(actions[1..]);
      ConsSplit(actions);
    }
  }

  /** Skipping blanks one action at a time from the end. */
  lemma {:induction false} NonBlankSnoc(actions: seq<Action>, a: Action)
    ensures NonBlank(actions + [a]) == NonBlank(actions) + (if IsBlank(a) then [] else [a])
  {
    if |actions| > 0 {
      assert (actions + [a])[1..] == actions[1..] + [a];
      NonBlankSnoc(actions[1..], a);
    } else {
      assert actions + [a] == [a];
    }
  }

  /** The actions of the editor rows in order, blank ones skipped. */
  function EditedActions(rows: seq<EditRow>): (r: seq<Action>)
    ensures |r| <= |rows|
    ensures forall k :: 0 <= k < |r| ==> !IsBlank(r[k])
  {
    NonBlank(RowActions(rows))
  }

  /** What the editor saves has no bar in a name and needs no further stripping. */
  lemma EditedActionsClean(rows: seq<EditRow>)
    ensures forall k :: 0 <= k < |EditedActions(rows)| ==>
      '|' !in EditedActions(rows)[k].name
      && Strip(EditedActions(rows)[k].name) == EditedActions(rows)[k].name
      && Strip(EditedActions(rows)[k].commandPattern) == EditedActions(rows)[k].commandPattern
  {
    NonBlankKeeps(RowActions(rows),
                  (a: Action) => '|' !in a.name && Strip(a.name) == a.name && Strip(a.commandPattern) == a.commandPattern);
  }

  /** A row whose fields hold only whitespace and bars adds no action; any other row adds one. */
  lemma EditedActionsSnoc(rows: seq<EditRow>, row: EditRow)
    ensures IsBlank(ActionOfRow(row)) ==> EditedActions(rows + [row]) == EditedActions(rows)
    ensures !IsBlank(ActionOfRow(row)) ==> EditedActions(rows + [row]) == EditedActions(rows) + [ActionOfRow(row)]
  {
    MapSeqSnoc(rows, row, ActionOfRow);
    NonBlankSnoc(RowActions(rows), ActionOfRow(row));
  }

  /** Every row that is not blank becomes exactly one action, in order. */
  lemma EditedActionsKeepAll(rows: seq<EditRow>)
    requires forall k :: 0 <= k < |rows| ==> !IsBlank(ActionOfRow(rows[k]))
    ensures EditedActions(rows) == RowActions(rows)
  {
    NonBlankAll(RowActions(rows));
  }

  /**
   * `saveActionsToBuffer`: "Apply and Close" replaces the actions by those of the editor rows.
   * With no row at all it returns early and the previous actions stay.
   */
  function SaveActionsToBuffer(previous: Option<seq<Action>>, rows: seq<EditRow>): (r: Option<seq<Action>>)
    ensures |rows| == 0 ==> r == previous
    ensures |rows| > 0 ==> r == Some(EditedActions(rows))
  {
    if |rows| == 0 then previous else Some(EditedActions(rows))
  }

  // ---------------------------------------------------------------------------------------------
  // The actions file
  // ---------------------------------------------------------------------------------------------

  /** The line an action is saved as. */
  function ActionLine(a: Action): string {
    a.name + " | " + a.commandPattern
  }

  /** The file's text: one line per action, each ended by '\n'. */
  function FileText(actions: seq<Action>): (r: string)
    ensures |actions| > 0 ==> r == ActionLine(actions[0]) + "\n" + FileText(actions[1..])
  {
    if |actions| == 0 then "" else ActionLine(actions[0]) + "\n" + FileText(actions[1..])
  }

  /** `saveActionsToFile`: the text written, or None when there are no actions and nothing is written. */
  function SaveActionsToFile(actions: Option<seq<Action>>): (r: Option<string>)
    ensures r.Some? <==> actions.Some?
  {
    match actions
    case None => None
    case Some(a) => Some(FileText(a))
  }

  predicate IsLineBreak(c: char) {
    c == '\n' || c == '\r'
  }

  /** The first line break at or after `i`, or |s|. */
  function LineEnd(s: string, i: nat): (r: nat)
    requires i <= |s|
    ensures i <= r <= |s|
    ensures forall k :: i <= k < r ==> !IsLineBreak(s[k])
    ensures r < |s| ==> IsLineBreak(s[r])
    decreases |s| - i
  {
    if i == |s| || IsLineBreak(s[i]) then i else LineEnd(s, i + 1)
  }

  /**
   * The lines `BufferedReader.readLine` returns until it returns null: lines end at "\n", "\r"
   * or "\r\n", and a last line without a terminator counts if it is not empty.
   */
  function ReadLines(s: string): (r: seq<string>)
    ensures forall k :: 0 <= k < |r| ==> forall j :: 0 <= j < |r[k]| ==> !IsLineBreak(r[k][j])
    decreases |s|
  {
    if |s| == 0 then []
    else
      var k := LineEnd(s, 0);
      if k == |s| then [s]
      else if s[k] == '\r' && k + 1 < |s| && s[k + 1] == '\n' then [s[..k]] + ReadLines(s[k + 2..])
      else [s[..k]] + ReadLines(s[k + 1..])
  }

  /**
   * One line of `loadActionsFromFile`: trimmed, split at its first '|', both sides trimmed. A line
   * without '|' makes `substring(0, -1)` throw (None).
   */
  function ParseLine(line: string): (r: Option<Action>)
    ensures r.Some? <==> '|' in Trim(line)
    ensures r.Some? ==> Trimmed(r.value.name) && Trimmed(r.value.commandPattern) && '|' !in r.value.name
  {
    var t := Trim(line);
    var bar := IndexOfChar(t, '|', 0);
    if bar == -1 then None
    else
      var name := Trim(t[..bar]);
      TrimmedIsSlice(t[..bar]);
      Some(Action(name, Trim(t[bar + 1..])))
  }

  /** Trimming twice is trimming once. */
  lemma TrimmedIsTrimmed(s: string)
    ensures Trim(Trim(s)) == Trim(s)
  {
    StripByFixpoint(Trim(s), IsTrimmable);
  }

  /** `trim` only drops characters, so it cannot bring in a new one. */
  lemma TrimmedIsSlice(s: string)
    ensures forall c :: c in Trim(s) ==> c in s
  {
    StripBySlice(s, IsTrimmable);
    var a, b :| 0 <= a <= b <= |s| && Trim(s) == s[a..b];
    SliceMembers(s, a, b);
  }

  /** Every element of a slice is an element of the whole. */
  lemma SliceMembers<T>(s: seq<T>, a: nat, b: nat)
    requires a <= b <= |s|
    ensures forall c :: c in s[a..b] ==> c in s
  {
    forall c | c in s[a..b]
      ensures c in s
    {
      var k :| 0 <= k < b - a && s[a..b][k] == c;
      assert s[a + k] == c;
    }
  }

  /** Every line in turn through `parse`; the first line that fails ends the whole load. */
  function ParseAll<T>(lines: seq<string>, parse: string -> Option<T>): (r: Option<seq<T>>)
    ensures r.Some? ==> |r.value| == |lines|
  {
    if |lines| == 0 then Some([])
    else
      match parse(lines[0])
      case None => None
      case Some(a) =>
        match ParseAll(lines[1..], parse)
        case None => None
        case Some(rest) => Some([a] + rest)
  }

  /** One failing line fails the load. */
  lemma {:induction false} ParseAllStops<T>(lines: seq<string>, parse: string -> Option<T>, k: nat)
    requires k < |lines| && parse(lines[k]).None?
    ensures ParseAll(lines, parse).None?
  {
    if k > 0 {
      assert lines[1..][k - 1] == lines[k];
      ParseAllStops(lines[1..], parse, k - 1);
    }
  }

  /** When every line parses, the load yields each line's result in order. */
  lemma {:induction false} ParseAllSucceeds<T>(lines: seq<string>, parse: string -> Option<T>)
    requires forall k :: 0 <= k < |lines| ==> parse(lines[k]).Some?
    ensures ParseAll(lines, parse).Some?
    ensures forall k :: 0 <= k < |lines| ==> ParseAll(lines, parse).value[k] == parse(lines[k]).value
  {
    if |lines| > 0 {
      assert forall k :: 0 <= k < |lines| - 1 ==> lines[1..][k] == lines[k + 1];
      ParseAllSucceeds(lines[1..], parse);
    }
  }

  /** The lines of the actions file, each parsed by `ParseLine`. */
  function ParseLines(lines: seq<string>): (r: Option<seq<Action>>)
    ensures r.Some? ==> |r.value| == |lines|
  {
    ParseAll(lines, ParseLine)
  }

  /**
   * The exception `loadActionsFromFile` lets escape: `substring(0, -1)` on a line without '|'
   * throws StringIndexOutOfBoundsException, which neither of its handlers catches.
   */
  datatype LoadEscape = StringIndexOutOfBounds

  /**
   * `loadActionsFromFile`: a file that cannot be opened leaves an empty action list, the end of
   * the file ends the load normally, and a line without a bar escapes as an exception.
   */
  function LoadActionsFromFile(file: Option<string>): (r: Result<seq<Action>, LoadEscape>)
    ensures file.None? ==> r == Success([])
    ensures file.Some? ==> (r.Failure? <==> ParseLines(ReadLines(file.value)).None?)
    ensures r.Success? && file.Some? ==> |r.value| == |ReadLines(file.value)|
  {
    match file
    case None => Success([])
    case Some(text) =>
      match ParseLines(ReadLines(text))
      case Some(actions) => Success(actions)
      case None => Failure(StringIndexOutOfBounds)
  }

  /** The load escapes exactly when some line of the file, trimmed, holds no bar. */
  lemma LoadEscapesWithoutBar(text: string)
    ensures LoadActionsFromFile(Some(text)).Failure?
            <==> exists k :: 0 <= k < |ReadLines(text)| && '|' !in Trim(ReadLines(text)[k])
  {
    var lines := ReadLines(text);
    if exists k :: 0 <= k < |lines| && '|' !in Trim(lines[k]) {
      var k :| 0 <= k < |lines| && '|' !in Trim(lines[k]);
      assert ParseLine(lines[k]).None?;
      ParseAllStops(lines, ParseLine, k);
      assert ParseLines(lines).None?;
      assert LoadActionsFromFile(Some(text)).Failure?;
      assert exists j :: 0 <= j < |ReadLines(text)| && '|' !in Trim(ReadLines(text)[j]);
    } else {
      ParseAllSucceeds(lines, ParseLine);
    }
  }

  /** A blank line between two lines escapes, as does any line without a bar. */
  lemma BlankLineEscapes(before: string, after: string)
    requires forall j :: 0 <= j < |before| ==> !IsLineBreak(before[j])
    ensures LoadActionsFromFile(Some(before + "\n" + ("\n" + after))).Failure?
  {
    ReadLinesCons(before, "\n" + after);
    ReadLinesCons("", after);
    assert "" + "\n" + after == "\n" + after;
    assert ReadLines(before + "\n" + ("\n" + after))[1] == "";
    assert Trim("") == "";
    LoadEscapesWithoutBar(before + "\n" + ("\n" + after));
  }

  /** What the line format can carry: no bar in the name, no line break, nothing to trim. */
  predicate Storable(a: Action) {
    '|' !in a.name
    && (forall j :: 0 <= j < |a.name| ==> !IsLineBreak(a.name[j]))
    && (forall j :: 0 <= j < |a.commandPattern| ==> !IsLineBreak(a.commandPattern[j]))
    && Trimmed(a.name) && Trimmed(a.commandPattern)
  }

  /** Neither end of `s` is a character `trim` removes. */
  predicate Trimmed(s: string) {
    |s| > 0 ==> !IsTrimmable(s[0]) && !IsTrimmable(s[|s| - 1])
  }

  /** A string is `Trimmed` exactly when `trim` leaves it alone. */
  lemma TrimmedIsFixpoint(s: string)
    ensures Trimmed(s) <==> Trim(s) == s
  {
    if Trimmed(s) {
      StripByFixpoint(s, IsTrimmable);
    }
  }

  /** The blank that separates a non-empty field from the bar. */
  function Gap(field: string): string {
    if field == "" then "" else " "
  }

  /** A saved line once `trim` has removed the blank that an empty field leaves at either end. */
  function TrimmedLine(a: Action): string {
    a.name + Gap(a.name) + "|" + Gap(a.commandPattern) + a.commandPattern
  }

  lemma TrimActionLine(a: Action)
    requires Storable(a)
    ensures Trim(ActionLine(a)) == TrimmedLine(a)
  {
    var name, command := a.name, a.commandPattern;
    var t := TrimmedLine(a);
    if name == "" {
      if command == "" {
        assert ActionLine(a) == " " + t + " ";
        TrimAround(" ", t, " ");
      } else {
        assert ActionLine(a) == " " + t + "";
        assert t[|t| - 1] == command[|command| - 1];
        TrimAround(" ", t, "");
      }
    } else {
      assert t[0] == name[0];
      if command == "" {
        assert ActionLine(a) == "" + t + " ";
        TrimAround("", t, " ");
      } else {
        assert ActionLine(a) == "" + t + "";
        assert t[|t| - 1] == command[|command| - 1];
        TrimAround("", t, "");
      }
    }
  }

  lemma TrimmedLineBar(a: Action)
    requires '|' !in a.name
    ensures IndexOfChar(TrimmedLine(a), '|', 0) == |a.name| + |Gap(a.name)|
  {
    var t := TrimmedLine(a);
    var bar := |a.name| + |Gap(a.name)|;
    assert t[bar] == '|';
    forall k | 0 <= k < bar
      ensures t[k] != '|'
    {
      if k < |a.name| {
        assert t[k] == a.name[k];
      }
    }
  }

  lemma TrimmedLineSides(a: Action)
    requires Storable(a)
    ensures Trim(TrimmedLine(a)[..|a.name| + |Gap(a.name)|]) == a.name
    ensures Trim(TrimmedLine(a)[|a.name| + |Gap(a.name)| + 1..]) == a.commandPattern
  {
    TrimmedLineName(a);
    TrimmedLineCommand(a);
  }

  lemma TrimmedLineName(a: Action)
    requires Storable(a)
    ensures Trim(TrimmedLine(a)[..|a.name| + |Gap(a.name)|]) == a.name
  {
    var t := TrimmedLine(a);
    var bar := |a.name| + |Gap(a.name)|;
    assert t[..bar] == "" + a.name + Gap(a.name);
    TrimAround("", a.name, Gap(a.name));
  }

  lemma TrimmedLineCommand(a: Action)
    requires Trimmed(a.commandPattern)
    ensures Trim(TrimmedLine(a)[|a.name| + |Gap(a.name)| + 1..]) == a.commandPattern
  {
    var command := a.commandPattern;
    var after := TrimmedLine(a)[|a.name| + |Gap(a.name)| + 1..];
    assert after == Gap(command) + command;
    if command == "" {
      assert after == "" + command + "";
      TrimAround("", command, "");
    } else {
      assert after == " " + command + "";
      TrimAround(" ", command, "");
    }
  }

  /** A saved line reads back as the action it was written from. */
  lemma ParseActionLine(a: Action)
    requires Storable(a)
    ensures ParseLine(ActionLine(a)) == Some(a)
  {
    SplitActionLine(a);
    TrimmedLineSides(a);
  }

  /** A saved line is split at the bar that follows the name. */
  lemma SplitActionLine(a: Action)
    requires Storable(a)
    ensures ParseLine(ActionLine(a))
            == Some(Action(Trim(TrimmedLine(a)[..|a.name| + |Gap(a.name)|]),
                           Trim(TrimmedLine(a)[|a.name| + |Gap(a.name)| + 1..])))
  {
    var line, t, bar := ActionLine(a), TrimmedLine(a), |a.name| + |Gap(a.name)|;
    TrimActionLine(a);
    TrimmedLineBar(a);
    ParseLineAt(line, t, bar);
  }

  /** A line that trims to `t`, whose first bar is at `bar`, is split there. */
  lemma ParseLineAt(line: string, t: string, bar: nat)
    requires Trim(line) == t && IndexOfChar(t, '|', 0) == bar
    ensures ParseLine(line) == Some(Action(Trim(t[..bar]), Trim(t[bar + 1..])))
  {}

  /** The lines of the saved file, one per action. */
  function Lines(actions: seq<Action>): (r: seq<string>)
    ensures |r| == |actions|
    ensures forall k :: 0 <= k < |actions| ==> r[k] == ActionLine(actions[k])
  {
    if |actions| == 0 then [] else [ActionLine(actions[0])] + Lines(actions[1..])
  }

  /** A storable action's line holds no line break. */
  lemma ActionLineUnbroken(a: Action)
    requires Storable(a)
    ensures forall j :: 0 <= j < |ActionLine(a)| ==> !IsLineBreak(ActionLine(a)[j])
  {
    var line := ActionLine(a);
    forall j | 0 <= j < |line|
      ensures !IsLineBreak(line[j])
    {
      if j < |a.name| {
        assert line[j] == a.name[j];
      } else if j >= |a.name| + 3 {
        assert line[j] == a.commandPattern[j - |a.name| - 3];
      }
    }
  }

  /** A line without line breaks, ended by '\n', is read as that line. */
  lemma ReadLinesCons(line: string, rest: string)
    requires forall j :: 0 <= j < |line| ==> !IsLineBreak(line[j])
    ensures ReadLines(line + "\n" + rest) == [line] + ReadLines(rest)
  {
    var s := line + "\n" + rest;
    assert LineEnd(s, 0) == |line| by {
      assert s[|line|] == '\n';
      forall j | 0 <= j < |line|
        ensures !IsLineBreak(s[j])
      {
        assert s[j] == line[j];
      }
    }
    assert s[..|line|] == line;
    assert s[|line| + 1..] == rest;
  }

  /** The saved file reads back as its lines. */
  lemma {:induction false} ReadLinesOfFileText(actions: seq<Action>)
    requires forall k :: 0 <= k < |actions| ==> Storable(actions[k])
    ensures ReadLines(FileText(actions)) == Lines(actions)
  {
    if |actions| > 0 {
      ActionLineUnbroken(actions[0]);
      ReadLinesCons(ActionLine(actions[0]), FileText(actions[1..]));
      ReadLinesOfFileText(actions[1..]);
    }
  }

  /** Each line parses back to its action. */
  lemma ParseLinesOfActions(actions: seq<Action>)
    requires forall k :: 0 <= k < |actions| ==> Storable(actions[k])
    ensures ParseLines(Lines(actions)) == Some(actions)
  {
    var lines := Lines(actions);
    forall k | 0 <= k < |lines|
      ensures ParseLine(lines[k]) == Some(actions[k])
    {
      ParseActionLine(actions[k]);
    }
    ParseAllSucceeds(lines, ParseLine);
    SameElements(ParseAll(lines, ParseLine).value, actions);
  }

  lemma SameElements<T>(a: seq<T>, b: seq<T>)
    requires |a| == |b| && forall k :: 0 <= k < |a| ==> a[k] == b[k]
    ensures a == b
  {}

  lemma ConsSplit<T>(s: seq<T>)
    requires |s| > 0
    ensures s == [s[0]] + s[1..]
  {}

  /** Saving actions and loading the file back gives the same actions. */
  lemma SaveLoadRoundTrip(actions: seq<Action>)
    requires forall k :: 0 <= k < |actions| ==> Storable(actions[k])
    ensures LoadActionsFromFile(SaveActionsToFile(Some(actions))) == Success(actions)
  {
    ReadLinesOfFileText(actions);
    ParseLinesOfActions(actions);
  }

  /**
   * A name that `strip` leaves alone can still lose characters on the way through the file:
   * `trim` also removes control characters that are not whitespace, such as U+0001.
   */
  lemma StrippedNameCanChange()
    ensures Strip("\U{0001}x") == "\U{0001}x"
    ensures ParseLine(ActionLine(Action("\U{0001}x", "c"))) == Some(Action("x", "c"))
  {
    StripByFixpoint("\U{0001}x", IsWhitespace);
    var line := ActionLine(Action("\U{0001}x", "c"));
    assert line == "\U{0001}" + "x | c" + "";
    TrimAround("\U{0001}", "x | c", "");
    var t := "x | c";
    assert IndexOfChar(t, '|', 0) == 2;
    assert t[..2] == "" + "x" + " ";
    TrimAround("", "x", " ");
    assert t[3..] == " " + "c" + "";
    TrimAround(" ", "c", "");
  }
}

=== FILE: decimal.dfy ===
/**
 * Decimal text of integers as Java writes it (`String.valueOf`, `%d`, string concatenation) and
 * reads it (`Integer.valueOf`, `Integer.parseInt`, `Long.valueOf`, `Long.parseLong`).
 */
module Decimal {
  import opened Wrappers
  import opened JavaInt

  predicate IsDigit(c: char) {
    '0' <= c <= '9'
  }

  predicate AllDigits(s: string) {
    forall i :: 0 <= i < |s| ==> IsDigit(s[i])
  }

  function DigitChar(d: nat): (c: char)
    requires d < 10
    ensures IsDigit(c)
  {
    (d + '0' as int) as char
  }

  function DigitValue(c: char): (d: nat)
    requires IsDigit(c)
    ensures d < 10 && DigitChar(d) == c
  {
    c as int - '0' as int
  }

  /** The value of a string of decimal digits, most significant first. */
  function DigitsValue(s: string): nat
    requires AllDigits(s)
  {
    if |s| == 0 then 0 else DigitsValue(s[..|s| - 1]) * 10 + DigitValue(s[|s| - 1])
  }

  /** Decimal digits of a natural number without leading zeros ("0" for zero). */
  function NatString(n: nat): (r: string)
    ensures |r| > 0 && AllDigits(r)
    ensures DigitsValue(r) == n
    ensures |r| > 1 ==> r[0] != '0'
  {
    if n < 10 then [DigitChar(n)]
    else
      var prefix := NatString(n / 10);
      assert (prefix + [DigitChar(n % 10)])[..|prefix|] == prefix;
      prefix + [DigitChar(n % 10)]
  }

  /** `String.valueOf(x)` for an `int` or a `long`: an optional minus sign and the digits. */
  function DecimalString(x: int): (r: string)
    ensures |r| > 0
    ensures x < 0 ==> r[0] == '-' && r[1..] == NatString(-x)
    ensures x >= 0 ==> r == NatString(x)
  {
    if x < 0 then "-" + NatString(-x) else NatString(x)
  }

  /**
   * `Integer.parseInt` / `Long.parseLong` with bounds `lo..hi`: an optional `+` or `-`, then at
   * least one decimal digit, and a value in range; anything else is a NumberFormatException (None).
   */
  function ParseInteger(s: string, lo: int, hi: int): (r: Option<int>)
    ensures r.Some? ==> lo <= r.value <= hi
    ensures r.Some? ==> |s| > 0
  {
    if |s| == 0 then None
    else
      var negative := s[0] == '-';
      var digits := if s[0] == '-' || s[0] == '+' then s[1..] else s;
      if |digits| == 0 || !AllDigits(digits) then None
      else
        var magnitude: int := DigitsValue(digits);
        var v := if negative then -magnitude else magnitude;
        if lo <= v <= hi then Some(v) else None
  }

  /** `Integer.valueOf(s)`. */
  function ParseInt(s: string): (r: Option<int32>)
    ensures r.Some? ==> ParseInteger(s, -TWO_31, TWO_31 - 1) == Some(r.value as int)
    ensures r.None? ==> ParseInteger(s, -TWO_31, TWO_31 - 1).None?
  {
    match ParseInteger(s, -TWO_31, TWO_31 - 1)
    case Some(v) => Some(v as int32)
    case None => None
  }

  /** `Long.valueOf(s)`. */
  function ParseLong(s: string): (r: Option<int64>)
    ensures r.Some? ==> ParseInteger(s, -TWO_63, TWO_63 - 1) == Some(r.value as int)
    ensures r.None? ==> ParseInteger(s, -TWO_63, TWO_63 - 1).None?
  {
    match ParseInteger(s, -TWO_63, TWO_63 - 1)
    case Some(v) => Some(v as int64)
    case None => None
  }

  /** Reading back what `String.valueOf` wrote gives the number again. */
  lemma ParseDecimalString(x: int, lo: int, hi: int)
    requires lo <= x <= hi
    ensures ParseInteger(DecimalString(x), lo, hi) == Some(x)
  {
    var s := DecimalString(x);
    if x < 0 {
      assert s[0] == '-' && s[1..] == NatString(-x);
    }
  }

  /** The `int` round trip: `Integer.valueOf(String.valueOf(x)) == x`. */
  lemma ParseIntDecimalString(x: int32)
    ensures ParseInt(DecimalString(x)) == Some(x)
  {
    ParseDecimalString(x, -TWO_31, TWO_31 - 1);
  }

  /** The `long` round trip: `Long.valueOf(String.valueOf(x)) == x`. */
  lemma ParseLongDecimalString(x: int64)
    ensures ParseLong(DecimalString(x)) == Some(x)
  {
    ParseDecimalString(x, -TWO_63, TWO_63 - 1);
  }

  /** Different numbers are written differently. */
  lemma DecimalStringInjective(x: int, y: int)
    requires DecimalString(x) == DecimalString(y)
    ensures x == y
  {
    var lo := if x < y then x else y;
    var hi := if x < y then y else x;
    ParseDecimalString(x, lo, hi);
    ParseDecimalString(y, lo, hi);
  }

  /** Appending digits shifts the value: the digits of `a` move up by |b| decimal places. */
  lemma {:induction false} DigitsValueAppend(a: string, b: string)
    requires AllDigits(a) && AllDigits(b)
    ensures AllDigits(a + b)
    ensures DigitsValue(a + b) == DigitsValue(a) * Pow10(|b|) + DigitsValue(b)
    decreases |b|
  {
    if |b| > 0 {
      var b' := b[..|b| - 1];
      assert (a + b)[..|a + b| - 1] == a + b';
      assert (a + b)[|a + b| - 1] == b[|b| - 1];
      DigitsValueAppend(a, b');
      ShiftStep(DigitsValue(a), Pow10(|b'|), DigitsValue(b'), DigitValue(b[|b| - 1]));
    } else {
      assert a + b == a;
    }
  }

  lemma ShiftStep(x: int, p: int, y: int, d: int)
    ensures (x * p + y) * 10 + d == x * (10 * p) + (y * 10 + d)
  {}

  function Pow10(n: nat): (r: nat)
    ensures r > 0
  {
    if n == 0 then 1 else 10 * Pow10(n - 1)
  }

  /** Decimal digits never include the characters the program uses as separators. */
  lemma DecimalStringCharacters(x: int)
    ensures forall i :: 0 <= i < |DecimalString(x)| ==> IsDigit(DecimalString(x)[i]) || DecimalString(x)[i] == '-'
  {}

  /** A plain run of digits (no sign) whose value fits reads back as that value. */
  lemma ParseLongDigits(s: string)
    requires |s| > 0 && AllDigits(s) && DigitsValue(s) < TWO_63
    ensures ParseLong(s) == Some(DigitsValue(s) as int64)
  {
    assert IsDigit(s[0]);
  }
}

=== FILE: ftp.dfy ===
/**
 * The FTP client (`FtpClient`, `FtpEntry`): reading replies on the control connection, the reply
 * codes that `connect`, `login`, `type` and `list` accept, the address in a PASV reply, the
 * lines of a Unix-style LIST and the paths built from them. The sockets are left out: the
 * control connection is the sequence of lines the server sends, and the commands the client
 * writes are collected in order.
 */
module Ftp {
  import opened Wrappers
  import opened JavaInt
  import opened Strings
  import opened Decimal

  // ---------------------------------------------------------------------------------------------
  // Replies

  /** A reply read from the control connection (`None` when the stream ended) and where reading stopped. */
  datatype Read = Read(reply: Option<string>, next: nat)

  /** Why a command failed: the reply was not the expected one, or Java threw on the reply text. */
  datatype Fault = Unexpected | NullPointer | NotANumber | IndexOutOfBounds

  /**
   * `getReply` as written: lines are skipped while their fifth character (index 4) is '-'. A line
   * of exactly four characters has no index 4, and reading it throws.
   */
  function GetReplyAsWritten(lines: seq<string>, pos: nat): (r: Result<Read, Fault>)
    ensures r.Success? ==> r.value.next <= |lines| || r.value.next == pos
    ensures r.Success? && r.value.reply.Some? ==>
              pos < r.value.next <= |lines| && r.value.reply.value == lines[r.value.next - 1]
    ensures pos >= |lines| ==> r == Success(Read(None, pos))
    ensures r.Failure? ==> r.error == IndexOutOfBounds
    decreases |lines| - pos
  {
    if pos >= |lines| then Success(Read(None, pos))
    else if |lines[pos]| <= 3 then Success(Read(Some(lines[pos]), pos + 1))
    else if |lines[pos]| == 4 then Failure(IndexOutOfBounds)
    else if lines[pos][4] == '-' then GetReplyAsWritten(lines, pos + 1)
    else Success(Read(Some(lines[pos]), pos + 1))
  }

  /** A line that opens a multi-line reply: its code is followed by a hyphen (index 3). */
  predicate OpensMultiLine(line: string) {
    |line| > 3 && line[3] == '-'
  }

  /** A line that closes the multi-line reply with code `code`: the code, then a space. */
  predicate Closes(line: string, code: string) {
    |line| > 3 && line[..3] == code && line[3] == ' '
  }

  /** The lines after the first one of a multi-line reply, up to the one that closes it. */
  function ReadUntilClosed(lines: seq<string>, pos: nat, code: string): (r: Read)
    ensures r.next > pos || (pos >= |lines| && r.next == pos)
    ensures r.reply.Some? ==> 0 < r.next <= |lines| && r.reply.value == lines[r.next - 1] && Closes(r.reply.value, code)
    ensures r.reply.None? ==> r.next == pos || r.next == |lines|
    decreases |lines| - pos
  {
    if pos >= |lines| then Read(None, pos)
    else if Closes(lines[pos], code) then Read(Some(lines[pos]), pos + 1)
    else
      var r := ReadUntilClosed(lines, pos + 1, code);
      if r.reply.None? then Read(None, |lines|) else r
  }

  /**
   * `getReply` as section 4.2 of RFC 959 defines a reply: a single line, or a first line whose
   * code is followed by a hyphen, any number of lines, and a last line that starts with the same
   * code followed by a space. The result is the last line.
   */
  function GetReply(lines: seq<string>, pos: nat): (r: Read)
    ensures r.next > pos || (pos >= |lines| && r.reply.None?)
    ensures r.reply.Some? ==> 0 < r.next <= |lines| && r.reply.value == lines[r.next - 1]
    ensures pos < |lines| && !OpensMultiLine(lines[pos]) ==> r == Read(Some(lines[pos]), pos + 1)
  {
    if pos >= |lines| then Read(None, pos)
    else if OpensMultiLine(lines[pos]) then ReadUntilClosed(lines, pos + 1, lines[pos][..3])
    else Read(Some(lines[pos]), pos + 1)
  }

  /** The lines of a multi-line reply: `code-first`, the middle lines, `code last`. */
  function MultiLine(code: string, first: string, middle: seq<string>, last: string): seq<string> {
    [code + "-" + first] + middle + [code + " " + last]
  }

  /** Reading the middle lines of a multi-line reply stops at its last line. */
  lemma {:induction false} ReadsToClosing(code: string, middle: seq<string>, last: string, rest: seq<string>, i: nat)
    requires |code| == 3 && i <= |middle|
    requires forall k :: 0 <= k < |middle| ==> !Closes(middle[k], code)
    ensures ReadUntilClosed(middle + [code + " " + last] + rest, i, code)
         == Read(Some(code + " " + last), |middle| + 1)
    decreases |middle| - i
  {
    var lines := middle + [code + " " + last] + rest;
    if i == |middle| {
      assert lines[i] == code + " " + last;
      assert (code + " " + last)[..3] == code;
    } else {
      assert lines[i] == middle[i];
      ReadsToClosing(code, middle, last, rest, i + 1);
    }
  }

  /** A multi-line reply is read whole: the reply is its last line and reading resumes after it. */
  lemma MultiLineReply(code: string, first: string, middle: seq<string>, last: string, rest: seq<string>)
    requires |code| == 3
    requires forall k :: 0 <= k < |middle| ==> !Closes(middle[k], code)
    ensures GetReply(MultiLine(code, first, middle, last) + rest, 0)
         == Read(Some(code + " " + last), |middle| + 2)
  {
    var lines := MultiLine(code, first, middle, last) + rest;
    var opening := code + "-" + first;
    assert lines[0] == opening && opening[3] == '-' && opening[..3] == code;
    assert lines[1..] == middle + [code + " " + last] + rest;
    ReadsToClosingShifted(code, opening, middle, last, rest, 0);
  }

  /** `ReadsToClosing` seen from the whole reply, whose first line is `opening`. */
  lemma {:induction false} ReadsToClosingShifted(code: string, opening: string, middle: seq<string>, last: string,
                                                 rest: seq<string>, i: nat)
    requires |code| == 3 && i <= |middle|
    requires forall k :: 0 <= k < |middle| ==> !Closes(middle[k], code)
    ensures ReadUntilClosed([opening] + middle + [code + " " + last] + rest, i + 1, code)
         == Read(Some(code + " " + last), |middle| + 2)
    decreases |middle| - i
  {
    var lines := [opening] + middle + [code + " " + last] + rest;
    if i == |middle| {
      assert lines[i + 1] == code + " " + last;
      assert (code + " " + last)[..3] == code;
    } else {
      assert lines[i + 1] == middle[i];
      ReadsToClosingShifted(code, opening, middle, last, rest, i + 1);
    }
  }

  /**
   * As written, the first line of a multi-line reply ("230-Welcome") is taken for the whole
   * reply, and the real last line is left to be read as the answer to the next command.
   */
  lemma GetReplyAsWrittenStopsEarly()
    ensures GetReplyAsWritten(["230-Welcome", "230 Logged in"], 0) == Success(Read(Some("230-Welcome"), 1))
    ensures GetReply(["230-Welcome", "230 Logged in"], 0) == Read(Some("230 Logged in"), 2)
  {
    MultiLineReply("230", "Welcome", [], "Logged in", []);
    assert "230" + "-" + "Welcome" == "230-Welcome" && "230" + " " + "Logged in" == "230 Logged in";
    assert MultiLine("230", "Welcome", [], "Logged in") + [] == ["230-Welcome", "230 Logged in"];
    assert "230-Welcome"[4] == 'W';
  }

  /** As written, a reply of exactly four characters ("220 ") makes `getReply` throw. */
  lemma GetReplyAsWrittenShortLine()
    ensures GetReplyAsWritten(["220 "], 0) == Failure(IndexOutOfBounds)
    ensures GetReply(["220 "], 0) == Read(Some("220 "), 1)
  {}

  // ---------------------------------------------------------------------------------------------
  // The control connection

  /** The control connection: the lines the server sends, how many were read, and the commands sent. */
  datatype Session = Session(replies: seq<string>, pos: nat, sent: seq<string>)

  /** `send`: a command line is written. */
  function Send(s: Session, command: string): (r: Session)
    ensures r.sent == s.sent + [command] && r.replies == s.replies && r.pos == s.pos
  {
    s.(sent := s.sent + [command])
  }

  /** A reply code, the reply line (`lastReply`) and the session after reading it. */
  datatype Coded = Coded(code: int32, line: string, session: Session)

  /**
   * `getReturnCode`: `Integer.valueOf` of the first three characters of the reply that `getReply`
   * (as written) reads. An index out of bounds, in `getReply` or in taking the three characters,
   * is caught and becomes an unexpected response; a missing reply throws a null pointer exception
   * and three characters that are no number a number format exception.
   */
  function ReturnCode(s: Session): (r: Result<Coded, Fault>)
    ensures r.Success? ==> r.value.session.replies == s.replies && r.value.session.sent == s.sent
    ensures r.Success? ==> s.pos < r.value.session.pos <= |s.replies|
    ensures r.Success? ==> r.value.line == s.replies[r.value.session.pos - 1]
    ensures r.Success? ==> |r.value.line| >= 3 && ParseInt(r.value.line[..3]) == Some(r.value.code)
    ensures r.Failure? ==> r.error != IndexOutOfBounds
    ensures s.pos >= |s.replies| ==> r == Failure(NullPointer)
  {
    match GetReplyAsWritten(s.replies, s.pos)
    case Failure(_) => Failure(Unexpected)
    case Success(read) =>
      match read.reply
      case None => Failure(NullPointer)
      case Some(line) =>
        if |line| < 3 then Failure(Unexpected)
        else
          match ParseInt(line[..3])
          case None => Failure(NotANumber)
          case Some(code) => Success(Coded(code, line, s.(pos := read.next)))
  }

  /** A single-line reply with a three-digit code. */
  function ReplyLine(code: nat, text: string): string
    requires 100 <= code <= 999
  {
    NatString(code) + " " + text
  }

  /**
   * A reply text that `getReply` as written reads as a whole reply: it is not empty (the line has
   * an index 4) and does not start with '-' (which would make the line look like a continuation).
   */
  predicate ReadWhole(text: string) {
    |text| > 0 && text[0] != '-'
  }

  /** The code of a single-line reply is read back, when the reply's text is read as a whole. */
  lemma ReturnCodeOfReply(s: Session, code: nat, text: string)
    requires 100 <= code <= 999 && s.pos < |s.replies| && s.replies[s.pos] == ReplyLine(code, text)
    requires ReadWhole(text)
    ensures ReturnCode(s) == Success(Coded(code as int32, ReplyLine(code, text), s.(pos := s.pos + 1)))
  {
    var line := ReplyLine(code, text);
    ThreeDigits(code);
    assert line[..3] == NatString(code);
    assert line[3] == ' ' && line[4] == text[0];
    ParseIntDecimalString(code as int32);
  }

  /** A reply that is only a code and a space ("220 ") has no index 4: it is an unexpected response. */
  lemma BareCodeIsUnexpected(s: Session, code: nat)
    requires 100 <= code <= 999 && s.pos < |s.replies| && s.replies[s.pos] == ReplyLine(code, "")
    ensures ReturnCode(s) == Failure(Unexpected)
  {
    ThreeDigits(code);
    assert |ReplyLine(code, "")| == 4;
  }

  /** A reply whose text starts with '-' ("230 -x") is skipped, and the code is read from the next line. */
  lemma HyphenTextIsSkipped(s: Session, code: nat, text: string)
    requires 100 <= code <= 999 && s.pos < |s.replies| && s.replies[s.pos] == ReplyLine(code, text)
    requires |text| > 0 && text[0] == '-'
    ensures ReturnCode(s) == ReturnCode(s.(pos := s.pos + 1))
  {
    ThreeDigits(code);
    assert ReplyLine(code, text)[4] == '-';
    assert GetReplyAsWritten(s.replies, s.pos) == GetReplyAsWritten(s.replies, s.pos + 1);
  }

  /** A code from 100 to 999 is written with three digits. */
  lemma ThreeDigits(code: nat)
    requires 100 <= code <= 999
    ensures |NatString(code)| == 3
  {
    assert NatString(code) == NatString(code / 10) + [DigitChar(code % 10)];
    assert NatString(code / 10) == NatString(code / 100) + [DigitChar(code / 10 % 10)];
  }

  /**
   * `connect`: one preliminary 120 reply is skipped; then 220 gives 0, 421 gives -1, and any other
   * code is an unexpected response.
   */
  function Connect(s: Session): (r: Result<(int, Session), Fault>)
    ensures r.Success? ==> r.value.0 == 0 || r.value.0 == -1
    ensures r.Success? ==> r.value.1.sent == s.sent && r.value.1.pos > s.pos
  {
    var first :- ReturnCode(s);
    var reply :- if first.code == 120 then ReturnCode(first.session) else Success(first);
    if reply.code == 421 then Success((-1, reply.session))
    else if reply.code == 220 then Success((0, reply.session))
    else Failure(Unexpected)
  }

  /**
   * Against single-line replies, the greeting is the first reply, or the second when the first is
   * 120; connecting succeeds exactly when the greeting is 220 or 421, and reading resumes after it.
   */
  lemma ConnectGreeting(s: Session, c1: nat, t1: string, c2: nat, t2: string)
    requires 100 <= c1 <= 999 && 100 <= c2 <= 999 && s.pos + 2 <= |s.replies|
    requires s.replies[s.pos] == ReplyLine(c1, t1) && s.replies[s.pos + 1] == ReplyLine(c2, t2)
    requires ReadWhole(t1) && ReadWhole(t2)
    ensures var greeting := if c1 == 120 then c2 else c1;
            Connect(s).Success? <==> greeting == 220 || greeting == 421
    ensures var greeting := if c1 == 120 then c2 else c1;
            var read := if c1 == 120 then 2 else 1;
            Connect(s).Success? ==> Connect(s).value == (if greeting == 220 then 0 else -1, s.(pos := s.pos + read))
  {
    ReturnCodeOfReply(s, c1, t1);
    ReturnCodeOfReply(s.(pos := s.pos + 1), c2, t2);
  }

  /**
   * A multi-line greeting is read up to its first line that has no '-' at index 4: with the
   * greeting "220-Hi", "220 Ready", `connect` stops after the first line, and the closing line is
   * then taken as the reply to USER, so logging in fails.
   */
  lemma MultiLineGreetingBreaksLogin()
    ensures var s := Session(["220-Hi", "220 Ready", "230 OK"], 0, []);
            Connect(s) == Success((0, s.(pos := 1)))
            && Login(s.(pos := 1), "user", "password", "") == Failure(Unexpected)
  {
    var s := Session(["220-Hi", "220 Ready", "230 OK"], 0, []);
    Code220();
    assert s.replies[0][..3] == "220" && s.replies[1][..3] == "220";
    assert GetReplyAsWritten(s.replies, 0) == Success(Read(Some("220-Hi"), 1));
    assert GetReplyAsWritten(s.replies, 1) == Success(Read(Some("220 Ready"), 2));
    assert ReturnCode(s) == Success(Coded(220, "220-Hi", s.(pos := 1)));
    var u := Send(s.(pos := 1), "USER user");
    assert ReturnCode(u) == Success(Coded(220, "220 Ready", u.(pos := 2)));
  }

  /** The code 220 is read from its three digits. */
  lemma Code220()
    ensures ParseInt("220") == Some(220)
  {
    assert NatString(220) == NatString(22) + "0" && NatString(22) == "2" + "2";
    assert DecimalString(220) == "220";
    ParseIntDecimalString(220);
  }

  /** `login`: USER, then PASS if asked for, then ACCT if asked for, accepting the codes that end each step. */
  function Login(s: Session, user: string, password: string, account: string): (r: Result<Session, Fault>)
    ensures r.Success? ==> r.value.pos > s.pos
    ensures r.Success? ==>
      r.value.sent == s.sent + ["USER " + user]
      || r.value.sent == s.sent + ["USER " + user, "PASS " + password]
      || r.value.sent == s.sent + ["USER " + user, "PASS " + password, "ACCT " + account]
  {
    var u :- ReturnCode(Send(s, "USER " + user));
    if u.code == 230 then Success(u.session)
    else if u.code == 331 || u.code == 332 then
      var p :- ReturnCode(Send(u.session, "PASS " + password));
      if p.code == 202 || p.code == 230 then Success(p.session)
      else if p.code == 332 then
        var a :- ReturnCode(Send(p.session, "ACCT " + account));
        if a.code == 202 || a.code == 230 then Success(a.session) else Failure(Unexpected)
      else Failure(Unexpected)
    else Failure(Unexpected)
  }

  /** The reply sequences that complete a login in the USER-PASS-ACCT sequence of section 6 of RFC 959. */
  predicate LoginAccepted(c1: nat, c2: nat, c3: nat) {
    c1 == 230
    || ((c1 == 331 || c1 == 332) && (c2 == 202 || c2 == 230 || (c2 == 332 && (c3 == 202 || c3 == 230))))
  }

  /** Against single-line replies, login succeeds exactly for the accepted reply sequences. */
  lemma LoginPaths(s: Session, user: string, password: string, account: string,
                   c1: nat, c2: nat, c3: nat, t1: string, t2: string, t3: string)
    requires 100 <= c1 <= 999 && 100 <= c2 <= 999 && 100 <= c3 <= 999
    requires s.pos + 3 <= |s.replies|
    requires s.replies[s.pos] == ReplyLine(c1, t1) && s.replies[s.pos + 1] == ReplyLine(c2, t2)
    requires s.replies[s.pos + 2] == ReplyLine(c3, t3)
    requires ReadWhole(t1) && ReadWhole(t2) && ReadWhole(t3)
    ensures Login(s, user, password, account).Success? <==> LoginAccepted(c1, c2, c3)
  {
    var s1 := Send(s, "USER " + user);
    ReturnCodeOfReply(s1, c1, t1);
    var s2 := Send(s1.(pos := s.pos + 1), "PASS " + password);
    ReturnCodeOfReply(s2, c2, t2);
    var s3 := Send(s2.(pos := s.pos + 2), "ACCT " + account);
    ReturnCodeOfReply(s3, c3, t3);
  }

  /** `type`: TYPE I for binary mode, TYPE A otherwise, answered by 200. */
  function SetType(s: Session, binary: bool): (r: Result<Session, Fault>)
    ensures r.Success? ==> r.value.sent == s.sent + [if binary then "TYPE I" else "TYPE A"]
    ensures r.Success? ==> var c := ReturnCode(Send(s, if binary then "TYPE I" else "TYPE A"));
                           c.Success? && c.value.code == 200
  {
    var c :- ReturnCode(Send(s, if binary then "TYPE I" else "TYPE A"));
    if c.code == 200 then Success(c.session) else Failure(Unexpected)
  }

  // ---------------------------------------------------------------------------------------------
  // PASV

  /** Where the data connection goes. */
  datatype DataAddress = DataAddress(host: string, port: int32)

  /** The first digit at index `i` or later, or 0 when there is none (the loop's initial value). */
  function FirstDigit(s: string, i: nat): (r: nat)
    requires i > 0
    ensures r == 0 || (i <= r < |s| && IsDigit(s[r]))
    ensures forall k :: i <= k < |s| && (r == 0 || k < r) ==> !IsDigit(s[k])
    decreases |s| - i
  {
    if i >= |s| then 0
    else if IsDigit(s[i]) then i
    else FirstDigit(s, i + 1)
  }

  /** The last digit at index `i` or earlier but after index 3, or 0 when there is none. */
  function LastDigit(s: string, i: int): (r: nat)
    requires i < |s|
    ensures r == 0 || (3 < r <= i && IsDigit(s[r]))
    ensures forall k :: 3 < k <= i && r < k ==> !IsDigit(s[k])
    decreases i
  {
    if i <= 3 then 0
    else if IsDigit(s[i]) then i
    else LastDigit(s, i - 1)
  }

  /**
   * The address in a 227 reply: the text from its first to its last digit (after the code),
   * split at commas; the first four parts are the host, and the next two the port, high byte
   * first, in `int` arithmetic. Anything that makes Java throw gives `None`.
   */
  function ParsePasv(reply: string): (r: Option<DataAddress>)
  {
    var first := FirstDigit(reply, 4);
    var last := LastDigit(reply, |reply| - 1);
    if first > last + 1 || last + 1 > |reply| then None
    else
      PasvAddress(Split(reply[first..last + 1], ","))
  }

  /** The address in the comma-separated pieces of a 227 reply. */
  function PasvAddress(parts: seq<string>): (r: Option<DataAddress>)
  {
    if |parts| < 6 then None
    else
      var high :- ParseInt(parts[4]);
      var low :- ParseInt(parts[5]);
      Some(DataAddress(parts[0] + "." + parts[1] + "." + parts[2] + "." + parts[3],
                       Wrap32(Wrap32(high as int * 256) + low as int)))
  }

  /** `pasv`: PASV must be answered by 227 with a readable address. */
  function Pasv(s: Session): (r: Result<(DataAddress, Session), Fault>)
    ensures r.Success? ==> r.value.1.sent == s.sent + ["PASV"] && r.value.1.pos > s.pos
    ensures r.Success? ==> var c := ReturnCode(Send(s, "PASV"));
                           c.Success? && c.value.code == 227 && ParsePasv(c.value.line) == Some(r.value.0)
  {
    var c :- ReturnCode(Send(s, "PASV"));
    if c.code != 227 then Failure(Unexpected)
    else
      match ParsePasv(c.line)
      case None => Failure(Unexpected)
      case Some(address) => Success((address, c.session))
  }

  /** Text without digits. */
  predicate NoDigits(s: string) {
    forall k :: 0 <= k < |s| ==> !IsDigit(s[k])
  }

  /** Text without commas. */
  predicate NoCommas(s: string) {
    forall k :: 0 <= k < |s| ==> s[k] != ','
  }

  /** The six numbers of a 227 reply as the server writes them, comma-separated. */
  function PasvNumbers(h1: string, h2: string, h3: string, h4: string, p1: nat, p2: nat): string {
    Join(",", [h1, h2, h3, h4, NatString(p1), NatString(p2)])
  }

  /** The reply text the numbers sit in starts and ends with digits. */
  lemma PasvNumbersEnds(h1: string, h2: string, h3: string, h4: string, p1: nat, p2: nat)
    requires |h1| > 0 && AllDigits(h1)
    ensures var n := PasvNumbers(h1, h2, h3, h4, p1, p2);
            |n| > 0 && IsDigit(n[0]) && IsDigit(n[|n| - 1])
  {
    var tail := Join(",", [h2, h3, h4, NatString(p1), NatString(p2)]);
    var n := PasvNumbers(h1, h2, h3, h4, p1, p2);
    assert n == h1 + "," + tail;
    var t2 := Join(",", [h3, h4, NatString(p1), NatString(p2)]);
    var t3 := Join(",", [h4, NatString(p1), NatString(p2)]);
    var t4 := Join(",", [NatString(p1), NatString(p2)]);
    assert t4 == NatString(p1) + "," + NatString(p2);
    assert tail == h2 + "," + t2 && t2 == h3 + "," + t3 && t3 == h4 + "," + t4;
    assert n[|n| - 1] == NatString(p2)[|NatString(p2)| - 1];
  }

  /**
   * A well-formed 227 reply ("227 Entering Passive Mode (h1,h2,h3,h4,p1,p2)") gives the host
   * "h1.h2.h3.h4" and the port p1 * 256 + p2.
   */
  lemma PasvParses(text: string, h1: string, h2: string, h3: string, h4: string, p1: nat, p2: nat, tail: string)
    requires NoDigits(text) && NoDigits(tail)
    requires forall h :: h in [h1, h2, h3, h4] ==> |h| > 0 && AllDigits(h)
    requires p1 < 256 && p2 < 256
    ensures ParsePasv("227 " + text + PasvNumbers(h1, h2, h3, h4, p1, p2) + tail)
         == Some(DataAddress(h1 + "." + h2 + "." + h3 + "." + h4, (p1 * 256 + p2) as int32))
  {
    var numbers := PasvNumbers(h1, h2, h3, h4, p1, p2);
    var reply := "227 " + text + numbers + tail;
    PasvNumbersEnds(h1, h2, h3, h4, p1, p2);
    var first, last := PasvDigits(text, numbers, tail);
    var parts := [h1, h2, h3, h4, NatString(p1), NatString(p2)];
    DigitsHaveNoComma(parts);
    SplitJoin(",", parts);
    ParsePasvOf(reply, first, last, parts);
    PasvAddressOfNumbers(h1, h2, h3, h4, p1, p2);
  }

  /** The six numbers give the host and the port p1 * 256 + p2. */
  lemma PasvAddressOfNumbers(h1: string, h2: string, h3: string, h4: string, p1: nat, p2: nat)
    requires p1 < 256 && p2 < 256
    ensures PasvAddress([h1, h2, h3, h4, NatString(p1), NatString(p2)])
         == Some(DataAddress(h1 + "." + h2 + "." + h3 + "." + h4, (p1 * 256 + p2) as int32))
  {
    var parts := [h1, h2, h3, h4, NatString(p1), NatString(p2)];
    ParseIntDecimalString(p1 as int32);
    ParseIntDecimalString(p2 as int32);
    assert ParseInt(parts[4]) == Some(p1 as int32) && ParseInt(parts[5]) == Some(p2 as int32);
    PortInRange(p1, p2);
  }

  /** Two bytes shifted and added in `int` arithmetic do not overflow. */
  lemma PortInRange(p1: nat, p2: nat)
    requires p1 < 256 && p2 < 256
    ensures Wrap32(Wrap32(p1 * 256) + p2) == p1 * 256 + p2
  {}

  /** In a 227 reply, the digits span exactly the numbers between the digit-free text and tail. */
  lemma PasvDigits(text: string, numbers: string, tail: string) returns (first: nat, last: nat)
    requires NoDigits(text) && NoDigits(tail)
    requires |numbers| > 0 && IsDigit(numbers[0]) && IsDigit(numbers[|numbers| - 1])
    ensures var reply := "227 " + text + numbers + tail;
            FirstDigit(reply, 4) == first && LastDigit(reply, |reply| - 1) == last
            && first <= last + 1 <= |reply| && reply[first..last + 1] == numbers
  {
    var reply := "227 " + text + numbers + tail;
    first := 4 + |text|;
    last := first + |numbers| - 1;
    assert reply[first] == numbers[0];
    assert reply[last] == numbers[|numbers| - 1];
    assert forall k :: 4 <= k < first ==> reply[k] == text[k - 4];
    assert FirstDigit(reply, 4) == first;
    assert forall k :: last < k < |reply| ==> reply[k] == tail[k - last - 1];
    assert LastDigit(reply, |reply| - 1) == last;
    assert reply[first..last + 1] == numbers;
  }

  /** `ParsePasv` once the digits are located and the pieces read. */
  lemma ParsePasvOf(reply: string, first: nat, last: nat, parts: seq<string>)
    requires FirstDigit(reply, 4) == first && LastDigit(reply, |reply| - 1) == last
    requires first <= last + 1 <= |reply| && Split(reply[first..last + 1], ",") == parts
    ensures ParsePasv(reply) == PasvAddress(parts)
  {}

  /** Digit strings hold no comma. */
  lemma DigitsHaveNoComma(parts: seq<string>)
    requires forall i :: 0 <= i < |parts| ==> AllDigits(parts[i])
    ensures forall i :: 0 <= i < |parts| ==> ',' !in parts[i]
  {
    forall i | 0 <= i < |parts|
      ensures ',' !in parts[i]
    {
      forall k | 0 <= k < |parts[i]|
        ensures parts[i][k] != ','
      {
        assert IsDigit(parts[i][k]);
      }
    }
  }

  // ---------------------------------------------------------------------------------------------
  // LIST

  /** `FtpEntry.Type`. */
  datatype EntryType = Directory | Block | Character | SymbolicLink | Fifo | Socket | Regular

  /** `FtpEntry`: every field as the constructor received it. */
  datatype FtpEntry = FtpEntry(kind: EntryType, permissions: int32, links: int32, owner: string, group: string,
                               size: int64, datetime: string, filename: string)

  /** The entry type for the first character of a LIST line. */
  function TypeOf(c: char): (r: Option<EntryType>)
    ensures r.None? <==> c !in "dbclps-"
  {
    match c
    case 'd' => Some(Directory)
    case 'b' => Some(Block)
    case 'c' => Some(Character)
    case 'l' => Some(SymbolicLink)
    case 'p' => Some(Fifo)
    case 's' => Some(Socket)
    case '-' => Some(Regular)
    case _ => None
  }

  /** The first index at or after `i` that is not a space. */
  function SkipSpaces(s: string, i: nat): (r: nat)
    requires i <= |s|
    ensures i <= r <= |s| && (r == |s| || s[r] != ' ')
    ensures forall k :: i <= k < r ==> s[k] == ' '
    decreases |s| - i
  {
    if i == |s| || s[i] != ' ' then i else SkipSpaces(s, i + 1)
  }

  /**
   * `s.split(" +", limit)`: pieces between runs of spaces, at most `limit` of them, the last
   * holding the rest of the line; a leading run gives an empty first piece and, the limit being
   * positive, trailing empty pieces are kept.
   */
  function SplitSpaces(s: string, limit: nat): (r: seq<string>)
    requires limit >= 1
    ensures 1 <= |r| <= limit
    ensures s == "" ==> r == [""]
    decreases |s|
  {
    if limit == 1 then [s]
    else
      var k := IndexOfChar(s, ' ', 0);
      if k == -1 then [s]
      else [s[..k]] + SplitSpaces(s[SkipSpaces(s, k)..], limit - 1)
  }

  /** A word: non-empty and without spaces. */
  predicate IsWord(w: string) {
    |w| > 0 && ' ' !in w
  }

  /** Splitting words joined by single spaces gives them back, the last piece keeping its own spaces. */
  lemma {:induction false} SplitSpacesJoin(words: seq<string>, last: string, limit: nat)
    requires forall i :: 0 <= i < |words| ==> IsWord(words[i])
    requires |last| == 0 || last[0] != ' '
    requires limit == |words| + 1
    ensures SplitSpaces(Join(" ", words + [last]), limit) == words + [last]
    decreases |words|
  {
    if |words| > 0 {
      var w, rest := words[0], Join(" ", words[1..] + [last]);
      assert (words + [last])[1..] == words[1..] + [last];
      assert Join(" ", words + [last]) == w + " " + rest;
      RestStart(words[1..], last);
      SplitFirstWord(w, rest, limit);
      SplitSpacesJoin(words[1..], last, limit - 1);
      assert [w] + (words[1..] + [last]) == words + [last];
    }
  }

  /** A word and a single space split off as the first piece. */
  lemma SplitFirstWord(w: string, rest: string, limit: nat)
    requires IsWord(w) && (|rest| == 0 || rest[0] != ' ') && limit >= 2
    ensures SplitSpaces(w + " " + rest, limit) == [w] + SplitSpaces(rest, limit - 1)
  {
    var s := w + " " + rest;
    assert IndexOfChar(s, ' ', 0) == |w| by {
      assert s[|w|] == ' ';
      forall k | 0 <= k < |w|
        ensures s[k] != ' '
      {
        assert s[k] == w[k];
      }
    }
    assert s[|w| + 1..] == rest;
    assert SkipSpaces(s, |w|) == |w| + 1 by {
      assert |rest| == 0 || s[|w| + 1] == rest[0];
    }
    assert s[..|w|] == w;
  }

  /** What follows a word and its space does not start with a space. */
  lemma RestStart(words: seq<string>, last: string)
    requires forall i :: 0 <= i < |words| ==> IsWord(words[i])
    requires |last| == 0 || last[0] != ' '
    ensures var rest := Join(" ", words + [last]); |rest| == 0 || rest[0] != ' '
  {
    if |words| > 0 {
      var rest := Join(" ", words + [last]);
      assert (words + [last])[1..] == words[1..] + [last];
      assert rest == words[0] + " " + Join(" ", words[1..] + [last]);
      assert rest[0] == words[0][0];
    } else {
      assert words + [last] == [last];
    }
  }

  /**
   * One LIST line: `None` when it does not split into nine pieces (the line is skipped), a failure
   * for an unknown type character, and otherwise the entry. Links and size that are no number
   * become 0; the date is pieces 5 to 7 joined by spaces and the file name is the rest.
   */
  function ParseLine(line: string): (r: Result<Option<FtpEntry>, Fault>)
    ensures r.Failure? ==> r.error == Unexpected && |SplitSpaces(line, 9)| == 9
    ensures r.Success? && r.value.Some? ==>
      var t := SplitSpaces(line, 9);
      |t| == 9 && r.value.value.owner == t[2] && r.value.value.group == t[3] && r.value.value.filename == t[8]
      && r.value.value.datetime == t[5] + " " + t[6] + " " + t[7] && r.value.value.permissions == 0
    ensures |SplitSpaces(line, 9)| != 9 ==> r == Success(None)
  {
    var t := SplitSpaces(line, 9);
    if |t| != 9 then Success(None)
    else
      match TypeOf(line[0])
      case None => Failure(Unexpected)
      case Some(kind) =>
        var links := ParseInt(t[1]).GetOr(0);
        var size := ParseLong(t[4]).GetOr(0);
        var datetime := Join(" ", [t[5], t[6], t[7]]);
        assert datetime == t[5] + " " + Join(" ", [t[6], t[7]]) && Join(" ", [t[6], t[7]]) == t[6] + " " + t[7];
        Success(Some(FtpEntry(kind, 0, links, t[2], t[3], size, datetime, t[8])))
  }

  /** A LIST line of eight words and a file name keeps the file name whole, spaces included. */
  lemma ParseLineOfWords(words: seq<string>, filename: string)
    requires |words| == 8 && forall i :: 0 <= i < 8 ==> IsWord(words[i])
    requires |filename| == 0 || filename[0] != ' '
    requires |words[0]| > 0 && words[0][0] in "dbclps-"
    ensures var r := ParseLine(Join(" ", words + [filename]));
            r.Success? && r.value.Some? && r.value.value.filename == filename
            && r.value.value.owner == words[2] && r.value.value.group == words[3]
            && r.value.value.datetime == words[5] + " " + words[6] + " " + words[7]
  {
    var line := Join(" ", words + [filename]);
    SplitSpacesJoin(words, filename, 9);
    assert line == words[0] + " " + Join(" ", (words + [filename])[1..]);
    assert line[0] == words[0][0];
  }

  /** The entries of the LIST lines, in order; the first line with an unknown type ends the listing. */
  function ParseListing(lines: seq<string>): (r: Result<seq<FtpEntry>, Fault>)
    ensures r.Success? ==> |r.value| <= |lines|
    ensures r.Failure? ==> r.error == Unexpected
  {
    if |lines| == 0 then Success([])
    else
      var first :- ParseLine(lines[0]);
      var rest :- ParseListing(lines[1..]);
      Success((if first.Some? then [first.value] else []) + rest)
  }

  /** Lines that do not split into nine pieces are skipped. */
  lemma ShortLinesSkipped(lines: seq<string>, short: string)
    requires |SplitSpaces(short, 9)| != 9
    ensures ParseListing([short] + lines) == ParseListing(lines)
  {
    var all := [short] + lines;
    assert all[0] == short && all[1..] == lines;
    assert ParseLine(short) == Success(None);
    var rest := ParseListing(lines);
    if rest.Success? {
      assert [] + rest.value == rest.value;
    }
  }

  /** The replies to LIST after any number of 450 ("busy, try again") replies. */
  function AwaitList(s: Session): (r: Result<Coded, Fault>)
    ensures r.Success? ==> r.value.code != 450 && r.value.session.sent == s.sent && r.value.session.pos > s.pos
    decreases |s.replies| - s.pos
  {
    var c :- ReturnCode(s);
    if c.code == 450 then AwaitList(c.session) else Success(c)
  }

  /** A 450 reply is waited out: the listing goes on with the reply after it. */
  lemma BusyIsRetried(s: Session, text: string)
    requires s.pos < |s.replies| && s.replies[s.pos] == ReplyLine(450, text) && ReadWhole(text)
    ensures AwaitList(s) == AwaitList(s.(pos := s.pos + 1))
  {
    ReturnCodeOfReply(s, 450, text);
  }

  /**
   * `list(path)`: PASV, then LIST, then the replies that `Listed` handles, with the lines of the
   * data connection in `data`.
   */
  function List(s: Session, path: string, data: seq<string>): (r: Result<(seq<FtpEntry>, Session), Fault>)
    ensures r.Success? ==> r.value.1.sent == s.sent + ["PASV", "LIST " + path]
    ensures r.Success? ==> |r.value.0| <= |data| && r.value.1.pos > s.pos
  {
    var pasv :- Pasv(s);
    Listed(Send(pasv.1, "LIST " + path), data)
  }

  /**
   * The replies to a LIST that has been sent: 150 opens the listing on the data connection and a
   * 226 must close it; 550 gives an empty listing without reading any data.
   */
  function Listed(s: Session, data: seq<string>): (r: Result<(seq<FtpEntry>, Session), Fault>)
    ensures r.Success? ==> r.value.1.sent == s.sent && |r.value.0| <= |data| && r.value.1.pos > s.pos
  {
    var c :- AwaitList(s);
    if c.code == 550 then Success(([], c.session))
    else if c.code != 150 then Failure(Unexpected)
    else
      var entries :- ParseListing(data);
      var done :- ReturnCode(c.session);
      if done.code == 226 then Success((entries, done.session)) else Failure(Unexpected)
  }

  /** A reply other than 450 ends the waiting. */
  lemma AwaitReply(s: Session, code: nat, text: string)
    requires 100 <= code <= 999 && code != 450
    requires s.pos < |s.replies| && s.replies[s.pos] == ReplyLine(code, text) && ReadWhole(text)
    ensures AwaitList(s) == Success(Coded(code as int32, ReplyLine(code, text), s.(pos := s.pos + 1)))
  {
    ReturnCodeOfReply(s, code, text);
  }

  /** A 550 reply to LIST (no such directory) is an empty listing, and the data connection is not read. */
  lemma MissingDirectoryIsEmpty(s: Session, data: seq<string>, text: string)
    requires s.pos < |s.replies| && s.replies[s.pos] == ReplyLine(550, text) && ReadWhole(text)
    ensures Listed(s, data) == Success(([], s.(pos := s.pos + 1)))
  {
    AwaitReply(s, 550, text);
  }

  /** After a 150 reply the listing counts only when the closing reply is 226. */
  lemma ListingNeedsCompletion(s: Session, data: seq<string>, t1: string, code: nat, t2: string)
    requires 100 <= code <= 999 && s.pos + 2 <= |s.replies|
    requires s.replies[s.pos] == ReplyLine(150, t1) && s.replies[s.pos + 1] == ReplyLine(code, t2)
    requires ReadWhole(t1) && ReadWhole(t2)
    requires ParseListing(data).Success?
    ensures Listed(s, data).Success? <==> code == 226
    ensures code == 226 ==> Listed(s, data) == Success((ParseListing(data).value, s.(pos := s.pos + 2)))
  {
    AwaitReply(s, 150, t1);
    ReturnCodeOfReply(s.(pos := s.pos + 1), code, t2);
  }

  // ---------------------------------------------------------------------------------------------
  // Paths from a listing

  /** A remote path below `directory`: joined with "/" unless the directory is the root "/". */
  function Child(directory: string, name: string): (r: string)
    ensures StartsWith(r, directory) && EndsWith(r, name)
    ensures directory != "/" ==> r == directory + "/" + name
  {
    var r := directory + (if directory == "/" then "" else "/") + name;
    assert r[..|directory|] == directory;
    assert r[|r| - |name|..] == name;
    r
  }

  /** A child path has exactly one separator between the directory and the name, even below the root. */
  lemma ChildSeparator(directory: string, name: string)
    requires |directory| > 0 && directory[|directory| - 1] == '/' ==> directory == "/"
    ensures var r := Child(directory, name); |r| == |directory| + |name| + (if directory == "/" then 0 else 1)
    ensures var r := Child(directory, name); r[|r| - |name| - 1] == '/' || directory == ""
  {
    var r := Child(directory, name);
    if directory == "/" {
      assert r == "/" + name;
    } else {
      assert r[|directory|] == '/';
    }
  }

  /** Whether `getDirectories` keeps an entry; `matches` holds the names the regular expression accepts, if one was given. */
  predicate KeepsDirectory(e: FtpEntry, matches: Option<set<string>>) {
    e.kind == Directory && e.filename != "." && e.filename != ".."
    && (matches.None? || e.filename in matches.value)
  }

  /** `getDirectories` after the listing: the kept entries' paths, in listing order. */
  function Directories(directory: string, entries: seq<FtpEntry>, matches: Option<set<string>>): (r: seq<string>)
    ensures |r| <= |entries|
    ensures forall p :: p in r <==> exists e :: e in entries && KeepsDirectory(e, matches) && p == Child(directory, e.filename)
  {
    if |entries| == 0 then []
    else
      var rest := Directories(directory, entries[1..], matches);
      assert forall e :: e in entries <==> e == entries[0] || e in entries[1..];
      (if KeepsDirectory(entries[0], matches) then [Child(directory, entries[0].filename)] else []) + rest
  }

  /** `getDirectories` keeps listing order: the paths of a longer listing extend those of its start. */
  lemma {:induction false} DirectoriesAppend(directory: string, a: seq<FtpEntry>, b: seq<FtpEntry>, matches: Option<set<string>>)
    ensures Directories(directory, a + b, matches) == Directories(directory, a, matches) + Directories(directory, b, matches)
  {
    if |a| > 0 {
      assert (a + b)[1..] == a[1..] + b;
      DirectoriesAppend(directory, a[1..], b, matches);
    } else {
      assert a + b == b;
    }
  }

  /** Whether `getFiles` keeps an entry: a regular file whose name ends with the extension. */
  predicate KeepsFile(e: FtpEntry, extension: string) {
    e.kind == Regular && EndsWith(e.filename, extension)
  }

  /** `FtpClient.getFiles` after the listing: the kept entries' paths, in listing order. */
  function Files(directory: string, entries: seq<FtpEntry>, extension: string): (r: seq<string>)
    ensures |r| <= |entries|
    ensures forall p :: p in r <==> exists e :: e in entries && KeepsFile(e, extension) && p == Child(directory, e.filename)
  {
    if |entries| == 0 then []
    else
      var rest := Files(directory, entries[1..], extension);
      assert forall e :: e in entries <==> e == entries[0] || e in entries[1..];
      (if KeepsFile(entries[0], extension) then [Child(directory, entries[0].filename)] else []) + rest
  }

  /** The listing filters work line by line: the paths of a longer listing extend those of its start. */
  lemma {:induction false} FilesAppend(directory: string, a: seq<FtpEntry>, b: seq<FtpEntry>, extension: string)
    ensures Files(directory, a + b, extension) == Files(directory, a, extension) + Files(directory, b, extension)
  {
    if |a| > 0 {
      assert (a + b)[1..] == a[1..] + b;
      FilesAppend(directory, a[1..], b, extension);
    } else {
      assert a + b == b;
    }
  }

  /** `FtpEntry.getFiles`: a new list of the regular entries, in order. */
  function RegularEntries(entries: seq<FtpEntry>): (r: seq<FtpEntry>)
    ensures |r| <= |entries|
    ensures forall e :: e in r <==> e in entries && e.kind == Regular
  {
    if |entries| == 0 then []
    else
      var rest := RegularEntries(entries[1..]);
      assert forall e :: e in entries <==> e == entries[0] || e in entries[1..];
      (if entries[0].kind == Regular then [entries[0]] else []) + rest
  }

  /** The filter keeps relative order: it distributes over concatenation. */
  lemma {:induction false} RegularEntriesAppend(a: seq<FtpEntry>, b: seq<FtpEntry>)
    ensures RegularEntries(a + b) == RegularEntries(a) + RegularEntries(b)
  {
    if |a| > 0 {
      assert (a + b)[1..] == a[1..] + b;
      RegularEntriesAppend(a[1..], b);
    } else {
      assert a + b == b;
    }
  }

  /** A listing of regular files only is returned unchanged. */
  lemma {:induction false} RegularEntriesKeepsAll(entries: seq<FtpEntry>)
    requires forall i :: 0 <= i < |entries| ==> entries[i].kind == Regular
    ensures RegularEntries(entries) == entries
  {
    if |entries| > 0 {
      RegularEntriesKeepsAll(entries[1..]);
      assert [entries[0]] + entries[1..] == entries;
    }
  }
}

=== FILE: ftpdialogs.dfy ===
/**
 * The two dialogs that deal with packages on a console's FTP server: "Add FTP files", which finds
 * the packages, sizes their downloads and names them `ftp://ip:port/...`, and "Change FTP path",
 * which moves already listed packages to another address.
 */
module FtpDialogs {
  import opened Wrappers
  import opened JavaInt
  import opened Strings
  import opened Decimal
  import opened Bytes
  import Pkg

  const SCHEME: string := "ftp://"

  /** Where a package on the server is shown to live: `ftp://ip:port`. */
  function Prefix(ip: string, port: string): (r: string)
    ensures |r| == |SCHEME| + |ip| + 1 + |port|
    ensures r[..|SCHEME|] == SCHEME
    ensures r[|SCHEME|..|SCHEME| + |ip|] == ip && r[|SCHEME| + |ip|] == ':' && r[|SCHEME| + |ip| + 1..] == port
  {
    var r := SCHEME + ip + [':'] + port;
    assert r[|SCHEME|..|SCHEME| + |ip|] == ip;
    assert r[|SCHEME| + |ip| + 1..] == port;
    r
  }

  // ---------------------------------------------------------------------------------------------
  // Locations

  /** A path, the directory before its last '/', and the file name after it. */
  function Locate(path: string): (r: Option<Pkg.Location>)
    ensures r.Some? <==> '/' in path
    ensures r.Some? ==> r.value.path == path && r.value.directory + "/" + r.value.filename == path
    ensures r.Some? ==> '/' !in r.value.filename
  {
    var separator := LastIndexOfChar(path, '/');
    if separator == -1 then
      assert forall k :: 0 <= k < |path| ==> path[k] != '/';
      None
    else
      var r := Pkg.Location(path, path[..separator], path[separator + 1..]);
      assert r.directory + "/" + r.filename == path[..separator] + path[separator..];
      assert path[..separator] + path[separator..] == path;
      assert forall k :: 0 <= k < |r.filename| ==> r.filename[k] == path[separator + 1 + k];
      Some(r)
  }

  /** Splitting the path at its last '/' puts a '/'-free prefix in front of the directory. */
  lemma LocateAfterPrefix(prefix: string, file: string)
    requires '/' in file
    ensures var r := Locate(prefix + file).value;
            var l := Locate(file).value;
            r.directory == prefix + l.directory && r.filename == l.filename
  {
    var s := prefix + file;
    var r := Locate(s).value;
    var l := Locate(file).value;
    var j := LastIndexOfChar(file, '/');
    assert s[|prefix| + j] == '/';
    var i := LastIndexOfChar(s, '/');
    assert i == |prefix| + j;
    assert r.directory == s[..i] == prefix + file[..j];
    assert r.filename == s[i + 1..] == file[j + 1..];
  }

  // ---------------------------------------------------------------------------------------------
  // "Change FTP path"

  /** An IP or port the dialog accepts: not empty and without '/'. */
  predicate Acceptable(input: string) {
    |input| > 0 && '/' !in input
  }

  /** Where the server part of an `ftp://` path ends: its first '/' after the scheme, or -1. */
  function RootIndex(path: string): (r: int)
    ensures r == -1 || (|SCHEME| <= r < |path| && path[r] == '/')
    ensures forall k :: |SCHEME| <= k < |path| && (r == -1 || k < r) ==> path[k] != '/'
  {
    IndexOfChar(path, '/', |SCHEME|)
  }

  /**
   * One package's new location: an `ftp://` path with a '/' after its scheme keeps everything from
   * that '/' on behind the new `ftp://ip:port`; any other path is left alone (`None`).
   */
  function Rehost(ip: string, port: string, path: string): (r: Option<Pkg.Location>)
    ensures r.Some? <==> StartsWith(path, SCHEME) && RootIndex(path) != -1
    ensures r.Some? ==> r.value.path == Prefix(ip, port) + path[RootIndex(path)..]
    ensures r.Some? ==> r.value.directory + "/" + r.value.filename == r.value.path && '/' !in r.value.filename
  {
    if !StartsWith(path, SCHEME) then None
    else
      var root := RootIndex(path);
      if root == -1 then None
      else
        var newPath := Prefix(ip, port) + path[root..];
        assert newPath[|Prefix(ip, port)|] == '/';
        Locate(newPath)
  }

  /**
   * The OK button: nothing at all when the IP or port is empty or holds a '/'; otherwise every
   * package on a server moves to the new address and every other package keeps its location.
   */
  function ChangePaths(ip: string, port: string, locations: seq<Pkg.Location>): (r: Option<seq<Pkg.Location>>)
    ensures r.None? <==> !Acceptable(ip) || !Acceptable(port)
    ensures r.Some? ==> |r.value| == |locations|
    ensures r.Some? ==> forall k :: 0 <= k < |locations| ==>
              r.value[k] == Rehost(ip, port, locations[k].path).GetOr(locations[k])
  {
    if !Acceptable(ip) || !Acceptable(port) then None
    else Some(seq(|locations|, k requires 0 <= k < |locations| => Rehost(ip, port, locations[k].path).GetOr(locations[k])))
  }

  /** In a path built from an acceptable IP and port, the server part ends where the file path starts. */
  lemma RootOfPrefixed(ip: string, port: string, file: string)
    requires Acceptable(ip) && Acceptable(port) && |file| > 0 && file[0] == '/'
    ensures RootIndex(Prefix(ip, port) + file) == |Prefix(ip, port)|
    ensures StartsWith(Prefix(ip, port) + file, SCHEME)
  {
    var p := Prefix(ip, port);
    var s := p + file;
    assert s[|p|] == '/';
    assert s[..|SCHEME|] == p[..|SCHEME|];
  }

  /**
   * Moving a package to a new address and back restores its location: the file path on the server
   * survives any number of changes.
   */
  lemma RehostRoundTrip(ip0: string, port0: string, ip: string, port: string, file: string)
    requires Acceptable(ip0) && Acceptable(port0) && Acceptable(ip) && Acceptable(port)
    requires |file| > 0 && file[0] == '/'
    ensures var moved := Rehost(ip, port, Prefix(ip0, port0) + file);
            moved.Some? && moved.value.path == Prefix(ip, port) + file
            && Rehost(ip0, port0, moved.value.path) == Locate(Prefix(ip0, port0) + file)
  {
    RootOfPrefixed(ip0, port0, file);
    var original := Prefix(ip0, port0) + file;
    assert original[|Prefix(ip0, port0)|..] == file;
    RootOfPrefixed(ip, port, file);
    var moved := Prefix(ip, port) + file;
    assert moved[|Prefix(ip, port)|..] == file;
  }

  // ---------------------------------------------------------------------------------------------
  // "Add FTP files": the most recently used IP and port

  /** The first position that holds `x`. */
  function FirstIndex(items: seq<string>, x: string, from: nat): (r: Option<nat>)
    ensures r.Some? ==> from <= r.value < |items| && items[r.value] == x
    ensures forall k :: from <= k < |items| && (r.None? || k < r.value) ==> items[k] != x
    decreases |items| - from
  {
    if from >= |items| then None
    else if items[from] == x then Some(from)
    else FirstIndex(items, x, from + 1)
  }

  /**
   * Choosing an IP (or port) from the list makes it the default: it trades places with the first
   * item; a choice not in the list changes nothing.
   */
  function MakeDefault(items: seq<string>, chosen: string): (r: seq<string>)
    ensures |r| == |items| && multiset(r) == multiset(items)
    ensures chosen !in items ==> r == items
    ensures chosen in items ==>
              var i := FirstIndex(items, chosen, 0).value;
              r[0] == chosen && r[i] == items[0]
              && forall k :: 0 < k < |items| && k != i ==> r[k] == items[k]
  {
    match FirstIndex(items, chosen, 0)
    case None => items
    case Some(i) =>
      var r := items[i := items[0]][0 := chosen];
      assert multiset(items[i := items[0]]) == multiset(items) - multiset{items[i]} + multiset{items[0]};
      r
  }

  /** Choosing the default again changes nothing. */
  lemma MakeDefaultIdempotent(items: seq<string>, chosen: string)
    ensures MakeDefault(MakeDefault(items, chosen), chosen) == MakeDefault(items, chosen)
  {
    var once := MakeDefault(items, chosen);
    if chosen in items {
      assert once[0] == chosen;
      assert FirstIndex(once, chosen, 0) == Some(0);
      assert once[0 := once[0]][0 := chosen] == once;
    }
  }

  // ---------------------------------------------------------------------------------------------
  // "Add FTP files": sizing, naming and progress

  /** Where the header keeps the body offset and the body size. */
  const BODY_OFFSET_AT: nat := 0x20
  const BODY_SIZE_AT: nat := 0x28

  /**
   * The length downloaded for a package: body offset plus body size, read big-endian from the
   * first bytes, added as `long`s and narrowed to an `int`. A header too short to hold them fails.
   */
  function DownloadLength(header: seq<byte>): (r: Option<int32>)
    ensures r.Some? <==> |header| >= BODY_SIZE_AT + 8
    ensures r.Some? ==>
              var total := Pkg.I64(header, BODY_OFFSET_AT) as int + Pkg.I64(header, BODY_SIZE_AT) as int;
              (total - r.value as int) % TWO_32 == 0 && (0 <= total < TWO_31 ==> r.value as int == total)
  {
    var offset :- GetLong(header, BODY_OFFSET_AT);
    var size :- GetLong(header, BODY_SIZE_AT);
    var total := offset as int + size as int;
    var sum := Wrap64(total);
    var r := Wrap32(sum as int);
    NarrowingKeepsLowBits(total, sum as int, r as int);
    Some(r)
  }

  /** Wrapping to 64 and then to 32 bits keeps the low 32 bits of the exact sum. */
  lemma NarrowingKeepsLowBits(x: int, y: int, z: int)
    requires (x - y) % TWO_64 == 0 && (y - z) % TWO_32 == 0
    ensures (x - z) % TWO_32 == 0
  {
    var k := (x - y) / TWO_64;
    var m := (y - z) / TWO_32;
    assert x - y == k * TWO_64;
    assert y - z == m * TWO_32;
    assert x - z == (k * TWO_32 + m) * TWO_32;
  }

  /**
   * A package found at `file` on the server at `ip` and `port`: the path is the server prefix and
   * the file; the directory is the prefix and the file's text before its last '/'; the file name is
   * the text after it. A file without '/' throws while being named, and the package is not added.
   */
  function AddedLocation(ip: string, port: int32, file: string): (r: Option<Pkg.Location>)
    ensures r.Some? <==> '/' in file
    ensures r.Some? ==> r.value.path == Prefix(ip, DecimalString(port as int)) + file
    ensures r.Some? ==>
              var l := Locate(file).value;
              r.value.directory == Prefix(ip, DecimalString(port as int)) + l.directory && r.value.filename == l.filename
  {
    var prefix := Prefix(ip, DecimalString(port as int));
    var separator := LastIndexOfChar(file, '/');
    if separator == -1 then
      assert forall k :: 0 <= k < |file| ==> file[k] != '/';
      None
    else
      Some(Pkg.Location(prefix + file, prefix + file[..separator], file[separator + 1..]))
  }

  /**
   * A package added from one address and then moved by "Change FTP path" ends up exactly where
   * adding it from the new address would have put it.
   */
  lemma ChangeAfterAdd(ip: string, port: int32, newIp: string, newPort: int32, file: string)
    requires Acceptable(ip) && Acceptable(newIp) && port >= 0 && newPort >= 0
    requires |file| > 0 && file[0] == '/'
    ensures AddedLocation(ip, port, file).Some?
    ensures Rehost(newIp, DecimalString(newPort as int), AddedLocation(ip, port, file).value.path)
            == AddedLocation(newIp, newPort, file)
  {
    var p0 := DecimalString(port as int);
    var p1 := DecimalString(newPort as int);
    DecimalStringCharacters(port as int);
    DecimalStringCharacters(newPort as int);
    assert '/' !in p0 && '/' !in p1;
    RehostRoundTrip(ip, p0, newIp, p1, file);
    LocateAfterPrefix(Prefix(newIp, p1), file);
  }

  /** The percentage shown while the `i`th of `n` packages is read: `(int) Math.ceil(100 * i / n)`. */
  function Percentage(i: int32, n: int32): (r: int32)
    requires 1 <= i <= n
    ensures 100 * n < TWO_31 ==>
              0 <= r <= 100 && r as int * n <= 100 * i < (r as int + 1) * n && (r == 100 <==> i == n)
  {
    PercentBounds(i as int, n as int);
    Quotient32(Wrap32(100 * i as int), n)
  }

  /** Java's `int` division by a positive divisor: toward zero, and never larger in size than `x`. */
  function Quotient32(x: int32, n: int32): (r: int32)
    requires n >= 1
    ensures 0 <= x ==> r as int == x as int / n as int
    ensures x < 0 ==> x <= r <= 0
  {
    if x >= 0 then
      DivAtMost(x as int, n as int);
      (x as int / n as int) as int32
    else
      DivAtMost(-(x as int), n as int);
      (-((-(x as int)) / n as int)) as int32
  }

  /** Dividing a natural number by a positive one never makes it larger. */
  lemma DivAtMost(a: int, n: int)
    requires 0 <= a && n >= 1
    ensures 0 <= a / n <= a
  {
    var q := a / n;
    assert q * n <= a;
    if q > 0 {
      MulMonotone(1, n, q);
    }
  }

  /** The floor of `100 * i / n` lies in [0, 100], is 100 only at the end, and brackets `100 * i`. */
  lemma PercentBounds(i: int, n: int)
    requires 1 <= i <= n
    ensures var q := 100 * i / n;
            0 <= q <= 100 && q * n <= 100 * i < (q + 1) * n && (q == 100 <==> i == n)
  {
    MulMonotone(i, n, 100);
    QuotientBounds(100 * i, n, 100);
    var q := 100 * i / n;
    if i == n {
      MulMonotone(q, 100, n);
      MulMonotone(q + 1, 100, n);
    }
  }

  /** The quotient of `x` by `n` brackets `x` between two multiples of `n` and is at most `limit`. */
  lemma QuotientBounds(x: int, n: int, limit: int)
    requires n > 0 && 0 <= x < (limit + 1) * n
    ensures 0 <= x / n <= limit && (x / n) * n <= x < (x / n + 1) * n
  {
    var q, m := x / n, x % n;
    assert x == q * n + m && 0 <= m < n;
  }

  /** The division is on `int`s, so the ceiling has nothing left to round: one of three shows 33. */
  lemma PercentageRoundsDown()
    ensures Percentage(1, 3) == 33 && 33 * 3 < 100
  {
  }

  /** A percentage rounded up, as the call to `Math.ceil` means it: 34 for one of three. */
  function CeilPercentage(i: nat, n: nat): (r: nat)
    requires 1 <= i <= n
    ensures 0 < r <= 100 && (r - 1) * n < 100 * i <= r * n
  {
    QuotientBounds(100 * i + n - 1, n, 100);
    (100 * i + n - 1) / n
  }

  /** Rounding up gives 34 for one of three, where the program shows 33. */
  lemma CeilPercentageRoundsUp()
    ensures CeilPercentage(1, 3) == 34 && Percentage(1, 3) == 33
  {
  }

  /**
   * The percentage shown agrees with the rounded-up one exactly when `n` divides `100 * i`, and is
   * one below it otherwise.
   */
  lemma PercentageVersusCeiling(i: int32, n: int32)
    requires 1 <= i <= n && 100 * n < TWO_31
    ensures (100 * i as int) % n as int == 0 ==> Percentage(i, n) as int == CeilPercentage(i as int, n as int)
    ensures (100 * i as int) % n as int != 0 ==> Percentage(i, n) as int + 1 == CeilPercentage(i as int, n as int)
  {
    FloorCeiling(100 * i as int, n as int, Percentage(i, n) as int, CeilPercentage(i as int, n as int));
  }

  /** The integers bracketing `x` from below and from above by multiples of `n` meet when `n` divides `x`. */
  lemma FloorCeiling(x: int, n: int, r: int, c: int)
    requires n > 0 && r * n <= x < (r + 1) * n && (c - 1) * n < x <= c * n
    ensures x % n == 0 ==> r == c
    ensures x % n != 0 ==> r + 1 == c
  {
    if x % n == 0 {
      var q := x / n;
      assert x == q * n;
      MulMonotone(r, q, n);
      MulMonotone(r + 1, q, n);
      MulMonotone(q, c - 1, n);
      MulMonotone(q, c, n);
    } else {
      if r * n == x {
        MultipleMod(x, n, r);
      }
      MulMonotone(r + 1, c - 1, n);
      MulMonotone(c, r, n);
    }
  }

}

=== FILE: gui.dfy ===
/**
 * The pure decisions inside the main window (`GUI`): the text forms of settings that are saved and
 * read back (int arrays, the window size, the synchronized directories of a tab), which rows
 * "Select Synchronized" and "Select Non-Synchronized" pick, the name of a new tab, moving a tab,
 * and which packages the properties window opens with.
 */
module Gui {
  import opened Wrappers
  import opened JavaInt
  import opened Strings
  import opened Decimal
  import Watcher

  // ---------------------------------------------------------------------------------------------
  // int arrays as text

  /** The decimal text of each element. */
  function Decimals(a: seq<int32>): (r: seq<string>)
    ensures |r| == |a| && forall k :: 0 <= k < |a| ==> r[k] == DecimalString(a[k])
  {
    seq(|a|, k requires 0 <= k < |a| => DecimalString(a[k]))
  }

  /** `Arrays.toString(int[])`: "[1, 2, 3]", and "[]" for no elements. */
  function IntArrayString(a: seq<int32>): string {
    "[" + Join(", ", Decimals(a)) + "]"
  }

  /** `Integer.valueOf` of every piece; `None` as soon as one is no number. */
  function ParseAll(parts: seq<string>): (r: Option<seq<int32>>)
    ensures r.Some? <==> forall k :: 0 <= k < |parts| ==> ParseInt(parts[k]).Some?
    ensures r.Some? ==> |r.value| == |parts| && forall k :: 0 <= k < |parts| ==> ParseInt(parts[k]) == Some(r.value[k])
    decreases |parts|
  {
    if |parts| == 0 then Some([])
    else
      var first :- ParseInt(parts[0]);
      var rest :- ParseAll(parts[1..]);
      assert forall k :: 1 <= k < |parts| ==> parts[k] == parts[1..][k - 1];
      Some([first] + rest)
  }

  /**
   * `propertyToIntArray`: every "[" and "]" removed, the rest split at ", " and each piece read
   * with `Integer.valueOf`; `None` where that throws.
   */
  function PropertyToIntArray(property: string): Option<seq<int32>> {
    ParseAll(Split(Replace(Replace(property, "[", ""), "]", ""), ", "))
  }

  /** No piece holds `c`, and neither does the separator: then the joined text does not. */
  lemma {:induction false} JoinAvoids(sep: string, parts: seq<string>, c: char)
    requires c !in sep && forall k :: 0 <= k < |parts| ==> c !in parts[k]
    ensures c !in Join(sep, parts)
    decreases |parts|
  {
    if |parts| > 1 {
      JoinAvoids(sep, parts[1..], c);
    }
  }

  /** Decimal text holds neither brackets nor commas nor an "x". */
  lemma DecimalAvoids(x: int, c: char)
    requires c == '[' || c == ']' || c == ',' || c == 'x'
    ensures c !in DecimalString(x)
  {
    DecimalStringCharacters(x);
  }

  /** Removing a character that only leads the text. */
  lemma ReplaceLeading(c: char, body: string)
    requires c !in body
    ensures Replace([c] + body, [c], "") == body
  {
    var s := [c] + body;
    assert s[..1] == [c] && s[1..] == body;
    ReplaceAbsent(body, [c], "");
  }

  /** Removing a character that only ends the text. */
  lemma ReplaceTrailing(c: char, body: string)
    requires c !in body
    ensures Replace(body + [c], [c], "") == body
  {
    ReplaceCharConcat(body, [c], c, "");
    ReplaceAbsent(body, [c], "");
    ReplaceLeading(c, "");
    assert [c] + "" == [c];
  }

  /** Removing the brackets around a text that holds none leaves the text. */
  lemma StripBrackets(body: string)
    requires '[' !in body && ']' !in body
    ensures Replace(Replace("[" + body + "]", "[", ""), "]", "") == body
  {
    var closed := body + "]";
    assert "[" + body + "]" == ['['] + closed;
    assert '[' !in closed;
    ReplaceLeading('[', closed);
    ReplaceTrailing(']', body);
  }

  /** `propertyToIntArray` reads back what `Arrays.toString` wrote, for a non-empty array. */
  lemma IntArrayRoundTrip(a: seq<int32>)
    requires |a| > 0
    ensures PropertyToIntArray(IntArrayString(a)) == Some(a)
  {
    var parts := Decimals(a);
    ArrayBody(a);
    SplitJoin(", ", parts);
    ParseDecimals(a);
  }

  /** Without its brackets, the array text is the elements joined by ", ", none holding a comma. */
  lemma ArrayBody(a: seq<int32>)
    ensures Replace(Replace(IntArrayString(a), "[", ""), "]", "") == Join(", ", Decimals(a))
    ensures forall k :: 0 <= k < |a| ==> ',' !in Decimals(a)[k]
  {
    var parts := Decimals(a);
    forall k | 0 <= k < |parts|
      ensures '[' !in parts[k] && ']' !in parts[k] && ',' !in parts[k]
    {
      DecimalAvoids(a[k], '[');
      DecimalAvoids(a[k], ']');
      DecimalAvoids(a[k], ',');
    }
    JoinAvoids(", ", parts, '[');
    JoinAvoids(", ", parts, ']');
    StripBrackets(Join(", ", parts));
  }

  /** Each element's decimal text reads back as the element. */
  lemma ParseDecimals(a: seq<int32>)
    ensures ParseAll(Decimals(a)) == Some(a)
  {
    var parts := Decimals(a);
    forall k | 0 <= k < |parts|
      ensures ParseInt(parts[k]) == Some(a[k])
    {
      ParseIntDecimalString(a[k]);
    }
    var v := ParseAll(parts).value;
    assert forall k :: 0 <= k < |a| ==> v[k] == a[k];
    assert v == a;
  }

  /** An empty array is written "[]", which cannot be read back: the empty piece is no number. */
  lemma EmptyArrayUnreadable()
    ensures IntArrayString([]) == "[]"
    ensures PropertyToIntArray("[]") == None
  {
    StripBrackets("");
    assert "[" + "" + "]" == "[]";
    NoOccurrence("", ", ");
  }

  // ---------------------------------------------------------------------------------------------
  // Window size

  /** The window size as saved: `String.format("%dx%d", width, height)`. */
  function ShellSizeString(width: int32, height: int32): string {
    DecimalString(width) + "x" + DecimalString(height)
  }

  /** The window size as read: split at "x", then `Integer.valueOf` of the first two pieces. */
  function ParseShellSize(s: string): Option<(int32, int32)> {
    var parts := Split(s, "x");
    if |parts| < 2 then None
    else
      var width :- ParseInt(parts[0]);
      var height :- ParseInt(parts[1]);
      Some((width, height))
  }

  /** The saved window size reads back, negative numbers included. */
  lemma ShellSizeRoundTrip(width: int32, height: int32)
    ensures ParseShellSize(ShellSizeString(width, height)) == Some((width, height))
  {
    var parts := [DecimalString(width), DecimalString(height)];
    DecimalAvoids(width, 'x');
    DecimalAvoids(height, 'x');
    assert Join("x", parts) == ShellSizeString(width, height);
    SplitJoin("x", parts);
    ParseIntDecimalString(width);
    ParseIntDecimalString(height);
  }

  // ---------------------------------------------------------------------------------------------
  // Synchronized directories of a tab

  /** The two settings a tab's synchronized directories are saved as: the NUL-joined paths and the flags. */
  function SaveSyncedDirs(dirs: seq<Watcher.SyncedDir>): (string, string) {
    (Join("\0", Watcher.SynchedDirs(dirs)), IntArrayString(Watcher.RecursionStates(dirs)))
  }

  /**
   * The directories a tab's watcher holds after loading, and whether loading got as far as
   * starting the watcher.
   */
  datatype Loaded = Loaded(dirs: seq<Watcher.SyncedDir>, started: bool)

  /**
   * Loading them: the paths split at NUL; an empty first path means there are none, and the
   * watcher is not started; otherwise the flags are read and each path is added in order. When
   * the flags run out first, Java throws after adding the pairs it could read, and the watcher is
   * not started. `None` where Java throws before adding any directory.
   */
  function LoadSyncedDirs(paths: string, flags: string): (r: Option<Loaded>)
    ensures r.Some? && r.value.started ==>
              var names := Split(paths, "\0");
              |names| > 0 && names[0] != "" && PropertyToIntArray(flags).Some?
              && |names| <= |PropertyToIntArray(flags).value|
  {
    var names := Split(paths, "\0");
    if |names| == 0 then None
    else if names[0] == "" then Some(Loaded([], false))
    else
      var recursion :- PropertyToIntArray(flags);
      Some(Loaded(Watcher.LoadDirectories([], names, recursion), |names| <= |recursion|))
  }

  /**
   * Saving and loading a tab's synchronized directories gives them back, each not yet known to
   * exist, when the paths are distinct, non-empty and free of NUL.
   */
  lemma SyncedDirsRoundTrip(dirs: seq<Watcher.SyncedDir>)
    requires Watcher.NoDupDirs(dirs)
    requires forall k :: 0 <= k < |dirs| ==> dirs[k].dir != "" && '\0' !in dirs[k].dir
    ensures var (paths, flags) := SaveSyncedDirs(dirs);
            LoadSyncedDirs(paths, flags) == Some(Loaded(Watcher.Forget(dirs), |dirs| > 0))
  {
    var names := Watcher.SynchedDirs(dirs);
    if |dirs| == 0 {
      NoOccurrence("", "\0");
    } else {
      SplitJoin("\0", names);
      IntArrayRoundTrip(Watcher.RecursionStates(dirs));
      Watcher.SaveLoadRoundTrip(dirs);
    }
  }

  // ---------------------------------------------------------------------------------------------
  // Selecting rows by synchronized directory

  /** Whether a package directory belongs to synchronized directory `dir`: equal, or a raw prefix when recursive. */
  predicate InSyncedDir(directory: string, dir: string, recursion: int) {
    if recursion == 0 then directory == dir else StartsWith(directory, dir)
  }

  /** The package directory belongs to some synchronized directory. */
  predicate InSome(directory: string, dirs: seq<string>, recursion: seq<int>)
    requires |recursion| == |dirs|
  {
    exists i :: 0 <= i < |dirs| && InSyncedDir(directory, dirs[i], recursion[i])
  }

  /** The package directory fails to belong to some synchronized directory. */
  predicate OutsideSome(directory: string, dirs: seq<string>, recursion: seq<int>)
    requires |recursion| == |dirs|
  {
    exists i :: 0 <= i < |dirs| && !InSyncedDir(directory, dirs[i], recursion[i])
  }

  /** "Select Synchronized": which rows get selected, by their package directory. */
  function SelectSynchronized(rows: seq<string>, dirs: seq<string>, recursion: seq<int>): (r: seq<bool>)
    requires |recursion| == |dirs|
    ensures |r| == |rows| && forall k :: 0 <= k < |rows| ==> (r[k] <==> InSome(rows[k], dirs, recursion))
  {
    seq(|rows|, k requires 0 <= k < |rows| => InSome(rows[k], dirs, recursion))
  }

  /**
   * "Select Non-Synchronized" as written: every row when there are no synchronized directories,
   * and otherwise the rows that fail to belong to at least one of them.
   */
  function SelectNonSynchronized(rows: seq<string>, dirs: seq<string>, recursion: seq<int>): (r: seq<bool>)
    requires |recursion| == |dirs|
    ensures |r| == |rows|
    ensures |dirs| == 0 ==> forall k :: 0 <= k < |rows| ==> r[k]
    ensures |dirs| > 0 ==> forall k :: 0 <= k < |rows| ==> (r[k] <==> OutsideSome(rows[k], dirs, recursion))
  {
    seq(|rows|, k requires 0 <= k < |rows| => |dirs| == 0 || OutsideSome(rows[k], dirs, recursion))
  }

  /** With at most one synchronized directory, each row is picked by exactly one of the two selections. */
  lemma SelectionsComplementary(rows: seq<string>, dirs: seq<string>, recursion: seq<int>)
    requires |recursion| == |dirs| <= 1
    ensures forall k :: 0 <= k < |rows| ==>
      (SelectSynchronized(rows, dirs, recursion)[k] <==> !SelectNonSynchronized(rows, dirs, recursion)[k])
  {
    if |dirs| == 1 {
      forall k | 0 <= k < |rows|
        ensures InSome(rows[k], dirs, recursion) <==> !OutsideSome(rows[k], dirs, recursion)
      {
        if InSyncedDir(rows[k], dirs[0], recursion[0]) {
          assert InSome(rows[k], dirs, recursion);
        } else {
          assert OutsideSome(rows[k], dirs, recursion);
        }
      }
    }
  }

  /** With two directories, a row in one of them is picked by both selections. */
  lemma SelectionsOverlap()
    ensures SelectSynchronized(["/a"], ["/a", "/b"], [0, 0])[0]
    ensures SelectNonSynchronized(["/a"], ["/a", "/b"], [0, 0])[0]
  {
    assert InSyncedDir("/a", ["/a", "/b"][0], [0, 0][0]);
    assert !InSyncedDir("/a", ["/a", "/b"][1], [0, 0][1]);
  }

  // ---------------------------------------------------------------------------------------------
  // Tabs

  const DEFAULT_TAB_NAME: string := "Default Tab"
  const NEW_TAB_NAME: string := "New Tab"

  /** The i-th candidate name for a new tab. */
  function Candidate(i: int): string {
    NEW_TAB_NAME + " #" + DecimalString(i)
  }

  /** Different numbers give different candidate names. */
  lemma CandidateInjective(i: int, j: int)
    requires Candidate(i) == Candidate(j)
    ensures i == j
  {
    var p := NEW_TAB_NAME + " #";
    assert Candidate(i)[|p|..] == DecimalString(i);
    assert Candidate(j)[|p|..] == DecimalString(j);
    DecimalStringInjective(i, j);
  }

  /**
   * The search loop from index `i`: the first candidate no tab uses, or the last index below
   * `Integer.MAX_VALUE` when every one is used.
   */
  function FirstFree(names: seq<string>, i: int): (r: int)
    requires 0 <= i < INT_MAX
    ensures i <= r < INT_MAX
    ensures Candidate(r) !in names || r == INT_MAX - 1
    ensures forall j :: i <= j < r ==> Candidate(j) in names
    decreases INT_MAX - i
  {
    if Candidate(i) !in names || i == INT_MAX - 1 then i else FirstFree(names, i + 1)
  }

  /**
   * The name of a tab created without content, given the names of the existing tabs: the default
   * name for the first one, otherwise "New Tab #i" for the first unused i from the tab count on.
   */
  function NewTabName(names: seq<string>): string {
    if |names| == 0 then DEFAULT_TAB_NAME
    else if |names| >= INT_MAX then ""
    else Candidate(FirstFree(names, |names|))
  }

  /** The candidates `lo` to `lo + n` cannot all be among `n` names. */
  lemma {:induction false} SomeCandidateFree(taken: set<string>, lo: nat, n: nat)
    requires |taken| <= n
    ensures exists j :: lo <= j <= lo + n && Candidate(j) !in taken
    decreases n
  {
    var top := Candidate(lo + n);
    if top in taken {
      var rest := taken - {top};
      SomeCandidateFree(rest, lo, n - 1);
      var j :| lo <= j <= lo + n - 1 && Candidate(j) !in rest;
      if Candidate(j) == top {
        CandidateInjective(j, lo + n);
      }
    }
  }

  /** A list holds no more distinct values than elements. */
  lemma {:induction false} SetOfSeqSize(names: seq<string>)
    ensures |set x | x in names| <= |names|
    decreases |names|
  {
    if |names| > 0 {
      var front := names[..|names| - 1];
      SetOfSeqSize(front);
      assert (set x | x in names) == (set x | x in front) + {names[|names| - 1]};
    }
  }

  /** While there are fewer tabs than about a billion, a new tab's name is unused, and it is the first unused candidate. */
  lemma NewTabNameFresh(names: seq<string>)
    requires 0 < |names| && 2 * |names| < INT_MAX - 1
    ensures NewTabName(names) !in names
    ensures exists i :: |names| <= i <= 2 * |names| && NewTabName(names) == Candidate(i)
                        && forall j :: |names| <= j < i ==> Candidate(j) in names
  {
    var taken := set x | x in names;
    SetOfSeqSize(names);
    SomeCandidateFree(taken, |names|, |names|);
    var free :| |names| <= free <= 2 * |names| && Candidate(free) !in taken;
    var r := FirstFree(names, |names|);
    assert r <= free;
  }

  /** Tabs and which of them is selected. */
  datatype Tabs<T> = Tabs(contents: seq<T>, selected: nat)

  /** Whether the selection points at a tab. */
  predicate Valid<T>(t: Tabs<T>) {
    t.selected < |t.contents|
  }

  /**
   * "Move Left" on the tab at `index`: it swaps places with its left neighbour and the selection
   * follows its content; on the leftmost tab nothing happens.
   */
  function MoveLeft<T>(t: Tabs<T>, index: nat): (r: Tabs<T>)
    requires Valid(t) && index < |t.contents|
    ensures Valid(r) && |r.contents| == |t.contents|
    ensures r.contents[r.selected] == t.contents[t.selected]
    ensures multiset(r.contents) == multiset(t.contents)
    ensures index == 0 ==> r == t
    ensures index > 0 ==>
              r.contents[index - 1] == t.contents[index] && r.contents[index] == t.contents[index - 1]
              && forall k :: 0 <= k < |t.contents| && k != index && k != index - 1 ==> r.contents[k] == t.contents[k]
  {
    if index == 0 then t
    else Tabs(Swap(t.contents, index - 1), SwapIndex(t.selected, index - 1))
  }

  /**
   * "Move Right" on the tab at `index`: it swaps places with its right neighbour and the selection
   * follows its content; on the rightmost tab nothing happens.
   */
  function MoveRight<T>(t: Tabs<T>, index: nat): (r: Tabs<T>)
    requires Valid(t) && index < |t.contents|
    ensures Valid(r) && |r.contents| == |t.contents|
    ensures r.contents[r.selected] == t.contents[t.selected]
    ensures multiset(r.contents) == multiset(t.contents)
    ensures index == |t.contents| - 1 ==> r == t
    ensures index < |t.contents| - 1 ==>
              r.contents[index + 1] == t.contents[index] && r.contents[index] == t.contents[index + 1]
              && forall k :: 0 <= k < |t.contents| && k != index && k != index + 1 ==> r.contents[k] == t.contents[k]
  {
    if index == |t.contents| - 1 then t
    else Tabs(Swap(t.contents, index), SwapIndex(t.selected, index))
  }

  /** The tabs at `i` and `i + 1` exchanged. */
  function Swap<T>(s: seq<T>, i: nat): (r: seq<T>)
    requires i + 1 < |s|
    ensures |r| == |s| && r[i] == s[i + 1] && r[i + 1] == s[i]
    ensures forall k :: 0 <= k < |s| && k != i && k != i + 1 ==> r[k] == s[k]
    ensures multiset(r) == multiset(s)
  {
    var r := s[..i] + [s[i + 1], s[i]] + s[i + 2..];
    assert s == s[..i] + [s[i], s[i + 1]] + s[i + 2..];
    r
  }

  /** Where a selection at `k` goes when the tabs at `i` and `i + 1` are exchanged. */
  function SwapIndex(k: nat, i: nat): nat {
    if k == i then i + 1 else if k == i + 1 then i else k
  }

  /** Moving a tab right undoes moving it left. */
  lemma MoveRightUndoesLeft<T>(t: Tabs<T>, index: nat)
    requires Valid(t) && 0 < index < |t.contents|
    ensures MoveRight(MoveLeft(t, index), index - 1) == t
  {
    var left := MoveLeft(t, index);
    assert left == Tabs(Swap(t.contents, index - 1), SwapIndex(t.selected, index - 1));
    SwapTwice(t.contents, index - 1);
    assert SwapIndex(SwapIndex(t.selected, index - 1), index - 1) == t.selected;
  }

  /** Exchanging the same two tabs twice restores them. */
  lemma SwapTwice<T>(s: seq<T>, i: nat)
    requires i + 1 < |s|
    ensures Swap(Swap(s, i), i) == s
  {
    var twice := Swap(Swap(s, i), i);
    assert forall k :: 0 <= k < |s| ==> twice[k] == s[k];
  }

  // ---------------------------------------------------------------------------------------------
  // Opening the properties window

  /**
   * `openPkgProperties`: with exactly one selected row, every row opens, starting at the selected
   * one; otherwise the selected rows open, in table order, starting at the first.
   */
  function PropertiesSelection<T>(rows: seq<T>, selection: seq<nat>): (r: (seq<T>, nat))
    requires forall k :: 0 <= k < |selection| ==> selection[k] < |rows|
    ensures |selection| == 1 ==> r.0 == rows && r.1 == selection[0]
    ensures |selection| != 1 ==> r.1 == 0 && |r.0| == |selection|
                                 && forall k :: 0 <= k < |selection| ==> r.0[k] == rows[selection[k]]
  {
    if |selection| == 1 then (rows, selection[0])
    else (seq(|selection|, k requires 0 <= k < |selection| => rows[selection[k]]), 0)
  }

  /** The window always opens at the package of the first selected row. */
  lemma PropertiesStartAtSelection<T>(rows: seq<T>, selection: seq<nat>)
    requires forall k :: 0 <= k < |selection| ==> selection[k] < |rows|
    requires |selection| > 0
    ensures var (pkgs, index) := PropertiesSelection(rows, selection);
            index < |pkgs| && pkgs[index] == rows[selection[0]]
  {}
}

=== FILE: hex.dfy ===
/**
 * Hexadecimal text: the upper-case digest strings of `Hex.byteArrayToHexString` and the `%0nX`
 * renderings `String.format` produces for numbers.
 */
module Hex {
  import opened Wrappers
  import opened Bytes

  const HexTable: string := "0123456789ABCDEF"

  predicate IsUpperHexDigit(c: char) {
    '0' <= c <= '9' || 'A' <= c <= 'F'
  }

  /** The digit for `d`, which is the entry `d` of the program's lookup table. */
  function HexDigit(d: nat): (c: char)
    requires d < 16
    ensures IsUpperHexDigit(c)
  {
    if d < 10 then (d + '0' as int) as char else (d - 10 + 'A' as int) as char
  }

  lemma HexDigitIsTableEntry(d: nat)
    requires d < 16
    ensures HexDigit(d) == HexTable[d]
  {}

  /** Value of a hexadecimal digit in either case, as `Character.digit(c, 16)` gives for ASCII. */
  function HexDigitValue(c: char): (r: Option<nat>)
    ensures r.Some? ==> r.value < 16
  {
    if '0' <= c <= '9' then Some(c as int - '0' as int)
    else if 'A' <= c <= 'F' then Some(c as int - 'A' as int + 10)
    else if 'a' <= c <= 'f' then Some(c as int - 'a' as int + 10)
    else None
  }

  lemma HexDigitValueOfDigit(d: nat)
    requires d < 16
    ensures HexDigitValue(HexDigit(d)) == Some(d)
  {}

  /** `Hex.byteArrayToHexString`: two upper-case digits per byte, high nibble first. */
  function HexString(bytes: seq<byte>): (r: string)
    ensures |r| == 2 * |bytes|
    ensures forall k :: 0 <= k < |r| ==> IsUpperHexDigit(r[k])
  {
    if |bytes| == 0 then ""
    else [HexDigit(bytes[0] / 16), HexDigit(bytes[0] % 16)] + HexString(bytes[1..])
  }

  /** Byte `i` becomes characters `2i` (its high nibble) and `2i + 1` (its low nibble). */
  lemma {:induction false} HexStringNibbles(bytes: seq<byte>, i: nat)
    requires i < |bytes|
    ensures HexString(bytes)[2 * i] == HexDigit(bytes[i] / 16)
    ensures HexString(bytes)[2 * i + 1] == HexDigit(bytes[i] % 16)
  {
    if i > 0 {
      HexStringNibbles(bytes[1..], i - 1);
    }
  }

  /** Reads pairs of hexadecimal digits back into bytes; None for odd length or a non-digit. */
  function HexDecode(s: string): (r: Option<seq<byte>>)
    ensures r.Some? ==> 2 * |r.value| == |s|
    decreases |s|
  {
    if |s| == 0 then Some([])
    else if |s| == 1 then None
    else
      match (HexDigitValue(s[0]), HexDigitValue(s[1]))
      case (Some(hi), Some(lo)) =>
        (match HexDecode(s[2..])
         case Some(rest) => Some([hi * 16 + lo] + rest)
         case None => None)
      case _ => None
  }

  /** Every digest string decodes back to the bytes it was made from. */
  lemma {:induction false} HexRoundTrip(bytes: seq<byte>)
    ensures HexDecode(HexString(bytes)) == Some(bytes)
  {
    if |bytes| > 0 {
      var b := bytes[0];
      var s := HexString(bytes);
      assert s == [HexDigit(b / 16), HexDigit(b % 16)] + HexString(bytes[1..]);
      assert s[2..] == HexString(bytes[1..]);
      HexRoundTrip(bytes[1..]);
      HexDigitValueOfDigit(b / 16);
      HexDigitValueOfDigit(b % 16);
      assert (b / 16) * 16 + b % 16 == b;
      assert bytes == [b] + bytes[1..];
    }
  }

  /** Different byte strings give different digests. */
  lemma HexStringInjective(a: seq<byte>, b: seq<byte>)
    requires HexString(a) == HexString(b)
    ensures a == b
  {
    HexRoundTrip(a);
    HexRoundTrip(b);
  }

  /** The digest of a concatenation is the concatenation of the digests. */
  lemma {:induction false} HexStringConcat(a: seq<byte>, b: seq<byte>)
    ensures HexString(a + b) == HexString(a) + HexString(b)
  {
    if |a| > 0 {
      assert (a + b)[1..] == a[1..] + b;
      HexStringConcat(a[1..], b);
    } else {
      assert a + b == b;
    }
  }

  function Pow16(n: nat): (r: nat)
    ensures r > 0
  {
    if n == 0 then 1 else 16 * Pow16(n - 1)
  }

  /** Exactly `width` upper-case hexadecimal digits of `v`, most significant first. */
  function FixedHex(v: nat, width: nat): (r: string)
    requires v < Pow16(width)
    ensures |r| == width
    ensures forall k :: 0 <= k < |r| ==> IsUpperHexDigit(r[k])
  {
    if width == 0 then "" else FixedHex(v / 16, width - 1) + [HexDigit(v % 16)]
  }

  /** The value of a string of hexadecimal digits. */
  function HexValue(s: string): (r: Option<nat>)
  {
    if |s| == 0 then Some(0)
    else
      match (HexValue(s[..|s| - 1]), HexDigitValue(s[|s| - 1]))
      case (Some(p), Some(d)) => Some(p * 16 + d)
      case _ => None
  }

  /** Fixed-width digits read back as the number they were made from. */
  lemma {:induction false} HexValueFixedHex(v: nat, width: nat)
    requires v < Pow16(width)
    ensures HexValue(FixedHex(v, width)) == Some(v)
  {
    if width > 0 {
      var s := FixedHex(v, width);
      assert s[..|s| - 1] == FixedHex(v / 16, width - 1);
      HexValueFixedHex(v / 16, width - 1);
      HexDigitValueOfDigit(v % 16);
    }
  }

  /**
   * `String.format("%0" + width + "X", v)` for a non-negative `v`: at least `width` digits,
   * zero-padded, and as many more as the value needs.
   */
  function FormatHex(v: nat, width: nat): (r: string)
    ensures |r| >= width
    ensures forall k :: 0 <= k < |r| ==> IsUpperHexDigit(r[k])
    ensures HexValue(r) == Some(v)
    decreases v - Pow16(width)
  {
    if v < Pow16(width) then
      HexValueFixedHex(v, width);
      FixedHex(v, width)
    else
      FormatHex(v, width + 1)
  }

  lemma {:induction false} Pow16Pow256(n: nat)
    ensures Pow16(2 * n) == Pow256(n)
  {
    if n > 0 {
      Pow16Pow256(n - 1);
      assert Pow16(2 * n) == 16 * Pow16(2 * n - 1);
      assert Pow16(2 * n - 1) == 16 * Pow16(2 * n - 2);
    }
  }

  lemma QuotientBound(v: nat, d: nat, p: nat)
    requires d > 0 && v < d * p
    ensures v / d < p
  {}

  /** Fixed-width hexadecimal of a number is the digest of its big-endian bytes. */
  lemma {:induction false} FixedHexIsHexString(v: nat, n: nat)
    requires v < Pow256(n)
    ensures Pow16(2 * n) == Pow256(n)
    ensures FixedHex(v, 2 * n) == HexString(BeEncode(v, n))
  {
    Pow16Pow256(n);
    if n > 0 {
      Pow16Pow256(n - 1);
      QuotientBound(v, 256, Pow256(n - 1));
      FixedHexIsHexString(v / 256, n - 1);
      FixedHexStep(v, n);
    }
  }

  /** One induction step of `FixedHexIsHexString`: the low byte adds its two digits on both sides. */
  lemma FixedHexStep(v: nat, n: nat)
    requires n > 0 && v < Pow256(n) && Pow16(2 * n) == Pow256(n)
    requires v / 256 < Pow256(n - 1) && Pow16(2 * n - 2) == Pow256(n - 1)
    requires FixedHex(v / 256, 2 * n - 2) == HexString(BeEncode(v / 256, n - 1))
    ensures FixedHex(v, 2 * n) == HexString(BeEncode(v, n))
  {
    var high := BeEncode(v / 256, n - 1);
    BeEncodeLast(v, n);
    FixedHexLowByte(v, 2 * n);
    HexStringSnoc(high, v % 256);
  }

  /** The last two fixed-width digits are those of the low byte. */
  lemma FixedHexLowByte(v: nat, width: nat)
    requires width >= 2 && v < Pow16(width)
    ensures v / 256 < Pow16(width - 2)
    ensures FixedHex(v, width)
      == FixedHex(v / 256, width - 2) + [HexDigit((v % 256) / 16), HexDigit((v % 256) % 16)]
  {
    ByteNibbles(v);
    var w := v / 16;
    QuotientBound(v, 16, Pow16(width - 1));
    QuotientBound(w, 16, Pow16(width - 2));
    assert FixedHex(v, width) == FixedHex(w, width - 1) + [HexDigit(v % 16)];
    assert FixedHex(w, width - 1) == FixedHex(w / 16, width - 2) + [HexDigit(w % 16)];
  }

  /** Appending a byte appends its two digits. */
  lemma HexStringSnoc(a: seq<byte>, b: byte)
    ensures HexString(a + [b]) == HexString(a) + [HexDigit(b / 16), HexDigit(b % 16)]
  {
    HexStringConcat(a, [b]);
  }

  /** The two hexadecimal digits of the low byte are the two lowest digits of the number. */
  lemma ByteNibbles(v: nat)
    ensures (v / 16) / 16 == v / 256
    ensures (v / 16) % 16 == (v % 256) / 16
    ensures v % 16 == (v % 256) % 16
  {
    var q, r := v / 256, v % 256;
    var r1, r0 := r / 16, r % 16;
    assert v == 16 * (16 * q + r1) + r0;
    assert v / 16 == 16 * q + r1;
  }
}

=== FILE: javaint.dfy ===
/**
 * Java's fixed-width integers over Dafny's unbounded `int`: the value ranges of `short`, `int` and
 * `long`, two's-complement narrowing (what a cast or an overflowing `+` does), and `Long.signum`.
 */
module JavaInt {

  const TWO_15: int := 0x8000
  const TWO_16: int := 0x1_0000
  const TWO_31: int := 0x8000_0000
  const TWO_32: int := 0x1_0000_0000
  const TWO_63: int := 0x8000_0000_0000_0000
  const TWO_64: int := 0x1_0000_0000_0000_0000

  type int16 = x: int | -0x8000 <= x < 0x8000
  type int32 = x: int | -0x8000_0000 <= x < 0x8000_0000
  type int64 = x: int | -0x8000_0000_0000_0000 <= x < 0x8000_0000_0000_0000

  const INT_MAX: int32 := 0x7fff_ffff
  const LONG_MIN: int64 := -0x8000_0000_0000_0000
  const LONG_MAX: int64 := 0x7fff_ffff_ffff_ffff

  /** The `int` that Java computes for an exact result `x`: the unique int32 congruent to x mod 2^32. */
  function Wrap32(x: int): (r: int32)
    ensures (x - r) % TWO_32 == 0
    ensures -TWO_31 <= x < TWO_31 ==> r == x
  {
    (x + TWO_31) % TWO_32 - TWO_31
  }

  /** The `long` that Java computes for an exact result `x`: the unique int64 congruent to x mod 2^64. */
  function Wrap64(x: int): (r: int64)
    ensures (x - r) % TWO_64 == 0
    ensures -TWO_63 <= x < TWO_63 ==> r == x
  {
    (x + TWO_63) % TWO_64 - TWO_63
  }

  /** Two bytes read as a Java `short`. */
  function Signed16(u: nat): (r: int16)
    requires u < TWO_16
    ensures (u - r) % TWO_16 == 0
  {
    if u >= TWO_15 then u - TWO_16 else u
  }

  /** Four bytes read as a Java `int`. */
  function Signed32(u: nat): (r: int32)
    requires u < TWO_32
    ensures (u - r) % TWO_32 == 0
  {
    if u >= TWO_31 then u - TWO_32 else u
  }

  /** Eight bytes read as a Java `long`. */
  function Signed64(u: nat): (r: int64)
    requires u < TWO_64
    ensures (u - r) % TWO_64 == 0
  {
    if u >= TWO_63 then u - TWO_64 else u
  }

  /** The bits of an `int` as an unsigned number, which is what `%X` prints for a negative value. */
  function Unsigned32(x: int32): (r: nat)
    ensures r < TWO_32
    ensures Signed32(r) == x
  {
    if x < 0 then x + TWO_32 else x
  }

  /** The bits of a `short` as an unsigned number. */
  function Unsigned16(x: int16): (r: nat)
    ensures r < TWO_16
    ensures Signed16(r) == x
  {
    if x < 0 then x + TWO_16 else x
  }

  /** The bits of a `long` as an unsigned number. */
  function Unsigned64(x: int64): (r: nat)
    ensures r < TWO_64
    ensures Signed64(r) == x
  {
    if x < 0 then x + TWO_64 else x
  }

  /** `Long.signum`. */
  function Sign(x: int): (r: int)
    ensures r == -1 || r == 0 || r == 1
    ensures r < 0 <==> x < 0
    ensures r == 0 <==> x == 0
  {
    if x < 0 then -1 else if x == 0 then 0 else 1
  }

  /** Java's `/` on integers: the quotient rounded toward zero (Dafny's `/` rounds down). */
  function JavaDiv(x: int, d: int): (r: int)
    requires d > 0
    ensures 0 <= x ==> r == x / d
    ensures x < 0 ==> r <= 0
  {
    if x >= 0 then x / d else -((-x) / d)
  }

  /** Rounding toward zero is symmetric: negating the dividend negates the quotient. */
  lemma JavaDivNegate(x: int, d: int)
    requires d > 0
    ensures JavaDiv(-x, d) == -JavaDiv(x, d)
  {
    if x > 0 {
      assert -(-x) == x;
    } else if x < 0 {
      assert JavaDiv(x, d) == -((-x) / d);
    }
  }

  // ---------------------------------------------------------------------------------------------
  // Widening to float and Math.round

  const TWO_23: int := 0x80_0000
  const TWO_24: int := 0x100_0000

  /**
   * The spacing of `float` values around the magnitude `m`: the smallest power of two, from
   * `step` on, that keeps `m` below 2^24 of them (a `float` has a 24-bit significand).
   */
  function FloatSpacing(m: nat, step: nat): (r: nat)
    requires step >= 1
    ensures r >= step && m < TWO_24 * r
    ensures r == step || TWO_23 * r <= m
    decreases m - step
  {
    if m < TWO_24 * step then step else FloatSpacing(m, 2 * step)
  }

  /** The multiple of `s` nearest to `m`, a tie going to the even multiple. */
  function NearestMultiple(m: nat, s: nat): (r: nat)
    requires s >= 1
    ensures r % s == 0 && (r - m) * 2 <= s && (m - r) * 2 <= s
    ensures (r - m) * 2 == s || (m - r) * 2 == s ==> (r / s) % 2 == 0
  {
    var q := m / s;
    var rest := m % s;
    var below := q * s;
    MultiplesAround(m, s, q, rest, below);
    if rest * 2 < s || (rest * 2 == s && q % 2 == 0) then below else below + s
  }

  /** `m` lies between the multiples `q * s` and `(q + 1) * s` of `s`. */
  lemma MultiplesAround(m: nat, s: nat, q: int, rest: int, below: int)
    requires s >= 1 && q == m / s && rest == m % s && below == q * s
    ensures m == below + rest && 0 <= rest < s && below >= 0
    ensures below % s == 0 && below / s == q && (below + s) % s == 0 && (below + s) / s == q + 1
  {
    MultipleOf(q, s);
    MultipleOf(q + 1, s);
    assert (q + 1) * s == below + s;
  }

  /**
   * The magnitude of the `float` nearest to the integer magnitude `m`: the nearest multiple of
   * the spacing of floats there. Magnitudes up to 2^24 are exact.
   */
  function FloatOfMagnitude(m: nat): (r: nat)
    ensures var s := FloatSpacing(m, 1); r % s == 0 && (r - m) * 2 <= s && (m - r) * 2 <= s
    ensures m <= TWO_24 ==> r == m
    ensures m > TWO_24 ==> TWO_23 * FloatSpacing(m, 1) <= m
  {
    var s := FloatSpacing(m, 1);
    assert m == TWO_24 ==> s == 2;
    NearestMultiple(m, s)
  }

  /** Multiplying by a positive number keeps the order. */
  lemma MulMonotone(a: int, b: int, n: int)
    requires n > 0
    ensures a * n <= b * n <==> a <= b
  {
    if a <= b {
      assert b * n - a * n == (b - a) * n;
    } else {
      assert a * n - b * n == (a - b) * n;
    }
  }

  /** A multiple of `n` leaves no remainder. */
  lemma MultipleMod(x: int, n: int, r: int)
    requires n > 0 && x == r * n
    ensures x % n == 0
  {
    var q, m := x / n, x % n;
    assert x == q * n + m && 0 <= m < n;
    assert m == (r - q) * n;
    MulMonotone(1, r - q, n);
    MulMonotone(r - q, -1, n);
  }

  /** A multiple of `s` divides by `s` exactly. */
  lemma MultipleOf(k: int, s: int)
    requires s >= 1
    ensures (k * s) % s == 0 && (k * s) / s == k
  {
    var x := k * s;
    MultipleMod(x, s, k);
    var q := x / s;
    assert x == q * s;
    assert (q - k) * s == 0;
    MulMonotone(q - k, 0, s);
    MulMonotone(0, q - k, s);
  }

  /** The widening of a `long` to `float`, as an integer: rounding to nearest, symmetric about zero. */
  function FloatOfInt(x: int): (r: int)
    ensures -TWO_24 <= x <= TWO_24 ==> r == x
    ensures x <= -(TWO_31 + 256) ==> r <= -TWO_31
    ensures x >= 0 <==> r >= 0
  {
    var m: int := FloatOfMagnitude(if x < 0 then -x else x);
    if x < 0 then -m else m
  }

  /**
   * `Math.round(float)` of a whole-number `float` value: the value itself, saturated to the `int`
   * range.
   */
  function RoundFloat(f: int): (r: int32)
    ensures -TWO_31 <= f < TWO_31 ==> r as int == f
    ensures f < -TWO_31 ==> r as int == -TWO_31
    ensures f >= TWO_31 ==> r as int == TWO_31 - 1
  {
    if f < -TWO_31 then -0x8000_0000 else if f >= TWO_31 then 0x7fff_ffff else f as int32
  }
}

=== FILE: lists.dfy ===
/** Operations on `java.util.List` values that several classes share. */
module Lists {

  /** `list.remove(i)`: the element at position `i` leaves, the others keep their order. */
  function RemoveAt<T>(s: seq<T>, i: nat): (r: seq<T>)
    requires i < |s|
    ensures |r| == |s| - 1
    ensures forall k :: 0 <= k < i ==> r[k] == s[k]
    ensures forall k :: i <= k < |r| ==> r[k] == s[k + 1]
  {
    s[..i] + s[i + 1..]
  }

  /** Removing an element takes exactly one copy of it out of the list's contents. */
  lemma RemoveAtMultiset<T>(s: seq<T>, i: nat)
    requires i < |s|
    ensures multiset(RemoveAt(s, i)) + multiset{s[i]} == multiset(s)
  {
    assert s == s[..i] + [s[i]] + s[i + 1..];
  }

  /** Concatenation is associative. */
  lemma Associative<T>(a: seq<T>, b: seq<T>, c: seq<T>)
    ensures (a + b) + c == a + (b + c)
  {}

  /** A list is the part before position `n`, the element there, and the part after. */
  lemma Around<T>(s: seq<T>, n: nat)
    requires n < |s|
    ensures s == s[..n] + ([s[n]] + s[n + 1..])
  {
    assert s[..n] + ([s[n]] + s[n + 1..]) == s[..n] + s[n..];
  }
}

=== FILE: pkg.dfy ===
/**
 * The PS4 PKG reader (`PS4PKG.load`): the fixed-offset file header, the entry table with its
 * names, the digest table, the `param.sfo` parameters and the changelog, read from the bytes of a
 * package. A read outside the buffer, a negative array size or a missing required table makes
 * the whole load fail, as the exceptions do in the program.
 */
module Pkg {
  import opened Wrappers
  import opened JavaInt
  import opened Bytes
  import opened Hex
  import opened Utf8
  import Strings

  /** The bytes that start every package header, big-endian at offset 0. */
  const MAGIC: int32 := 0x7f43_4e54
  /** Entry id of the digest table. */
  const DIGESTS_ID: int32 := 0x1
  /** Entry id of the table of entry names. */
  const ENTRY_NAMES_ID: int32 := 0x200
  /** Entry id of `param.sfo`. */
  const PARAM_SFO_ID: int32 := 0x1000
  /** Entry id of `changeinfo/changeinfo.xml`, the changelog. */
  const CHANGELOG_ID: int32 := 0x1260
  /** The SFO format code of a 32-bit integer parameter. */
  const SFO_INTEGER: int16 := 0x404
  /** Size of one row of the entry table. */
  const ENTRY_ROW_SIZE: int := 0x20
  /** Size of one row of the SFO index table. */
  const SFO_ROW_SIZE: int := 0x10
  /** A header read touches every byte below this offset. */
  const HEADER_SIZE: int := 0x1000

  /** What made a load fail: the exception the program would have thrown. */
  datatype LoadError =
    | NotRegularFile      // the path does not name a regular file
    | BadMagic            // "Invalid magic number"
    | OutOfBounds         // IndexOutOfBounds, BufferUnderflow or IllegalArgument from a buffer
    | NegativeArraySize   // an array allocated with a negative length
    | NullPointer         // a required table that is not there

  /** The decoded header fields; `pfsSignedDigest` is never assigned by the reader. */
  datatype Header = Header(
    pkgType: int32, fileCount: int32, entryCount: int32, scEntryCount: int16,
    tableOffset: int32, entryDataSize: int32,
    bodyOffset: int64, bodySize: int64, contentOffset: int64, contentSize: int64,
    contentId: string,
    drmType: int32, contentType: int32, contentFlags: int32, promoteSize: int32,
    versionDate: int32, versionHash: int32, iroTag: int32, drmTypeVersion: int32,
    digestEntries1: string, digestEntries2: string, digestTableDigest: string, digestBodyDigest: string,
    pfsImageCount: int32, pfsImageFlags: int64, pfsImageOffset: int64, pfsImageSize: int64,
    mountImageOffset: int64, mountImageSize: int64, pkgSize: int64,
    pfsSignedSize: int32, pfsCacheSize: int32,
    pfsImageDigest: string, pfsSignedDigest: Option<string>,
    pfsSplitSizeNth0: int64, pfsSplitSizeNth1: int64,
    pkgDigest: string)

  /** One row of the entry table; `filename` only when the row names an offset into the name table. */
  datatype Entry = Entry(id: int32, flags1: int32, flags2: int32, offset: int32, size: int32,
                         filename: Option<string>)

  /** One `param.sfo` parameter. */
  datatype SfoParam = SfoParam(name: string, value: string)

  function I16(buf: seq<byte>, off: nat): (r: int16)
    requires off + 2 <= |buf|
    ensures GetShort(buf, off) == Some(r)
  {
    GetShort(buf, off).value
  }

  function I32(buf: seq<byte>, off: nat): (r: int32)
    requires off + 4 <= |buf|
    ensures GetInt(buf, off) == Some(r)
  {
    GetInt(buf, off).value
  }

  function I64(buf: seq<byte>, off: nat): (r: int64)
    requires off + 8 <= |buf|
    ensures GetLong(buf, off) == Some(r)
  {
    GetLong(buf, off).value
  }

  /** The 32 bytes at `off` as a digest string. */
  function Digest(buf: seq<byte>, off: nat): (r: string)
    requires off + 32 <= |buf|
    ensures HexDecode(r) == Some(buf[off..off + 32])
  {
    HexRoundTrip(buf[off..off + 32]);
    HexString(buf[off..off + 32])
  }

  /** `loadHeader`: check the magic number, then read every field at its fixed offset. */
  function LoadHeader(buf: seq<byte>): (r: Result<Header, LoadError>)
    ensures r.Success? <==> |buf| >= HEADER_SIZE && GetInt(buf, 0) == Some(MAGIC)
    ensures |buf| < 4 ==> r == Failure(OutOfBounds)
    ensures |buf| >= 4 && GetInt(buf, 0) != Some(MAGIC) ==> r == Failure(BadMagic)
    ensures r.Success? ==> |buf| >= HEADER_SIZE && r.value == ReadHeader(buf)
  {
    if |buf| < 4 then Failure(OutOfBounds)
    else if I32(buf, 0) != MAGIC then Failure(BadMagic)
    else if |buf| < HEADER_SIZE then Failure(OutOfBounds)
    else Success(ReadHeader(buf))
  }

  /**
   * Every header field read at its fixed offset. The reader first stores the digest at 0x440 in
   * pfs_image_digest and then overwrites it with the one at 0x460; pfs_signed_digest keeps its
   * initial null.
   */
  function ReadHeader(buf: seq<byte>): (h: Header)
    requires |buf| >= HEADER_SIZE
    ensures h.contentId == Decode(buf[0x40..0x40 + 36])
    ensures h.pfsSignedDigest == None
  {
      Header(
        I32(buf, 0x004), I32(buf, 0x00C), I32(buf, 0x010), I16(buf, 0x014),
        I32(buf, 0x018), I32(buf, 0x01C),
        I64(buf, 0x020), I64(buf, 0x028), I64(buf, 0x030), I64(buf, 0x038),
        Decode(buf[0x40..0x40 + 36]),
        I32(buf, 0x070), I32(buf, 0x074), I32(buf, 0x078), I32(buf, 0x07C),
        I32(buf, 0x080), I32(buf, 0x084), I32(buf, 0x098), I32(buf, 0x09C),
        Digest(buf, 0x100), Digest(buf, 0x120), Digest(buf, 0x140), Digest(buf, 0x160),
        I32(buf, 0x404), I64(buf, 0x408), I64(buf, 0x410), I64(buf, 0x418),
        I64(buf, 0x420), I64(buf, 0x428), I64(buf, 0x430),
        I32(buf, 0x438), I32(buf, 0x43C),
        Digest(buf, 0x460), None,
        I64(buf, 0x480), I64(buf, 0x488),
        Digest(buf, 0xFE0))
  }

  /** The numeric header fields, each stored at a fixed offset with a fixed width. */
  datatype ScalarField =
    | PkgType | FileCount | EntryCount | ScEntryCount | TableOffset | EntryDataSize
    | BodyOffset | BodySize | ContentOffset | ContentSize
    | DrmType | ContentType | ContentFlags | PromoteSize | VersionDate | VersionHash
    | IroTag | DrmTypeVersion
    | PfsImageCount | PfsImageFlags | PfsImageOffset | PfsImageSize
    | MountImageOffset | MountImageSize | PkgSize | PfsSignedSize | PfsCacheSize
    | PfsSplitSizeNth0 | PfsSplitSizeNth1

  /** Offset of a numeric field in the header, as the layout comments of `Header` give them. */
  function FieldOffset(f: ScalarField): nat {
    match f
    case PkgType => 0x004 case FileCount => 0x00C case EntryCount => 0x010
    case ScEntryCount => 0x014 case TableOffset => 0x018 case EntryDataSize => 0x01C
    case BodyOffset => 0x020 case BodySize => 0x028 case ContentOffset => 0x030
    case ContentSize => 0x038 case DrmType => 0x070 case ContentType => 0x074
    case ContentFlags => 0x078 case PromoteSize => 0x07C case VersionDate => 0x080
    case VersionHash => 0x084 case IroTag => 0x098 case DrmTypeVersion => 0x09C
    case PfsImageCount => 0x404 case PfsImageFlags => 0x408 case PfsImageOffset => 0x410
    case PfsImageSize => 0x418 case MountImageOffset => 0x420 case MountImageSize => 0x428
    case PkgSize => 0x430 case PfsSignedSize => 0x438 case PfsCacheSize => 0x43C
    case PfsSplitSizeNth0 => 0x480 case PfsSplitSizeNth1 => 0x488
  }

  /** Width in bytes of a numeric field: its Java type. */
  function FieldWidth(f: ScalarField): nat {
    match f
    case ScEntryCount => 2
    case BodyOffset | BodySize | ContentOffset | ContentSize | PfsImageFlags | PfsImageOffset
      | PfsImageSize | MountImageOffset | MountImageSize | PkgSize | PfsSplitSizeNth0
      | PfsSplitSizeNth1 => 8
    case _ => 4
  }

  /** The bytes a numeric field's value occupies when written back big-endian. */
  function EncodeField(h: Header, f: ScalarField): seq<byte> {
    match f
    case PkgType => EncodeInt(h.pkgType)
    case FileCount => EncodeInt(h.fileCount)
    case EntryCount => EncodeInt(h.entryCount)
    case ScEntryCount => EncodeShort(h.scEntryCount)
    case TableOffset => EncodeInt(h.tableOffset)
    case EntryDataSize => EncodeInt(h.entryDataSize)
    case BodyOffset => EncodeLong(h.bodyOffset)
    case BodySize => EncodeLong(h.bodySize)
    case ContentOffset => EncodeLong(h.contentOffset)
    case ContentSize => EncodeLong(h.contentSize)
    case DrmType => EncodeInt(h.drmType)
    case ContentType => EncodeInt(h.contentType)
    case ContentFlags => EncodeInt(h.contentFlags)
    case PromoteSize => EncodeInt(h.promoteSize)
    case VersionDate => EncodeInt(h.versionDate)
    case VersionHash => EncodeInt(h.versionHash)
    case IroTag => EncodeInt(h.iroTag)
    case DrmTypeVersion => EncodeInt(h.drmTypeVersion)
    case PfsImageCount => EncodeInt(h.pfsImageCount)
    case PfsImageFlags => EncodeLong(h.pfsImageFlags)
    case PfsImageOffset => EncodeLong(h.pfsImageOffset)
    case PfsImageSize => EncodeLong(h.pfsImageSize)
    case MountImageOffset => EncodeLong(h.mountImageOffset)
    case MountImageSize => EncodeLong(h.mountImageSize)
    case PkgSize => EncodeLong(h.pkgSize)
    case PfsSignedSize => EncodeInt(h.pfsSignedSize)
    case PfsCacheSize => EncodeInt(h.pfsCacheSize)
    case PfsSplitSizeNth0 => EncodeLong(h.pfsSplitSizeNth0)
    case PfsSplitSizeNth1 => EncodeLong(h.pfsSplitSizeNth1)
  }

  /**
   * Writing every numeric field of a loaded header back at its offset reproduces the package's
   * bytes there: each field is exactly the big-endian read at its documented offset.
   */
  lemma HeaderFieldsRoundTrip(buf: seq<byte>, f: ScalarField)
    requires LoadHeader(buf).Success?
    ensures FieldOffset(f) + FieldWidth(f) <= |buf|
    ensures EncodeField(LoadHeader(buf).value, f)
      == buf[FieldOffset(f)..FieldOffset(f) + FieldWidth(f)]
  {}

  /** Which header digest string is stored from which 32 bytes. */
  lemma HeaderDigestsRoundTrip(buf: seq<byte>)
    requires LoadHeader(buf).Success?
    ensures var h := LoadHeader(buf).value;
      HexDecode(h.digestEntries1) == Some(buf[0x100..0x120])
      && HexDecode(h.digestEntries2) == Some(buf[0x120..0x140])
      && HexDecode(h.digestTableDigest) == Some(buf[0x140..0x160])
      && HexDecode(h.digestBodyDigest) == Some(buf[0x160..0x180])
      && HexDecode(h.pfsImageDigest) == Some(buf[0x460..0x480])
      && HexDecode(h.pkgDigest) == Some(buf[0xFE0..0x1000])
  {}

  /** The first NUL at or after `start`: where a C string beginning at `start` ends. */
  function CStringEnd(table: seq<byte>, start: int): (r: Option<nat>)
    ensures r.Some? ==> 0 <= start <= r.value < |table| && table[r.value] == 0
    ensures r.Some? ==> forall k :: start <= k < r.value ==> table[k] != 0
    ensures r.None? ==> start < 0 || forall k :: start <= k < |table| ==> table[k] != 0
    decreases |table| - start
  {
    if start < 0 || start >= |table| then None
    else if table[start] == 0 then Some(start)
    else CStringEnd(table, start + 1)
  }

  /** The six integers of one entry-table row. */
  datatype Row = Row(id: int32, filenameOffset: int32, flags1: int32, flags2: int32,
                     offset: int32, size: int32)

  /** The 24 bytes of row data at `pos`, read big-endian; None if they leave the buffer. */
  function ReadRow(buf: seq<byte>, pos: int): (r: Option<Row>)
    ensures r.Some? <==> 0 <= pos && pos + 24 <= |buf|
  {
    if 0 <= pos && pos + 24 <= |buf| then
      Some(Row(I32(buf, pos), I32(buf, pos + 4), I32(buf, pos + 8), I32(buf, pos + 12),
               I32(buf, pos + 16), I32(buf, pos + 20)))
    else None
  }

  /** The six fields of a row are the six big-endian `int`s at its position, in the order the reader takes them. */
  lemma ReadRowFields(buf: seq<byte>, pos: int)
    requires 0 <= pos && pos + 24 <= |buf|
    ensures var row := ReadRow(buf, pos).value;
      buf[pos..pos + 24] == EncodeInt(row.id) + EncodeInt(row.filenameOffset) + EncodeInt(row.flags1)
        + EncodeInt(row.flags2) + EncodeInt(row.offset) + EncodeInt(row.size)
  {
    var row := ReadRow(buf, pos).value;
    var w := buf[pos..pos + 24];
    assert w == buf[pos..pos + 4] + buf[pos + 4..pos + 8] + buf[pos + 8..pos + 12]
      + buf[pos + 12..pos + 16] + buf[pos + 16..pos + 20] + buf[pos + 20..pos + 24];
  }

  /** Where row `i` of the entry table starts: `table_offset + 0x20 * i` in `int` arithmetic. */
  function RowPosition(h: Header, i: nat): int32 {
    Wrap32(h.tableOffset + Wrap32(ENTRY_ROW_SIZE * i))
  }

  /** `new byte[size]` filled from `offset` by an absolute bulk get. */
  function Payload(buf: seq<byte>, offset: int32, size: int32): (r: Result<seq<byte>, LoadError>)
    ensures r.Success? <==> Slice(buf, offset, size).Some?
    ensures r.Success? ==> r.value == buf[offset..offset + size]
  {
    if size < 0 then Failure(NegativeArraySize)
    else match Slice(buf, offset, size)
      case Some(b) => Success(b)
      case None => Failure(OutOfBounds)
  }

  /** A name table is present and the C string at `nameOffset` in it is terminated. */
  predicate NameEnds(table: Option<seq<byte>>, nameOffset: int32) {
    table.Some? && CStringEnd(table.value, nameOffset).Some?
  }

  /** The name of an entry whose row has a positive name offset, read from the name table. */
  function EntryName(table: Option<seq<byte>>, nameOffset: int32)
    : (r: Result<string, LoadError>)
    ensures r.Success? <==> NameEnds(table, nameOffset)
    ensures r.Success? ==> r.value == Decode(table.value[nameOffset..CStringEnd(table.value, nameOffset).value])
  {
    match table
    case None => Failure(NullPointer)
    case Some(t) =>
      match CStringEnd(t, nameOffset)
      case None => Failure(OutOfBounds)
      case Some(end) => Success(Decode(t[nameOffset..end]))
  }

  /** The name table after reading `row`: its payload if it is the name table, else unchanged. */
  function NextTable(buf: seq<byte>, row: Row, table: Option<seq<byte>>): Option<seq<byte>> {
    if row.id == ENTRY_NAMES_ID then
      match Payload(buf, row.offset, row.size)
      case Success(t) => Some(t)
      case Failure(_) => None
    else table
  }

  /** The entry a row describes, with its name. */
  function EntryOf(row: Row, name: Option<string>): Entry {
    Entry(row.id, row.flags1, row.flags2, row.offset, row.size, name)
  }

  /**
   * One pass of the `loadEntries` loop: read row `i`, replace the name table if the row is the
   * name table (id 0x200), then look up the row's name. Yields the entry and the name table in
   * force afterwards.
   */
  function LoadRow(buf: seq<byte>, h: Header, i: nat, table: Option<seq<byte>>)
    : (r: Result<(Entry, Option<seq<byte>>), LoadError>)
  {
    match ReadRow(buf, RowPosition(h, i))
    case None => Failure(OutOfBounds)
    case Some(row) =>
      if row.id == ENTRY_NAMES_ID && Payload(buf, row.offset, row.size).Failure? then
        Failure(Payload(buf, row.offset, row.size).error)
      else
        var table' := NextTable(buf, row, table);
        if row.filenameOffset > 0 then
          match EntryName(table', row.filenameOffset)
          case Failure(e) => Failure(e)
          case Success(name) => Success((EntryOf(row, Some(name)), table'))
        else Success((EntryOf(row, None), table'))
  }

  /**
   * A table-reading loop: apply `step` to rows `i .. n-1` in order, threading a state from each
   * row to the next, and stop at the first failure.
   */
  function Collect<E, T>(step: (nat, T) -> Result<(E, T), LoadError>, i: nat, n: nat, t: T)
    : (r: Result<seq<E>, LoadError>)
    requires i <= n
    ensures r.Success? ==> |r.value| == n - i
    decreases n - i
  {
    if i == n then Success([])
    else
      match step(i, t)
      case Failure(e) => Failure(e)
      case Success((e, t')) =>
        match Collect(step, i + 1, n, t')
        case Failure(err) => Failure(err)
        case Success(rest) => Success([e] + rest)
  }

  /**
   * Row `k` read from the state in force there succeeds exactly when `ok(k)`, and then hands on
   * the state in force at row `k + 1` and yields an element that `matches` row `k`.
   */
  predicate RowAgrees<E, T(==)>(step: (nat, T) -> Result<(E, T), LoadError>, inForce: nat -> T,
                                ok: nat -> bool, matches: (nat, E) -> bool, k: nat) {
    var r := step(k, inForce(k));
    (r.Success? <==> ok(k))
    && (r.Success? ==> r.value.1 == inForce(k + 1) && matches(k, r.value.0))
  }

  /**
   * If every row agrees with `ok` and `matches`, the loop from `i` succeeds exactly when every
   * row is `ok`, and then its `k`-th element `matches` row `i + k`.
   */
  lemma {:induction false} CollectSpec<E, T>(step: (nat, T) -> Result<(E, T), LoadError>, inForce: nat -> T,
                                            ok: nat -> bool, matches: (nat, E) -> bool, i: nat, n: nat)
    requires i <= n
    requires forall k :: i <= k < n ==> RowAgrees(step, inForce, ok, matches, k)
    ensures Collect(step, i, n, inForce(i)).Success? <==> forall k :: i <= k < n ==> ok(k)
    ensures var r := Collect(step, i, n, inForce(i));
      r.Success? ==> forall k :: 0 <= k < |r.value| ==> matches(i + k, r.value[k])
    decreases n - i
  {
    if i < n {
      CollectSpec(step, inForce, ok, matches, i + 1, n);
      assert RowAgrees(step, inForce, ok, matches, i);
      var r := Collect(step, i, n, inForce(i));
      if r.Success? {
        var rest := Collect(step, i + 1, n, inForce(i + 1));
        assert r.value == [step(i, inForce(i)).value.0] + rest.value;
        forall k | 0 <= k < |r.value|
          ensures matches(i + k, r.value[k])
        {
          if k > 0 {
            assert r.value[k] == rest.value[k - 1];
            assert i + k == (i + 1) + (k - 1);
          }
        }
      }
    }
  }

  /** One pass of the entry loop as a step function. */
  function LoadStep(buf: seq<byte>, h: Header): (nat, Option<seq<byte>>) -> Result<(Entry, Option<seq<byte>>), LoadError> {
    (k: nat, table: Option<seq<byte>>) => LoadRow(buf, h, k, table)
  }

  /** The loop of `loadEntries` from row `i` on, with the name table read so far. */
  function EntriesFrom(buf: seq<byte>, h: Header, i: nat, table: Option<seq<byte>>)
    : (r: Result<seq<Entry>, LoadError>)
    requires i <= h.entryCount
    ensures r.Success? ==> |r.value| == h.entryCount - i
  {
    Collect(LoadStep(buf, h), i, h.entryCount as nat, table)
  }

  /** `loadEntries`: one entry per counted row, in table order. */
  function LoadEntries(buf: seq<byte>, h: Header): (r: Result<seq<Entry>, LoadError>)
    ensures r.Success? ==> |r.value| == h.entryCount
    ensures h.entryCount < 0 ==> r == Failure(NegativeArraySize)
  {
    if h.entryCount < 0 then Failure(NegativeArraySize) else EntriesFrom(buf, h, 0, None)
  }

  /** Row `n` as the entry table holds it, if it lies inside the buffer. */
  function RowAt(buf: seq<byte>, h: Header, n: nat): Option<Row> {
    ReadRow(buf, RowPosition(h, n))
  }

  /**
   * The name table in force once rows `0 .. k-1` have been read: the payload of the latest of
   * them with id 0x200, or none if there is none (or it cannot be read).
   */
  function TableInForce(buf: seq<byte>, h: Header, k: nat): Option<seq<byte>> {
    if k == 0 then None
    else match RowAt(buf, h, k - 1)
      case Some(row) =>
        if row.id == ENTRY_NAMES_ID then
          (match Payload(buf, row.offset, row.size)
           case Success(t) => Some(t)
           case Failure(_) => None)
        else TableInForce(buf, h, k - 1)
      case None => None
  }

  /** The table in force after row `k` is the one the loop's update gives. */
  lemma TableInForceStep(buf: seq<byte>, h: Header, k: nat)
    requires RowAt(buf, h, k).Some?
    ensures TableInForce(buf, h, k + 1) == NextTable(buf, RowAt(buf, h, k).value, TableInForce(buf, h, k))
  {}

  /** Row `n` can be read: it lies in the buffer, its name table (if it is one) too, and its name ends. */
  predicate RowLoads(buf: seq<byte>, h: Header, n: nat) {
    match RowAt(buf, h, n)
    case None => false
    case Some(row) =>
      (row.id == ENTRY_NAMES_ID ==> Payload(buf, row.offset, row.size).Success?)
      && (row.filenameOffset > 0 ==> NameEnds(TableInForce(buf, h, n + 1), row.filenameOffset))
  }

  /** Entry `e` is what row `n` describes, named from the latest name table at or before it. */
  predicate EntryMatchesRow(buf: seq<byte>, h: Header, n: nat, e: Entry) {
    match RowAt(buf, h, n)
    case None => false
    case Some(row) =>
      if row.filenameOffset > 0 then
        match EntryName(TableInForce(buf, h, n + 1), row.filenameOffset)
        case Success(name) => e == EntryOf(row, Some(name))
        case Failure(_) => false
      else e == EntryOf(row, None)
  }

  /** Rows `i .. entryCount-1` all load. */
  predicate RowsLoadFrom(buf: seq<byte>, h: Header, i: nat) {
    forall n :: i <= n < h.entryCount ==> RowLoads(buf, h, n)
  }

  /** `es` are rows `i, i+1, ...` of the entry table, in order. */
  predicate EntriesMatchFrom(buf: seq<byte>, h: Header, i: nat, es: seq<Entry>) {
    forall k :: 0 <= k < |es| ==> EntryMatchesRow(buf, h, i + k, es[k])
  }

  /** The name table in force before each row. */
  function InForce(buf: seq<byte>, h: Header): nat -> Option<seq<byte>> {
    (k: nat) => TableInForce(buf, h, k)
  }

  /** Whether each row loads. */
  function RowLoadsAt(buf: seq<byte>, h: Header): nat -> bool {
    (k: nat) => RowLoads(buf, h, k)
  }

  /** Whether an entry is what a row describes. */
  function MatchesRowAt(buf: seq<byte>, h: Header): (nat, Entry) -> bool {
    (k: nat, e: Entry) => EntryMatchesRow(buf, h, k, e)
  }

  /**
   * The entry loop reads exactly the rows it should: it succeeds precisely when every counted
   * row loads, and then entry `k` is row `i + k` named from the latest name table at or before it.
   */
  lemma EntriesFromSpec(buf: seq<byte>, h: Header, i: nat)
    requires i <= h.entryCount
    ensures EntriesFrom(buf, h, i, TableInForce(buf, h, i)).Success? <==> RowsLoadFrom(buf, h, i)
    ensures var r := EntriesFrom(buf, h, i, TableInForce(buf, h, i));
      r.Success? ==> EntriesMatchFrom(buf, h, i, r.value)
  {
    var n: nat := h.entryCount as nat;
    var step, inForce, ok, matches := LoadStep(buf, h), InForce(buf, h), RowLoadsAt(buf, h), MatchesRowAt(buf, h);
    forall k | i <= k < n
      ensures RowAgrees(step, inForce, ok, matches, k)
    {
      LoadStepSpec(buf, h, k);
    }
    CollectSpec(step, inForce, ok, matches, i, n);
    var r := Collect(step, i, n, inForce(i));
    assert r == EntriesFrom(buf, h, i, TableInForce(buf, h, i));
    RowsLoadAt(buf, h, i);
    if r.Success? {
      EntriesMatchAt(buf, h, i, r.value);
    }
  }

  lemma RowsLoadAt(buf: seq<byte>, h: Header, i: nat)
    ensures RowsLoadFrom(buf, h, i) <==> forall k: nat :: i <= k < h.entryCount ==> RowLoadsAt(buf, h)(k)
  {
    forall k: nat | i <= k < h.entryCount
      ensures RowLoadsAt(buf, h)(k) == RowLoads(buf, h, k)
    {}
  }

  lemma EntriesMatchAt(buf: seq<byte>, h: Header, i: nat, es: seq<Entry>)
    requires forall k :: 0 <= k < |es| ==> MatchesRowAt(buf, h)(i + k, es[k])
    ensures EntriesMatchFrom(buf, h, i, es)
  {}

  /** Each row agrees with `RowLoads` and `EntryMatchesRow` once the earlier rows are read. */
  lemma LoadStepSpec(buf: seq<byte>, h: Header, k: nat)
    ensures RowAgrees(LoadStep(buf, h), InForce(buf, h), RowLoadsAt(buf, h), MatchesRowAt(buf, h), k)
  {
    LoadRowSpec(buf, h, k);
  }

  /**
   * With the name table the earlier rows leave in force, row `i` loads exactly when `RowLoads`
   * says so, gives the entry the row describes, and leaves the table in force after it.
   */
  lemma LoadRowSpec(buf: seq<byte>, h: Header, i: nat)
    ensures var r := LoadRow(buf, h, i, TableInForce(buf, h, i));
      (r.Success? <==> RowLoads(buf, h, i))
      && (r.Success? ==> r.value.1 == TableInForce(buf, h, i + 1) && EntryMatchesRow(buf, h, i, r.value.0))
  {
    if RowAt(buf, h, i).Some? {
      TableInForceStep(buf, h, i);
    }
  }

  /** `loadEntries` succeeds exactly when every counted row loads, and then it yields those rows. */
  lemma LoadEntriesSpec(buf: seq<byte>, h: Header)
    ensures LoadEntries(buf, h).Success? <==> h.entryCount >= 0 && RowsLoadFrom(buf, h, 0)
    ensures var r := LoadEntries(buf, h);
      r.Success? ==> |r.value| == h.entryCount && EntriesMatchFrom(buf, h, 0, r.value)
  {
    if h.entryCount >= 0 {
      EntriesFromSpec(buf, h, 0);
    }
  }

  /** The index of the first entry with id `id` at or after `from`. */
  function FindEntry(entries: seq<Entry>, id: int32, from: nat): (r: Option<nat>)
    ensures r.Some? ==> from <= r.value < |entries| && entries[r.value].id == id
    ensures r.Some? ==> forall j :: from <= j < r.value ==> entries[j].id != id
    ensures r.None? ==> forall j :: from <= j < |entries| ==> entries[j].id != id
    decreases |entries| - from
  {
    if from >= |entries| then None
    else if entries[from].id == id then Some(from)
    else FindEntry(entries, id, from + 1)
  }

  /** Entry `k` is the first one with id `id`. */
  predicate FirstWithId(entries: seq<Entry>, id: int32, k: int) {
    0 <= k < |entries| && entries[k].id == id && forall j :: 0 <= j < k ==> entries[j].id != id
  }

  /**
   * `getFile`: the payload of the first entry with that id. A negative size or a payload that
   * leaves the buffer is caught and reported as no file, like a missing entry.
   */
  function GetFile(buf: seq<byte>, entries: seq<Entry>, id: int32): (r: Option<seq<byte>>)
    ensures r.Some? <==> exists k :: FirstWithId(entries, id, k)
                                     && Slice(buf, entries[k].offset, entries[k].size).Some?
    ensures r.Some? ==> exists k :: FirstWithId(entries, id, k)
                                    && Slice(buf, entries[k].offset, entries[k].size) == Some(r.value)
  {
    match FindEntry(entries, id, 0)
    case None => None
    case Some(k) => Slice(buf, entries[k].offset, entries[k].size)
  }

  /** Where digest `i` sits in the digest table: `digest_offset + i * 32` in `int` arithmetic. */
  function DigestPosition(digestOffset: int32, i: nat): int32 {
    Wrap32(digestOffset + Wrap32(i * 32))
  }

  /** Digest `i` is readable: its 32 bytes lie inside the digest table. */
  predicate DigestInTable(table: seq<byte>, digestOffset: int32, i: nat) {
    var pos := DigestPosition(digestOffset, i);
    0 <= pos && pos + 32 <= |table|
  }

  /** Digest `i` as a hex string. */
  function DigestOf(table: seq<byte>, digestOffset: int32, i: nat): (d: string)
    requires DigestInTable(table, digestOffset, i)
    ensures var pos := DigestPosition(digestOffset, i);
      HexDecode(d) == Some(table[pos..pos + 32])
  {
    var pos := DigestPosition(digestOffset, i);
    HexRoundTrip(table[pos..pos + 32]);
    HexString(table[pos..pos + 32])
  }

  /**
   * The loop of `loadDigests`: `count` digests, each read on its own, so that the loop fails
   * exactly when one of them lies outside the table.
   */
  function ReadDigests(table: seq<byte>, digestOffset: int32, count: nat): (r: Option<seq<string>>)
    ensures r.Some? <==> forall n :: 0 <= n < count ==> DigestInTable(table, digestOffset, n)
    ensures r.Some? ==>
              |r.value| == count
              && forall n :: 0 <= n < count ==> r.value[n] == DigestOf(table, digestOffset, n)
  {
    if forall n | 0 <= n < count :: DigestInTable(table, digestOffset, n) then
      Some(seq(count, n requires 0 <= n < count => DigestOf(table, digestOffset, n)))
    else None
  }

  /**
   * `loadDigests`: the digest table is the payload of entry 0x1, which must exist; the `int` at
   * 0x10 of it is where the digests start, one 32-byte digest per entry.
   */
  function LoadDigests(buf: seq<byte>, entries: seq<Entry>): (r: Result<seq<string>, LoadError>)
    ensures GetFile(buf, entries, DIGESTS_ID).None? ==> r == Failure(NullPointer)
    ensures r.Success? ==> |r.value| == |entries|
    ensures r.Success? ==>
              GetFile(buf, entries, DIGESTS_ID).Some?
              && GetInt(GetFile(buf, entries, DIGESTS_ID).value, 0x10).Some?
    ensures r.Success? ==> var table := GetFile(buf, entries, DIGESTS_ID).value;
      forall n :: 0 <= n < |entries| ==>
        DigestInTable(table, GetInt(table, 0x10).value, n)
        && r.value[n] == DigestOf(table, GetInt(table, 0x10).value, n)
  {
    match GetFile(buf, entries, DIGESTS_ID)
    case None => Failure(NullPointer)
    case Some(table) =>
      match GetInt(table, 0x10)
      case None => Failure(OutOfBounds)
      case Some(digestOffset) =>
        match ReadDigests(table, digestOffset, |entries|)
        case None => Failure(OutOfBounds)
        case Some(ds) => Success(ds)
  }

  /** The five fields of one 16-byte row of the SFO index table, little-endian. */
  datatype SfoRow = SfoRow(keyOffset: int16, fmt: int16, len: int32, maxLen: int32, dataOffset: int32)

  /** Row `i` of the SFO index, which starts right after the 0x14-byte SFO header. */
  function SfoRowAt(sfo: seq<byte>, i: nat): (r: Option<SfoRow>)
    ensures r.Some? <==> 0x14 + SFO_ROW_SIZE * (i + 1) <= |sfo|
  {
    var pos := 0x14 + SFO_ROW_SIZE * i;
    if pos + SFO_ROW_SIZE <= |sfo| then
      Some(SfoRow(GetShortLE(sfo, pos).value, GetShortLE(sfo, pos + 2).value,
                  GetIntLE(sfo, pos + 4).value, GetIntLE(sfo, pos + 8).value,
                  GetIntLE(sfo, pos + 12).value))
    else None
  }

  /**
   * The parameter a row describes: its name is the C string at `key_table + key_offset`, its value
   * either the `int` at `data_table + data_offset` printed as `0x%08X` (format 0x404) or the
   * `len - 1` bytes there as text.
   */
  function SfoParamOf(sfo: seq<byte>, keyTable: int32, dataTable: int32, row: SfoRow)
    : (r: Result<SfoParam, LoadError>)
    ensures r.Success? ==> var start := Wrap32(keyTable + row.keyOffset);
      CStringEnd(sfo, start).Some? && r.value.name == Decode(sfo[start..CStringEnd(sfo, start).value])
    ensures r.Success? && row.fmt == SFO_INTEGER ==>
      |r.value.value| >= 2 && r.value.value[..2] == "0x"
      && GetIntLE(sfo, Wrap32(dataTable + row.dataOffset)).Some?
      && HexValue(r.value.value[2..]) == Some(Unsigned32(GetIntLE(sfo, Wrap32(dataTable + row.dataOffset)).value))
    ensures r.Success? && row.fmt != SFO_INTEGER ==>
      var off := Wrap32(dataTable + row.dataOffset);
      var n := Wrap32(row.len - 1);
      Slice(sfo, off, n).Some? && r.value.value == Decode(sfo[off..off + n])
    ensures r.Failure? <==>
      CStringEnd(sfo, Wrap32(keyTable + row.keyOffset)).None?
      || (row.fmt == SFO_INTEGER && GetIntLE(sfo, Wrap32(dataTable + row.dataOffset)).None?)
      || (row.fmt != SFO_INTEGER && Slice(sfo, Wrap32(dataTable + row.dataOffset), Wrap32(row.len - 1)).None?)
  {
    var start := Wrap32(keyTable + row.keyOffset);
    match CStringEnd(sfo, start)
    case None => Failure(OutOfBounds)
    case Some(end) =>
      var name := Decode(sfo[start..end]);
      var off := Wrap32(dataTable + row.dataOffset);
      if row.fmt == SFO_INTEGER then
        match GetIntLE(sfo, off)
        case None => Failure(OutOfBounds)
        case Some(v) =>
          var value := "0x" + FormatHex(Unsigned32(v), 8);
          assert value[2..] == FormatHex(Unsigned32(v), 8);
          Success(SfoParam(name, value))
      else
        match Slice(sfo, off, Wrap32(row.len - 1))
        case None => Failure(OutOfBounds)
        case Some(bytes) => Success(SfoParam(name, Decode(bytes)))
  }

  /** Parameter `n` of the SFO, or the failure reading it raises. */
  function SfoParamAt(sfo: seq<byte>, keyTable: int32, dataTable: int32, n: nat)
    : Result<SfoParam, LoadError>
  {
    match SfoRowAt(sfo, n)
    case None => Failure(OutOfBounds)
    case Some(row) => SfoParamOf(sfo, keyTable, dataTable, row)
  }

  /**
   * The loop of `loadParamSFO`: one parameter per row. Every way a row can fail is an index out
   * of bounds, so the loop fails exactly when some row fails.
   */
  function ReadSfoParams(sfo: seq<byte>, keyTable: int32, dataTable: int32, count: nat)
    : (r: Result<seq<SfoParam>, LoadError>)
    ensures r.Success? <==> forall n :: 0 <= n < count ==> SfoParamAt(sfo, keyTable, dataTable, n).Success?
    ensures r.Failure? ==> r.error == OutOfBounds
    ensures r.Success? ==>
              |r.value| == count
              && forall n :: 0 <= n < count ==> SfoParamAt(sfo, keyTable, dataTable, n) == Success(r.value[n])
  {
    if forall n | 0 <= n < count :: SfoParamAt(sfo, keyTable, dataTable, n).Success? then
      Success(seq(count, n requires 0 <= n < count => SfoParamAt(sfo, keyTable, dataTable, n).value))
    else Failure(OutOfBounds)
  }

  /** The three `int`s of the SFO header: key table offset, data table offset and row count. */
  function SfoTables(sfo: seq<byte>): (r: Option<(int32, int32, int32)>)
    ensures r.Some? <==> |sfo| >= 0x14
    ensures r.Some? ==>
              GetIntLE(sfo, 0x08) == Some(r.value.0) && GetIntLE(sfo, 0x0C) == Some(r.value.1)
              && GetIntLE(sfo, 0x10) == Some(r.value.2)
  {
    if |sfo| >= 0x14 then Some((GetIntLE(sfo, 0x08).value, GetIntLE(sfo, 0x0C).value, GetIntLE(sfo, 0x10).value))
    else None
  }

  /** `loadParamSFO` on the payload of `param.sfo`: one parameter per row of its index, in order. */
  function LoadParamSfo(sfo: seq<byte>): (r: Result<seq<SfoParam>, LoadError>)
    ensures |sfo| < 0x14 ==> r == Failure(OutOfBounds)
    ensures |sfo| >= 0x14 && GetIntLE(sfo, 0x10).value < 0 ==> r == Failure(NegativeArraySize)
    ensures r.Success? ==> |sfo| >= 0x14 && |r.value| == GetIntLE(sfo, 0x10).value
    ensures r.Success? ==>
              forall n :: 0 <= n < |r.value| ==>
                SfoParamAt(sfo, GetIntLE(sfo, 0x08).value, GetIntLE(sfo, 0x0C).value, n) == Success(r.value[n])
  {
    match SfoTables(sfo)
    case None => Failure(OutOfBounds)
    case Some((keyTable, dataTable, count)) =>
      if count < 0 then Failure(NegativeArraySize)
      else ReadSfoParams(sfo, keyTable, dataTable, count)
  }

  /** Everything `load` reads from a buffer. */
  datatype Contents = Contents(header: Header, entries: seq<Entry>, digests: seq<string>,
                               params: Option<seq<SfoParam>>, changelog: Option<string>)

  /** The shape every loaded package has: one entry and one digest per counted entry. */
  predicate WellFormed(c: Contents) {
    |c.entries| == c.header.entryCount && |c.digests| == |c.entries|
  }

  /** `load`: header, entries, digests, then the optional `param.sfo` and changelog. */
  function Load(buf: seq<byte>): (r: Result<Contents, LoadError>)
    ensures r.Success? ==> WellFormed(r.value)
    ensures r.Success? ==>
              LoadHeader(buf) == Success(r.value.header)
              && LoadEntries(buf, r.value.header) == Success(r.value.entries)
              && LoadDigests(buf, r.value.entries) == Success(r.value.digests)
    ensures r.Success? ==> LoadExtras(buf, r.value.entries) == Success((r.value.params, r.value.changelog))
    ensures LoadHeader(buf).Failure? ==> r == Failure(LoadHeader(buf).error)
  {
    var header :- LoadHeader(buf);
    var entries :- LoadEntries(buf, header);
    var digests :- LoadDigests(buf, entries);
    var extras :- LoadExtras(buf, entries);
    Success(Contents(header, entries, digests, extras.0, extras.1))
  }

  /** The optional parts of `load`: the parsed `param.sfo`, if present, and the changelog text. */
  function LoadExtras(buf: seq<byte>, entries: seq<Entry>)
    : (r: Result<(Option<seq<SfoParam>>, Option<string>), LoadError>)
    ensures r.Success? ==> (r.value.0.Some? <==> GetFile(buf, entries, PARAM_SFO_ID).Some?)
    ensures r.Success? && r.value.0.Some? ==>
      LoadParamSfo(GetFile(buf, entries, PARAM_SFO_ID).value) == Success(r.value.0.value)
    ensures r.Success? ==> match GetFile(buf, entries, CHANGELOG_ID)
      case None => r.value.1 == None
      case Some(bytes) => r.value.1 == Some(Decode(bytes))
  {
    var params :- match GetFile(buf, entries, PARAM_SFO_ID)
                  case None => Success(None)
                  case Some(sfo) =>
                    (match LoadParamSfo(sfo)
                     case Success(ps) => Success(Some(ps))
                     case Failure(e) => Failure(e));
    var changelog := match GetFile(buf, entries, CHANGELOG_ID)
                     case None => None
                     case Some(bytes) => Some(Decode(bytes));
    Success((params, changelog))
  }

  /** Where a package was loaded from: its path and the two parts `Paths` splits it into. */
  datatype Location = Location(path: string, directory: string, filename: string)

  /** A loaded package; `location` is absent for one loaded from a byte array. */
  datatype Package = Package(location: Option<Location>, contents: Contents)

  /** The part of a file that is mapped: at most `Integer.MAX_VALUE` bytes from its start. */
  function Mapped(fileBytes: seq<byte>): (r: seq<byte>)
    ensures |r| <= INT_MAX && r <= fileBytes
    ensures |fileBytes| <= INT_MAX ==> r == fileBytes
  {
    if |fileBytes| > INT_MAX then fileBytes[..INT_MAX] else fileBytes
  }

  // ---------------------------------------------------------------------------------------------
  // Paths
  // ---------------------------------------------------------------------------------------------

  /** No separator directly follows another. */
  predicate NoDoubleSeparator(path: string, sep: char) {
    forall i :: 0 <= i < |path| - 1 && path[i] == sep ==> path[i + 1] != sep
  }

  /** A path in the form `Paths.get` leaves it: no doubled separator, none at the end but the root's. */
  predicate Normalized(path: string, sep: char) {
    NoDoubleSeparator(path, sep) && (|path| > 1 ==> path[|path| - 1] != sep)
  }

  /** Every run of separators reduced to one. */
  function CollapseSeparators(path: string, sep: char): (r: string)
    ensures |r| <= |path|
    ensures |path| > 0 ==> |r| > 0 && r[0] == path[0]
    ensures NoDoubleSeparator(r, sep)
    ensures NoDoubleSeparator(path, sep) ==> r == path
    ensures |path| > 0 && path[|path| - 1] != sep ==> r[|r| - 1] != sep
    decreases |path|
  {
    if |path| <= 1 then path
    else if path[0] == sep && path[1] == sep then CollapseSeparators(path[1..], sep)
    else [path[0]] + CollapseSeparators(path[1..], sep)
  }

  /**
   * `Paths.get(path)` on a system whose separator is `sep`: runs of separators collapse and a
   * trailing separator is dropped, except from the root path itself.
   */
  function Normalize(path: string, sep: char): (r: string)
    ensures Normalized(r, sep)
    ensures Normalized(path, sep) ==> r == path
    ensures |r| == 0 <==> |path| == 0
  {
    var c := CollapseSeparators(path, sep);
    if |c| > 1 && c[|c| - 1] == sep then c[..|c| - 1] else c
  }

  /** The path `getParent` and `getFileName` were taken from: the root's child has no second separator. */
  function ParentJoin(directory: string, filename: string, sep: char): string {
    if directory == [sep] then directory + filename else directory + [sep] + filename
  }

  /**
   * `getParent().toString()` and `getFileName().toString()` of a path: split at the last
   * separator of its normal form, the parent of a root child being the root. A path without a
   * separator, and the root itself, have no parent (None).
   */
  function LocationOf(path: string, sep: char): (r: Option<Location>)
    ensures r.None? <==> sep !in Normalize(path, sep) || Normalize(path, sep) == [sep]
    ensures r.Some? ==> r.value.path == path
    ensures r.Some? ==> ParentJoin(r.value.directory, r.value.filename, sep) == Normalize(path, sep)
    ensures r.Some? ==> |r.value.filename| > 0 && sep !in r.value.filename
    ensures r.Some? ==> Normalized(r.value.directory, sep) && |r.value.directory| > 0
  {
    var n := Normalize(path, sep);
    var i := Strings.LastIndexOfChar(n, sep);
    if i == -1 || n == [sep] then None
    else
      var directory := if i == 0 then [sep] else n[..i];
      assert i > 0 ==> directory != [sep];
      assert n == n[..i] + [sep] + n[i + 1..];
      Some(Location(path, directory, n[i + 1..]))
  }

  /**
   * The file constructor: only a regular file is read; a path without a parent directory then
   * throws a NullPointerException; a file longer than `Integer.MAX_VALUE` bytes is mapped only
   * that far.
   */
  function Open(path: string, sep: char, isRegularFile: bool, fileBytes: seq<byte>)
    : (r: Result<Package, LoadError>)
    ensures !isRegularFile ==> r == Failure(NotRegularFile)
    ensures isRegularFile && LocationOf(path, sep).None? ==> r == Failure(NullPointer)
    ensures r.Success? <==>
              isRegularFile && LocationOf(path, sep).Some? && Load(Mapped(fileBytes)).Success?
    ensures r.Success? ==> r.value.location == LocationOf(path, sep) && WellFormed(r.value.contents)
  {
    if !isRegularFile then Failure(NotRegularFile)
    else
      var location :- (match LocationOf(path, sep)
                       case None => Failure(NullPointer)
                       case Some(l) => Success(l));
      var contents :- Load(Mapped(fileBytes));
      Success(Package(Some(location), contents))
  }

  /** A bare relative file name, such as "x.pkg", has no parent, so opening it throws. */
  lemma BareNameHasNoParent(name: string, sep: char, fileBytes: seq<byte>)
    requires sep !in name
    ensures Open(name, sep, true, fileBytes) == Failure(NullPointer)
  {
    assert NoDoubleSeparator(name, sep);
  }

  /** A normal-form directory and a file name come back out of the path they make. */
  lemma LocationRoundTrip(directory: string, filename: string, sep: char)
    requires Normalized(directory, sep) && |directory| > 0
    requires |filename| > 0 && sep !in filename
    ensures LocationOf(ParentJoin(directory, filename, sep), sep)
            == Some(Location(ParentJoin(directory, filename, sep), directory, filename))
  {
    var n := ParentJoin(directory, filename, sep);
    var i := if directory == [sep] then 0 else |directory|;
    assert n[i] == sep;
    assert n[i + 1..] == filename;
    assert Normalized(n, sep) by {
      forall j | 0 <= j < |n| - 1 && n[j] == sep
        ensures n[j + 1] != sep
      {
        if j + 1 > i {
          assert n[j + 1] == filename[j - i];
        } else if j + 1 < i {
          assert n[j] == directory[j] && n[j + 1] == directory[j + 1];
        }
      }
      assert n[|n| - 1] == filename[|filename| - 1];
    }
    assert Strings.LastIndexOfChar(n, sep) == i by {
      assert Strings.LastIndexOfChar(n, sep) >= i;
    }
    if i > 0 {
      assert n[..i] == directory;
    }
  }

  /** The byte-array constructor. */
  function FromBytes(buffer: seq<byte>): (r: Result<Package, LoadError>)
    ensures r.Success? <==> Load(buffer).Success?
    ensures r.Success? ==> r.value.location == None && WellFormed(r.value.contents)
  {
    var contents :- Load(buffer);
    Success(Package(None, contents))
  }
}

=== FILE: pkgproperties.dfy ===
/**
 * `PkgProperties`: the properties window that shows one package at a time — its window title, the
 * header and file tables, and the previous/next buttons that step through the opened packages.
 */
module PkgProperties {
  import opened Wrappers
  import opened JavaInt
  import opened Decimal
  import opened Hex
  import opened Pkg
  import opened Strings
  import PkgQuery
  import Lists

  // ---------------------------------------------------------------------------------------------
  // Window title

  /** The title-language setting that asks for no particular language. */
  const NO_LANGUAGE: int32 := -1
  const UNKNOWN_TITLE: string := "UNKNOWN TITLE"
  const TITLE_SUFFIX: string := " - Properties"
  const TITLE_PREFIX: string := "TITLE_"

  /** `%02d`: the decimal text of `n`, zero-padded on the left to two characters. */
  function TwoDigits(n: int32): (r: string)
    ensures |r| >= 2
    ensures ParseInt(r) == Some(n)
    ensures 0 <= n < 100 ==> |r| == 2 && AllDigits(r)
  {
    if 0 <= n < 10 then
      var r := ['0', DigitChar(n as nat)];
      assert r[..1] == "0" && r[..1][..0] == [];
      assert DigitsValue(r[..1]) == 0;
      assert DigitValue(r[1]) == n as int;
      r
    else
      ParseIntDecimalString(n);
      assert n >= 10 ==> NatString(n as nat) == NatString(n as nat / 10) + [DigitChar(n as nat % 10)];
      DecimalString(n as int)
  }

  /** The `param.sfo` key of the title in language `language`. */
  function TitleKey(language: int32): (r: string)
    ensures |r| > |TITLE_PREFIX|
    ensures r[..|TITLE_PREFIX|] == TITLE_PREFIX && ParseInt(r[|TITLE_PREFIX|..]) == Some(language)
  {
    var r := TITLE_PREFIX + TwoDigits(language);
    assert r[|TITLE_PREFIX|..] == TwoDigits(language);
    r
  }

  /**
   * `updateTitle`: the title in the configured language when one is configured and present, else
   * the plain title, else "UNKNOWN TITLE"; a package without `param.sfo` answers "ERROR" to every
   * key, so its window is titled "ERROR".
   */
  function WindowTitle(language: int32, params: Option<seq<SfoParam>>): (r: string)
    ensures params.None? ==> r == PkgQuery.ERROR + TITLE_SUFFIX
  {
    var localized := if language == NO_LANGUAGE then None else PkgQuery.SfoValue(params, TitleKey(language));
    var title := if localized.Some? then localized.value else PkgQuery.SfoValue(params, "TITLE").GetOr(UNKNOWN_TITLE);
    title + TITLE_SUFFIX
  }

  /** With a language chosen and a title in it, the window shows the first such title. */
  lemma LocalizedTitle(language: int32, ps: seq<SfoParam>, i: int)
    requires language != NO_LANGUAGE && PkgQuery.FirstNamed(ps, TitleKey(language), i)
    ensures WindowTitle(language, Some(ps)) == ps[i].value + TITLE_SUFFIX
  {
    FirstNamedUnique(ps, TitleKey(language), i);
  }

  /** With no language chosen, or no title in it, the window shows the first plain title. */
  lemma PlainTitle(language: int32, ps: seq<SfoParam>, i: int)
    requires language == NO_LANGUAGE || Absent(ps, TitleKey(language))
    requires PkgQuery.FirstNamed(ps, "TITLE", i)
    ensures WindowTitle(language, Some(ps)) == ps[i].value + TITLE_SUFFIX
  {
    FirstNamedUnique(ps, "TITLE", i);
  }

  /** With neither title present, the window says so. */
  lemma UnknownTitle(language: int32, ps: seq<SfoParam>)
    requires language == NO_LANGUAGE || Absent(ps, TitleKey(language))
    requires Absent(ps, "TITLE")
    ensures WindowTitle(language, Some(ps)) == UNKNOWN_TITLE + TITLE_SUFFIX
  {
  }

  /** No parameter is named `key`. */
  predicate Absent(ps: seq<SfoParam>, key: string) {
    forall j :: 0 <= j < |ps| ==> ps[j].name != key
  }

  /** Two packages whose titles differ in a language the user has not chosen show the same title. */
  lemma OnlyChosenLanguageMatters(language: int32, other: int32, ps: seq<SfoParam>, title: string)
    requires language != NO_LANGUAGE && other != language
    ensures WindowTitle(language, Some(ps + [SfoParam(TitleKey(other), title)]))
            == WindowTitle(language, Some(ps))
  {
    var qs := ps + [SfoParam(TitleKey(other), title)];
    assert TitleKey(other) != TitleKey(language);
    assert qs[..|ps|] == ps;
    assert TitleKey(other)[..|TITLE_PREFIX|] == TITLE_PREFIX;
    assert TitleKey(other) != "TITLE";
    FirstNamedOfPrefix(ps, qs, TitleKey(language));
    FirstNamedOfPrefix(ps, qs, "TITLE");
  }

  /** Appending a parameter with another name changes nothing about what `key` looks up. */
  lemma FirstNamedOfPrefix(ps: seq<SfoParam>, qs: seq<SfoParam>, key: string)
    requires |qs| == |ps| + 1 && qs[..|ps|] == ps
    requires qs[|ps|].name != key
    ensures PkgQuery.SfoValue(Some(qs), key) == PkgQuery.SfoValue(Some(ps), key)
  {
    assert forall j :: 0 <= j < |ps| ==> qs[j] == ps[j];
    var a := PkgQuery.SfoValue(Some(qs), key);
    var b := PkgQuery.SfoValue(Some(ps), key);
    if a.Some? {
      var i :| PkgQuery.FirstNamed(qs, key, i) && qs[i].value == a.value;
      if i < |ps| {
        assert PkgQuery.FirstNamed(ps, key, i);
        FirstNamedUnique(ps, key, i);
      }
    }
  }

  /** The first parameter with a name is unique, so `getSFOValue` answers its value. */
  lemma FirstNamedUnique(ps: seq<SfoParam>, key: string, i: int)
    requires PkgQuery.FirstNamed(ps, key, i)
    ensures PkgQuery.SfoValue(Some(ps), key) == Some(ps[i].value)
  {
    var v := PkgQuery.SfoValue(Some(ps), key);
    var k :| PkgQuery.FirstNamed(ps, key, k) && ps[k].value == v.value;
    assert !(k < i) && !(i < k);
  }

  // ---------------------------------------------------------------------------------------------
  // Header table

  /** A header field's value, as the `Object` passed to `createHeaderTableItem` sees it. */
  datatype HeaderValue =
    | ShortValue(s: int16)
    | IntValue(i: int32)
    | LongValue(l: int64)
    | StringValue(t: string)
    | Null

  /** How many hexadecimal digits `%04X`, `%08X` and `%016X` give a value of each width. */
  function HexWidth(v: HeaderValue): nat {
    match v
    case ShortValue(_) => 4
    case IntValue(_) => 8
    case LongValue(_) => 16
    case _ => 0
  }

  /** The bits of a number as the unsigned value `%X` prints. */
  function Bits(v: HeaderValue): nat
    requires v.ShortValue? || v.IntValue? || v.LongValue?
  {
    match v
    case ShortValue(s) => Unsigned16(s)
    case IntValue(i) => Unsigned32(i)
    case LongValue(l) => Unsigned64(l)
  }

  lemma Pow16Widths()
    ensures Pow16(4) == TWO_16 && Pow16(8) == TWO_32 && Pow16(16) == TWO_64
  {
    assert Pow16(2) == 0x100;
    assert Pow16(4) == 0x1_0000;
    assert Pow16(6) == 0x100_0000;
    assert Pow16(8) == 0x1_0000_0000;
    assert Pow16(10) == 0x100_0000_0000;
    assert Pow16(12) == 0x1_0000_0000_0000;
    assert Pow16(14) == 0x100_0000_0000_0000;
  }

  /** "0x" and exactly `width` upper-case hexadecimal digits of `v`. */
  function HexCell(v: nat, width: nat): (r: string)
    requires v < Pow16(width)
    ensures |r| == width + 2 && r[..2] == "0x" && HexValue(r[2..]) == Some(v)
  {
    HexValueFixedHex(v, width);
    var r := "0x" + FixedHex(v, width);
    assert r[2..] == FixedHex(v, width);
    r
  }

  /**
   * `createHeaderTableItem`: a row of the field's name and value for a `short`, `int`, `long` or
   * string value — numbers as "0x" and exactly 4, 8 or 16 hexadecimal digits of their bits, strings
   * as they are — and no row for anything else (a `null` string among them).
   */
  function HeaderItem(name: string, value: HeaderValue): (r: Option<(string, string)>)
    ensures r.None? <==> value.Null?
    ensures r.Some? ==> r.value.0 == name
    ensures value.StringValue? ==> r == Some((name, value.t))
    ensures value.ShortValue? || value.IntValue? || value.LongValue? ==>
              var cell := r.value.1;
              |cell| == 2 + HexWidth(value) && cell[..2] == "0x" && HexValue(cell[2..]) == Some(Bits(value))
  {
    Pow16Widths();
    match value
    case ShortValue(s) => Some((name, HexCell(Unsigned16(s), 4)))
    case IntValue(i) => Some((name, HexCell(Unsigned32(i), 8)))
    case LongValue(l) => Some((name, HexCell(Unsigned64(l), 16)))
    case StringValue(t) => Some((name, t))
    case Null => None
  }

  /** Reading a numeric cell back: the hexadecimal digits, taken as the bits of a value of that width. */
  function ReadHexCell(kind: HeaderValue, cell: string): (r: Option<HeaderValue>)
    requires kind.ShortValue? || kind.IntValue? || kind.LongValue?
  {
    if |cell| < 2 || cell[..2] != "0x" then None
    else
      match HexValue(cell[2..])
      case None => None
      case Some(u) =>
        match kind
        case ShortValue(_) => if u < TWO_16 then Some(ShortValue(Signed16(u))) else None
        case IntValue(_) => if u < TWO_32 then Some(IntValue(Signed32(u))) else None
        case LongValue(_) => if u < TWO_64 then Some(LongValue(Signed64(u))) else None
  }

  /** A numeric header cell reads back as the value it shows: no two values share a cell. */
  lemma HeaderCellRoundTrip(name: string, value: HeaderValue)
    requires value.ShortValue? || value.IntValue? || value.LongValue?
    ensures ReadHexCell(value, HeaderItem(name, value).value.1) == Some(value)
  {
  }

  /** The fields in the order the header table lists them. */
  function HeaderFields(h: Header): (r: seq<(string, HeaderValue)>)
    ensures |r| == 37
    ensures forall k :: 0 <= k < |r| && k != PFS_SIGNED_DIGEST_ROW ==> !r[k].1.Null?
    ensures r[PFS_SIGNED_DIGEST_ROW].1.Null? <==> h.pfsSignedDigest.None?
  {
    [("Type", IntValue(h.pkgType)),
     ("File count", IntValue(h.fileCount)),
     ("Entry count", IntValue(h.entryCount)),
     ("SC entry count", ShortValue(h.scEntryCount)),
     ("Table offset", IntValue(h.tableOffset)),
     ("Entry data size", IntValue(h.entryDataSize)),
     ("Body offset", LongValue(h.bodyOffset)),
     ("Body size", LongValue(h.bodySize)),
     ("Content offset", LongValue(h.contentOffset)),
     ("Content size", LongValue(h.contentSize)),
     ("Content ID", StringValue(h.contentId)),
     ("DRM type", IntValue(h.drmType)),
     ("Content type", IntValue(h.contentType)),
     ("Content flags", IntValue(h.contentFlags)),
     ("Promote size", IntValue(h.promoteSize)),
     ("Version date", IntValue(h.versionDate)),
     ("Version hash", IntValue(h.versionHash)),
     ("IRO tag", IntValue(h.iroTag)),
     ("DRM type version", IntValue(h.drmTypeVersion)),
     ("Digest entries 1", StringValue(h.digestEntries1)),
     ("Digest entries 2", StringValue(h.digestEntries2)),
     ("Digest table digest", StringValue(h.digestTableDigest)),
     ("Digest body digest", StringValue(h.digestBodyDigest)),
     ("PFS image count", IntValue(h.pfsImageCount)),
     ("PFS image flags", LongValue(h.pfsImageFlags)),
     ("PFS image offset", LongValue(h.pfsImageOffset)),
     ("PFS image size", LongValue(h.pfsImageSize)),
     ("Mount image offset", LongValue(h.mountImageOffset)),
     ("Mount image size", LongValue(h.mountImageSize)),
     ("PKG size", LongValue(h.pkgSize)),
     ("PFS signed size", IntValue(h.pfsSignedSize)),
     ("PFS cache size", IntValue(h.pfsCacheSize)),
     ("PFS image digest", StringValue(h.pfsImageDigest)),
     ("PFS signed digest", if h.pfsSignedDigest.Some? then StringValue(h.pfsSignedDigest.value) else Null),
     ("PFS split size nth 0", LongValue(h.pfsSplitSizeNth0)),
     ("PFS split size nth 1", LongValue(h.pfsSplitSizeNth1)),
     ("PKG digest", StringValue(h.pkgDigest))]
  }

  /** Where the one field that can be `null` sits. */
  const PFS_SIGNED_DIGEST_ROW: nat := 33

  /** No field of `fields` is `null`. */
  predicate NoNull(fields: seq<(string, HeaderValue)>) {
    forall k :: 0 <= k < |fields| ==> !fields[k].1.Null?
  }

  /** The rows `createHeaderTableItem` adds for the fields, in order. */
  function HeaderRows(fields: seq<(string, HeaderValue)>): (r: seq<(string, string)>)
    ensures |r| <= |fields|
    ensures NoNull(fields) ==> |r| == |fields|
    decreases |fields|
  {
    if |fields| == 0 then []
    else
      RowOf(fields[0]) + HeaderRows(fields[1..])
  }

  /** Without `null` fields, row `k` is the item of field `k`. */
  lemma {:induction false} HeaderRowsItems(fields: seq<(string, HeaderValue)>)
    requires NoNull(fields)
    ensures forall k :: 0 <= k < |fields| ==> HeaderItem(fields[k].0, fields[k].1) == Some(HeaderRows(fields)[k])
    decreases |fields|
  {
    if |fields| > 0 {
      HeaderRowsItems(fields[1..]);
      var rest := HeaderRows(fields[1..]);
      assert HeaderRows(fields) == RowOf(fields[0]) + rest;
      forall k | 0 <= k < |fields|
        ensures HeaderItem(fields[k].0, fields[k].1) == Some(HeaderRows(fields)[k])
      {
        if k > 0 {
          assert fields[k] == fields[1..][k - 1];
        }
      }
    }
  }

  /** The row of one field, if it has one. */
  function RowOf(field: (string, HeaderValue)): (r: seq<(string, string)>)
    ensures |r| <= 1 && (r == [] <==> field.1.Null?)
  {
    match HeaderItem(field.0, field.1)
    case None => []
    case Some(item) => [item]
  }

  /** The rows of two runs of fields are the rows of each, one after the other. */
  lemma {:induction false} HeaderRowsAppend(a: seq<(string, HeaderValue)>, b: seq<(string, HeaderValue)>)
    ensures HeaderRows(a + b) == HeaderRows(a) + HeaderRows(b)
    decreases |a|
  {
    if |a| > 0 {
      assert (a + b)[0] == a[0] && (a + b)[1..] == a[1..] + b;
      HeaderRowsAppend(a[1..], b);
      assert HeaderRows(a + b) == RowOf(a[0]) + HeaderRows(a[1..] + b);
      assert HeaderRows(a) == RowOf(a[0]) + HeaderRows(a[1..]);
      Lists.Associative(RowOf(a[0]), HeaderRows(a[1..]), HeaderRows(b));
    } else {
      assert a + b == b;
    }
  }

  /** `loadHeaderTable`. */
  function HeaderTable(h: Header): seq<(string, string)> {
    HeaderRows(HeaderFields(h))
  }

  /**
   * The header table shows all 37 fields, except that the PFS signed digest — never read from the
   * file — is left out when it is `null`, with every other row in place.
   */
  lemma HeaderTableRows(h: Header)
    ensures h.pfsSignedDigest.Some? ==> |HeaderTable(h)| == 37
    ensures h.pfsSignedDigest.None? ==>
              var f := HeaderFields(h);
              HeaderTable(h) == HeaderRows(f[..PFS_SIGNED_DIGEST_ROW]) + HeaderRows(f[PFS_SIGNED_DIGEST_ROW + 1..])
              && |HeaderTable(h)| == 36
  {
    RowsSkipOnlyNull(HeaderFields(h), PFS_SIGNED_DIGEST_ROW);
  }

  /** Fields of which only the `n`th may be `null` give a row for every other field, in order. */
  lemma RowsSkipOnlyNull(f: seq<(string, HeaderValue)>, n: nat)
    requires n < |f| && forall k :: 0 <= k < |f| && k != n ==> !f[k].1.Null?
    ensures !f[n].1.Null? ==> |HeaderRows(f)| == |f|
    ensures f[n].1.Null? ==> HeaderRows(f) == HeaderRows(f[..n]) + HeaderRows(f[n + 1..]) && |HeaderRows(f)| == |f| - 1
  {
    assert NoNull(f[..n]) && NoNull(f[n + 1..]);
    if f[n].1.Null? {
      RowsSkipNull(f, n);
    } else {
      assert NoNull(f);
    }
  }

  /** A `null` field between two runs of others adds no row. */
  lemma RowsSkipNull(f: seq<(string, HeaderValue)>, n: nat)
    requires n < |f| && f[n].1.Null?
    ensures HeaderRows(f) == HeaderRows(f[..n]) + HeaderRows(f[n + 1..])
  {
    var front, back := f[..n], f[n + 1..];
    var middle := [f[n]] + back;
    Lists.Around(f, n);
    HeaderRowsAppend(front, middle);
    assert middle[0] == f[n] && middle[1..] == back;
    assert HeaderRows(middle) == HeaderRows(back);
  }

  // ---------------------------------------------------------------------------------------------
  // File table

  /** The names of the entries that carry no file name of their own. */
  function KnownName(id: int32): (r: Option<string>)
    ensures r.Some? ==> |r.value| > 0 && r.value[0] != UNKNOWN_PREFIX[0]
  {
    match id
    case 0x0001 => Some("DIGESTS")
    case 0x0010 => Some("ENTRY_KEYS")
    case 0x0020 => Some("IMAGE_KEY")
    case 0x0080 => Some("GENERAL_DIGESTS")
    case 0x0100 => Some("METAS")
    case 0x0200 => Some("ENTRY_NAMES")
    case 0x0400 => Some("license.dat")
    case 0x0401 => Some("license.info")
    case 0x0402 => Some("nptitle.dat")
    case 0x0403 => Some("npbind.dat")
    case 0x0404 => Some("selfinfo.dat")
    case 0x0406 => Some("imageinfo.dat")
    case 0x0407 => Some("target-deltainfo.dat")
    case 0x0408 => Some("origin-deltainfo.dat")
    case 0x0409 => Some("psreserved.dat")
    case _ => None
  }

  /** The id a fixed name stands for. */
  function KnownId(name: string): Option<int32> {
    match name
    case "DIGESTS" => Some(0x0001)
    case "ENTRY_KEYS" => Some(0x0010)
    case "IMAGE_KEY" => Some(0x0020)
    case "GENERAL_DIGESTS" => Some(0x0080)
    case "METAS" => Some(0x0100)
    case "ENTRY_NAMES" => Some(0x0200)
    case "license.dat" => Some(0x0400)
    case "license.info" => Some(0x0401)
    case "nptitle.dat" => Some(0x0402)
    case "npbind.dat" => Some(0x0403)
    case "selfinfo.dat" => Some(0x0404)
    case "imageinfo.dat" => Some(0x0406)
    case "target-deltainfo.dat" => Some(0x0407)
    case "origin-deltainfo.dat" => Some(0x0408)
    case "psreserved.dat" => Some(0x0409)
    case _ => None
  }

  /** Each fixed name stands for exactly one id. */
  lemma KnownNameRoundTrip(id: int32)
    requires KnownName(id).Some?
    ensures KnownId(KnownName(id).value) == Some(id)
  {
  }

  const UNKNOWN_PREFIX: string := "UNKNOWN_0x"

  /** `%04X` of an `int`: at least four digits of its bits, more when they need more. */
  function Hex04(id: int32): (r: string)
    ensures |r| >= 4 && HexValue(r) == Some(Unsigned32(id))
  {
    FormatHex(Unsigned32(id), 4)
  }

  /**
   * The Name column: the entry's own file name, else the fixed name of a known id, else
   * "UNKNOWN_0x" and the id in hexadecimal.
   */
  function EntryName(e: Entry): (r: string)
    ensures e.filename.Some? ==> r == e.filename.value
    ensures e.filename.None? && KnownName(e.id).Some? ==> r == KnownName(e.id).value
    ensures e.filename.None? && KnownName(e.id).None? ==>
              |r| > |UNKNOWN_PREFIX| && r[..|UNKNOWN_PREFIX|] == UNKNOWN_PREFIX
              && HexValue(r[|UNKNOWN_PREFIX|..]) == Some(Unsigned32(e.id))
  {
    if e.filename.Some? then e.filename.value
    else if KnownName(e.id).Some? then KnownName(e.id).value
    else
      var r := UNKNOWN_PREFIX + Hex04(e.id);
      assert r[|UNKNOWN_PREFIX|..] == Hex04(e.id);
      r
  }

  /** Unnamed entries with different ids get different names: the Name column tells them apart. */
  lemma UnnamedEntriesDistinct(a: Entry, b: Entry)
    requires a.filename.None? && b.filename.None? && a.id != b.id
    ensures EntryName(a) != EntryName(b)
  {
    var ka, kb := KnownName(a.id), KnownName(b.id);
    var p := |UNKNOWN_PREFIX|;
    if ka.Some? && kb.Some? {
      KnownNameRoundTrip(a.id);
      KnownNameRoundTrip(b.id);
    } else if ka.Some? && kb.None? {
      assert EntryName(b)[0] == EntryName(b)[..p][0] == UNKNOWN_PREFIX[0];
    } else if ka.None? && kb.Some? {
      assert EntryName(a)[0] == EntryName(a)[..p][0] == UNKNOWN_PREFIX[0];
    }
  }

  /** A Flags column: "-" for no flags, else "0x" and exactly eight hexadecimal digits. */
  function FlagsCell(flags: int32): (r: string)
    ensures r == "-" <==> flags == 0
    ensures flags != 0 ==> |r| == 10 && r[..2] == "0x" && HexValue(r[2..]) == Some(Unsigned32(flags))
  {
    Pow16Widths();
    if flags == 0 then "-" else HexCell(Unsigned32(flags), 8)
  }

  /** Reading a Flags column back gives the flags. */
  function ReadFlagsCell(cell: string): (r: Option<int32>)
  {
    if cell == "-" then Some(0)
    else if |cell| < 2 || cell[..2] != "0x" then None
    else
      match HexValue(cell[2..])
      case Some(u) => if u < TWO_32 then Some(Signed32(u)) else None
      case None => None
  }

  lemma FlagsCellRoundTrip(flags: int32)
    ensures ReadFlagsCell(FlagsCell(flags)) == Some(flags)
  {
  }

  /** `loadFileTable`: one row per entry — id, name, both flags, offset and size. */
  function FileRow(e: Entry): (r: seq<string>)
    ensures |r| == 6
  {
    [IdCell(e.id), EntryName(e), FlagsCell(e.flags1), FlagsCell(e.flags2), NumberCell(e.offset), NumberCell(e.size)]
  }

  /** The ID column: "0x" and at least four hexadecimal digits. */
  function IdCell(id: int32): (r: string)
    ensures |r| >= 6 && r[..2] == "0x" && HexValue(r[2..]) == Some(Unsigned32(id))
  {
    var r := "0x" + Hex04(id);
    assert r[2..] == Hex04(id);
    r
  }

  /** A decimal column, which reads back as its number. */
  function NumberCell(x: int32): (r: string)
    ensures ParseInt(r) == Some(x)
  {
    ParseIntDecimalString(x);
    DecimalString(x as int)
  }

  // ---------------------------------------------------------------------------------------------
  // Navigation

  /** The previous button: one back, and from the first package round to the last. */
  function Previous(index: int, count: int): (r: int)
    ensures 0 <= index < count ==> 0 <= r < count
    ensures 0 < index < count ==> r == index - 1
    ensures index == 0 ==> r == count - 1
  {
    if index - 1 < 0 then count - 1 else index - 1
  }

  /** The next button: one on, and from the last package round to the first. */
  function Next(index: int, count: int): (r: int)
    ensures 0 <= index < count ==> 0 <= r < count
    ensures 0 <= index < count - 1 ==> r == index + 1
    ensures index == count - 1 ==> r == 0
  {
    if index + 1 >= count then 0 else index + 1
  }

  /** Previous and next undo each other on every valid index. */
  lemma PreviousNextInverse(index: int, count: int)
    requires 0 <= index < count
    ensures Next(Previous(index, count), count) == index
    ensures Previous(Next(index, count), count) == index
  {
  }

  /** `k` presses of next. */
  function Presses(index: int, count: int, k: nat): int
    decreases k
  {
    if k == 0 then index else Next(Presses(index, count, k - 1), count)
  }

  /** Pressing next `k` times, up to once round, moves `k` places and wraps past the last package. */
  lemma {:induction false} NextGoesRound(index: int, count: int, k: nat)
    requires 0 <= index < count && k <= count
    ensures Presses(index, count, k) == if index + k < count then index + k else index + k - count
    decreases k
  {
    if k > 0 {
      NextGoesRound(index, count, k - 1);
    }
  }

  /** Pressing next once for every package comes back to the package shown first. */
  lemma FullCircle(index: int, count: int)
    requires 0 <= index < count
    ensures Presses(index, count, count) == index
    ensures forall k :: 0 < k < count ==> Presses(index, count, k) != index
  {
    NextGoesRound(index, count, count);
    forall k | 0 < k < count
      ensures Presses(index, count, k) != index
    {
      NextGoesRound(index, count, k);
    }
  }

  /**
   * `updateCountLabel`: the one-based position, " of ", and the number of packages; split at
   * " of ", the label reads back as those two numbers.
   */
  function CountLabel(index: int32, count: int32): (r: string)
    ensures var parts := Split(r, OF);
            |parts| == 2 && ParseInt(parts[0]) == Some(Wrap32(index as int + 1)) && ParseInt(parts[1]) == Some(count)
  {
    var position := Wrap32(index as int + 1);
    var parts := [DecimalString(position as int), DecimalString(count as int)];
    ParseIntDecimalString(position);
    ParseIntDecimalString(count);
    DecimalStringCharacters(position as int);
    DecimalStringCharacters(count as int);
    SplitJoin(OF, parts);
    Join(OF, parts)
  }

  const OF: string := " of "
}

=== FILE: pkgquery.dfy ===
/**
 * Queries on a loaded package: a `param.sfo` value by name, the highest patch version named in
 * the changelog, and the compatibility checksum that identifies matching base game and patch.
 */
module PkgQuery {
  import opened Wrappers
  import opened JavaInt
  import opened Strings
  import opened Pkg

  /** What a query answers when the package has no `param.sfo` at all. */
  const ERROR: string := "ERROR"

  /** Parameter `i` is the first one named `key`. */
  predicate FirstNamed(ps: seq<SfoParam>, key: string, i: int) {
    0 <= i < |ps| && ps[i].name == key && forall j :: 0 <= j < i ==> ps[j].name != key
  }

  function FindParam(ps: seq<SfoParam>, key: string, from: nat): (r: Option<nat>)
    ensures r.Some? ==>
              from <= r.value < |ps| && ps[r.value].name == key
              && forall j :: from <= j < r.value ==> ps[j].name != key
    ensures r.None? ==> forall j :: from <= j < |ps| ==> ps[j].name != key
    decreases |ps| - from
  {
    if from >= |ps| then None
    else if ps[from].name == key then Some(from)
    else FindParam(ps, key, from + 1)
  }

  /**
   * `getSFOValue`: "ERROR" without `param.sfo`, otherwise the value of the first parameter with
   * that name, or null when there is none.
   */
  function SfoValue(params: Option<seq<SfoParam>>, key: string): (r: Option<string>)
    ensures params.None? ==> r == Some(ERROR)
    ensures params.Some? ==> (r.None? <==> forall j :: 0 <= j < |params.value| ==> params.value[j].name != key)
    ensures params.Some? && r.Some? ==> exists i :: FirstNamed(params.value, key, i) && params.value[i].value == r.value
  {
    match params
    case None => Some(ERROR)
    case Some(ps) =>
      match FindParam(ps, key, 0)
      case None => None
      case Some(i) =>
        assert FirstNamed(ps, key, i);
        Some(ps[i].value)
  }

  /** The text that precedes every version in the changelog. */
  const APP_VER: string := "app_ver=\""
  /** How many characters of version follow it. */
  const VERSION_LENGTH: nat := 5

  /** The changelog names a version at `k`. */
  predicate VersionAt(cl: string, k: int) {
    OccursAt(cl, APP_VER, k)
  }

  /** The five characters after the marker at `k`. */
  function VersionText(cl: string, k: nat): string
    requires k + |APP_VER| + VERSION_LENGTH <= |cl|
  {
    cl[k + |APP_VER|..k + |APP_VER| + VERSION_LENGTH]
  }

  /** No two markers overlap: no proper suffix of `app_ver="` is a prefix of it. */
  lemma MarkersApart(cl: string, k: int, k': int)
    requires VersionAt(cl, k) && VersionAt(cl, k') && k < k'
    ensures k + |APP_VER| <= k'
  {
    assert forall d :: 0 < d < |APP_VER| ==> APP_VER[d] != 'a';
    assert cl[k'] == cl[k'..k' + |APP_VER|][0] == 'a';
    assert forall j :: k <= j < k + |APP_VER| ==> cl[j] == cl[k..k + |APP_VER|][j - k] == APP_VER[j - k];
  }

  /** The best version once `version` has been seen: it replaces `best` only if it compares greater. */
  function Keep(best: Option<string>, version: string): Option<string> {
    if best.None? || CompareTo(version, best.value) > 0 then Some(version) else best
  }

  /** One pass of the loop when a marker with five characters after it is found at `k`. */
  lemma VersionFromStep(cl: string, from: nat, best: Option<string>, k: int)
    requires k == IndexOfFrom(cl, APP_VER, from) && k != -1
    requires k + |APP_VER| + VERSION_LENGTH <= |cl|
    ensures VersionFrom(cl, from, best) == VersionFrom(cl, k + |APP_VER|, Keep(best, VersionText(cl, k)))
  {}

  /** The `while` loop of `getChangelogVersion` searching from `from`, with the best version so far. */
  function VersionFrom(cl: string, from: nat, best: Option<string>): (r: Result<Option<string>, LoadError>)
    decreases |cl| - from
  {
    var k := IndexOfFrom(cl, APP_VER, from);
    if k == -1 then Success(best)
    else
      var start := k + |APP_VER|;
      if start + VERSION_LENGTH > |cl| then Failure(OutOfBounds)
      else
        var version := cl[start..start + VERSION_LENGTH];
        VersionFrom(cl, start, Keep(best, version))
  }

  /** Some marker at or after `from` is too close to the end for five characters to follow it. */
  ghost predicate TruncatedVersionFrom(cl: string, from: nat) {
    exists k :: from <= k && VersionAt(cl, k) && k + |APP_VER| + VERSION_LENGTH > |cl|
  }

  /** `v` is at least as great as every version named at or after `from`. */
  ghost predicate BoundsVersionsFrom(cl: string, from: nat, v: string) {
    forall k :: from <= k && VersionAt(cl, k) && k + |APP_VER| + VERSION_LENGTH <= |cl|
      ==> CompareTo(VersionText(cl, k), v) <= 0
  }

  /** `v` is a version named at or after `from`. */
  ghost predicate NamedFrom(cl: string, from: nat, v: string) {
    exists k :: from <= k && VersionAt(cl, k) && k + |APP_VER| + VERSION_LENGTH <= |cl| && VersionText(cl, k) == v
  }

  /**
   * What the loop answers from `from` with `best` so far: an exception exactly when some later
   * marker is truncated; null exactly when there is no best so far and no later marker; otherwise
   * a version that is `best` or one named later, no less than `best` and no less than any later one.
   */
  lemma VersionFromSpec(cl: string, from: nat, best: Option<string>)
    requires from <= |cl|
    ensures var r := VersionFrom(cl, from, best);
      (r.Failure? <==> TruncatedVersionFrom(cl, from))
      && (r == Success(None) <==> best.None? && forall k :: from <= k ==> !VersionAt(cl, k))
      && (r.Success? && r.value.Some? ==>
            (Some(r.value.value) == best || NamedFrom(cl, from, r.value.value))
            && (best.Some? ==> CompareTo(best.value, r.value.value) <= 0)
            && BoundsVersionsFrom(cl, from, r.value.value))
  {
    VersionFromFails(cl, from, best);
    VersionFromNone(cl, from, best);
    VersionFromBest(cl, from, best);
  }

  /** The markers at or after `from` are the first one, at `k`, and those at or after the end of it. */
  lemma MarkersAfter(cl: string, from: nat, k: int)
    requires k == IndexOfFrom(cl, APP_VER, from) && k != -1
    ensures VersionAt(cl, k) && from <= k
    ensures forall k' :: from <= k' && VersionAt(cl, k') && k' != k ==> k + |APP_VER| <= k'
  {
    forall k' | from <= k' && VersionAt(cl, k') && k' != k
      ensures k + |APP_VER| <= k'
    {
      MarkersApart(cl, k, k');
    }
  }

  /** Without a marker at or after `from`, the loop ends with the best version so far. */
  lemma NoMarkerFrom(cl: string, from: nat)
    requires from <= |cl| && IndexOfFrom(cl, APP_VER, from) == -1
    ensures forall k :: from <= k ==> !VersionAt(cl, k)
  {}

  lemma {:induction false} VersionFromFails(cl: string, from: nat, best: Option<string>)
    requires from <= |cl|
    ensures VersionFrom(cl, from, best).Failure? <==> TruncatedVersionFrom(cl, from)
    decreases |cl| - from
  {
    var k := IndexOfFrom(cl, APP_VER, from);
    if k == -1 {
      NoMarkerFrom(cl, from);
    } else {
      MarkersAfter(cl, from, k);
      var start := k + |APP_VER|;
      if start + VERSION_LENGTH <= |cl| {
        VersionFromStep(cl, from, best, k);
        VersionFromFails(cl, start, Keep(best, VersionText(cl, k)));
        if TruncatedVersionFrom(cl, from) {
          var k' :| from <= k' && VersionAt(cl, k') && k' + |APP_VER| + VERSION_LENGTH > |cl|;
          assert TruncatedVersionFrom(cl, start);
        }
      }
    }
  }

  lemma {:induction false} VersionFromNone(cl: string, from: nat, best: Option<string>)
    requires from <= |cl|
    ensures VersionFrom(cl, from, best) == Success(None)
      <==> best.None? && forall k :: from <= k ==> !VersionAt(cl, k)
    decreases |cl| - from
  {
    var k := IndexOfFrom(cl, APP_VER, from);
    if k == -1 {
      NoMarkerFrom(cl, from);
    } else {
      MarkersAfter(cl, from, k);
      var start := k + |APP_VER|;
      if start + VERSION_LENGTH <= |cl| {
        VersionFromStep(cl, from, best, k);
        VersionFromNone(cl, start, Keep(best, VersionText(cl, k)));
      }
    }
  }

  lemma {:induction false} VersionFromBest(cl: string, from: nat, best: Option<string>)
    requires from <= |cl|
    ensures var r := VersionFrom(cl, from, best);
      r.Success? && r.value.Some? ==>
        (Some(r.value.value) == best || NamedFrom(cl, from, r.value.value))
        && (best.Some? ==> CompareTo(best.value, r.value.value) <= 0)
        && BoundsVersionsFrom(cl, from, r.value.value)
    decreases |cl| - from
  {
    var k := IndexOfFrom(cl, APP_VER, from);
    if k == -1 {
      NoMarkerFrom(cl, from);
      if best.Some? {
        assert CompareTo(best.value, best.value) == 0;
      }
    } else {
      MarkersAfter(cl, from, k);
      var start := k + |APP_VER|;
      if start + VERSION_LENGTH <= |cl| {
        var version := VersionText(cl, k);
        var best' := Keep(best, version);
        VersionFromStep(cl, from, best, k);
        VersionFromBest(cl, start, best');
        var r := VersionFrom(cl, start, best');
        if r.Success? && r.value.Some? {
          KeepStep(cl, from, k, best, r.value.value);
        }
      }
    }
  }

  /**
   * If `v` is what the rest of the loop settles on after the marker at `k` is kept, `v` is also
   * the answer the loop promises from `from`.
   */
  lemma KeepStep(cl: string, from: nat, k: int, best: Option<string>, v: string)
    requires k == IndexOfFrom(cl, APP_VER, from) && k != -1
    requires k + |APP_VER| + VERSION_LENGTH <= |cl|
    requires var best' := Keep(best, VersionText(cl, k));
      (Some(v) == best' || NamedFrom(cl, k + |APP_VER|, v))
      && (best'.Some? ==> CompareTo(best'.value, v) <= 0)
      && BoundsVersionsFrom(cl, k + |APP_VER|, v)
    ensures (Some(v) == best || NamedFrom(cl, from, v))
      && (best.Some? ==> CompareTo(best.value, v) <= 0)
      && BoundsVersionsFrom(cl, from, v)
  {
    MarkersAfter(cl, from, k);
    var start := k + |APP_VER|;
    var version := VersionText(cl, k);
    var best' := Keep(best, version);
    if best.Some? {
      CompareToAntisymmetric(version, best.value);
    }
    if best.Some? && CompareTo(version, best.value) > 0 {
      CompareToTransitive(best.value, version, v);
    }
    assert CompareTo(version, v) <= 0 by {
      if best'.value != version {
        CompareToAntisymmetric(version, best.value);
        CompareToTransitive(version, best.value, v);
      }
    }
    if Some(v) == best' && best' != best {
      assert NamedFrom(cl, from, v);
    }
    if NamedFrom(cl, start, v) {
      var j :| start <= j && VersionAt(cl, j) && j + |APP_VER| + VERSION_LENGTH <= |cl| && VersionText(cl, j) == v;
      assert NamedFrom(cl, from, v);
    }
  }

  /**
   * `getChangelogVersion`: the greatest (by `compareTo`) of the five-character versions that
   * follow `app_ver="` in the changelog, null without a changelog or marker, and an exception
   * when a marker is followed by fewer than five characters.
   */
  function ChangelogVersion(changelog: Option<string>): (r: Result<Option<string>, LoadError>)
  {
    match changelog
    case None => Success(None)
    case Some(cl) => VersionFrom(cl, 0, None)
  }

  /** What `ChangelogVersion` answers, in terms of the markers the changelog contains. */
  lemma ChangelogVersionSpec(cl: string)
    ensures var r := ChangelogVersion(Some(cl));
      (r.Failure? <==> exists k :: VersionAt(cl, k) && k + |APP_VER| + VERSION_LENGTH > |cl|)
      && (r == Success(None) <==> forall k :: !VersionAt(cl, k))
      && (r.Success? && r.value.Some? ==>
            (exists k :: VersionAt(cl, k) && k + |APP_VER| + VERSION_LENGTH <= |cl|
                         && VersionText(cl, k) == r.value.value)
            && forall k :: VersionAt(cl, k) && k + |APP_VER| + VERSION_LENGTH <= |cl|
                 ==> CompareTo(VersionText(cl, k), r.value.value) <= 0)
  {
    VersionFromSpec(cl, 0, None);
    forall k | VersionAt(cl, k) ensures 0 <= k {}
  }

  /** The content type of a package that has no compatibility checksum. */
  const CONTENT_TYPE_EXCLUDED: int32 := 0x1B

  /** Bits 24..27 of the flags, as a number. */
  function FlagsNibble(contentFlags: int32): (r: nat)
    ensures r < 16
  {
    (Unsigned32(contentFlags) / 0x100_0000) % 16
  }

  /** `content_flags & 0x0F000000`: only bits 24..27 survive, in place. */
  function MaskedFlags(contentFlags: int32): (r: int32)
    ensures r % 0x100_0000 == 0 && 0 <= r < 0x1000_0000
  {
    FlagsNibble(contentFlags) * 0x100_0000
  }

  /** The entry whose digest is the checksum, as the masked content flags select it. */
  function ChecksumEntryId(contentFlags: int32): (r: Option<int32>)
    ensures r.Some? ==> r.value == 0x1001 || r.value == 0x1008
  {
    var selector := MaskedFlags(contentFlags);
    if selector == 0x0A00_0000 then Some(0x1001)
    else if selector == 0x0200_0000 then Some(0x1008)
    else None
  }

  /** Which entry holds the checksum, stated on the nibble: 0xA selects 0x1001 and 0x2 selects 0x1008. */
  lemma ChecksumEntryIdByNibble(contentFlags: int32)
    ensures FlagsNibble(contentFlags) == 0xA <==> ChecksumEntryId(contentFlags) == Some(0x1001)
    ensures FlagsNibble(contentFlags) == 0x2 <==> ChecksumEntryId(contentFlags) == Some(0x1008)
    ensures FlagsNibble(contentFlags) != 0xA && FlagsNibble(contentFlags) != 0x2
      <==> ChecksumEntryId(contentFlags).None?
  {}

  /**
   * `getCompatibilityChecksum`: none for content type 0x1B or an unknown flag selector; the
   * digest of the first entry with the selected id; "ERROR" when no entry has it.
   */
  function CompatibilityChecksum(c: Contents): (r: Option<string>)
    requires WellFormed(c)
    ensures c.header.contentType == CONTENT_TYPE_EXCLUDED ==> r.None?
    ensures c.header.contentType != CONTENT_TYPE_EXCLUDED ==>
      (r.None? <==> ChecksumEntryId(c.header.contentFlags).None?)
    ensures r.Some? ==> var id := ChecksumEntryId(c.header.contentFlags).value;
      (r.value == ERROR && forall j :: 0 <= j < |c.entries| ==> c.entries[j].id != id)
      || exists i :: FirstWithId(c.entries, id, i) && r.value == c.digests[i]
  {
    if c.header.contentType == CONTENT_TYPE_EXCLUDED then None
    else
      match ChecksumEntryId(c.header.contentFlags)
      case None => None
      case Some(id) =>
        match FindEntry(c.entries, id, 0)
        case None => Some(ERROR)
        case Some(i) =>
          assert FirstWithId(c.entries, id, i);
          Some(c.digests[i])
  }
}

=== FILE: pkgqueue.dfy ===
/**
 * `PkgQueue`: the first-in first-out queue between the threads that find packages and the one that
 * reads them. Only its sequential behaviour is modelled: Java's `null` is `None`, and a `pop` on an
 * empty queue, which waits for another thread to push, gives `None` here.
 */
module PkgQueue {
  import opened Wrappers

  /** The queued elements, head first; an element may be `null`. */
  datatype Queue<T> = Queue(items: seq<Option<T>>)

  function Empty<T>(): (r: Queue<T>)
    ensures Length(r) == 0
  {
    Queue([])
  }

  /** `push(o)`: `o` goes to the tail. */
  function Push<T>(q: Queue<T>, o: Option<T>): (r: Queue<T>)
    ensures Length(r) == Length(q) + 1
    ensures r.items[..Length(q)] == q.items && r.items[Length(q)] == o
  {
    Queue(q.items + [o])
  }

  /** `push(T[])`: the array's elements go to the tail in order; a `null` array adds one `null`. */
  function PushArray<T>(q: Queue<T>, a: Option<seq<Option<T>>>): (r: Queue<T>)
    ensures a.None? ==> r == Push(q, None)
    ensures a.Some? ==> Length(r) == Length(q) + |a.value|
    ensures a.Some? ==> r.items[..Length(q)] == q.items
                        && forall i :: 0 <= i < |a.value| ==> r.items[Length(q) + i] == a.value[i]
  {
    match a
    case None => Queue(q.items + [None])
    case Some(elements) => Queue(q.items + elements)
  }

  /** Pushing an array is pushing its elements one by one. */
  lemma {:induction false} PushArrayIsPushes<T>(q: Queue<T>, elements: seq<Option<T>>)
    ensures PushArray(q, Some(elements)) == PushEach(q, elements)
    decreases |elements|
  {
    if |elements| > 0 {
      var last := elements[|elements| - 1];
      var front := elements[..|elements| - 1];
      assert elements == front + [last];
      PushArrayIsPushes(q, front);
      assert q.items + front + [last] == q.items + elements;
    }
  }

  /** Elements pushed one by one, in order. */
  function PushEach<T>(q: Queue<T>, elements: seq<Option<T>>): Queue<T>
    decreases |elements|
  {
    if |elements| == 0 then q
    else Push(PushEach(q, elements[..|elements| - 1]), elements[|elements| - 1])
  }

  /** `pop`: the head and the rest of the queue; `None` where the thread would wait. */
  function Pop<T>(q: Queue<T>): (r: Option<(Option<T>, Queue<T>)>)
    ensures r.None? <==> Length(q) == 0
    ensures r.Some? ==> Length(r.value.1) == Length(q) - 1
    ensures r.Some? ==> [r.value.0] + r.value.1.items == q.items
  {
    if |q.items| == 0 then None else Some((q.items[0], Queue(q.items[1..])))
  }

  /** `getLength`. */
  function Length<T>(q: Queue<T>): nat {
    |q.items|
  }

  /** Push and pop commute with each other on a non-empty queue: the head is unaffected by a push. */
  lemma PushKeepsHead<T>(q: Queue<T>, o: Option<T>)
    requires Length(q) > 0
    ensures Pop(Push(q, o)).Some?
    ensures Pop(Push(q, o)).value == (Pop(q).value.0, Push(Pop(q).value.1, o))
  {
    assert (q.items + [o])[1..] == q.items[1..] + [o];
  }

  /** What a thread does to the queue. */
  datatype Op<T> = PushOne(o: Option<T>) | PushMany(a: Option<seq<Option<T>>>) | PopOne

  /** The elements an operation adds. */
  function Added<T>(op: Op<T>): seq<Option<T>> {
    match op
    case PushOne(o) => [o]
    case PushMany(a) => if a.None? then [None] else a.value
    case PopOne => []
  }

  /** Every element the operations add, in order. */
  function AllAdded<T>(ops: seq<Op<T>>): seq<Option<T>>
    decreases |ops|
  {
    if |ops| == 0 then [] else AllAdded(ops[..|ops| - 1]) + Added(ops[|ops| - 1])
  }

  /** How many pops there are among the operations. */
  function Pops<T>(ops: seq<Op<T>>): nat
    decreases |ops|
  {
    if |ops| == 0 then 0 else Pops(ops[..|ops| - 1]) + (if ops[|ops| - 1].PopOne? then 1 else 0)
  }

  /** The result of running operations in order: the popped elements and the queue. */
  datatype Run<T> = Run(popped: seq<Option<T>>, queue: Queue<T>)

  /** Runs the operations from `q`; `None` when a pop would wait forever on a single thread. */
  function RunOps<T>(q: Queue<T>, ops: seq<Op<T>>): Option<Run<T>>
    decreases |ops|
  {
    if |ops| == 0 then Some(Run([], q))
    else
      var before :- RunOps(q, ops[..|ops| - 1]);
      Step(before, ops[|ops| - 1])
  }

  /** One operation. */
  function Step<T>(before: Run<T>, op: Op<T>): (r: Option<Run<T>>)
    ensures r.Some? ==> r.value.popped + r.value.queue.items == before.popped + before.queue.items + Added(op)
    ensures r.Some? ==> |r.value.popped| == |before.popped| + (if op.PopOne? then 1 else 0)
  {
    match op
    case PushOne(o) =>
      var r := Run(before.popped, Push(before.queue, o));
      assert before.popped + (before.queue.items + [o]) == (before.popped + before.queue.items) + [o];
      Some(r)
    case PushMany(a) =>
      var r := Run(before.popped, PushArray(before.queue, a));
      assert before.popped + (before.queue.items + Added(op)) == (before.popped + before.queue.items) + Added(op);
      Some(r)
    case PopOne =>
      var (head, rest) :- Pop(before.queue);
      assert before.popped + [head] + rest.items == before.popped + before.queue.items;
      Some(Run(before.popped + [head], rest))
  }

  /**
   * First in, first out: the popped elements followed by those still queued are exactly the
   * elements pushed, in push order, and the length is pushes minus pops.
   */
  lemma {:induction false} FirstInFirstOut<T>(ops: seq<Op<T>>)
    requires RunOps(Empty(), ops).Some?
    ensures var run := RunOps(Empty<T>(), ops).value;
            run.popped + run.queue.items == AllAdded(ops)
    ensures var run := RunOps(Empty<T>(), ops).value;
            |run.popped| == Pops(ops) && Length(run.queue) == |AllAdded(ops)| - Pops(ops)
    decreases |ops|
  {
    if |ops| > 0 {
      FirstInFirstOut(ops[..|ops| - 1]);
    }
  }

  /** Popping every element, one at a time, gives them back in queue order. */
  method Drain<T>(q: Queue<T>) returns (out: seq<Option<T>>)
    ensures out == q.items
  {
    var rest := q;
    out := [];
    while Length(rest) > 0
      invariant out + rest.items == q.items
      decreases Length(rest)
    {
      var popped := Pop(rest).value;
      out := out + [popped.0];
      rest := popped.1;
    }
  }
}

=== FILE: releasetags.dfy ===
/**
 * The release tags the table looks for in file names and changelogs (`ReleaseTags`): the
 * hard-coded release groups and releases, merged with the tags a user adds in the settings.
 */
module ReleaseTags {
  import opened Wrappers
  import opened Strings

  const HARD_CODED_RELEASE_GROUPS: seq<string> := [
    "AUGETY", "BigBlueBox", "BlaZe", "CAF", "DarKmooN", "DUPLEX", "GCMR", "HOODLUM", "iNTERNAL",
    "JRP", "KOTF", "LeveLUp", "LiGHTFORCE", "MarvTM", "MOEMOE", "PiKMiN", "Playable", "PRELUDE",
    "PROTOCOL", "RESPAWN", "SharpHD", "TCD", "UNLiMiTED", "WaLMaRT", "WaYsTeD"]

  const HARD_CODED_RELEASES: seq<string> := [
    "Arczi", "CyB1K", "Fugazi", "Golemnight", "High Speed", "OPOISSO893", "RetroGamer_74",
    "SeanP2500", "TKJ13", "VikaCaptive", "Whitehawkx"]

  /** The tags in effect: both combined lists. */
  datatype TagLists = TagLists(releaseGroups: seq<string>, releases: seq<string>)

  /** The first hard-coded tag at or after `from` that equals `tag` ignoring case. */
  function MatchIndex(hard: seq<string>, tag: string, from: nat): (r: Option<nat>)
    ensures r.Some? ==> from <= r.value < |hard| && Lower(hard[r.value]) == Lower(tag)
    ensures r.Some? ==> forall j :: from <= j < r.value ==> Lower(hard[j]) != Lower(tag)
    ensures r.None? ==> forall j :: from <= j < |hard| ==> Lower(hard[j]) != Lower(tag)
    decreases |hard| - from
  {
    if from >= |hard| then None
    else if Lower(hard[from]) == Lower(tag) then Some(from)
    else MatchIndex(hard, tag, from + 1)
  }

  /**
   * One pass of the merge loop: an empty tag is skipped, a tag that corrects the capitalization
   * of hard-coded entry `i` overrides position `i`, and any other tag is appended.
   */
  function AddTag(hard: seq<string>, combined: seq<string>, tag: string): (r: seq<string>)
    requires |combined| >= |hard|
    ensures |r| == |combined| || |r| == |combined| + 1
    ensures forall i :: 0 <= i < |hard| && r[i] != combined[i] ==> Lower(r[i]) == Lower(hard[i])
    ensures forall i :: |hard| <= i < |combined| ==> r[i] == combined[i]
    ensures (forall k :: 0 <= k < |combined| ==> combined[k] != "") ==> forall k :: 0 <= k < |r| ==> r[k] != ""
  {
    if tag == "" then combined
    else
      match MatchIndex(hard, tag, 0)
      case Some(i) => combined[i := tag]
      case None => combined + [tag]
  }

  /** The merged list after the user tags `user`, processed in order, starting from `hard`. */
  function MergeTags(hard: seq<string>, user: seq<string>): (r: seq<string>)
    ensures |r| >= |hard|
    ensures forall i :: 0 <= i < |hard| ==> Lower(r[i]) == Lower(hard[i])
    ensures (forall k :: 0 <= k < |hard| ==> hard[k] != "") ==> forall k :: 0 <= k < |r| ==> r[k] != ""
  {
    if |user| == 0 then hard
    else
      var before := MergeTags(hard, user[..|user| - 1]);
      AddTag(hard, before, user[|user| - 1])
  }

  /**
   * `addReleaseTags`: both combined lists are rebuilt from the hard-coded lists on every call, so
   * what an earlier call added does not survive; the lists in effect before are not an input.
   */
  function AddReleaseTags(userGroups: seq<string>, userReleases: seq<string>)
    : (r: TagLists)
    ensures |r.releaseGroups| >= |HARD_CODED_RELEASE_GROUPS| && |r.releases| >= |HARD_CODED_RELEASES|
    ensures forall i :: 0 <= i < |HARD_CODED_RELEASE_GROUPS| ==>
      Lower(r.releaseGroups[i]) == Lower(HARD_CODED_RELEASE_GROUPS[i])
    ensures NoEmptyTags(r)
  {
    HardCodedTagsNonEmpty();
    TagLists(MergeTags(HARD_CODED_RELEASE_GROUPS, userGroups),
             MergeTags(HARD_CODED_RELEASES, userReleases))
  }

  /** No hard-coded tag is empty. */
  lemma HardCodedTagsNonEmpty()
    ensures forall k :: 0 <= k < |HARD_CODED_RELEASE_GROUPS| ==> HARD_CODED_RELEASE_GROUPS[k] != ""
    ensures forall k :: 0 <= k < |HARD_CODED_RELEASES| ==> HARD_CODED_RELEASES[k] != ""
  {
    forall k | 0 <= k < |HARD_CODED_RELEASE_GROUPS|
      ensures |HARD_CODED_RELEASE_GROUPS[k]| > 0
    {}
    forall k | 0 <= k < |HARD_CODED_RELEASES|
      ensures |HARD_CODED_RELEASES[k]| > 0
    {}
  }

  /** Every tag in effect is non-empty, which the table's tag search relies on. */
  predicate NoEmptyTags(t: TagLists) {
    (forall k :: 0 <= k < |t.releaseGroups| ==> t.releaseGroups[k] != "")
    && (forall k :: 0 <= k < |t.releases| ==> t.releases[k] != "")
  }

  /** A user tag that neither is empty nor corrects a hard-coded tag. */
  predicate IsNewTag(hard: seq<string>, tag: string) {
    tag != "" && forall j :: 0 <= j < |hard| ==> Lower(hard[j]) != Lower(tag)
  }

  /** The user tags that are appended: the new ones, in input order, duplicates included. */
  function NewTags(hard: seq<string>, user: seq<string>): (r: seq<string>)
    ensures |r| <= |user|
    ensures forall k :: 0 <= k < |r| ==> IsNewTag(hard, r[k])
  {
    if |user| == 0 then []
    else
      var tag := user[|user| - 1];
      NewTags(hard, user[..|user| - 1]) + (if IsNewTag(hard, tag) then [tag] else [])
  }

  /** The tag at hard-coded position `i`: the last user tag that corrects it, or the hard-coded tag. */
  function TagAt(hard: seq<string>, user: seq<string>, i: nat): (r: string)
    requires i < |hard|
    ensures r == hard[i] || r in user
  {
    if |user| == 0 then hard[i]
    else
      var tag := user[|user| - 1];
      if tag != "" && MatchIndex(hard, tag, 0) == Some(i) then tag
      else TagAt(hard, user[..|user| - 1], i)
  }

  /**
   * The merged list, described without the loop: the hard-coded positions, each holding its last
   * correction, followed by the new tags in the order they were given.
   */
  lemma {:induction false} MergeTagsShape(hard: seq<string>, user: seq<string>)
    ensures MergeTags(hard, user) == Expected(hard, user)
  {
    if |user| > 0 {
      var prefix := user[..|user| - 1];
      MergeTagsShape(hard, prefix);
      assert user == prefix + [user[|user| - 1]];
      ExpectedStep(hard, prefix, user[|user| - 1]);
    }
  }

  /** The loop-free description of the merged list. */
  function Expected(hard: seq<string>, user: seq<string>): seq<string> {
    seq(|hard|, i requires 0 <= i < |hard| => TagAt(hard, user, i)) + NewTags(hard, user)
  }

  /** One more user tag changes the loop-free description exactly as one pass of the loop does. */
  lemma ExpectedStep(hard: seq<string>, prefix: seq<string>, tag: string)
    ensures |Expected(hard, prefix)| >= |hard|
    ensures Expected(hard, prefix + [tag]) == AddTag(hard, Expected(hard, prefix), tag)
  {
    var user := prefix + [tag];
    assert user[..|user| - 1] == prefix;
    var before := Expected(hard, prefix);
    var r := AddTag(hard, before, tag);
    var expected := Expected(hard, user);
    if tag == "" {
      assert r == before;
    } else {
      match MatchIndex(hard, tag, 0)
      case Some(m) =>
        assert !IsNewTag(hard, tag);
        assert r == before[m := tag];
      case None =>
        assert IsNewTag(hard, tag);
        assert r == before + [tag];
    }
    assert |r| == |expected|;
    forall k | 0 <= k < |r|
      ensures r[k] == expected[k]
    {}
  }

  /** The merged list is as long as the hard-coded list plus the new tags. */
  lemma MergeTagsLength(hard: seq<string>, user: seq<string>)
    ensures |MergeTags(hard, user)| == |hard| + |NewTags(hard, user)|
  {
    MergeTagsShape(hard, user);
  }

  /** Empty user tags change nothing. */
  lemma {:induction false} MergeTagsSkipsEmpty(hard: seq<string>, user: seq<string>)
    ensures MergeTags(hard, user + [""]) == MergeTags(hard, user)
  {
    assert (user + [""])[..|user|] == user;
  }
}

=== FILE: settings.dfy ===
/**
 * The pure parts of the settings dialog (`Settings`): how the release-tag text boxes are split into
 * tags, and the column layout shared between tabs, copied from one table and pasted into another.
 */
module Settings {
  import opened Strings
  import Lists

  // ---------------------------------------------------------------------------------------------
  // Tags typed by the user

  /** The single characters the regular expression `\R` matches as a line break. */
  predicate IsLineBreak(c: char) {
    c == '\n' || c == '\U{000B}' || c == '\U{000C}' || c == '\r' || c == '\U{0085}'
    || c == '\U{2028}' || c == '\U{2029}'
  }

  /** `replaceAll("\\R", ",")`: every line break, a CR LF pair counting as one, becomes a comma. */
  function LineBreaksToCommas(s: string): (r: string)
    ensures forall k :: 0 <= k < |r| ==> !IsLineBreak(r[k])
    ensures (forall k :: 0 <= k < |s| ==> !IsLineBreak(s[k])) ==> r == s
    decreases |s|
  {
    if |s| == 0 then ""
    else if |s| >= 2 && s[0] == '\r' && s[1] == '\n' then "," + LineBreaksToCommas(s[2..])
    else if IsLineBreak(s[0]) then "," + LineBreaksToCommas(s[1..])
    else [s[0]] + LineBreaksToCommas(s[1..])
  }

  /** `splitUserInput`: line breaks become commas, the text is split at commas and each piece stripped. */
  function SplitUserInput(input: string): (r: seq<string>)
    ensures |r| == |Split(LineBreaksToCommas(input), ",")|
    ensures forall k :: 0 <= k < |r| ==> r[k] == Strip(Split(LineBreaksToCommas(input), ",")[k])
  {
    var parts := Split(LineBreaksToCommas(input), ",");
    seq(|parts|, k requires 0 <= k < |parts| => Strip(parts[k]))
  }

  /** Every piece of a split is a slice of the text that holds no separator. */
  lemma {:induction false} SplitAllPieces(s: string, c: char)
    ensures forall k :: 0 <= k < |SplitAll(s, [c])| ==> c !in SplitAll(s, [c])[k]
    ensures forall k, i :: 0 <= k < |SplitAll(s, [c])| && 0 <= i < |SplitAll(s, [c])[k]| ==> SplitAll(s, [c])[k][i] in s
    decreases |s|
  {
    var n := IndexOf(s, [c]);
    if n != -1 {
      SplitAllPieces(s[n + 1..], c);
      forall i | 0 <= i < n
        ensures s[i] != c
      {
        assert !OccursAt(s, [c], i);
        assert s[i..i + 1] == [s[i]];
      }
      assert forall i :: 0 <= i < n ==> s[..n][i] == s[i];
      assert forall x :: x in s[n + 1..] ==> x in s;
    } else {
      forall i | 0 <= i < |s|
        ensures s[i] != c
      {
        assert !OccursAt(s, [c], i);
        assert s[i..i + 1] == [s[i]];
      }
    }
  }

  /** `split` with a one-character separator yields pieces without it, made of the text's characters. */
  lemma SplitPieces(s: string, c: char)
    ensures forall k :: 0 <= k < |Split(s, [c])| ==> c !in Split(s, [c])[k]
    ensures forall k, i :: 0 <= k < |Split(s, [c])| && 0 <= i < |Split(s, [c])[k]| ==> Split(s, [c])[k][i] in s
  {
    SplitAllPieces(s, c);
    if IndexOf(s, [c]) == -1 {
      forall i | 0 <= i < |s|
        ensures s[i] != c
      {
        assert !OccursAt(s, [c], i);
        assert s[i..i + 1] == [s[i]];
      }
    }
  }

  /** Stripping keeps a piece of the text. */
  lemma StripInside(s: string)
    ensures forall i :: 0 <= i < |Strip(s)| ==> Strip(s)[i] in s
  {
    StripBySlice(s, IsWhitespace);
  }

  /** No tag holds a comma or a line break. */
  lemma TagsClean(input: string)
    ensures forall k :: 0 <= k < |SplitUserInput(input)| ==>
              ',' !in SplitUserInput(input)[k]
              && forall i :: 0 <= i < |SplitUserInput(input)[k]| ==> !IsLineBreak(SplitUserInput(input)[k][i])
  {
    var text := LineBreaksToCommas(input);
    var parts := Split(text, ",");
    SplitPieces(text, ',');
    forall k | 0 <= k < |parts|
      ensures ',' !in Strip(parts[k])
      ensures forall i :: 0 <= i < |Strip(parts[k])| ==> !IsLineBreak(Strip(parts[k])[i])
    {
      StripInside(parts[k]);
    }
  }

  /** A CR LF pair is one line break: two lines give two tags, with no empty one between them. */
  lemma CrLfIsOneBreak()
    ensures SplitUserInput("a\r\nb") == ["a", "b"]
  {
    CrLfToComma();
    assert Join(",", ["a", "b"]) == "a,b";
    SplitJoin(",", ["a", "b"]);
    StripByFixpoint("a", IsWhitespace);
    StripByFixpoint("b", IsWhitespace);
  }

  /** The carriage return and line feed together become one comma. */
  lemma CrLfToComma()
    ensures LineBreaksToCommas("a\r\nb") == "a,b"
  {
    assert "a\r\nb"[1..] == "\r\nb" && "\r\nb"[2..] == "b";
  }

  /** An empty text box gives one empty tag, not none. */
  lemma EmptyInputGivesEmptyTag()
    ensures SplitUserInput("") == [""]
  {
    NoOccurrence("", ",");
  }

  /** A tag as the program stores it: non-empty, already stripped, without commas or line breaks. */
  predicate CleanTag(t: string) {
    |t| > 0 && ',' !in t && !IsWhitespace(t[0]) && !IsWhitespace(t[|t| - 1])
    && BreakFree(t)
  }

  /** Each tag with the space that ", " puts in front of it. */
  function Prefixed(tags: seq<string>): (r: seq<string>)
    ensures |r| == |tags| && forall k :: 0 <= k < |tags| ==> r[k] == " " + tags[k]
  {
    seq(|tags|, k requires 0 <= k < |tags| => " " + tags[k])
  }

  /** The pieces a split at "," finds in tags joined by ", ": the first tag, then the others with their space. */
  function Spaced(tags: seq<string>): (r: seq<string>)
    requires |tags| > 0
    ensures |r| == |tags| && r[0] == tags[0]
    ensures forall k :: 1 <= k < |tags| ==> r[k] == " " + tags[k]
  {
    [tags[0]] + Prefixed(tags[1..])
  }

  /** A space, then tags joined by ", ", is the tags with their spaces joined by ",". */
  lemma {:induction false} JoinPrefixed(tags: seq<string>)
    requires |tags| > 0
    ensures " " + Join(", ", tags) == Join(",", Prefixed(tags))
    decreases |tags|
  {
    if |tags| > 1 {
      JoinPrefixed(tags[1..]);
      assert Prefixed(tags)[1..] == Prefixed(tags[1..]);
    }
  }

  /** Joining with ", " is joining the spaced tags with ",". */
  lemma JoinSpaced(tags: seq<string>)
    requires |tags| > 0
    ensures Join(", ", tags) == Join(",", Spaced(tags))
  {
    if |tags| > 1 {
      var rest := Join(", ", tags[1..]);
      JoinPrefixed(tags[1..]);
      assert Spaced(tags)[1..] == Prefixed(tags[1..]);
      assert Join(",", Spaced(tags)) == tags[0] + "," + (" " + rest);
      assert Join(", ", tags) == tags[0] + ", " + rest;
      assert ", " == "," + " ";
      Lists.Associative(tags[0], ",", " ");
      Lists.Associative(tags[0] + ",", " ", rest);
    }
  }

  /** Stripping removes the single space in front of a clean tag. */
  lemma StripSpaced(t: string)
    requires CleanTag(t)
    ensures Strip(" " + t) == t && Strip(t) == t
  {
    var s := " " + t;
    assert s[1] == t[0] && s[|s| - 1] == t[|t| - 1];
    assert SkipLeading(s, IsWhitespace, 1) == 1;
    assert SkipLeading(s, IsWhitespace, 0) == 1;
    assert SkipTrailing(s, IsWhitespace, 1, |s|) == |s|;
    assert s[1..] == t;
    StripByFixpoint(t, IsWhitespace);
  }

  /**
   * Tags shown joined by ", " (as the dialog fills its text boxes and as they are saved) and split
   * again come back unchanged, provided there is at least one.
   */
  lemma TagsRoundTrip(tags: seq<string>)
    requires |tags| > 0 && forall k :: 0 <= k < |tags| ==> CleanTag(tags[k])
    ensures SplitUserInput(Join(", ", tags)) == tags
  {
    SplitSpaced(tags);
    StripSpacedAll(tags);
    StripsToTags(Join(", ", tags), tags);
  }

  /** Input whose pieces strip to the tags reads as the tags. */
  lemma StripsToTags(input: string, tags: seq<string>)
    requires |tags| > 0 && Split(LineBreaksToCommas(input), ",") == Spaced(tags)
    requires forall k :: 0 <= k < |tags| ==> Strip(Spaced(tags)[k]) == tags[k]
    ensures SplitUserInput(input) == tags
  {
    var r := SplitUserInput(input);
    assert |r| == |tags|;
    assert forall k :: 0 <= k < |r| ==> r[k] == tags[k];
  }

  /** Stripping each spaced tag gives the tag back. */
  lemma StripSpacedAll(tags: seq<string>)
    requires |tags| > 0 && forall k :: 0 <= k < |tags| ==> CleanTag(tags[k])
    ensures forall k :: 0 <= k < |tags| ==> Strip(Spaced(tags)[k]) == tags[k]
  {
    forall k | 0 <= k < |tags|
      ensures Strip(Spaced(tags)[k]) == tags[k]
    {
      StripSpaced(tags[k]);
    }
  }

  /** Line breaks aside, the joined tags split into the spaced tags. */
  lemma SplitSpaced(tags: seq<string>)
    requires |tags| > 0 && forall k :: 0 <= k < |tags| ==> CleanTag(tags[k])
    ensures Split(LineBreaksToCommas(Join(", ", tags)), ",") == Spaced(tags)
  {
    var spaced := Spaced(tags);
    SpacedClean(tags);
    JoinSpaced(tags);
    SplitJoin(",", spaced);
    NoLineBreakInJoin(spaced);
  }

  /** No spaced tag holds a comma or a line break, and the last one is not empty. */
  lemma SpacedClean(tags: seq<string>)
    requires |tags| > 0 && forall k :: 0 <= k < |tags| ==> CleanTag(tags[k])
    ensures forall k :: 0 <= k < |tags| ==> ',' !in Spaced(tags)[k] && BreakFree(Spaced(tags)[k])
    ensures Spaced(tags)[|tags| - 1] != ""
  {
    forall k | 1 <= k < |tags|
      ensures ',' !in Spaced(tags)[k] && BreakFree(Spaced(tags)[k])
    {
      SpaceKeepsClean(tags[k]);
    }
  }

  /** The text holds no line break. */
  predicate BreakFree(s: string) {
    forall i :: 0 <= i < |s| ==> !IsLineBreak(s[i])
  }

  /** A space in front of a clean tag brings in neither a comma nor a line break. */
  lemma SpaceKeepsClean(t: string)
    requires CleanTag(t)
    ensures ',' !in " " + t && BreakFree(" " + t)
  {
    var s := " " + t;
    assert forall i :: 1 <= i < |s| ==> s[i] == t[i - 1];
    assert s == [' '] + t;
  }

  /** Joining line-break-free tags with "," gives line-break-free text. */
  lemma {:induction false} NoLineBreakInJoin(parts: seq<string>)
    requires forall k :: 0 <= k < |parts| ==> BreakFree(parts[k])
    ensures BreakFree(Join(",", parts))
    decreases |parts|
  {
    if |parts| > 1 {
      NoLineBreakInJoin(parts[1..]);
      var rest := Join(",", parts[1..]);
      var s := Join(",", parts);
      assert s == parts[0] + "," + rest;
      forall i | 0 <= i < |s|
        ensures !IsLineBreak(s[i])
      {
        if i < |parts[0]| {
          assert s[i] == parts[0][i];
        } else if i > |parts[0]| {
          assert s[i] == rest[i - |parts[0]| - 1];
        }
      }
    }
  }

  // ---------------------------------------------------------------------------------------------
  // Shared column layout

  /**
   * A table's column layout: the display order, each column's width (0 when hidden) and the width
   * kept in each column's data field for when it is shown again.
   */
  datatype Layout = Layout(order: seq<int>, widths: seq<int>, stored: seq<int>)

  /** The layout shared between tabs: the display order, and each column's width and visibility. */
  datatype Shared = Shared(order: seq<int>, widths: seq<int>, visible: seq<bool>)

  predicate WellFormed(t: Layout) {
    |t.stored| == |t.widths|
  }

  /**
   * `copySharedColumnLayoutFrom`: a hidden column contributes its stored width and is recorded
   * hidden; a shown column contributes its current width and is recorded shown.
   */
  function Copy(t: Layout): (r: Shared)
    requires WellFormed(t)
    ensures r.order == t.order && |r.widths| == |r.visible| == |t.widths|
    ensures forall i :: 0 <= i < |t.widths| ==>
              (t.widths[i] == 0 ==> r.widths[i] == t.stored[i] && !r.visible[i])
              && (t.widths[i] != 0 ==> r.widths[i] == t.widths[i] && r.visible[i])
  {
    Shared(t.order,
           seq(|t.widths|, i requires 0 <= i < |t.widths| => if t.widths[i] == 0 then t.stored[i] else t.widths[i]),
           seq(|t.widths|, i requires 0 <= i < |t.widths| => t.widths[i] != 0))
  }

  /**
   * `pasteSharedColumnLayoutTo`: the shared order, each column shown at its shared width or hidden
   * (width 0), and the shared width stored in every column.
   */
  function Paste(s: Shared): (r: Layout)
    requires |s.visible| == |s.widths|
    ensures WellFormed(r) && r.order == s.order && |r.widths| == |s.widths|
    ensures forall i :: 0 <= i < |s.widths| ==>
              r.widths[i] == (if s.visible[i] then s.widths[i] else 0) && r.stored[i] == s.widths[i]
  {
    Layout(s.order,
           seq(|s.widths|, i requires 0 <= i < |s.widths| => if s.visible[i] then s.widths[i] else 0),
           s.widths)
  }

  /**
   * Copying a layout and pasting it back keeps the column order and every displayed width, and
   * keeps the stored width of each hidden column.
   */
  lemma CopyPasteKeepsLayout(t: Layout)
    requires WellFormed(t)
    ensures Paste(Copy(t)).order == t.order && Paste(Copy(t)).widths == t.widths
    ensures forall i :: 0 <= i < |t.widths| && t.widths[i] == 0 ==> Paste(Copy(t)).stored[i] == t.stored[i]
  {}

  /** Copying again after a paste records the same shared layout when every shown column has a non-zero width. */
  lemma PasteCopyKeepsShared(s: Shared)
    requires |s.visible| == |s.widths|
    requires forall i :: 0 <= i < |s.widths| && s.visible[i] ==> s.widths[i] != 0
    ensures Copy(Paste(s)) == s
  {}

  /** A column shown at width 0 comes back hidden: visibility is recorded through the width alone. */
  lemma ZeroWidthShownBecomesHidden()
    ensures Copy(Paste(Shared([0], [0], [true]))).visible == [false]
  {}
}

=== FILE: sortedindex.dfy ===
/**
 * The rows of one tab (`TabContent`): the buffer holds every package row, in the order of the
 * current sort, and the table shows the buffer rows that match the search filter. New rows are
 * inserted by a linear scan, a click on a column header re-sorts the buffer and rebuilds the
 * table, and files that disappear are removed by path or by directory prefix.
 */
module SortedIndex {
  import opened Wrappers
  import opened Strings
  import opened Lists
  import opened Columns
  import TableRow

  /**
   * A row (`TableItemData`, and likewise a table item): the package object it shows, identified
   * by a number because the program compares it by reference, that package's current path, and
   * the row's cell texts. The row builder fills the PATH cell with the package's path, but the
   * two can part later: changing the FTP address rewrites the package's path.
   */
  datatype Data = Data(pkg: nat, path: string, cells: TableRow.Cells)

  /** The package's own path (`pkg.path`), which removal and the buffer search compare. */
  function PathOf(d: Data): string {
    d.path
  }

  /** The text of the row's PATH cell, which the search among the table items compares. */
  function ShownPath(d: Data): string {
    d.cells.path
  }

  /** The text a row shows in `column`. */
  function Key(d: Data, column: Column): string {
    TableRow.Cell(d.cells, column)
  }

  /** The sort keys of a list of rows. */
  function Keys(s: seq<Data>, column: Column): (r: seq<string>)
    ensures |r| == |s|
    ensures forall i :: 0 <= i < |s| ==> r[i] == Key(s[i], column)
  {
    seq(|s|, i requires 0 <= i < |s| => Key(s[i], column))
  }

  /** The table's sort direction; `Unsorted` is SWT.NONE, which shows the rows in INDEX order. */
  datatype Direction = Ascending | Descending | Unsorted

  /** The state of a tab: the buffer, the visible table items, the filter and the sort. */
  datatype Tab = Tab(buffer: seq<Data>, items: seq<Data>, filter: Option<string>,
                     sortColumn: Column, direction: Direction)

  // ---------------------------------------------------------------------------------------------
  // The filter
  // ---------------------------------------------------------------------------------------------

  /**
   * `tableItemTextsMatchFilter`: without a filter every row matches; otherwise the lower-cased
   * file name, title or title ID has to contain the filter.
   */
  predicate MatchesFilter(filter: Option<string>, cells: TableRow.Cells) {
    filter.None?
    || Contains(Lower(cells.filename), filter.value)
    || Contains(Lower(cells.title), filter.value)
    || Contains(Lower(cells.titleId), filter.value)
  }

  /** The search box stores what the user typed lower-cased. */
  function FilterOf(text: string): (r: Option<string>)
    ensures r.Some? && |r.value| == |text|
    ensures Lower(r.value) == r.value
  {
    LowerIdempotent(text);
    Some(Lower(text))
  }

  /** Lower-casing keeps an occurrence where it is. */
  lemma LowerOccursAt(s: string, sub: string, i: int)
    requires OccursAt(s, sub, i)
    ensures OccursAt(Lower(s), Lower(sub), i)
  {
    assert Lower(s)[i..i + |sub|] == Lower(sub) by {
      forall k | 0 <= k < |sub|
        ensures Lower(s)[i + k] == Lower(sub)[k]
      {
        assert s[i + k] == sub[k];
      }
    }
  }

  /**
   * Typing any part of a row's file name, title or title ID, in any case, keeps the row shown:
   * the search is case-insensitive.
   */
  lemma FilterFindsPart(text: string, cells: TableRow.Cells, field: string)
    requires field == cells.filename || field == cells.title || field == cells.titleId
    requires exists i :: OccursAt(Lower(field), Lower(text), i)
    ensures MatchesFilter(FilterOf(text), cells)
  {}

  /** A part of a field, written in any case, is found by the search. */
  lemma FilterIgnoresCase(text: string, cells: TableRow.Cells, i: int)
    requires OccursAt(cells.title, text, i)
    ensures MatchesFilter(FilterOf(text), cells)
  {
    LowerOccursAt(cells.title, text, i);
  }

  /** Clearing the search box shows every row again. */
  lemma EmptyFilterShowsAll(cells: TableRow.Cells)
    ensures MatchesFilter(FilterOf(""), cells)
  {
    assert OccursAt(Lower(cells.filename), "", 0);
  }

  /** The buffer rows the table shows under `filter`, in buffer order. */
  function Visible(s: seq<Data>, filter: Option<string>): (r: seq<Data>)
    ensures |r| <= |s|
    ensures forall d :: d in r <==> d in s && MatchesFilter(filter, d.cells)
  {
    if |s| == 0 then []
    else
      var rest := Visible(s[..|s| - 1], filter);
      var d := s[|s| - 1];
      assert s == s[..|s| - 1] + [d];
      if MatchesFilter(filter, d.cells) then rest + [d] else rest
  }

  /** Without a filter the table shows the whole buffer. */
  lemma {:induction false} VisibleWithoutFilter(s: seq<Data>)
    ensures Visible(s, None) == s
  {
    if |s| > 0 {
      VisibleWithoutFilter(s[..|s| - 1]);
      assert s == s[..|s| - 1] + [s[|s| - 1]];
    }
  }

  /** The search box's modify listener: store the filter and rebuild the table from the buffer. */
  function SetFilter(tab: Tab, text: string): (r: Tab)
    ensures r.buffer == tab.buffer && r.filter == FilterOf(text)
    ensures forall d :: d in r.items <==> d in tab.buffer && MatchesFilter(FilterOf(text), d.cells)
    ensures r.sortColumn == tab.sortColumn && r.direction == tab.direction
  {
    var filter := FilterOf(text);
    tab.(filter := filter, items := Visible(tab.buffer, filter))
  }

  // ---------------------------------------------------------------------------------------------
  // Orderings
  // ---------------------------------------------------------------------------------------------

  /**
   * What a comparator has to satisfy for sorting to make sense (the contract of
   * `java.util.Comparator`): swapping the arguments flips the sign, and "not greater" is transitive.
   */
  ghost predicate IsOrdering(cmp: (string, string) -> int) {
    (forall a, b :: cmp(a, b) < 0 <==> cmp(b, a) > 0)
    && (forall a, b, c :: cmp(a, b) <= 0 && cmp(b, c) <= 0 ==> cmp(a, c) <= 0)
  }

  /** The comparator a sort uses: the column's, or its negation (`-1 * compare`) when descending. */
  function Ord(cmp: (string, string) -> int, descending: bool, a: string, b: string): int {
    if descending then -cmp(a, b) else cmp(a, b)
  }

  lemma OrdFlip(cmp: (string, string) -> int, descending: bool, a: string, b: string)
    requires IsOrdering(cmp)
    ensures Ord(cmp, descending, a, b) < 0 <==> Ord(cmp, descending, b, a) > 0
    ensures Ord(cmp, descending, a, b) <= 0 <==> Ord(cmp, descending, b, a) >= 0
  {
    assert cmp(a, b) < 0 <==> cmp(b, a) > 0;
    assert cmp(b, a) < 0 <==> cmp(a, b) > 0;
  }

  lemma OrdTransitive(cmp: (string, string) -> int, descending: bool, a: string, b: string, c: string)
    requires IsOrdering(cmp)
    requires Ord(cmp, descending, a, b) <= 0 && Ord(cmp, descending, b, c) <= 0
    ensures Ord(cmp, descending, a, c) <= 0
  {
    if descending {
      OrdFlip(cmp, false, a, b);
      OrdFlip(cmp, false, b, c);
      assert cmp(c, b) <= 0 && cmp(b, a) <= 0;
      OrdFlip(cmp, false, c, a);
    }
  }

  /** The keys are in the order of the sort: no later key sorts before an earlier one. */
  ghost predicate SortedBy(keys: seq<string>, cmp: (string, string) -> int, descending: bool) {
    forall i, j :: 0 <= i < j < |keys| ==> Ord(cmp, descending, keys[i], keys[j]) <= 0
  }

  /** `list.add(p, x)`. */
  function InsertAt<T>(s: seq<T>, p: nat, x: T): (r: seq<T>)
    requires p <= |s|
    ensures |r| == |s| + 1 && r[p] == x
    ensures forall k :: 0 <= k < p ==> r[k] == s[k]
    ensures forall k :: p < k < |r| ==> r[k] == s[k - 1]
    ensures multiset(r) == multiset(s) + multiset{x}
  {
    assert s == s[..p] + s[p..];
    s[..p] + [x] + s[p..]
  }

  lemma KeysInsertAt(s: seq<Data>, p: nat, d: Data, column: Column)
    requires p <= |s|
    ensures Keys(InsertAt(s, p, d), column) == InsertAt(Keys(s, column), p, Key(d, column))
  {}

  /**
   * Inserting a key at a position where everything before it sorts no later and the key sorts no
   * later than what follows keeps a sorted list sorted.
   */
  lemma InsertKeepsSorted(keys: seq<string>, key: string, p: nat, cmp: (string, string) -> int,
                          descending: bool)
    requires IsOrdering(cmp) && SortedBy(keys, cmp, descending) && p <= |keys|
    requires forall j :: 0 <= j < p ==> Ord(cmp, descending, keys[j], key) <= 0
    requires p < |keys| ==> Ord(cmp, descending, key, keys[p]) <= 0
    ensures SortedBy(InsertAt(keys, p, key), cmp, descending)
  {
    var r := InsertAt(keys, p, key);
    forall i, j | 0 <= i < j < |r|
      ensures Ord(cmp, descending, r[i], r[j]) <= 0
    {
      if j == p {
        assert r[i] == keys[i] && r[j] == key;
      } else if i == p {
        assert r[i] == key && r[j] == keys[j - 1];
        if j - 1 > p {
          assert Ord(cmp, descending, keys[p], keys[j - 1]) <= 0;
          OrdTransitive(cmp, descending, key, keys[p], keys[j - 1]);
        }
      } else {
        var i' := if i < p then i else i - 1;
        var j' := if j < p then j else j - 1;
        assert r[i] == keys[i'] && r[j] == keys[j'] && i' < j';
      }
    }
  }

  // ---------------------------------------------------------------------------------------------
  // Adding a row
  // ---------------------------------------------------------------------------------------------

  /**
   * Whether the insertion scan of `addTableItem` moves past a row with key `other`: while the new
   * key compares below it when descending, and while it compares at or above it otherwise.
   */
  predicate Advances(cmp: (string, string) -> int, descending: bool, key: string, other: string) {
    if descending then cmp(key, other) < 0 else cmp(key, other) >= 0
  }

  /**
   * The insertion scan from index `i`, stopping at `bound` at the latest. None when it runs off
   * the end of `keys` first, where `get` throws IndexOutOfBoundsException.
   */
  function Scan(keys: seq<string>, key: string, cmp: (string, string) -> int, descending: bool,
                bound: nat, i: nat): (r: Option<nat>)
    requires i <= bound && i <= |keys|
    ensures r.Some? ==> i <= r.value <= bound && r.value <= |keys|
    ensures r.Some? ==> forall j :: i <= j < r.value ==> Advances(cmp, descending, key, keys[j])
    ensures r.Some? && r.value < bound ==> r.value < |keys| && !Advances(cmp, descending, key, keys[r.value])
    ensures r.None? <==> |keys| < bound && forall j :: i <= j < |keys| ==> Advances(cmp, descending, key, keys[j])
    decreases bound - i
  {
    if i == bound then Some(i)
    else if i >= |keys| then None
    else if Advances(cmp, descending, key, keys[i]) then Scan(keys, key, cmp, descending, bound, i + 1)
    else Some(i)
  }

  /**
   * Where `addTableItem` puts a new row in the buffer. The scan is bounded by the number of
   * visible rows, not by the buffer's length, so with a filter hiding rows a new row never goes
   * beyond that position.
   */
  function BufferIndex(tab: Tab, d: Data, cmp: (string, string) -> int): (r: Option<nat>)
    ensures r.Some? ==> r.value <= |tab.items| && r.value <= |tab.buffer|
    ensures |tab.items| <= |tab.buffer| ==> r.Some?
  {
    Scan(Keys(tab.buffer, tab.sortColumn), Key(d, tab.sortColumn), cmp, tab.direction == Descending,
         |tab.items|, 0)
  }

  /** Where `addTableItem` puts a new row among the visible table items. */
  function ItemIndex(tab: Tab, d: Data, cmp: (string, string) -> int): (r: nat)
    ensures r <= |tab.items|
    ensures forall j :: 0 <= j < r ==>
      Advances(cmp, tab.direction == Descending, Key(d, tab.sortColumn), Key(tab.items[j], tab.sortColumn))
    ensures r < |tab.items| ==>
      !Advances(cmp, tab.direction == Descending, Key(d, tab.sortColumn), Key(tab.items[r], tab.sortColumn))
  {
    Scan(Keys(tab.items, tab.sortColumn), Key(d, tab.sortColumn), cmp, tab.direction == Descending,
         |tab.items|, 0).value
  }

  /**
   * `addTableItem`: the row goes into the buffer at its scanned position and, if it matches the
   * filter, into the table at its own scanned position. None where the buffer scan throws.
   */
  function AddTableItem(tab: Tab, d: Data, cmp: (string, string) -> int): (r: Option<Tab>)
    ensures r.Some? <==> BufferIndex(tab, d, cmp).Some?
    ensures r.Some? ==> multiset(r.value.buffer) == multiset(tab.buffer) + multiset{d}
    ensures r.Some? && MatchesFilter(tab.filter, d.cells) ==>
      multiset(r.value.items) == multiset(tab.items) + multiset{d}
    ensures r.Some? && !MatchesFilter(tab.filter, d.cells) ==> r.value.items == tab.items
    ensures r.Some? ==> r.value.filter == tab.filter && r.value.sortColumn == tab.sortColumn
                        && r.value.direction == tab.direction
  {
    var p :- BufferIndex(tab, d, cmp);
    var items := if MatchesFilter(tab.filter, d.cells) then InsertAt(tab.items, ItemIndex(tab, d, cmp), d)
                 else tab.items;
    Some(tab.(buffer := InsertAt(tab.buffer, p, d), items := items))
  }

  /** The scanned position of a new row lies where the sort puts it, provided the scan covers the keys. */
  lemma ScanFitsSort(keys: seq<string>, key: string, cmp: (string, string) -> int, descending: bool,
                     p: nat)
    requires IsOrdering(cmp) && p <= |keys|
    requires forall j :: 0 <= j < p ==> Advances(cmp, descending, key, keys[j])
    requires p < |keys| ==> !Advances(cmp, descending, key, keys[p])
    ensures forall j :: 0 <= j < p ==> Ord(cmp, descending, keys[j], key) <= 0
    ensures p < |keys| ==> Ord(cmp, descending, key, keys[p]) <= 0
  {
    forall j | 0 <= j < p
      ensures Ord(cmp, descending, keys[j], key) <= 0
    {
      OrdFlip(cmp, false, key, keys[j]);
    }
  }

  /**
   * When every buffer row is visible, adding a row keeps a sorted buffer sorted; the table, whose
   * scan always covers all of it, stays sorted too.
   */
  lemma AddKeepsSorted(tab: Tab, d: Data, cmp: (string, string) -> int)
    requires IsOrdering(cmp) && tab.direction != Unsorted
    requires |tab.items| == |tab.buffer|
    requires SortedBy(Keys(tab.buffer, tab.sortColumn), cmp, tab.direction == Descending)
    requires SortedBy(Keys(tab.items, tab.sortColumn), cmp, tab.direction == Descending)
    ensures AddTableItem(tab, d, cmp).Some?
    ensures SortedBy(Keys(AddTableItem(tab, d, cmp).value.buffer, tab.sortColumn), cmp, tab.direction == Descending)
    ensures SortedBy(Keys(AddTableItem(tab, d, cmp).value.items, tab.sortColumn), cmp, tab.direction == Descending)
  {
    var column, descending := tab.sortColumn, tab.direction == Descending;
    var key := Key(d, column);
    var p := BufferIndex(tab, d, cmp).value;
    ScanFitsSort(Keys(tab.buffer, column), key, cmp, descending, p);
    InsertKeepsSorted(Keys(tab.buffer, column), key, p, cmp, descending);
    KeysInsertAt(tab.buffer, p, d, column);
    if MatchesFilter(tab.filter, d.cells) {
      var q := ItemIndex(tab, d, cmp);
      ScanFitsSort(Keys(tab.items, column), key, cmp, descending, q);
      InsertKeepsSorted(Keys(tab.items, column), key, q, cmp, descending);
      KeysInsertAt(tab.items, q, d, column);
    }
  }

  /**
   * Ascending (and unsorted) insertion into a sorted, fully visible buffer puts the new row after
   * every row with an equal key; descending insertion puts it before them.
   */
  lemma AddPlacesEqualKeys(tab: Tab, d: Data, cmp: (string, string) -> int, j: nat)
    requires IsOrdering(cmp) && |tab.items| == |tab.buffer|
    requires tab.direction == Ascending
             ==> SortedBy(Keys(tab.buffer, tab.sortColumn), cmp, false)
    requires j < |tab.buffer| && cmp(Key(d, tab.sortColumn), Key(tab.buffer[j], tab.sortColumn)) == 0
    ensures BufferIndex(tab, d, cmp).Some?
    ensures tab.direction == Ascending ==> j < BufferIndex(tab, d, cmp).value
    ensures tab.direction == Descending ==> BufferIndex(tab, d, cmp).value <= j
  {
    var column := tab.sortColumn;
    var keys, key := Keys(tab.buffer, column), Key(d, column);
    var p := BufferIndex(tab, d, cmp).value;
    if tab.direction == Ascending && p <= j {
      assert false;
    }
  }

  /** With a filter hiding rows, the buffer scan stops at the visible count even if later rows sort lower. */
  lemma AddStopsAtVisibleCount(tab: Tab, d: Data, cmp: (string, string) -> int)
    requires |tab.items| < |tab.buffer|
    requires forall j :: 0 <= j < |tab.buffer| ==>
      Advances(cmp, tab.direction == Descending, Key(d, tab.sortColumn), Key(tab.buffer[j], tab.sortColumn))
    ensures AddTableItem(tab, d, cmp).Some?
    ensures AddTableItem(tab, d, cmp).value.buffer[|tab.items|] == d
  {}

  // ---------------------------------------------------------------------------------------------
  // Replacing and removing rows
  // ---------------------------------------------------------------------------------------------

  /** The first row at or after `from` whose path, as `key` reads it, is `path`. */
  function FirstWithPath(s: seq<Data>, key: Data -> string, path: string, from: nat): (r: Option<nat>)
    ensures r.Some? ==> from <= r.value < |s| && key(s[r.value]) == path
    ensures r.Some? ==> forall k :: from <= k < r.value ==> key(s[k]) != path
    ensures r.None? ==> forall k :: from <= k < |s| ==> key(s[k]) != path
    decreases |s| - from
  {
    if from >= |s| then None
    else if key(s[from]) == path then Some(from)
    else FirstWithPath(s, key, path, from + 1)
  }

  /** No two rows share a path. */
  predicate UniquePaths(s: seq<Data>) {
    forall i, j :: 0 <= i < j < |s| ==> PathOf(s[i]) != PathOf(s[j])
  }

  /**
   * `processNewTableItemData`: a package that is already listed (a buffer row's package has the
   * same path) has its first buffer row replaced in place, and the first table item whose PATH
   * cell shows that path too; any other package is added as a new row.
   */
  function ProcessNewRow(tab: Tab, d: Data, cmp: (string, string) -> int): (r: Option<Tab>)
    ensures FirstWithPath(tab.buffer, PathOf, PathOf(d), 0).Some? ==> r.Some?
    ensures r.Some? ==> d in r.value.buffer
    ensures r.Some? && FirstWithPath(tab.buffer, PathOf, PathOf(d), 0).Some? ==>
      var i := FirstWithPath(tab.buffer, PathOf, PathOf(d), 0).value;
      |r.value.buffer| == |tab.buffer| && r.value.buffer[i] == d
      && forall k :: 0 <= k < |tab.buffer| && k != i ==> r.value.buffer[k] == tab.buffer[k]
    ensures r.Some? && FirstWithPath(tab.buffer, PathOf, PathOf(d), 0).None? ==>
      multiset(r.value.buffer) == multiset(tab.buffer) + multiset{d}
  {
    match FirstWithPath(tab.buffer, PathOf, PathOf(d), 0)
    case Some(i) =>
      var items := match FirstWithPath(tab.items, ShownPath, PathOf(d), 0)
                   case Some(j) => tab.items[j := d]
                   case None => tab.items;
      assert tab.buffer[i := d][i] == d;
      Some(tab.(buffer := tab.buffer[i := d], items := items))
    case None =>
      AddTableItem(tab, d, cmp)
  }

  /** Inserting a row with a path not yet present keeps paths unique. */
  lemma InsertKeepsPathsUnique(s: seq<Data>, p: nat, d: Data)
    requires p <= |s| && UniquePaths(s)
    requires forall k :: 0 <= k < |s| ==> PathOf(s[k]) != PathOf(d)
    ensures UniquePaths(InsertAt(s, p, d))
  {
    var r := InsertAt(s, p, d);
    forall a, b | 0 <= a < b < |r|
      ensures PathOf(r[a]) != PathOf(r[b])
    {
      if a == p {
        assert r[b] == s[b - 1];
      } else if b == p {
        assert r[a] == s[a];
      } else {
        var a', b' := if a < p then a else a - 1, if b < p then b else b - 1;
        assert r[a] == s[a'] && r[b] == s[b'];
      }
    }
  }

  /** Processing rows keeps the buffer free of duplicate paths. */
  lemma ProcessKeepsPathsUnique(tab: Tab, d: Data, cmp: (string, string) -> int)
    requires UniquePaths(tab.buffer)
    requires ProcessNewRow(tab, d, cmp).Some?
    ensures UniquePaths(ProcessNewRow(tab, d, cmp).value.buffer)
  {
    match FirstWithPath(tab.buffer, PathOf, PathOf(d), 0)
    case Some(i) =>
    case None =>
      InsertKeepsPathsUnique(tab.buffer, BufferIndex(tab, d, cmp).value, d);
  }

  /** Processing a package again with the same texts changes nothing. */
  lemma ProcessAgainChangesNothing(tab: Tab, d: Data, cmp: (string, string) -> int, i: nat)
    requires i < |tab.buffer| && tab.buffer[i] == d
    requires forall k :: 0 <= k < i ==> PathOf(tab.buffer[k]) != PathOf(d)
    requires forall k :: 0 <= k < |tab.items| && ShownPath(tab.items[k]) == PathOf(d) ==> tab.items[k] == d
    ensures ProcessNewRow(tab, d, cmp) == Some(tab)
  {
    assert FirstWithPath(tab.buffer, PathOf, PathOf(d), 0) == Some(i);
    assert tab.buffer[i := d] == tab.buffer;
    match FirstWithPath(tab.items, ShownPath, PathOf(d), 0)
    case Some(j) =>
      assert tab.items[j := d] == tab.items;
    case None =>
  }

  /** `list.removeIf(drop)`: the rows `drop` rejects, in their original order. */
  function RemoveIf(s: seq<Data>, drop: Data -> bool): (r: seq<Data>)
    ensures |r| <= |s|
    ensures forall d :: d in r <==> d in s && !drop(d)
  {
    if |s| == 0 then []
    else
      var rest := RemoveIf(s[..|s| - 1], drop);
      var d := s[|s| - 1];
      assert s == s[..|s| - 1] + [d];
      if drop(d) then rest else rest + [d]
  }

  /** Removal works piecewise, so the rows that stay keep their relative order. */
  lemma {:induction false} RemoveIfConcat(a: seq<Data>, b: seq<Data>, drop: Data -> bool)
    ensures RemoveIf(a + b, drop) == RemoveIf(a, drop) + RemoveIf(b, drop)
    decreases |b|
  {
    if |b| == 0 {
      assert a + b == a;
    } else {
      var b' := b[..|b| - 1];
      assert (a + b)[..|a + b| - 1] == a + b';
      RemoveIfConcat(a, b', drop);
    }
  }

  /** Rows that `drop` rejects all stay, unchanged and in order. */
  lemma {:induction false} RemoveIfKeepsAll(s: seq<Data>, drop: Data -> bool)
    requires forall k :: 0 <= k < |s| ==> !drop(s[k])
    ensures RemoveIf(s, drop) == s
  {
    if |s| > 0 {
      RemoveIfKeepsAll(s[..|s| - 1], drop);
      assert s == s[..|s| - 1] + [s[|s| - 1]];
    }
  }

  /** The predicate of `removeFile`. */
  function HasPath(path: string): Data -> bool {
    d => PathOf(d) == path
  }

  /** `removeFile(path)`: drops every buffer row and table item with exactly that path. */
  function RemoveFile(tab: Tab, path: string): (r: Tab)
    ensures forall d :: d in r.buffer <==> d in tab.buffer && PathOf(d) != path
    ensures forall d :: d in r.items <==> d in tab.items && PathOf(d) != path
    ensures r.filter == tab.filter && r.sortColumn == tab.sortColumn && r.direction == tab.direction
  {
    tab.(buffer := RemoveIf(tab.buffer, HasPath(path)), items := RemoveIf(tab.items, HasPath(path)))
  }

  /** The predicate of `removeFiles`: a raw character prefix of the path. */
  function HasPrefix(directory: string): Data -> bool {
    d => StartsWith(PathOf(d), directory)
  }

  /**
   * `removeFiles(directory)` as written: drops every row whose path starts with the directory's
   * text, which also catches files in sibling directories whose names extend it.
   */
  function RemoveFiles(tab: Tab, directory: string): (r: Tab)
    ensures forall d :: d in r.buffer <==> d in tab.buffer && !StartsWith(PathOf(d), directory)
    ensures forall d :: d in r.items <==> d in tab.items && !StartsWith(PathOf(d), directory)
    ensures r.filter == tab.filter && r.sortColumn == tab.sortColumn && r.direction == tab.direction
  {
    tab.(buffer := RemoveIf(tab.buffer, HasPrefix(directory)),
         items := RemoveIf(tab.items, HasPrefix(directory)))
  }

  /** A file in directory "/a/bc" is removed when directory "/a/b" disappears. */
  lemma RemoveFilesTakesSibling(cells: TableRow.Cells)
    ensures RemoveFiles(Tab([Data(0, "/a/bc/x.pkg", cells)], [], None, Index, Unsorted), "/a/b").buffer == []
  {
    var d := Data(0, "/a/bc/x.pkg", cells);
    assert StartsWith(PathOf(d), "/a/b") by {
      assert PathOf(d)[..4] == "/a/b";
    }
    assert RemoveIf([d], HasPrefix("/a/b")) == RemoveIf([], HasPrefix("/a/b"));
  }

  /** `path` lies inside `directory` (or is it): the prefix ends at a path separator. */
  predicate IsUnder(path: string, directory: string, separator: char) {
    StartsWith(path, directory)
    && (|path| == |directory| || (|directory| > 0 && directory[|directory| - 1] == separator)
        || path[|directory|] == separator)
  }

  /** The predicate of `RemoveFilesUnder`. */
  function InDirectory(directory: string, separator: char): Data -> bool {
    d => IsUnder(PathOf(d), directory, separator)
  }

  /**
   * `removeFiles(directory)` as its documentation describes it: drops the rows whose path lies in
   * the directory or below, compared component by component.
   */
  function RemoveFilesUnder(tab: Tab, directory: string, separator: char): (r: Tab)
    ensures forall d :: d in r.buffer <==> d in tab.buffer && !IsUnder(PathOf(d), directory, separator)
    ensures forall d :: d in r.items <==> d in tab.items && !IsUnder(PathOf(d), directory, separator)
    ensures r.filter == tab.filter && r.sortColumn == tab.sortColumn && r.direction == tab.direction
  {
    tab.(buffer := RemoveIf(tab.buffer, InDirectory(directory, separator)),
         items := RemoveIf(tab.items, InDirectory(directory, separator)))
  }

  /** The corrected removal keeps files of a sibling directory whose name extends the removed one. */
  lemma RemoveFilesUnderKeepsSibling(path: string, directory: string, separator: char)
    requires |directory| > 0 && directory[|directory| - 1] != separator
    requires StartsWith(path, directory) && |path| > |directory| && path[|directory|] != separator
    ensures !IsUnder(path, directory, separator)
  {}

  /** The corrected removal drops exactly what the raw prefix test drops, among paths inside the directory. */
  lemma RemoveFilesUnderAgrees(path: string, directory: string, separator: char)
    requires |path| > |directory| && path[..|directory|] == directory && path[|directory|] == separator
    ensures IsUnder(path, directory, separator) && StartsWith(path, directory)
  {}

  /** The first row at or after `from` showing package object `pkg`. */
  function FirstWithPkg(s: seq<Data>, pkg: nat, from: nat): (r: Option<nat>)
    ensures r.Some? ==> from <= r.value < |s| && s[r.value].pkg == pkg
    ensures r.Some? ==> forall k :: from <= k < r.value ==> s[k].pkg != pkg
    ensures r.None? ==> forall k :: from <= k < |s| ==> s[k].pkg != pkg
    decreases |s| - from
  {
    if from >= |s| then None
    else if s[from].pkg == pkg then Some(from)
    else FirstWithPkg(s, pkg, from + 1)
  }

  /**
   * `removeTableItem(item)`: disposes of table item `j` and removes the first buffer row that
   * shows the same package object, if there is one.
   */
  function RemoveTableItem(tab: Tab, j: nat): (r: Tab)
    requires j < |tab.items|
    ensures |r.items| == |tab.items| - 1 && multiset(r.items) + multiset{tab.items[j]} == multiset(tab.items)
    ensures FirstWithPkg(tab.buffer, tab.items[j].pkg, 0).None? ==> r.buffer == tab.buffer
    ensures FirstWithPkg(tab.buffer, tab.items[j].pkg, 0).Some? ==>
      |r.buffer| == |tab.buffer| - 1
      && multiset(r.buffer) + multiset{tab.buffer[FirstWithPkg(tab.buffer, tab.items[j].pkg, 0).value]}
         == multiset(tab.buffer)
  {
    var buffer := match FirstWithPkg(tab.buffer, tab.items[j].pkg, 0)
                  case Some(i) => (RemoveAtMultiset(tab.buffer, i); RemoveAt(tab.buffer, i))
                  case None => tab.buffer;
    RemoveAtMultiset(tab.items, j);
    tab.(buffer := buffer, items := RemoveAt(tab.items, j))
  }

  /** A row inserted for a new package object is the first one showing it and removes cleanly. */
  lemma RemoveInserted(s: seq<Data>, p: nat, d: Data)
    requires p <= |s| && forall k :: 0 <= k < |s| ==> s[k].pkg != d.pkg
    ensures FirstWithPkg(InsertAt(s, p, d), d.pkg, 0) == Some(p)
    ensures RemoveAt(InsertAt(s, p, d), p) == s
  {
    var r := InsertAt(s, p, d);
    assert forall k :: 0 <= k < p ==> r[k] == s[k];
  }

  /** Adding a row and then removing its table item gives back the buffer as it was. */
  lemma AddThenRemoveItem(tab: Tab, d: Data, cmp: (string, string) -> int, j: nat)
    requires forall k :: 0 <= k < |tab.buffer| ==> tab.buffer[k].pkg != d.pkg
    requires AddTableItem(tab, d, cmp).Some?
    requires j < |AddTableItem(tab, d, cmp).value.items| && AddTableItem(tab, d, cmp).value.items[j] == d
    ensures RemoveTableItem(AddTableItem(tab, d, cmp).value, j).buffer == tab.buffer
  {
    var p := BufferIndex(tab, d, cmp).value;
    RemoveInserted(tab.buffer, p, d);
  }

  // ---------------------------------------------------------------------------------------------
  // Sorting by a column header
  // ---------------------------------------------------------------------------------------------

  /** The sort column and direction. */
  datatype Sorting = Sorting(column: Column, direction: Direction)

  /**
   * A click on a column header: the current column cycles ascending, descending, unsorted and
   * back; another column starts ascending.
   */
  function NextSorting(current: Sorting, clicked: Column): (r: Sorting)
    ensures r.column == clicked
    ensures clicked != current.column ==> r.direction == Ascending
    ensures clicked == current.column ==> r.direction != current.direction
  {
    if clicked != current.column then Sorting(clicked, Ascending)
    else
      match current.direction
      case Ascending => Sorting(clicked, Descending)
      case Descending => Sorting(clicked, Unsorted)
      case Unsorted => Sorting(clicked, Ascending)
  }

  /** Three clicks on the sort column bring the sort back to where it was. */
  lemma ThreeClicksCycle(s: Sorting)
    ensures NextSorting(NextSorting(NextSorting(s, s.column), s.column), s.column) == s
  {}

  /** Clicking a new column and then clicking it twice more goes ascending, descending, unsorted. */
  lemma NewColumnCycle(s: Sorting, c: Column)
    requires c != s.column
    ensures NextSorting(s, c).direction == Ascending
    ensures NextSorting(NextSorting(s, c), c).direction == Descending
    ensures NextSorting(NextSorting(NextSorting(s, c), c), c).direction == Unsorted
  {}

  /** Where a stable sort inserts `key`: after every key that does not sort after it. */
  function SortPosition(keys: seq<string>, key: string, cmp: (string, string) -> int,
                        descending: bool, i: nat): (r: nat)
    requires i <= |keys|
    ensures i <= r <= |keys|
    ensures forall j :: i <= j < r ==> Ord(cmp, descending, key, keys[j]) >= 0
    ensures r < |keys| ==> Ord(cmp, descending, key, keys[r]) < 0
    decreases |keys| - i
  {
    if i == |keys| then i
    else if Ord(cmp, descending, key, keys[i]) >= 0 then SortPosition(keys, key, cmp, descending, i + 1)
    else i
  }

  /** One step of the sort: insert a row into an already sorted list after the rows it ties with. */
  function InsertSorted(s: seq<Data>, d: Data, column: Column, cmp: (string, string) -> int,
                        descending: bool): (r: seq<Data>)
    ensures multiset(r) == multiset(s) + multiset{d}
  {
    InsertAt(s, SortPosition(Keys(s, column), Key(d, column), cmp, descending, 0), d)
  }

  /**
   * `list.sort(comparator)`, which is stable, by `column` with `cmp` or, descending, with its
   * negation.
   */
  function Sort(s: seq<Data>, column: Column, cmp: (string, string) -> int, descending: bool)
    : (r: seq<Data>)
    ensures |r| == |s| && multiset(r) == multiset(s)
  {
    if |s| == 0 then []
    else
      assert s == s[..|s| - 1] + [s[|s| - 1]];
      InsertSorted(Sort(s[..|s| - 1], column, cmp, descending), s[|s| - 1], column, cmp, descending)
  }

  /** The sort's insertion step keeps the list sorted. */
  lemma InsertSortedKeepsSorted(s: seq<Data>, d: Data, column: Column, cmp: (string, string) -> int,
                                descending: bool)
    requires IsOrdering(cmp) && SortedBy(Keys(s, column), cmp, descending)
    ensures SortedBy(Keys(InsertSorted(s, d, column, cmp, descending), column), cmp, descending)
  {
    var keys, key := Keys(s, column), Key(d, column);
    var p := SortPosition(keys, key, cmp, descending, 0);
    forall j | 0 <= j < p
      ensures Ord(cmp, descending, keys[j], key) <= 0
    {
      OrdFlip(cmp, descending, keys[j], key);
    }
    InsertKeepsSorted(keys, key, p, cmp, descending);
    KeysInsertAt(s, p, d, column);
  }

  /** The sorted buffer is in the order of the comparator. */
  lemma {:induction false} SortSorts(s: seq<Data>, column: Column, cmp: (string, string) -> int,
                                     descending: bool)
    requires IsOrdering(cmp)
    ensures SortedBy(Keys(Sort(s, column, cmp, descending), column), cmp, descending)
  {
    if |s| > 0 {
      SortSorts(s[..|s| - 1], column, cmp, descending);
      InsertSortedKeepsSorted(Sort(s[..|s| - 1], column, cmp, descending), s[|s| - 1], column, cmp,
                              descending);
    }
  }

  /**
   * In sorted keys, the keys before the last one are sorted, and the last key sorts no earlier
   * than any of them.
   */
  lemma SortedSnoc(prefix: seq<Data>, last: Data, column: Column, cmp: (string, string) -> int,
                   descending: bool)
    requires SortedBy(Keys(prefix + [last], column), cmp, descending)
    ensures SortedBy(Keys(prefix, column), cmp, descending)
    ensures forall j :: 0 <= j < |prefix| ==> Ord(cmp, descending, Keys(prefix, column)[j], Key(last, column)) <= 0
  {
    var keys, all := Keys(prefix, column), Keys(prefix + [last], column);
    assert keys == all[..|prefix|];
    assert Key(last, column) == all[|prefix|];
  }

  /** A key that sorts no earlier than every key goes at the end. */
  lemma {:induction false} SortPositionAtEnd(keys: seq<string>, key: string,
                                             cmp: (string, string) -> int, descending: bool, i: nat)
    requires IsOrdering(cmp) && i <= |keys|
    requires forall j :: i <= j < |keys| ==> Ord(cmp, descending, keys[j], key) <= 0
    ensures SortPosition(keys, key, cmp, descending, i) == |keys|
    decreases |keys| - i
  {
    if i < |keys| {
      OrdFlip(cmp, descending, keys[i], key);
      SortPositionAtEnd(keys, key, cmp, descending, i + 1);
    }
  }

  /** Sorting an already sorted buffer leaves it as it is, ties included: the sort is stable there. */
  lemma {:induction false} SortOfSorted(s: seq<Data>, column: Column, cmp: (string, string) -> int,
                                        descending: bool)
    requires IsOrdering(cmp) && SortedBy(Keys(s, column), cmp, descending)
    ensures Sort(s, column, cmp, descending) == s
  {
    if |s| > 0 {
      var prefix, last := s[..|s| - 1], s[|s| - 1];
      assert s == prefix + [last];
      SortedSnoc(prefix, last, column, cmp, descending);
      SortOfSorted(prefix, column, cmp, descending);
      SortPositionAtEnd(Keys(prefix, column), Key(last, column), cmp, descending, 0);
      assert s == InsertAt(prefix, |prefix|, last);
    }
  }

  /**
   * The sort listener: the buffer is re-sorted for the new direction (unsorted means by the INDEX
   * column with its own comparator) and the table is rebuilt from it under the current filter.
   */
  function ClickColumn(tab: Tab, clicked: Column, cmp: (string, string) -> int,
                       indexCmp: (string, string) -> int): (r: Tab)
    ensures r.sortColumn == clicked && r.filter == tab.filter
    ensures Sorting(r.sortColumn, r.direction) == NextSorting(Sorting(tab.sortColumn, tab.direction), clicked)
    ensures |r.buffer| == |tab.buffer| && multiset(r.buffer) == multiset(tab.buffer)
    ensures forall d :: d in r.items <==> d in tab.buffer && MatchesFilter(tab.filter, d.cells)
  {
    var next := NextSorting(Sorting(tab.sortColumn, tab.direction), clicked);
    var buffer := match next.direction
                  case Ascending => Sort(tab.buffer, clicked, cmp, false)
                  case Descending => Sort(tab.buffer, clicked, cmp, true)
                  case Unsorted => Sort(tab.buffer, Index, indexCmp, false);
    assert forall d :: d in buffer <==> d in tab.buffer by {
      assert forall d :: d in buffer <==> d in multiset(buffer);
    }
    Tab(buffer, Visible(buffer, tab.filter), tab.filter, clicked, next.direction)
  }

  /** The buffer is in the order the tab's sort promises. */
  ghost predicate InSortOrder(tab: Tab, cmp: (string, string) -> int, indexCmp: (string, string) -> int) {
    match tab.direction
    case Ascending => SortedBy(Keys(tab.buffer, tab.sortColumn), cmp, false)
    case Descending => SortedBy(Keys(tab.buffer, tab.sortColumn), cmp, true)
    case Unsorted => SortedBy(Keys(tab.buffer, Index), indexCmp, false)
  }

  /** After a click the buffer is sorted as the new sort says, and the table shows it filtered. */
  lemma ClickColumnSorts(tab: Tab, clicked: Column, cmp: (string, string) -> int,
                         indexCmp: (string, string) -> int)
    requires IsOrdering(cmp) && IsOrdering(indexCmp)
    ensures InSortOrder(ClickColumn(tab, clicked, cmp, indexCmp), cmp, indexCmp)
    ensures ClickColumn(tab, clicked, cmp, indexCmp).items
            == Visible(ClickColumn(tab, clicked, cmp, indexCmp).buffer, tab.filter)
  {
    var r := ClickColumn(tab, clicked, cmp, indexCmp);
    match r.direction
    case Ascending => SortSorts(tab.buffer, clicked, cmp, false);
    case Descending => SortSorts(tab.buffer, clicked, cmp, true);
    case Unsorted => SortSorts(tab.buffer, Index, indexCmp, false);
  }

  /** The text comparator satisfies the comparator contract. */
  lemma StringCompareIsOrdering()
    ensures IsOrdering(StringCompare)
  {
    forall a, b
      ensures StringCompare(a, b) < 0 <==> StringCompare(b, a) > 0
    {
      StringCompareAntisymmetric(a, b);
    }
    forall a, b, c | StringCompare(a, b) <= 0 && StringCompare(b, c) <= 0
      ensures StringCompare(a, c) <= 0
    {
      CompareToTransitive(Lower(a), Lower(b), Lower(c));
    }
  }
}

=== FILE: strings.dfy ===
/**
 * The parts of `java.lang.String` the program relies on, on `seq<char>`: prefix and suffix tests,
 * `indexOf`, `contains`, `toLowerCase`, `trim`, `strip`, `replace`, `split` with a literal
 * separator, `String.join` and `compareTo`.
 */
module Strings {

  /** `s.startsWith(p)`: a raw character prefix, with no notion of path components. */
  predicate StartsWith(s: string, p: string) {
    |p| <= |s| && s[..|p|] == p
  }

  /** `s.endsWith(p)`. */
  predicate EndsWith(s: string, p: string) {
    |p| <= |s| && s[|s| - |p|..] == p
  }

  /** `sub` occurs in `s` starting at index `i`. */
  predicate OccursAt(s: string, sub: string, i: int) {
    0 <= i && i + |sub| <= |s| && s[i..i + |sub|] == sub
  }

  /**
   * `s.indexOf(sub, from)`: the first index at or after `from` where `sub` occurs, or -1. Like
   * Java, a start beyond the end finds the empty string at the very end and nothing else.
   */
  function IndexOfFrom(s: string, sub: string, from: nat): (r: int)
    ensures r == -1 || OccursAt(s, sub, r)
    ensures r != -1 && from <= |s| ==> from <= r
    ensures forall k :: from <= k && (r == -1 || k < r) ==> !OccursAt(s, sub, k)
    decreases |s| - from
  {
    if from >= |s| then
      if |sub| == 0 then |s| else -1
    else if OccursAt(s, sub, from) then from
    else IndexOfFrom(s, sub, from + 1)
  }

  /** `s.indexOf(sub)`. */
  function IndexOf(s: string, sub: string): (r: int)
    ensures r == -1 || OccursAt(s, sub, r)
    ensures forall k :: 0 <= k && (r == -1 || k < r) ==> !OccursAt(s, sub, k)
  {
    IndexOfFrom(s, sub, 0)
  }

  /** `s.contains(sub)`. */
  predicate Contains(s: string, sub: string) {
    IndexOf(s, sub) != -1
  }

  /** `contains` finds `sub` exactly when it occurs somewhere. */
  lemma ContainsOccurs(s: string, sub: string)
    ensures Contains(s, sub) <==> exists i :: OccursAt(s, sub, i)
  {
    if !Contains(s, sub) {
      forall i | OccursAt(s, sub, i)
        ensures false
      {}
    }
  }

  /** `s.indexOf(c, from)` for a single character. */
  function IndexOfChar(s: string, c: char, from: nat): (r: int)
    ensures r == -1 || (from <= r < |s| && s[r] == c)
    ensures forall k :: from <= k < |s| && (r == -1 || k < r) ==> s[k] != c
    decreases |s| - from
  {
    if from >= |s| then -1
    else if s[from] == c then from
    else IndexOfChar(s, c, from + 1)
  }

  /** `s.lastIndexOf(c)`. */
  function LastIndexOfChar(s: string, c: char): (r: int)
    ensures r == -1 || (0 <= r < |s| && s[r] == c)
    ensures forall k :: 0 <= k < |s| && r < k ==> s[k] != c
  {
    if |s| == 0 then -1
    else if s[|s| - 1] == c then |s| - 1
    else LastIndexOfChar(s[..|s| - 1], c)
  }

  /** `Character.toLowerCase` restricted to ASCII. */
  function LowerChar(c: char): char {
    if 'A' <= c <= 'Z' then (c as int + 32) as char else c
  }

  /** `s.toLowerCase()` with ASCII case mapping. */
  function Lower(s: string): (r: string)
    ensures |r| == |s|
    ensures forall i :: 0 <= i < |s| ==> r[i] == LowerChar(s[i])
  {
    seq(|s|, i requires 0 <= i < |s| => LowerChar(s[i]))
  }

  /** Lower-casing is idempotent and leaves no upper-case ASCII letter behind. */
  lemma LowerIdempotent(s: string)
    ensures Lower(Lower(s)) == Lower(s)
    ensures forall i :: 0 <= i < |s| ==> !('A' <= Lower(s)[i] <= 'Z')
  {}

  /** Lower-casing distributes over concatenation. */
  lemma LowerConcat(a: string, b: string)
    ensures Lower(a + b) == Lower(a) + Lower(b)
  {}

  /** The characters `String.trim` removes: every code point up to and including the space. */
  predicate IsTrimmable(c: char) {
    c <= ' '
  }

  /** The characters `Character.isWhitespace` accepts, which is what `String.strip` removes. */
  predicate IsWhitespace(c: char) {
    c == ' ' || c == '\t' || c == '\n' || c == '\U{000B}' || c == '\U{000C}' || c == '\r'
    || ('\U{001C}' <= c <= '\U{001F}') || c == '\U{1680}'
    || ('\U{2000}' <= c <= '\U{2006}') || ('\U{2008}' <= c <= '\U{200A}')
    || c == '\U{2028}' || c == '\U{2029}' || c == '\U{205F}' || c == '\U{3000}'
  }

  /** Index of the first character that `drop` does not remove, or |s|. */
  function SkipLeading(s: string, drop: char -> bool, from: nat): (r: nat)
    requires from <= |s|
    ensures from <= r <= |s|
    ensures forall k :: from <= k < r ==> drop(s[k])
    ensures r < |s| ==> !drop(s[r])
    decreases |s| - from
  {
    if from == |s| || !drop(s[from]) then from else SkipLeading(s, drop, from + 1)
  }

  /** One past the index of the last character at or after `lo` that `drop` does not remove, or `lo`. */
  function SkipTrailing(s: string, drop: char -> bool, lo: nat, hi: nat): (r: nat)
    requires lo <= hi <= |s|
    ensures lo <= r <= hi
    ensures forall k :: r <= k < hi ==> drop(s[k])
    ensures r > lo ==> !drop(s[r - 1])
    decreases hi
  {
    if hi == lo || !drop(s[hi - 1]) then hi else SkipTrailing(s, drop, lo, hi - 1)
  }

  /** Removes leading and trailing characters that satisfy `drop`. */
  function StripBy(s: string, drop: char -> bool): (r: string)
    ensures |r| <= |s|
    ensures |r| > 0 ==> !drop(r[0]) && !drop(r[|r| - 1])
  {
    var a := SkipLeading(s, drop, 0);
    var b := SkipTrailing(s, drop, a, |s|);
    s[a..b]
  }

  /** What stripping removes: only characters `drop` accepts, and only at either end. */
  lemma StripBySlice(s: string, drop: char -> bool)
    ensures exists a, b :: (0 <= a <= b <= |s| && StripBy(s, drop) == s[a..b]
      && (forall k :: 0 <= k < a ==> drop(s[k])) && (forall k :: b <= k < |s| ==> drop(s[k])))
  {
    var a := SkipLeading(s, drop, 0);
    var b := SkipTrailing(s, drop, a, |s|);
    assert forall k :: b <= k < |s| ==> drop(s[k]);
    assert StripBy(s, drop) == s[a..b];
  }

  /** `s.trim()`. */
  function Trim(s: string): (r: string)
    ensures |r| <= |s|
    ensures |r| > 0 ==> r[0] > ' ' && r[|r| - 1] > ' '
  {
    StripBy(s, IsTrimmable)
  }

  /** `s.strip()`. */
  function Strip(s: string): (r: string)
    ensures |r| <= |s|
    ensures |r| > 0 ==> !IsWhitespace(r[0]) && !IsWhitespace(r[|r| - 1])
  {
    StripBy(s, IsWhitespace)
  }

  /** A string that neither begins nor ends with a character `drop` removes is its own stripping. */
  lemma StripByFixpoint(s: string, drop: char -> bool)
    requires |s| > 0 ==> !drop(s[0]) && !drop(s[|s| - 1])
    ensures StripBy(s, drop) == s
  {}

  /**
   * `trim` of a string padded on both sides with trimmable characters is the string between the
   * padding, provided that string neither begins nor ends with a trimmable character.
   */
  lemma TrimAround(p: string, u: string, q: string)
    requires forall k :: 0 <= k < |p| ==> IsTrimmable(p[k])
    requires forall k :: 0 <= k < |q| ==> IsTrimmable(q[k])
    requires |u| > 0 ==> !IsTrimmable(u[0]) && !IsTrimmable(u[|u| - 1])
    ensures Trim(p + u + q) == u
  {
    var s := p + u + q;
    var a := SkipLeading(s, IsTrimmable, 0);
    var b := SkipTrailing(s, IsTrimmable, a, |s|);
    if |u| > 0 {
      assert s[|p|] == u[0];
      assert a == |p|;
      assert s[|p| + |u| - 1] == u[|u| - 1];
      assert b == |p| + |u|;
    } else {
      assert a == |s|;
    }
    assert s[a..b] == u;
  }

  /**
   * `s.replace(target, repl)`: every occurrence of a non-empty `target`, scanning from the left and
   * without overlap, replaced by `repl`.
   */
  function Replace(s: string, target: string, repl: string): (r: string)
    requires |target| > 0
    decreases |s|
  {
    if |s| < |target| then s
    else if s[..|target|] == target then repl + Replace(s[|target|..], target, repl)
    else [s[0]] + Replace(s[1..], target, repl)
  }

  /** A string in which the target's first character never appears is not changed by `replace`. */
  lemma {:induction false} ReplaceAbsent(s: string, target: string, repl: string)
    requires |target| > 0 && target[0] !in s
    ensures Replace(s, target, repl) == s
    decreases |s|
  {
    if |s| >= |target| {
      assert s[0] != target[0];
      assert s[..|target|] != target;
      ReplaceAbsent(s[1..], target, repl);
    }
  }

  /** `replace` of a one-character target works character by character. */
  lemma {:induction false} ReplaceCharConcat(a: string, b: string, c: char, repl: string)
    ensures Replace(a + b, [c], repl) == Replace(a, [c], repl) + Replace(b, [c], repl)
    decreases |a|
  {
    if |a| > 0 {
      assert (a + b)[1..] == a[1..] + b;
      assert (a + b)[..1] == a[..1];
      ReplaceCharConcat(a[1..], b, c, repl);
    } else {
      assert a + b == b;
    }
  }

  /** After replacing every occurrence of `target`, only what `repl` itself brings can match it. */
  lemma {:induction false} ReplaceRemovesChar(s: string, c: char)
    ensures c !in Replace(s, [c], "")
    decreases |s|
  {
    if |s| > 0 {
      ReplaceRemovesChar(s[1..], c);
    }
  }

  /** `String.join(sep, parts)`. */
  function Join(sep: string, parts: seq<string>): (r: string)
    ensures |parts| == 1 ==> r == parts[0]
    decreases |parts|
  {
    if |parts| == 0 then ""
    else if |parts| == 1 then parts[0]
    else parts[0] + sep + Join(sep, parts[1..])
  }

  /** Every piece between occurrences of `sep`, empty ones included. */
  function SplitAll(s: string, sep: string): (r: seq<string>)
    requires |sep| > 0
    ensures |r| >= 1
    decreases |s|
  {
    var k := IndexOf(s, sep);
    if k == -1 then [s] else [s[..k]] + SplitAll(s[k + |sep|..], sep)
  }

  /** Drops the empty strings at the end of a list, as `String.split` does. */
  function DropTrailingEmpty(parts: seq<string>): (r: seq<string>)
    ensures |r| <= |parts| && r == parts[..|r|]
    ensures |r| > 0 ==> r[|r| - 1] != ""
    ensures forall k :: |r| <= k < |parts| ==> parts[k] == ""
  {
    if |parts| == 0 then []
    else if parts[|parts| - 1] == "" then DropTrailingEmpty(parts[..|parts| - 1])
    else parts
  }

  /**
   * `s.split(sep)` for a separator without regular-expression meaning: the input itself when the
   * separator does not occur, otherwise the pieces between occurrences with trailing empty
   * pieces removed.
   */
  function Split(s: string, sep: string): (r: seq<string>)
    requires |sep| > 0
  {
    if IndexOf(s, sep) == -1 then [s] else DropTrailingEmpty(SplitAll(s, sep))
  }

  /** Joining then splitting pieces that hold no first character of `sep` gives the pieces back. */
  lemma {:induction false} SplitAllJoin(sep: string, parts: seq<string>)
    requires |sep| > 0 && |parts| > 0
    requires forall i :: 0 <= i < |parts| ==> sep[0] !in parts[i]
    ensures SplitAll(Join(sep, parts), sep) == parts
    decreases |parts|
  {
    var s := Join(sep, parts);
    if |parts| == 1 {
      NoOccurrence(parts[0], sep);
    } else {
      var rest := Join(sep, parts[1..]);
      assert s == parts[0] + sep + rest;
      FirstOccurrenceAfter(parts[0], sep, rest);
      assert s[|parts[0]| + |sep|..] == rest;
      assert s[..|parts[0]|] == parts[0];
      SplitAllJoin(sep, parts[1..]);
    }
  }

  /** A string lacking the separator's first character holds no occurrence of it. */
  lemma NoOccurrence(p: string, sep: string)
    requires |sep| > 0 && sep[0] !in p
    ensures IndexOf(p, sep) == -1
  {
    forall k | 0 <= k < |p|
      ensures !OccursAt(p, sep, k)
    {
      assert p[k] != sep[0];
    }
  }

  /** In `p + sep + rest` the first occurrence of `sep` is the one right after `p`. */
  lemma FirstOccurrenceAfter(p: string, sep: string, rest: string)
    requires |sep| > 0 && sep[0] !in p
    ensures IndexOf(p + sep + rest, sep) == |p|
  {
    var s := p + sep + rest;
    assert OccursAt(s, sep, |p|) by {
      assert s[|p|..|p| + |sep|] == sep;
    }
    forall k | 0 <= k < |p|
      ensures !OccursAt(s, sep, k)
    {
      assert s[k] == p[k];
    }
  }

  /**
   * The round trip the program relies on when it stores lists as text: `split` undoes `join`
   * when no piece holds the separator's first character and the last piece is not empty.
   */
  lemma SplitJoin(sep: string, parts: seq<string>)
    requires |sep| > 0 && |parts| > 0
    requires forall i :: 0 <= i < |parts| ==> sep[0] !in parts[i]
    requires |parts| > 1 ==> parts[|parts| - 1] != ""
    ensures Split(Join(sep, parts), sep) == parts
  {
    SplitAllJoin(sep, parts);
    if |parts| == 1 {
      NoOccurrence(parts[0], sep);
    } else {
      FirstOccurrenceAfter(parts[0], sep, Join(sep, parts[1..]));
    }
  }

  /**
   * `a.compareTo(b)`: the difference of the first differing characters, or of the lengths when one
   * string is a prefix of the other.
   */
  function CompareTo(a: string, b: string): (r: int)
    ensures r == 0 <==> a == b
    decreases |a|
  {
    if |a| == 0 || |b| == 0 then |a| - |b|
    else if a[0] != b[0] then a[0] as int - b[0] as int
    else CompareTo(a[1..], b[1..])
  }

  /** `compareTo` is antisymmetric: swapping the arguments negates the result. */
  lemma {:induction false} CompareToAntisymmetric(a: string, b: string)
    ensures CompareTo(a, b) == -CompareTo(b, a)
    decreases |a|
  {
    if |a| > 0 && |b| > 0 && a[0] == b[0] {
      CompareToAntisymmetric(a[1..], b[1..]);
    }
  }

  /** `compareTo` orders strings transitively. */
  lemma {:induction false} CompareToTransitive(a: string, b: string, c: string)
    requires CompareTo(a, b) <= 0 && CompareTo(b, c) <= 0
    ensures CompareTo(a, c) <= 0
    decreases |a|
  {
    if |a| > 0 && |b| > 0 && |c| > 0 && a[0] == b[0] && b[0] == c[0] {
      CompareToTransitive(a[1..], b[1..], c[1..]);
    }
  }
}

=== FILE: tablerow.dfy ===
/**
 * The texts of one table row (`TableThread.Ps4PkgToTableItemText`): what the table shows for a
 * loaded package in each column, derived from its header, `param.sfo` values, changelog, file
 * location and the release tags in effect.
 */
module TableRow {
  import opened Wrappers
  import opened JavaInt
  import opened Strings
  import opened Decimal
  import opened Hex
  import opened Pkg
  import opened PkgQuery
  import opened Columns
  import opened ReleaseTags
  import CustomActions

  /** What a column shows when the package does not provide the value. */
  const DATA_MISSING: string := "[N/A]"

  /** The check mark of the backport column. */
  const CHECK_MARK: string := "✓"

  /** A `param.sfo` value, or the missing-data marker where the lookup answers null. */
  function OrMissing(value: Option<string>): (r: string)
    ensures value.Some? ==> r == value.value
    ensures value.None? ==> r == DATA_MISSING
  {
    match value
    case Some(v) => v
    case None => DATA_MISSING
  }

  /** The region named by the first character of a content id. */
  function RegionName(c: char): (r: string)
    ensures r == "Unknown" <==> c != 'E' && c != 'H' && c != 'I' && c != 'J' && c != 'U'
  {
    match c
    case 'E' => "Europe"
    case 'H' => "Asia"
    case 'I' => "World"
    case 'J' => "Japan"
    case 'U' => "USA"
    case _ => "Unknown"
  }

  /** The region column; `charAt(0)` of an empty content id throws. */
  function Region(contentId: string): (r: Result<string, LoadError>)
    ensures r.Failure? <==> |contentId| == 0
    ensures r.Success? ==> r.value == RegionName(contentId[0])
  {
    if |contentId| == 0 then Failure(OutOfBounds) else Success(RegionName(contentId[0]))
  }

  /**
   * The version column: the changelog version, else `APP_VER`, else `VERSION`; one leading zero
   * is dropped from a found version longer than one character.
   */
  function VersionText(changelogVersion: Option<string>, appVer: Option<string>, version: Option<string>)
    : (r: string)
    ensures changelogVersion.None? && appVer.None? && version.None? ==> r == DATA_MISSING
  {
    var found := if changelogVersion.Some? then changelogVersion
                 else if appVer.Some? then appVer
                 else version;
    match found
    case None => DATA_MISSING
    case Some(v) => if |v| > 1 && v[0] == '0' then v[1..] else v
  }

  /** The shown version is the found one, or the found one without its single leading zero. */
  lemma VersionTextDropsOneZero(changelogVersion: Option<string>, appVer: Option<string>, version: Option<string>)
    requires changelogVersion.Some? || appVer.Some? || version.Some?
    ensures var v := if changelogVersion.Some? then changelogVersion.value
                     else if appVer.Some? then appVer.value
                     else version.value;
            var r := VersionText(changelogVersion, appVer, version);
            (r == v && (|v| <= 1 || v[0] != '0')) || (|v| > 1 && "0" + r == v)
  {}

  /** The type column, from the `CATEGORY` value. */
  function TypeText(category: Option<string>): (r: string)
    ensures category.None? <==> r == DATA_MISSING
    ensures r == "App" <==> category.Some? && StartsWith(category.value, "gd")
    ensures r == "Patch" <==>
      category.Some? && !StartsWith(category.value, "gd") && StartsWith(category.value, "gp")
    ensures r == "DLC" <==> category == Some("ac")
    ensures r == "Other" <==>
      category.Some? && !StartsWith(category.value, "gd") && !StartsWith(category.value, "gp")
      && category.value != "ac"
  {
    match category
    case None => DATA_MISSING
    case Some(c) =>
      assert c == "ac" ==> c[..2] == "ac";
      if StartsWith(c, "gd") then "App"
      else if StartsWith(c, "gp") then "Patch"
      else if c == "ac" then "DLC"
      else "Other"
  }

  /**
   * The type column classifies CATEGORY as the selection check of custom actions does, except
   * that only the exact value "ac" is shown as DLC, while every "ac…" value counts as one.
   */
  lemma TypeTextAgreesWithKind(category: Option<string>)
    ensures TypeText(category) == "App" <==> CustomActions.KindOf(category) == CustomActions.App
    ensures TypeText(category) == "Patch" <==> CustomActions.KindOf(category) == CustomActions.Patch
    ensures TypeText(category) == "DLC" ==> CustomActions.KindOf(category) == CustomActions.Dlc
    ensures CustomActions.KindOf(category) == CustomActions.Dlc && TypeText(category) != "DLC"
      ==> TypeText(category) == "Other"
    ensures CustomActions.KindOf(category) == CustomActions.OtherFile
      ==> TypeText(category) == "Other" || TypeText(category) == DATA_MISSING
  {
    if category == Some("ac") {
      assert StartsWith("ac", "ac");
    }
  }

  /** The text in `PUBTOOLINFO` that precedes the SDK version. */
  const SDK_MARKER: string := "sdk_ver="

  /**
   * The SDK column: after the first `sdk_ver=`, digits 1-2 (without a leading zero) and digits
   * 3-4, joined by a dot; "?" without `PUBTOOLINFO`, without the marker, or when fewer than four
   * characters follow it (the caught StringIndexOutOfBoundsException).
   */
  function SdkText(pubToolInfo: Option<string>): (r: string)
    ensures pubToolInfo.None? ==> r == "?"
    ensures pubToolInfo.Some? && !Contains(pubToolInfo.value, SDK_MARKER) ==> r == "?"
    ensures pubToolInfo.Some? && Contains(pubToolInfo.value, SDK_MARKER) ==>
      var p := pubToolInfo.value;
      var k := IndexOf(p, SDK_MARKER) + |SDK_MARKER|;
      && (r == "?" <==> |p| < k + 4)
      && (r != "?" ==>
            && |r| >= 4 && r[|r| - 3] == '.' && r[|r| - 2..] == p[k + 2..k + 4]
            && (if p[k] == '0' then "0" + r[..|r| - 3] else r[..|r| - 3]) == p[k..k + 2])
  {
    match pubToolInfo
    case None => "?"
    case Some(p) =>
      var index := IndexOf(p, SDK_MARKER);
      if index == -1 then "?"
      else
        var k := index + |SDK_MARKER|;
        if k + 4 > |p| then "?"
        else
          var major := if p[k] == '0' then p[k + 1..k + 2] else p[k..k + 2];
          major + "." + p[k + 2..k + 4]
  }

  /**
   * With the first marker right after `prefix`, the SDK column is read from the four characters
   * after the marker.
   */
  lemma SdkTextOfDigits(prefix: string, digits: string, rest: string)
    requires IndexOf(prefix + SDK_MARKER + digits + rest, SDK_MARKER) == |prefix|
    requires |digits| == 4
    ensures SdkText(Some(prefix + SDK_MARKER + digits + rest))
      == (if digits[0] == '0' then digits[1..2] else digits[..2]) + "." + digits[2..4]
  {
    var p := prefix + SDK_MARKER + digits + rest;
    var k := |prefix| + |SDK_MARKER|;
    assert p[k..k + 4] == digits;
    assert p[k] == digits[0];
    assert p[k + 1..k + 2] == digits[1..2];
    assert p[k..k + 2] == digits[..2];
    assert p[k + 2..k + 4] == digits[2..4];
  }

  /**
   * No marker starts inside `prefix`, whatever text follows it: every 's' of `prefix` is
   * followed, still inside it, by a character other than 'd'.
   */
  predicate NoMarkerStart(prefix: string) {
    forall k :: 0 <= k < |prefix| && prefix[k] == 's' ==> k + 1 < |prefix| && prefix[k + 1] != 'd'
  }

  lemma NoMarkerStartFree(a: string)
    requires 's' !in a
    ensures NoMarkerStart(a)
  {}

  /** An 's' followed by text that does not start with 'd' starts no marker. */
  lemma NoMarkerStartS(a: string)
    requires NoMarkerStart(a) && |a| > 0 && a[0] != 'd'
    ensures NoMarkerStart("s" + a)
  {
    var b := "s" + a;
    forall k | 0 <= k < |b| && b[k] == 's'
      ensures k + 1 < |b| && b[k + 1] != 'd'
    {
      if k > 0 {
        assert b[k] == a[k - 1];
        assert k < |a| && b[k + 1] == a[k];
      }
    }
  }

  lemma NoMarkerStartConcat(a: string, b: string)
    requires NoMarkerStart(a) && NoMarkerStart(b)
    ensures NoMarkerStart(a + b)
  {
    var c := a + b;
    forall k | 0 <= k < |c| && c[k] == 's'
      ensures k + 1 < |c| && c[k + 1] != 'd'
    {
      if k < |a| {
        assert c[k] == a[k] && c[k + 1] == a[k + 1];
      } else {
        assert c[k] == b[k - |a|];
        assert c[k + 1] == b[k + 1 - |a|];
      }
    }
  }

  /** The first marker is the one right after a prefix in which no marker starts. */
  lemma MarkerAfterPrefix(prefix: string, tail: string)
    requires NoMarkerStart(prefix)
    ensures IndexOf(prefix + SDK_MARKER + tail, SDK_MARKER) == |prefix|
  {
    var s := prefix + SDK_MARKER + tail;
    assert OccursAt(s, SDK_MARKER, |prefix|) by {
      assert s[|prefix|..|prefix| + |SDK_MARKER|] == SDK_MARKER;
    }
    forall k | 0 <= k < |prefix|
      ensures !OccursAt(s, SDK_MARKER, k)
    {
      assert s[k] == prefix[k];
      if prefix[k] == 's' {
        assert s[k + 1] == prefix[k + 1];
      }
    }
  }

  /** A marker followed by fewer than four characters gives "?". */
  lemma SdkTextTruncated(prefix: string, tail: string)
    requires IndexOf(prefix + SDK_MARKER + tail, SDK_MARKER) == |prefix|
    requires |tail| < 4
    ensures SdkText(Some(prefix + SDK_MARKER + tail)) == "?"
  {}

  /**
   * A `PUBTOOLINFO` laid out as packages carry it, with the creation date and an image size
   * before `sdk_ver=05050001`, shows SDK 5.05 whatever the date, the size and the keys after it.
   */
  lemma SdkTextOfPubToolInfo(date: string, size: string, rest: string)
    requires 's' !in date && 's' !in size
    ensures SdkText(Some("c_date=" + date + ",img0_l0_size=" + size + ",sdk_ver=05050001" + rest)) == "5.05"
  {
    SizeKeysStartNoMarker(date, size);
    SdkTextAfterKeys("c_date=" + date + ",img0_l0_size=" + size + ",", "0505", "0001" + rest);
    PubToolInfoParts(date, size, rest);
    SdkDigits505();
  }

  lemma PubToolInfoParts(date: string, size: string, rest: string)
    ensures "c_date=" + date + ",img0_l0_size=" + size + "," + SDK_MARKER + "0505" + ("0001" + rest)
      == "c_date=" + date + ",img0_l0_size=" + size + ",sdk_ver=05050001" + rest
  {
    assert SDK_MARKER + "0505" + "0001" == "sdk_ver=05050001";
  }

  lemma SdkDigits505()
    ensures (if "0505"[0] == '0' then "0505"[1..2] else "0505"[..2]) + "." + "0505"[2..4] == "5.05"
  {}

  /** Keys holding an 's' only in "size" start no marker. */
  lemma SizeKeysStartNoMarker(date: string, size: string)
    requires 's' !in date && 's' !in size
    ensures NoMarkerStart("c_date=" + date + ",img0_l0_size=" + size + ",")
  {
    var head, tail := "c_date=" + date + ",img0_l0_", "ize=" + size + ",";
    NoMarkerStartFree(head);
    NoMarkerStartFree(tail);
    NoMarkerStartS(tail);
    NoMarkerStartConcat(head, "s" + tail);
    assert "c_date=" + date + ",img0_l0_size=" + size + "," == head + ("s" + tail);
  }

  /** After keys in which no marker starts, the SDK column is read from the digits after `sdk_ver=`. */
  lemma SdkTextAfterKeys(keys: string, digits: string, rest: string)
    requires NoMarkerStart(keys) && |digits| == 4
    ensures SdkText(Some(keys + SDK_MARKER + digits + rest))
      == (if digits[0] == '0' then digits[1..2] else digits[..2]) + "." + digits[2..4]
  {
    MarkerAfterPrefix(keys, digits + rest);
    assert keys + SDK_MARKER + (digits + rest) == keys + SDK_MARKER + digits + rest;
    SdkTextOfDigits(keys, digits, rest);
  }

  /**
   * The firmware column from `SYSTEM_VER` ("0xMMmm...."): the major digits without a leading
   * zero, a dot and the minor digits; "?" without the value. A value shorter than six characters
   * makes `charAt`/`substring` throw, and the exception is not caught.
   */
  function FirmwareText(systemVer: Option<string>): (r: Result<string, LoadError>)
    ensures systemVer.None? ==> r == Success("?")
    ensures systemVer.Some? ==> (r.Failure? <==> |systemVer.value| < 6)
  {
    match systemVer
    case None => Success("?")
    case Some(v) =>
      if |v| < 6 then Failure(OutOfBounds)
      else
        var major := if v[2] == '0' then v[3..4] else v[2..4];
        Success(major + "." + v[4..6])
  }

  /**
   * `SYSTEM_VER` is an integer parameter, rendered as "0x" and eight hexadecimal digits. The
   * firmware column therefore shows the value's top byte in hexadecimal without a leading zero,
   * a dot and its second byte as two hexadecimal digits; the major part reads back as the top byte.
   */
  lemma FirmwareOfSfoInteger(bits: nat)
    requires bits < 0x1_0000_0000
    ensures var major := bits / 0x100_0000;
            var minor := (bits / 0x1_0000) % 0x100;
            var shown := if major < 0x10 then [HexDigit(major)] else FixedHex(major, 2);
            && FirmwareText(Some("0x" + FormatHex(bits, 8))) == Success(shown + "." + FixedHex(minor, 2))
            && HexValue(shown) == Some(major)
            && (major == 0 || shown[0] != '0')
  {
    var major := bits / 0x100_0000;
    var minor := (bits / 0x1_0000) % 0x100;
    assert Pow16(8) == 0x1_0000_0000;
    var v := FixedHex(bits, 8);
    assert FormatHex(bits, 8) == v;
    FixedHexTopBytes(bits);
    TwoDigits(major);
    var w := "0x" + v;
    assert w[2..4] == v[..4][..2] == FixedHex(major, 2);
    assert w[3..4] == [HexDigit(major % 16)];
    assert w[4..6] == v[..4][2..] == FixedHex(minor, 2);
    HexDigitValueOfDigit(major % 16);
    assert HexValue([HexDigit(major % 16)]) == Some(major % 16);
    HexValueFixedHex(major, 2);
  }

  /** The first four of eight digits are those of the top byte and of the second byte. */
  lemma FixedHexTopBytes(bits: nat)
    requires bits < Pow16(8)
    ensures FixedHex(bits, 8)[..4]
      == FixedHex(bits / 0x100_0000, 2) + FixedHex((bits / 0x1_0000) % 0x100, 2)
  {
    FixedHexLowByte(bits, 8);
    FixedHexLowByte(bits / 0x100, 6);
    assert bits / 0x100 / 0x100 == bits / 0x1_0000;
    FixedHexLowByte(bits / 0x1_0000, 4);
    assert bits / 0x1_0000 / 0x100 == bits / 0x100_0000;
    TwoDigits((bits / 0x1_0000) % 0x100);
  }

  /** Two digits of a byte: the high nibble, then the low one; the first is '0' only below 16. */
  lemma TwoDigits(b: nat)
    requires b < 0x100
    ensures FixedHex(b, 2) == [HexDigit(b / 16), HexDigit(b % 16)]
    ensures b < 16 ==> HexDigit(b) == HexDigit(b % 16)
    ensures HexDigit(b / 16) == '0' <==> b < 16
  {
    assert FixedHex(b, 2) == FixedHex(b / 16, 1) + [HexDigit(b % 16)];
    assert FixedHex(b / 16, 1) == FixedHex(b / 16 / 16, 0) + [HexDigit(b / 16 % 16)];
  }

  /** The SYSTEM_VER value of firmware 5.05. */
  const SYSTEM_VER_505: nat := 0x0505_0000

  /** SYSTEM_VER 0x05050000 is firmware 5.05. */
  lemma FirmwareOf505()
    ensures FirmwareText(Some("0x" + FormatHex(SYSTEM_VER_505, 8))) == Success("5.05")
  {
    FirmwareOfSfoInteger(SYSTEM_VER_505);
    Firmware505Parts();
  }

  lemma Firmware505Parts()
    ensures SYSTEM_VER_505 / 0x100_0000 == 5 && (SYSTEM_VER_505 / 0x1_0000) % 0x100 == 5
    ensures [HexDigit(5)] + "." + FixedHex(5, 2) == "5.05"
  {
    TwoDigits(5);
    assert HexDigit(5) == '5' && HexDigit(0) == '0';
  }

  /** A package without `param.sfo` answers "ERROR" for `SYSTEM_VER`, which is too short to read. */
  lemma FirmwareWithoutParamSfo()
    ensures FirmwareText(SfoValue(None, "SYSTEM_VER")).Failure?
  {}

  /** The backport column: a check mark for SDK 5.05 or a "bp"/"backport" hint, otherwise empty. */
  function BackportText(sdk: string, filename: string, changelog: Option<string>): (r: string)
    ensures r == CHECK_MARK || r == ""
    ensures r == CHECK_MARK <==>
      sdk == "5.05" || Contains(Lower(filename), "bp") || Contains(Lower(filename), "backport")
      || (changelog.Some? && Contains(Lower(changelog.value), "backport"))
  {
    if sdk == "5.05" || Contains(Lower(filename), "bp") || Contains(Lower(filename), "backport")
       || (changelog.Some? && Contains(Lower(changelog.value), "backport"))
    then CHECK_MARK
    else ""
  }

  /** Marked rows sort before unmarked ones under the check-mark comparator. */
  lemma BackportSortsFirst()
    ensures BoolCompare(CHECK_MARK, "") == -1 && BoolCompare("", CHECK_MARK) == 1
  {}

  /** `releaseTags += ", "` unless it is still empty, then `releaseTags += tag`. */
  function AppendTag(text: string, tag: string): string {
    if text == "" then tag else text + ", " + tag
  }

  /** A release group is found when its lower-cased text occurs in the lower-cased file name. */
  predicate GroupFound(filename: string, group: string) {
    Contains(Lower(filename), Lower(group))
  }

  /** A release is found when its lower-cased text occurs in the lower-cased file name or changelog. */
  predicate ReleaseFound(filename: string, changelog: Option<string>, tag: string) {
    Contains(Lower(filename), Lower(tag)) || (changelog.Some? && Contains(Lower(changelog.value), Lower(tag)))
  }

  /** The release groups, in list order, that are found in the file name. */
  function GroupsIn(groups: seq<string>, filename: string): (r: seq<string>)
    ensures |r| <= |groups|
    ensures forall g :: g in r <==> g in groups && GroupFound(filename, g)
  {
    if |groups| == 0 then []
    else
      var last := groups[|groups| - 1];
      var rest := GroupsIn(groups[..|groups| - 1], filename);
      assert forall g :: g in groups <==> g in groups[..|groups| - 1] || g == last;
      rest + (if GroupFound(filename, last) then [last] else [])
  }

  /** The groups are looked at one by one, so the found ones keep their list order. */
  lemma {:induction false} GroupsInAppend(a: seq<string>, b: seq<string>, filename: string)
    ensures GroupsIn(a + b, filename) == GroupsIn(a, filename) + GroupsIn(b, filename)
    decreases |b|
  {
    if |b| == 0 {
      assert a + b == a;
    } else {
      var b' := b[..|b| - 1];
      assert (a + b)[..|a + b| - 1] == a + b';
      GroupsInAppend(a, b', filename);
    }
  }

  /** The releases, in list order, that are found in the file name or the changelog. */
  function ReleasesIn(releases: seq<string>, filename: string, changelog: Option<string>): (r: seq<string>)
    ensures |r| <= |releases|
    ensures forall t :: t in r <==> t in releases && ReleaseFound(filename, changelog, t)
  {
    if |releases| == 0 then []
    else
      var last := releases[|releases| - 1];
      var rest := ReleasesIn(releases[..|releases| - 1], filename, changelog);
      assert forall t :: t in releases <==> t in releases[..|releases| - 1] || t == last;
      rest + (if ReleaseFound(filename, changelog, last) then [last] else [])
  }

  /** The releases are looked at one by one, so the found ones keep their list order. */
  lemma {:induction false} ReleasesInAppend(a: seq<string>, b: seq<string>, filename: string, changelog: Option<string>)
    ensures ReleasesIn(a + b, filename, changelog) == ReleasesIn(a, filename, changelog) + ReleasesIn(b, filename, changelog)
    decreases |b|
  {
    if |b| == 0 {
      assert a + b == a;
    } else {
      var b', last := b[..|b| - 1], b[|b| - 1];
      var found := if ReleaseFound(filename, changelog, last) then [last] else [];
      assert (a + b)[..|a + b| - 1] == a + b' && (a + b)[|a + b| - 1] == last;
      assert ReleasesIn(a + b, filename, changelog) == ReleasesIn(a + b', filename, changelog) + found;
      assert ReleasesIn(b, filename, changelog) == ReleasesIn(b', filename, changelog) + found;
      ReleasesInAppend(a, b', filename, changelog);
    }
  }

  /** The two loops that build the release-tag text: each found tag appended in turn. */
  function TagsText(text: string, found: seq<string>): string
    decreases |found|
  {
    if |found| == 0 then text else TagsText(AppendTag(text, found[0]), found[1..])
  }

  /** The release column: the found groups, then the found releases. */
  function ReleaseTagsText(tags: TagLists, filename: string, changelog: Option<string>): string {
    TagsText("", GroupsIn(tags.releaseGroups, filename) + ReleasesIn(tags.releases, filename, changelog))
  }

  /** Appending non-empty tags one by one is joining them with ", ". */
  lemma {:induction false} TagsTextJoins(text: string, found: seq<string>)
    requires forall k :: 0 <= k < |found| ==> found[k] != ""
    ensures text == "" ==> TagsText(text, found) == Join(", ", found)
    ensures text != "" && |found| > 0 ==> TagsText(text, found) == text + ", " + Join(", ", found)
    decreases |found|
  {
    if |found| > 0 {
      TagsTextJoins(AppendTag(text, found[0]), found[1..]);
      if |found| > 1 {
        assert Join(", ", found) == found[0] + ", " + Join(", ", found[1..]);
      }
    }
  }

  /** With the tags in effect (none empty), the release column is the found tags joined by ", ". */
  lemma ReleaseTagsTextIsJoin(tags: TagLists, filename: string, changelog: Option<string>)
    requires NoEmptyTags(tags)
    ensures ReleaseTagsText(tags, filename, changelog)
      == Join(", ", GroupsIn(tags.releaseGroups, filename) + ReleasesIn(tags.releases, filename, changelog))
  {
    var found := GroupsIn(tags.releaseGroups, filename) + ReleasesIn(tags.releases, filename, changelog);
    forall k | 0 <= k < |found|
      ensures found[k] != ""
    {
      assert found[k] in found;
    }
    TagsTextJoins("", found);
  }

  /** Sizes at most this large are written in kilobytes, larger ones in megabytes. */
  const ONE_MB: int := 1_000_000
  /** Sizes above this are written in gigabytes with two decimals. */
  const ONE_GB: int := 1_000_000_000

  /**
   * The size column: whole megabytes above 1 000 000 bytes, whole kilobytes otherwise, each by
   * Java's integer division of the `long` size. The quotient goes through `Math.round`, which
   * takes a `float` here: it is rounded to the nearest `float` and saturated to the `int` range,
   * which only matters for negative sizes. The gigabyte text is formatted from a `double` and is
   * passed in as `gigabytes`.
   */
  function SizeText(pkgSize: int64, gigabytes: string): (r: string)
    ensures pkgSize > ONE_GB ==> r == gigabytes
    ensures ONE_MB < pkgSize <= ONE_GB ==> r == NatString(pkgSize / ONE_MB) + " MB"
    ensures 0 <= pkgSize <= ONE_MB ==> r == NatString(pkgSize / 1000) + " KB"
    ensures -1000 < pkgSize < 0 ==> r == "0 KB"
    ensures -(TWO_24 * 1000 + 999) <= pkgSize <= -1000 ==> r == "-" + NatString(-pkgSize / 1000) + " KB"
    ensures pkgSize <= -(TWO_31 + 256) * 1000 ==> r == DecimalString(-TWO_31) + " KB"
  {
    if pkgSize > ONE_GB then gigabytes
    else if pkgSize > ONE_MB then DecimalString(RoundFloat(FloatOfInt(JavaDiv(pkgSize, ONE_MB))) as int) + " MB"
    else DecimalString(RoundFloat(FloatOfInt(JavaDiv(pkgSize, 1000))) as int) + " KB"
  }

  /**
   * A size of -16 777 217 000 bytes is -16 777 217 kilobytes, which has no `float`: the column
   * shows the nearest one, -16 777 216.
   */
  lemma SizeTextRoundsThroughFloat(gigabytes: string)
    ensures SizeText(-16_777_217_000, gigabytes) == "-" + NatString(16_777_216) + " KB"
  {
    assert FloatSpacing(16_777_217, 1) == 2 by {
      assert FloatSpacing(16_777_217, 1) == FloatSpacing(16_777_217, 2);
    }
    assert NearestMultiple(16_777_217, 2) == 16_777_216;
    assert FloatOfInt(-16_777_217) == -16_777_216;
  }

  /** A size in kilobytes, as the table writes it, reads back as the number of kilobytes. */
  lemma KilobytesInKB(q: nat, sep: char)
    requires !IsDigit(sep)
    ensures ToKB(NatString(q) + " KB", sep) == Some(NatString(q))
  {
    var digits := NatString(q);
    NotADigit(digits, ' ');
    NotADigit(digits, sep);
    assert ' ' !in "KB";
    assert digits + " KB" == digits + " " + "KB";
    ToKBUnits(digits, "KB", sep);
    ReplaceAbsent(digits, [sep], "");
  }

  /** Two kilobyte sizes compare by their numbers of kilobytes. */
  lemma SizeTextOrderedKB(a: int64, b: int64, gigabytes: string, sep: char)
    requires 0 <= a <= b <= ONE_MB && !IsDigit(sep)
    ensures SizeCompare(SizeText(a, gigabytes), SizeText(b, gigabytes), sep) == Some(Sign(a / 1000 - b / 1000))
  {
    var qa: nat, qb: nat := a / 1000, b / 1000;
    assert SizeText(a, gigabytes) == NatString(qa) + " KB";
    assert SizeText(b, gigabytes) == NatString(qb) + " KB";
    KilobytesInKB(qa, sep);
    KilobytesInKB(qb, sep);
    LongCompareNatStrings(qa, qb);
  }

  /** Two decimal numbers within `long` range compare by value. */
  lemma LongCompareNatStrings(x: nat, y: nat)
    requires x <= ONE_MB && y <= ONE_MB
    ensures LongCompare(NatString(x), NatString(y)) == Some(Sign(x - y))
  {
    ParseLongDigits(NatString(x));
    ParseLongDigits(NatString(y));
  }

  /** A kilobyte size never sorts after a megabyte size. */
  lemma SizeTextOrderedMixed(a: int64, b: int64, gigabytes: string, sep: char)
    requires 0 <= a <= ONE_MB < b <= ONE_GB && !IsDigit(sep)
    ensures SizeCompare(SizeText(a, gigabytes), SizeText(b, gigabytes), sep).Some?
    ensures SizeCompare(SizeText(a, gigabytes), SizeText(b, gigabytes), sep).value <= 0
  {
    KilobytesInKB(a / 1000, sep);
    MegabytesInKB(b / ONE_MB, sep);
    ParseLongDigits(NatString(a / 1000));
    ThousandsText(b / ONE_MB);
    var qa, m := a / 1000, b / ONE_MB;
    assert qa <= 1000;
    assert m >= 1;
    assert LongCompare(NatString(qa), NatString(m) + "000") == Some(Sign(qa - m * 1000));
  }

  /** Sorting by the size column never puts a smaller package after a larger one (up to 1 GB). */
  lemma SizeTextOrdered(a: int64, b: int64, gigabytes: string, sep: char)
    requires 0 <= a <= b <= ONE_GB && !IsDigit(sep)
    ensures SizeCompare(SizeText(a, gigabytes), SizeText(b, gigabytes), sep).Some?
    ensures SizeCompare(SizeText(a, gigabytes), SizeText(b, gigabytes), sep).value <= 0
  {
    if b <= ONE_MB {
      SizeTextOrderedKB(a, b, gigabytes, sep);
      assert a / 1000 <= b / 1000;
    } else if a > ONE_MB {
      SizeCompareMegabytes(a / ONE_MB, b / ONE_MB, sep);
      assert a / ONE_MB <= b / ONE_MB;
    } else {
      SizeTextOrderedMixed(a, b, gigabytes, sep);
    }
  }

  /** The text of each column of one row. */
  datatype Cells = Cells(
    index: string, path: string, directory: string, filename: string, title: string,
    titleId: string, region: string, typeText: string, version: string, backport: string,
    sdk: string, firmware: string, size: string, releaseTags: string, checksum: string)

  /** The switch over the columns: which cell a column shows. */
  function Cell(cells: Cells, column: Column): string {
    match column
    case Index => cells.index
    case Path => cells.path
    case Directory => cells.directory
    case FileName => cells.filename
    case Title => cells.title
    case TitleId => cells.titleId
    case Region => cells.region
    case Type => cells.typeText
    case Version => cells.version
    case Backport => cells.backport
    case Sdk => cells.sdk
    case Firmware => cells.firmware
    case Size => cells.size
    case ReleaseTags => cells.releaseTags
    case CompatibilityChecksum => cells.checksum
  }

  /** The texts array: position `i` holds the cell of the column with ordinal `i`. */
  function Texts(cells: Cells): (r: seq<string>)
    ensures |r| == LENGTH
    ensures forall c: Column :: r[Ordinal(c)] == Cell(cells, c)
  {
    seq(LENGTH, i requires 0 <= i < LENGTH => Cell(cells, VALUES[i]))
  }

  /** The row cells and the stamp the next row gets. */
  datatype Built = Built(cells: Cells, nextStamp: int64)

  /**
   * `Ps4PkgToTableItemText` for a package loaded from `location`. The index column shows
   * `stamp`, which then advances by one (`stamp++` on a `long`). `gigabytes` is the
   * floating-point size text for packages above 1 GB. An exception (Failure) leaves the stamp
   * as it was.
   */
  function RowTexts(location: Location, c: Contents, tags: TagLists, stamp: int64, gigabytes: string)
    : (r: Result<Built, LoadError>)
    requires WellFormed(c)
    ensures r.Success? <==>
      |c.header.contentId| > 0 && ChangelogVersion(c.changelog).Success?
      && (TypeText(SfoValue(c.params, "CATEGORY")) == "DLC"
          || FirmwareText(SfoValue(c.params, "SYSTEM_VER")).Success?)
    ensures r.Success? ==> r.value.cells.index == DecimalString(stamp)
                           && r.value.nextStamp == Wrap64(stamp + 1)
    ensures r.Success? ==> r.value.cells.path == location.path
                           && r.value.cells.directory == location.directory
                           && r.value.cells.filename == location.filename
    ensures r.Success? ==> r.value.cells.title == OrMissing(SfoValue(c.params, "TITLE"))
                           && r.value.cells.titleId == OrMissing(SfoValue(c.params, "TITLE_ID"))
    ensures r.Success? ==> r.value.cells.region == RegionName(c.header.contentId[0])
    ensures r.Success? ==> (r.value.cells.typeText == "DLC" <==> SfoValue(c.params, "CATEGORY") == Some("ac"))
    ensures r.Success? ==> r.value.cells.typeText == TypeText(SfoValue(c.params, "CATEGORY"))
    ensures r.Success? && r.value.cells.typeText == "DLC" ==> r.value.cells.sdk == "" && r.value.cells.firmware == ""
    ensures r.Success? && r.value.cells.typeText != "DLC" ==>
              r.value.cells.sdk == SdkText(SfoValue(c.params, "PUBTOOLINFO"))
              && Success(r.value.cells.firmware) == FirmwareText(SfoValue(c.params, "SYSTEM_VER"))
    ensures r.Success? ==> r.value.cells.version == VersionText(ChangelogVersion(c.changelog).value,
                                                                SfoValue(c.params, "APP_VER"), SfoValue(c.params, "VERSION"))
    ensures r.Success? ==> r.value.cells.backport == BackportText(r.value.cells.sdk, location.filename, c.changelog)
    ensures r.Success? ==> r.value.cells.size == SizeText(c.header.pkgSize, gigabytes)
    ensures r.Success? ==> r.value.cells.releaseTags == ReleaseTagsText(tags, location.filename, c.changelog)
    ensures r.Success? ==> r.value.cells.checksum == PkgQuery.CompatibilityChecksum(c).GetOr("")
  {
    var region :- Region(c.header.contentId);
    var changelogVersion :- ChangelogVersion(c.changelog);
    var typeText := TypeText(SfoValue(c.params, "CATEGORY"));
    var sdk := if typeText == "DLC" then "" else SdkText(SfoValue(c.params, "PUBTOOLINFO"));
    var firmware :- if typeText == "DLC" then Success("")
                    else FirmwareText(SfoValue(c.params, "SYSTEM_VER"));
    var version := VersionText(changelogVersion, SfoValue(c.params, "APP_VER"), SfoValue(c.params, "VERSION"));
    var cells := Cells(
      DecimalString(stamp), location.path, location.directory, location.filename,
      OrMissing(SfoValue(c.params, "TITLE")), OrMissing(SfoValue(c.params, "TITLE_ID")), region,
      typeText, version, BackportText(sdk, location.filename, c.changelog), sdk, firmware,
      SizeText(c.header.pkgSize, gigabytes), ReleaseTagsText(tags, location.filename, c.changelog),
      PkgQuery.CompatibilityChecksum(c).GetOr(""));
    Success(Built(cells, Wrap64(stamp + 1)))
  }

  /** Rows built one after another get index texts that sort in the order they were built. */
  lemma StampsSortInBuildOrder(stamp: int64)
    requires stamp < LONG_MAX
    ensures LongCompare(DecimalString(stamp), DecimalString(Wrap64(stamp + 1))) == Some(-1)
  {
    ParseLongDecimalString(stamp);
    ParseLongDecimalString(Wrap64(stamp + 1));
  }
}

=== FILE: utf8.dfy ===
/**
 * UTF-8 as `new String(bytes, "UTF-8")` reads it: every well-formed sequence becomes its code
 * point, and every maximal ill-formed subpart (a lead byte followed by as many bytes as could
 * still continue it) becomes one U+FFFD. Strings are sequences of code points here.
 */
module Utf8 {
  import opened Bytes

  const REPLACEMENT: char := '\U{FFFD}'

  predicate IsContinuation(b: byte) {
    0x80 <= b <= 0xBF
  }

  /** How many continuation bytes a lead byte announces; 0 for ASCII and for bytes that cannot lead. */
  function Needed(lead: byte): (n: nat)
    ensures n <= 3
  {
    if 0xC2 <= lead <= 0xDF then 1
    else if 0xE0 <= lead <= 0xEF then 2
    else if 0xF0 <= lead <= 0xF4 then 3
    else 0
  }

  /** The range the byte after `lead` must lie in: narrower after E0, ED, F0 and F4. */
  predicate SecondOk(lead: byte, b: byte) {
    if lead == 0xE0 then 0xA0 <= b <= 0xBF
    else if lead == 0xED then 0x80 <= b <= 0x9F
    else if lead == 0xF0 then 0x90 <= b <= 0xBF
    else if lead == 0xF4 then 0x80 <= b <= 0x8F
    else IsContinuation(b)
  }

  /** How many of the bytes after position `i` continue the sequence begun there, at most `Needed`. */
  function Continued(b: seq<byte>, i: nat): (k: nat)
    requires i < |b|
    ensures k <= Needed(b[i]) && i + k < |b|
  {
    var n := Needed(b[i]);
    if n == 0 || i + 1 >= |b| || !SecondOk(b[i], b[i + 1]) then 0
    else if n == 1 || i + 2 >= |b| || !IsContinuation(b[i + 2]) then 1
    else if n == 2 || i + 3 >= |b| || !IsContinuation(b[i + 3]) then 2
    else 3
  }

  /** The code point of a complete sequence of `n + 1` bytes starting at `i`. */
  function CodePoint(b: seq<byte>, i: nat, n: nat): (r: char)
    requires i + n < |b| && n == Needed(b[i]) && Continued(b, i) == n
  {
    var b0: int := b[i];
    if n == 0 then b0 as char
    else
      var b1: int := b[i + 1] - 0x80;
      if n == 1 then ((b0 - 0xC0) * 0x40 + b1) as char
      else
        var b2: int := b[i + 2] - 0x80;
        if n == 2 then
          var v := (b0 - 0xE0) * 0x1000 + b1 * 0x40 + b2;
          assert v < 0xD800 || 0xE000 <= v;
          v as char
        else
          var b3: int := b[i + 3] - 0x80;
          var v := (b0 - 0xF0) * 0x4_0000 + b1 * 0x1000 + b2 * 0x40 + b3;
          assert 0x1_0000 <= v <= 0x10_FFFF;
          v as char
  }

  /** The code point the sequence starting at `i` decodes to: U+FFFD when it is ill-formed. */
  function Head(b: seq<byte>, i: nat): char
    requires i < |b|
  {
    var k := Continued(b, i);
    if b[i] < 0x80 then b[i] as char
    else if k == Needed(b[i]) && k > 0 then CodePoint(b, i, k)
    else REPLACEMENT
  }

  /** The string the bytes from `i` on decode to: one code point per sequence. */
  function DecodeFrom(b: seq<byte>, i: nat): (s: string)
    requires i <= |b|
    ensures |s| <= |b| - i
    decreases |b| - i
  {
    if i == |b| then [] else [Head(b, i)] + DecodeFrom(b, i + 1 + Continued(b, i))
  }

  /** `new String(bytes, "UTF-8")`. */
  function Decode(b: seq<byte>): (s: string)
    ensures |s| <= |b|
  {
    DecodeFrom(b, 0)
  }

  /** The UTF-8 bytes of one code point. */
  function EncodeChar(c: char): (r: seq<byte>)
    ensures 1 <= |r| <= 4
  {
    var v := c as int;
    if v < 0x80 then [v]
    else if v < 0x800 then [0xC0 + v / 0x40, 0x80 + v % 0x40]
    else if v < 0x1_0000 then [0xE0 + v / 0x1000, 0x80 + (v / 0x40) % 0x40, 0x80 + v % 0x40]
    else [0xF0 + v / 0x4_0000, 0x80 + (v / 0x1000) % 0x40, 0x80 + (v / 0x40) % 0x40, 0x80 + v % 0x40]
  }

  /** `s.getBytes("UTF-8")`. */
  function Encode(s: string): (r: seq<byte>)
    ensures |s| <= |r| <= 4 * |s|
  {
    if |s| == 0 then [] else EncodeChar(s[0]) + Encode(s[1..])
  }

  /** Decoding a code point's encoding, followed by anything, yields that code point first. */
  lemma DecodeEncodeChar(c: char, rest: seq<byte>)
    ensures DecodeFrom(EncodeChar(c) + rest, 0) == [c] + DecodeFrom(EncodeChar(c) + rest, |EncodeChar(c)|)
  {
    var v := c as int;
    if v < 0x80 {
      assert (EncodeChar(c) + rest)[0] == v;
    } else if v < 0x800 {
      DecodeTwo(c, rest);
    } else if v < 0x1_0000 {
      DecodeThree(c, rest);
    } else {
      DecodeFour(c, rest);
    }
  }

  lemma DecodeTwo(c: char, rest: seq<byte>)
    requires 0x80 <= c as int < 0x800
    ensures DecodeFrom(EncodeChar(c) + rest, 0) == [c] + DecodeFrom(EncodeChar(c) + rest, 2)
  {
    var v := c as int;
    var b := EncodeChar(c) + rest;
    assert b[0] == 0xC0 + v / 0x40 && b[1] == 0x80 + v % 0x40;
    assert Needed(b[0]) == 1;
    assert Continued(b, 0) == 1;
    assert CodePoint(b, 0, 1) as int == v;
  }

  lemma DecodeThree(c: char, rest: seq<byte>)
    requires 0x800 <= c as int < 0x1_0000
    ensures DecodeFrom(EncodeChar(c) + rest, 0) == [c] + DecodeFrom(EncodeChar(c) + rest, 3)
  {
    var v := c as int;
    var b := EncodeChar(c) + rest;
    assert b[0] == 0xE0 + v / 0x1000 && b[1] == 0x80 + (v / 0x40) % 0x40 && b[2] == 0x80 + v % 0x40;
    assert Needed(b[0]) == 2;
    assert SecondOk(b[0], b[1]);
    assert Continued(b, 0) == 2;
    assert (v / 0x1000) * 0x1000 + ((v / 0x40) % 0x40) * 0x40 + v % 0x40 == v;
    assert CodePoint(b, 0, 2) as int == v;
  }

  lemma DecodeFour(c: char, rest: seq<byte>)
    requires 0x1_0000 <= c as int
    ensures DecodeFrom(EncodeChar(c) + rest, 0) == [c] + DecodeFrom(EncodeChar(c) + rest, 4)
  {
    var v := c as int;
    var b := EncodeChar(c) + rest;
    assert b[0] == 0xF0 + v / 0x4_0000 && b[1] == 0x80 + (v / 0x1000) % 0x40
      && b[2] == 0x80 + (v / 0x40) % 0x40 && b[3] == 0x80 + v % 0x40;
    assert Needed(b[0]) == 3;
    assert SecondOk(b[0], b[1]);
    assert Continued(b, 0) == 3;
    FourDigits(v);
    assert CodePoint(b, 0, 3) as int == v;
  }

  /** A code point is its four base-64 digits, the top one above 6 bits wide. */
  lemma FourDigits(v: int)
    requires 0 <= v
    ensures (v / 0x4_0000) * 0x4_0000 + ((v / 0x1000) % 0x40) * 0x1000 + ((v / 0x40) % 0x40) * 0x40
      + v % 0x40 == v
  {
    assert v == (v / 0x40) * 0x40 + v % 0x40;
    assert v / 0x40 == (v / 0x1000) * 0x40 + (v / 0x40) % 0x40;
    assert v / 0x1000 == (v / 0x4_0000) * 0x40 + (v / 0x1000) % 0x40;
  }

  /** Where a sequence starts, how far it continues and what it decodes to depend only on the bytes from there on. */
  lemma ContinuedShift(p: seq<byte>, q: seq<byte>, i: nat)
    requires i < |q|
    ensures Continued(p + q, |p| + i) == Continued(q, i)
    ensures Head(p + q, |p| + i) == Head(q, i)
  {
    var b := p + q;
    assert forall j :: i <= j < |q| ==> b[|p| + j] == q[j];
  }

  /** Decoding from position `|p|` of `p + q` is decoding `q`. */
  lemma {:induction false} DecodeFromSuffix(p: seq<byte>, q: seq<byte>, i: nat)
    requires i <= |q|
    ensures DecodeFrom(p + q, |p| + i) == DecodeFrom(q, i)
    decreases |q| - i
  {
    if i < |q| {
      var b, j, n := p + q, |p| + i, i + 1 + Continued(q, i);
      ContinuedShift(p, q, i);
      DecodeFromSuffix(p, q, n);
      calc {
        DecodeFrom(b, j);
        [Head(b, j)] + DecodeFrom(b, j + 1 + Continued(b, j));
        [Head(q, i)] + DecodeFrom(b, |p| + n);
        [Head(q, i)] + DecodeFrom(q, n);
        DecodeFrom(q, i);
      }
    }
  }

  /** Decoding undoes encoding: every string survives a trip through its UTF-8 bytes. */
  lemma {:induction false} DecodeEncode(s: string)
    ensures Decode(Encode(s)) == s
  {
    if |s| > 0 {
      var e := EncodeChar(s[0]);
      var rest := Encode(s[1..]);
      DecodeEncodeChar(s[0], rest);
      DecodeFromSuffix(e, rest, 0);
      DecodeEncode(s[1..]);
      assert Encode(s) == e + rest;
    }
  }
}

=== FILE: watcher.dfy ===
/**
 * The bookkeeping of the directory watcher (`WatcherThread`): which file names it reacts to, the
 * user's synchronized directories, the list of watch keys, the checker that follows directories
 * appearing and disappearing, and the reaction to file-system events. The file system and the
 * watch service are oracles: which directories exist, which paths can be registered, which paths
 * are regular files or directories, and the sizes that can be read.
 */
module Watcher {
  import opened Wrappers
  import opened Strings
  import opened Lists
  import opened JavaInt
  import SortedIndex

  /** The file-name extensions whose files are watched. */
  const EXTENSIONS: seq<string> :=
    [".pkg", ".part", ".crdownload", ".download", ".opdownload", ".!ut", ".!bt", ".!qB"]

  /** A created or modified file smaller than this cannot hold a package header and is skipped. */
  const MIN_FILE_SIZE: int := 0x1000

  // ---------------------------------------------------------------------------------------------
  // File-name extensions

  /** Whether `s` ends with one of `exts`, tried in order. */
  function EndsWithAny(s: string, exts: seq<string>): bool {
    |exts| > 0 && (EndsWith(s, exts[0]) || EndsWithAny(s, exts[1..]))
  }

  /** `EndsWithAny` is the existential it is meant to be. */
  lemma {:induction false} EndsWithAnySome(s: string, exts: seq<string>)
    ensures EndsWithAny(s, exts) <==> exists k :: 0 <= k < |exts| && EndsWith(s, exts[k])
  {
    if |exts| > 0 {
      EndsWithAnySome(s, exts[1..]);
      if EndsWithAny(s, exts[1..]) {
        var k :| 0 <= k < |exts[1..]| && EndsWith(s, exts[1..][k]);
        assert EndsWith(s, exts[k + 1]);
      }
      if exists k :: 0 <= k < |exts| && EndsWith(s, exts[k]) {
        var k :| 0 <= k < |exts| && EndsWith(s, exts[k]);
        if k > 0 {
          assert EndsWith(s, exts[1..][k - 1]);
        }
      }
    }
  }

  /** `hasValidFileNameExtension`: the lower-cased path ends with a listed extension. */
  function HasValidExtension(path: string): (r: bool)
    ensures r <==> exists k :: 0 <= k < |EXTENSIONS| && EndsWith(Lower(path), EXTENSIONS[k])
  {
    EndsWithAnySome(Lower(path), EXTENSIONS);
    EndsWithAny(Lower(path), EXTENSIONS)
  }

  /** A lower-cased path never ends with ".!qB", whose last letter is upper case. */
  lemma QbNeverMatches(path: string)
    ensures !EndsWith(Lower(path), ".!qB")
  {
    LowerIdempotent(path);
    var l := Lower(path);
    if |l| >= 4 {
      assert l[|l| - 1] != 'B';
      assert l[|l| - 4..][3] == l[|l| - 1];
    }
  }

  /** Only the path is lower-cased, so the case of a path does not matter. */
  lemma ExtensionIgnoresCase(path: string)
    ensures HasValidExtension(Lower(path)) == HasValidExtension(path)
  {
    LowerIdempotent(path);
  }

  /** A qBittorrent partial download is therefore not watched. */
  lemma QbDownloadIgnored()
    ensures !HasValidExtension("game.!qB")
  {
    var l := Lower("game.!qB");
    assert l == "game.!qb";
    assert !EndsWith(l, ".pkg") && !EndsWith(l, ".part") && !EndsWith(l, ".crdownload");
    assert !EndsWith(l, ".download") && !EndsWith(l, ".opdownload");
    assert !EndsWith(l, ".!ut") && !EndsWith(l, ".!bt");
    QbNeverMatches("game.!qB");
  }

  /** An upper-case package name is watched. */
  lemma UpperCasePkgWatched()
    ensures HasValidExtension("GAME.PKG")
  {
    var l := Lower("GAME.PKG");
    assert l == "game.pkg";
    assert EndsWith(l, EXTENSIONS[0]);
  }

  // ---------------------------------------------------------------------------------------------
  // Synchronized directories

  /** `SynchronizedDirectory`: a directory the user asked to keep in sync with the table. */
  datatype SyncedDir = SyncedDir(dir: string, recursive: bool, knownToExist: bool)

  /** `new SynchronizedDirectory(dir, recursion)`: not yet known to exist. */
  function Fresh(dir: string, recursive: bool): SyncedDir {
    SyncedDir(dir, recursive, false)
  }

  /** No directory is listed twice. */
  predicate NoDupDirs(dirs: seq<SyncedDir>) {
    forall i, j :: 0 <= i < j < |dirs| ==> dirs[i].dir != dirs[j].dir
  }

  /** The first entry at or after `from` for `directory`. */
  function FindDir(dirs: seq<SyncedDir>, directory: string, from: nat): (r: Option<nat>)
    ensures r.Some? ==> from <= r.value < |dirs| && dirs[r.value].dir == directory
    ensures r.Some? ==> forall k :: from <= k < r.value ==> dirs[k].dir != directory
    ensures r.None? ==> forall k :: from <= k < |dirs| ==> dirs[k].dir != directory
    decreases |dirs| - from
  {
    if from >= |dirs| then None
    else if dirs[from].dir == directory then Some(from)
    else FindDir(dirs, directory, from + 1)
  }

  /**
   * `addDirectory`: a directory already listed keeps its place; if its recursion flag changes it
   * is replaced by a fresh entry, which forgets that it was known to exist. A new directory is
   * appended.
   */
  function AddDirectory(dirs: seq<SyncedDir>, directory: string, recursion: bool): (r: seq<SyncedDir>)
    ensures NoDupDirs(dirs) ==> NoDupDirs(r)
    ensures |r| >= |dirs|
    ensures forall k :: 0 <= k < |dirs| && dirs[k].dir != directory ==> r[k] == dirs[k]
    ensures exists k :: 0 <= k < |r| && r[k].dir == directory && r[k].recursive == recursion
    ensures (exists k :: 0 <= k < |dirs| && dirs[k].dir == directory) ==> |r| == |dirs|
    ensures (forall k :: 0 <= k < |dirs| ==> dirs[k].dir != directory) ==>
              r == dirs + [Fresh(directory, recursion)]
    ensures NoDupDirs(dirs) ==> forall k :: 0 <= k < |dirs| && dirs[k].dir == directory ==>
              if dirs[k].recursive == recursion then r == dirs else r == dirs[k := Fresh(directory, recursion)]
  {
    match FindDir(dirs, directory, 0)
    case None =>
      var r := dirs + [Fresh(directory, recursion)];
      assert r[|dirs|].dir == directory;
      r
    case Some(i) =>
      if dirs[i].recursive != recursion then
        var r := dirs[i := Fresh(directory, recursion)];
        assert r[i].dir == directory && r[i].recursive == recursion;
        r
      else
        assert dirs[i].dir == directory && dirs[i].recursive == recursion;
        dirs
  }

  /** `getSynchedDirs`: the directories, in list order. */
  function SynchedDirs(dirs: seq<SyncedDir>): (r: seq<string>)
    ensures |r| == |dirs|
    ensures forall k :: 0 <= k < |dirs| ==> r[k] == dirs[k].dir
  {
    seq(|dirs|, k requires 0 <= k < |dirs| => dirs[k].dir)
  }

  /** The `int` a recursion flag is saved as. */
  function FlagValue(recursive: bool): int32 {
    if recursive then 1 else 0
  }

  /** `getSynchedDirsRecursionState`: parallel to `SynchedDirs`, 1 for a recursive entry and 0 otherwise. */
  function RecursionStates(dirs: seq<SyncedDir>): (r: seq<int32>)
    ensures |r| == |dirs|
    ensures forall k :: 0 <= k < |dirs| ==> (r[k] == 1 <==> dirs[k].recursive) && (r[k] == 0 <==> !dirs[k].recursive)
  {
    seq(|dirs|, k requires 0 <= k < |dirs| => FlagValue(dirs[k].recursive))
  }

  /**
   * The settings loader (GUI.java) feeding saved directories and flags back through
   * `addDirectory`, a flag counting as recursive iff it is 1. When the flag array is shorter the
   * loader stops with an exception after the pairs it could read.
   */
  function LoadDirectories(dirs: seq<SyncedDir>, names: seq<string>, flags: seq<int>): (r: seq<SyncedDir>)
    ensures NoDupDirs(dirs) ==> NoDupDirs(r)
    decreases |names|
  {
    if |names| == 0 || |flags| == 0 then dirs
    else LoadDirectories(AddDirectory(dirs, names[0], flags[0] == 1), names[1..], flags[1..])
  }

  /** What survives saving and loading: each entry's directory and flag. */
  function Forget(dirs: seq<SyncedDir>): (r: seq<SyncedDir>)
    ensures |r| == |dirs|
    ensures forall k :: 0 <= k < |dirs| ==> r[k] == Fresh(dirs[k].dir, dirs[k].recursive)
  {
    seq(|dirs|, k requires 0 <= k < |dirs| => Fresh(dirs[k].dir, dirs[k].recursive))
  }

  /** No directory listed in `acc` is one of `dirs`. */
  predicate Apart(acc: seq<SyncedDir>, dirs: seq<SyncedDir>) {
    forall i, j :: 0 <= i < |acc| && 0 <= j < |dirs| ==> acc[i].dir != dirs[j].dir
  }

  /** Loading the saved arrays after `acc` appends the saved entries, as long as none is listed in `acc`. */
  lemma {:induction false} LoadAppends(acc: seq<SyncedDir>, dirs: seq<SyncedDir>)
    requires NoDupDirs(dirs) && Apart(acc, dirs)
    ensures LoadDirectories(acc, SynchedDirs(dirs), RecursionStates(dirs)) == acc + Forget(dirs)
    decreases |dirs|
  {
    if |dirs| > 0 {
      var d := dirs[0];
      var acc' := acc + [Fresh(d.dir, d.recursive)];
      ApartStep(acc, dirs);
      LoadFirst(acc, dirs);
      LoadAppends(acc', dirs[1..]);
      ForgetFirst(dirs);
      Associative(acc, [Fresh(d.dir, d.recursive)], Forget(dirs[1..]));
    }
  }

  /** Moving the first saved entry over to `acc` keeps the two apart. */
  lemma ApartStep(acc: seq<SyncedDir>, dirs: seq<SyncedDir>)
    requires |dirs| > 0 && NoDupDirs(dirs) && Apart(acc, dirs)
    ensures forall i :: 0 <= i < |acc| ==> acc[i].dir != dirs[0].dir
    ensures NoDupDirs(dirs[1..])
    ensures Apart(acc + [Fresh(dirs[0].dir, dirs[0].recursive)], dirs[1..])
  {
    var acc' := acc + [Fresh(dirs[0].dir, dirs[0].recursive)];
    forall i, j | 0 <= i < |acc'| && 0 <= j < |dirs[1..]|
      ensures acc'[i].dir != dirs[1..][j].dir
    {
      assert dirs[1..][j] == dirs[j + 1];
      if i == |acc| {
        assert acc'[i].dir == dirs[0].dir;
      } else {
        assert acc'[i] == acc[i];
      }
    }
    forall i, j | 0 <= i < j < |dirs[1..]|
      ensures dirs[1..][i].dir != dirs[1..][j].dir
    {
      assert dirs[1..][i] == dirs[i + 1] && dirs[1..][j] == dirs[j + 1];
    }
  }

  /** `Forget` entry by entry: the first one, then the rest. */
  lemma ForgetFirst(dirs: seq<SyncedDir>)
    requires |dirs| > 0
    ensures Forget(dirs) == [Fresh(dirs[0].dir, dirs[0].recursive)] + Forget(dirs[1..])
  {
    var r := [Fresh(dirs[0].dir, dirs[0].recursive)] + Forget(dirs[1..]);
    assert forall k :: 1 <= k < |dirs| ==> r[k] == Forget(dirs[1..])[k - 1];
  }

  /** The first saved entry is appended, and loading goes on with the rest of the arrays. */
  lemma LoadFirst(acc: seq<SyncedDir>, dirs: seq<SyncedDir>)
    requires |dirs| > 0
    requires forall i :: 0 <= i < |acc| ==> acc[i].dir != dirs[0].dir
    ensures LoadDirectories(acc, SynchedDirs(dirs), RecursionStates(dirs))
         == LoadDirectories(acc + [Fresh(dirs[0].dir, dirs[0].recursive)], SynchedDirs(dirs[1..]), RecursionStates(dirs[1..]))
  {
    var names, flags := SynchedDirs(dirs), RecursionStates(dirs);
    SavedTails(dirs);
    AddNewDirectory(acc, dirs[0].dir, flags[0] == 1);
    assert LoadDirectories(acc, names, flags)
        == LoadDirectories(AddDirectory(acc, names[0], flags[0] == 1), names[1..], flags[1..]);
  }

  /** The saved arrays of all but the first entry are the tails of the saved arrays. */
  lemma SavedTails(dirs: seq<SyncedDir>)
    requires |dirs| > 0
    ensures SynchedDirs(dirs)[0] == dirs[0].dir && SynchedDirs(dirs)[1..] == SynchedDirs(dirs[1..])
    ensures (RecursionStates(dirs)[0] == 1) == dirs[0].recursive
    ensures RecursionStates(dirs)[1..] == RecursionStates(dirs[1..])
  {}

  /** A directory not yet listed is appended as a fresh entry. */
  lemma AddNewDirectory(dirs: seq<SyncedDir>, directory: string, recursion: bool)
    requires forall i :: 0 <= i < |dirs| ==> dirs[i].dir != directory
    ensures AddDirectory(dirs, directory, recursion) == dirs + [Fresh(directory, recursion)]
  {}

  /** Saving the directory list and loading it into an empty watcher gives it back, existence forgotten. */
  lemma SaveLoadRoundTrip(dirs: seq<SyncedDir>)
    requires NoDupDirs(dirs)
    ensures LoadDirectories([], SynchedDirs(dirs), RecursionStates(dirs)) == Forget(dirs)
  {
    LoadAppends([], dirs);
  }

  /** `removeIf(dir.equals(directory))`: the entries for other directories, in order. */
  function RemoveDirs(dirs: seq<SyncedDir>, directory: string): (r: seq<SyncedDir>)
    ensures |r| <= |dirs|
    ensures forall x :: x in r <==> x in dirs && x.dir != directory
    ensures NoDupDirs(dirs) ==> NoDupDirs(r)
  {
    if |dirs| == 0 then []
    else if dirs[0].dir == directory then RemoveDirs(dirs[1..], directory)
    else
      var rest := RemoveDirs(dirs[1..], directory);
      assert forall x :: x in rest ==> x in dirs[1..];
      [dirs[0]] + rest
  }

  /** Entries for the removed directory make no difference to what remains. */
  lemma {:induction false} RemoveDirsIgnores(a: seq<SyncedDir>, x: SyncedDir, b: seq<SyncedDir>, directory: string)
    requires x.dir == directory
    ensures RemoveDirs(a + [x] + b, directory) == RemoveDirs(a + b, directory)
  {
    if |a| == 0 {
      assert (a + [x] + b)[1..] == b;
      assert a + b == b;
    } else {
      assert (a + [x] + b)[1..] == a[1..] + [x] + b;
      assert (a + b)[1..] == a[1..] + b;
      RemoveDirsIgnores(a[1..], x, b, directory);
    }
  }

  /** Removing a directory undoes adding it, whatever the flag or the earlier entry. */
  lemma RemoveUndoesAdd(dirs: seq<SyncedDir>, directory: string, recursion: bool)
    ensures RemoveDirs(AddDirectory(dirs, directory, recursion), directory) == RemoveDirs(dirs, directory)
  {
    match FindDir(dirs, directory, 0)
    case None =>
      RemoveDirsIgnores(dirs, Fresh(directory, recursion), [], directory);
      assert dirs + [Fresh(directory, recursion)] + [] == dirs + [Fresh(directory, recursion)];
      assert dirs + [] == dirs;
    case Some(i) =>
      if dirs[i].recursive != recursion {
        var r := dirs[i := Fresh(directory, recursion)];
        assert r == r[..i] + [r[i]] + r[i + 1..];
        assert dirs == dirs[..i] + [dirs[i]] + dirs[i + 1..];
        assert r[..i] == dirs[..i] && r[i + 1..] == dirs[i + 1..];
        RemoveDirsIgnores(dirs[..i], r[i], dirs[i + 1..], directory);
        RemoveDirsIgnores(dirs[..i], dirs[i], dirs[i + 1..], directory);
      }
  }

  // ---------------------------------------------------------------------------------------------
  // Watch keys

  /** Whether two watched paths count as the same: ignoring case on Windows, exactly elsewhere. */
  predicate Same(a: string, b: string, windows: bool) {
    if windows then Lower(a) == Lower(b) else a == b
  }

  /** No path is watched twice. */
  predicate Distinct(keys: seq<string>, windows: bool) {
    forall i, j :: 0 <= i < j < |keys| ==> !Same(keys[i], keys[j], windows)
  }

  /** Whether some key counts as the same path as `directory`. */
  function HasKey(keys: seq<string>, directory: string, windows: bool): (r: bool)
    ensures r <==> exists k :: 0 <= k < |keys| && Same(keys[k], directory, windows)
  {
    if |keys| == 0 then false
    else if Same(keys[|keys| - 1], directory, windows) then true
    else
      var r := HasKey(keys[..|keys| - 1], directory, windows);
      assert forall k :: 0 <= k < |keys| - 1 ==> keys[..|keys| - 1][k] == keys[k];
      r
  }

  /**
   * `addWatchKey`: a path already watched (ignoring case on Windows) is left alone; otherwise it
   * is registered and appended, unless registration fails (`registrable` is the oracle).
   */
  function AddWatchKey(keys: seq<string>, directory: string, windows: bool, registrable: set<string>)
    : (r: seq<string>)
    ensures r == keys || r == keys + [directory]
    ensures r == keys + [directory] <==>
              directory in registrable && forall k :: 0 <= k < |keys| ==> !Same(keys[k], directory, windows)
    ensures Distinct(keys, windows) ==> Distinct(r, windows)
  {
    if HasKey(keys, directory, windows) || directory !in registrable then keys
    else keys + [directory]
  }

  /** Adding a key twice is adding it once. */
  lemma AddWatchKeyIdempotent(keys: seq<string>, directory: string, windows: bool, registrable: set<string>)
    ensures var once := AddWatchKey(keys, directory, windows, registrable);
            AddWatchKey(once, directory, windows, registrable) == once
  {
    var once := AddWatchKey(keys, directory, windows, registrable);
    if once != keys {
      assert once[|keys|] == directory && Same(directory, directory, windows);
    }
  }

  /** The first key at or after `from` equal to `directory`. */
  function KeyIndex(keys: seq<string>, directory: string, from: nat): (r: Option<nat>)
    ensures r.Some? ==> from <= r.value < |keys| && keys[r.value] == directory
    ensures r.Some? ==> forall k :: from <= k < r.value ==> keys[k] != directory
    ensures r.None? ==> forall k :: from <= k < |keys| ==> keys[k] != directory
    decreases |keys| - from
  {
    if from >= |keys| then None
    else if keys[from] == directory then Some(from)
    else KeyIndex(keys, directory, from + 1)
  }

  /** The keys after `removeWatchKey`, and whether one was removed. */
  datatype Removal = Removal(keys: seq<string>, removed: bool)

  /**
   * `removeWatchKey`: the first key equal to `directory` (exactly, on every platform) is cancelled
   * and removed; the result tells whether there was one.
   */
  function RemoveWatchKey(keys: seq<string>, directory: string): (r: Removal)
    ensures r.removed <==> directory in keys
    ensures !r.removed ==> r.keys == keys
    ensures r.removed ==> |r.keys| == |keys| - 1 && multiset(r.keys) + multiset{directory} == multiset(keys)
    ensures forall x :: x in r.keys ==> x in keys
  {
    match KeyIndex(keys, directory, 0)
    case None => Removal(keys, false)
    case Some(i) =>
      RemoveAtMultiset(keys, i);
      Removal(RemoveAt(keys, i), true)
  }

  /** Removing a key keeps the other keys in order, so distinct keys stay distinct. */
  lemma RemoveKeepsDistinct(keys: seq<string>, directory: string, windows: bool)
    ensures Distinct(keys, windows) ==> Distinct(RemoveWatchKey(keys, directory).keys, windows)
  {
    match KeyIndex(keys, directory, 0)
    case None =>
    case Some(i) =>
      if !Distinct(keys, windows) { return; }
      var r := RemoveAt(keys, i);
      forall a, b | 0 <= a < b < |r|
        ensures !Same(r[a], r[b], windows)
      {
        var a' := if a < i then a else a + 1;
        var b' := if b < i then b else b + 1;
        assert r[a] == keys[a'] && r[b] == keys[b'] && a' < b';
      }
  }

  /** With distinct keys, a removed key is no longer watched. */
  lemma RemovedKeyGone(keys: seq<string>, directory: string, windows: bool)
    requires Distinct(keys, windows)
    ensures directory !in RemoveWatchKey(keys, directory).keys
  {
    match KeyIndex(keys, directory, 0)
    case None =>
    case Some(i) =>
      var r := RemoveAt(keys, i);
      forall a | 0 <= a < |r|
        ensures r[a] != directory
      {
        var a' := if a < i then a else a + 1;
        assert r[a] == keys[a'] && a' != i;
        assert Same(keys[i], keys[i], windows);
      }
  }

  /** Removing a key that was just added gives back the keys and reports the removal. */
  lemma RemoveUndoesAddKey(keys: seq<string>, directory: string, windows: bool, registrable: set<string>)
    requires directory in registrable && forall k :: 0 <= k < |keys| ==> !Same(keys[k], directory, windows)
    ensures RemoveWatchKey(AddWatchKey(keys, directory, windows, registrable), directory) == Removal(keys, true)
  {
    var added := keys + [directory];
    assert forall k :: 0 <= k < |keys| ==> added[k] == keys[k] && keys[k] != directory;
    assert added[|keys|] == directory;
    assert KeyIndex(added, directory, 0) == Some(|keys|);
    assert RemoveAt(added, |keys|) == keys;
  }

  /**
   * On Windows a key is added ignoring case but removed by exact comparison: a directory spelled
   * in another case is refused as a duplicate and yet does not remove the existing key.
   */
  lemma WindowsCaseMismatch()
    ensures AddWatchKey(["D:\\PKG"], "d:\\pkg", true, {"d:\\pkg"}) == ["D:\\PKG"]
    ensures RemoveWatchKey(["D:\\PKG"], "d:\\pkg") == Removal(["D:\\PKG"], false)
  {
    assert Lower("D:\\PKG") == "d:\\pkg";
    assert Lower("d:\\pkg") == "d:\\pkg";
    assert Same(["D:\\PKG"][0], "d:\\pkg", true);
    assert "D:\\PKG" != "d:\\pkg";
  }

  /** `addWatchKey` for each path in turn. */
  function AddWatchKeys(keys: seq<string>, paths: seq<string>, windows: bool, registrable: set<string>)
    : seq<string>
    decreases |paths|
  {
    if |paths| == 0 then keys
    else AddWatchKeys(AddWatchKey(keys, paths[0], windows, registrable), paths[1..], windows, registrable)
  }

  /**
   * `r` is what adding keys for `paths` should give: the keys stay distinct and in place, only
   * registrable paths are added, and every registrable path is watched.
   */
  predicate AddsKeys(keys: seq<string>, paths: seq<string>, windows: bool, registrable: set<string>, r: seq<string>) {
    && (Distinct(keys, windows) ==> Distinct(r, windows))
    && (forall x :: x in r ==> x in keys || (x in paths && x in registrable))
    && keys <= r
    && (forall p :: p in paths && p in registrable ==> HasKey(r, p, windows))
  }

  /** Adding keys for several paths does what `AddsKeys` asks. */
  lemma {:induction false} AddWatchKeysSpec(keys: seq<string>, paths: seq<string>, windows: bool, registrable: set<string>)
    ensures AddsKeys(keys, paths, windows, registrable, AddWatchKeys(keys, paths, windows, registrable))
    decreases |paths|
  {
    if |paths| > 0 {
      var next := AddWatchKey(keys, paths[0], windows, registrable);
      AddWatchKeysSpec(next, paths[1..], windows, registrable);
      AddsKeysStep(keys, paths, windows, registrable, AddWatchKeys(next, paths[1..], windows, registrable));
    }
  }

  /** Adding the first path's key, then the rest's, does what `AddsKeys` asks of all of them. */
  lemma AddsKeysStep(keys: seq<string>, paths: seq<string>, windows: bool, registrable: set<string>, r: seq<string>)
    requires |paths| > 0
    requires AddsKeys(AddWatchKey(keys, paths[0], windows, registrable), paths[1..], windows, registrable, r)
    ensures AddsKeys(keys, paths, windows, registrable, r)
  {
    var next := AddWatchKey(keys, paths[0], windows, registrable);
    AddedKeyWatched(keys, paths[0], windows, registrable);
    assert keys <= next;
    assert forall p :: p in paths ==> p == paths[0] || p in paths[1..];
    KeepsKey(next, r, paths[0], windows);
  }

  /** A registrable directory is watched once its key is added. */
  lemma AddedKeyWatched(keys: seq<string>, directory: string, windows: bool, registrable: set<string>)
    ensures directory in registrable ==> HasKey(AddWatchKey(keys, directory, windows, registrable), directory, windows)
  {
    if directory in registrable && !HasKey(keys, directory, windows) {
      var next := AddWatchKey(keys, directory, windows, registrable);
      assert next[|keys|] == directory && Same(directory, directory, windows);
    }
  }

  /** Keys that stay in place keep a directory watched. */
  lemma KeepsKey(keys: seq<string>, r: seq<string>, directory: string, windows: bool)
    requires keys <= r
    ensures HasKey(keys, directory, windows) ==> HasKey(r, directory, windows)
  {
    if HasKey(keys, directory, windows) {
      var k :| 0 <= k < |keys| && Same(keys[k], directory, windows);
      assert r[k] == keys[k];
    }
  }

  /** The paths `generateWatchKeys` registers for one directory: it and, if recursive, its subdirectories. */
  function WatchedPaths(d: SyncedDir, subdirectories: map<string, seq<string>>): seq<string> {
    [d.dir] + (if d.recursive && d.dir in subdirectories then subdirectories[d.dir] else [])
  }

  /**
   * `generateWatchKeys`: every key is cancelled and the keys are rebuilt from the directory list;
   * `subdirectories` is the oracle for what the directory walk finds.
   */
  function GenerateWatchKeys(dirs: seq<SyncedDir>, subdirectories: map<string, seq<string>>, windows: bool,
                             registrable: set<string>): seq<string>
    decreases |dirs|
  {
    if |dirs| == 0 then []
    else
      var before := GenerateWatchKeys(dirs[..|dirs| - 1], subdirectories, windows, registrable);
      AddWatchKeys(before, WatchedPaths(dirs[|dirs| - 1], subdirectories), windows, registrable)
  }

  /** The rebuilt keys are distinct and registrable, and every registrable directory is watched. */
  lemma {:induction false} GenerateWatchKeysSpec(dirs: seq<SyncedDir>, subdirectories: map<string, seq<string>>,
                                                 windows: bool, registrable: set<string>)
    ensures var r := GenerateWatchKeys(dirs, subdirectories, windows, registrable);
      && Distinct(r, windows)
      && (forall x :: x in r ==> x in registrable)
      && (forall k :: 0 <= k < |dirs| && dirs[k].dir in registrable ==> HasKey(r, dirs[k].dir, windows))
    decreases |dirs|
  {
    if |dirs| > 0 {
      var init := dirs[..|dirs| - 1];
      var before := GenerateWatchKeys(init, subdirectories, windows, registrable);
      var d := dirs[|dirs| - 1];
      GenerateWatchKeysSpec(init, subdirectories, windows, registrable);
      AddWatchKeysSpec(before, WatchedPaths(d, subdirectories), windows, registrable);
      var r := GenerateWatchKeys(dirs, subdirectories, windows, registrable);
      forall k | 0 <= k < |dirs| - 1 && dirs[k].dir in registrable
        ensures HasKey(r, dirs[k].dir, windows)
      {
        assert init[k] == dirs[k];
        KeepsKey(before, r, dirs[k].dir, windows);
      }
      assert d.dir in WatchedPaths(d, subdirectories);
    }
  }

  // ---------------------------------------------------------------------------------------------
  // The existence checker

  /** What the watcher keeps: the synchronized directories and the watched paths. */
  datatype State = State(dirs: seq<SyncedDir>, keys: seq<string>)

  /** One directory seen by the checker: its new entry, the keys after it, and whether to synchronize it. */
  datatype Check = Check(dir: SyncedDir, keys: seq<string>, synchronize: bool)

  /**
   * One step of the checker: a directory that appeared is synchronized and watched, one that
   * disappeared stops being watched, and the entry then knows whether the directory exists.
   */
  function CheckDir(d: SyncedDir, keys: seq<string>, present: bool, windows: bool, registrable: set<string>)
    : (r: Check)
    ensures r.dir == d.(knownToExist := present)
    ensures r.synchronize <==> present && !d.knownToExist
    ensures present == d.knownToExist ==> r.keys == keys
    ensures present && !d.knownToExist ==> r.keys == AddWatchKey(keys, d.dir, windows, registrable)
    ensures !present && d.knownToExist ==> r.keys == RemoveWatchKey(keys, d.dir).keys
    ensures Distinct(keys, windows) ==> Distinct(r.keys, windows)
  {
    if present && !d.knownToExist then
      Check(d.(knownToExist := true), AddWatchKey(keys, d.dir, windows, registrable), true)
    else if !present && d.knownToExist then
      RemoveKeepsDistinct(keys, d.dir, windows);
      Check(d.(knownToExist := false), RemoveWatchKey(keys, d.dir).keys, false)
    else Check(d, keys, false)
  }

  /** A pass of the checker: the new state and the directories it hands to `synchronizePkgFiles`. */
  datatype Pass = Pass(state: State, synchronized: seq<SyncedDir>)

  /** One pass of the checker over every directory, in list order; `existing` is the file-system oracle. */
  function CheckerPass(dirs: seq<SyncedDir>, keys: seq<string>, existing: set<string>, windows: bool,
                       registrable: set<string>): (r: Pass)
    ensures |r.state.dirs| == |dirs|
    ensures forall k :: 0 <= k < |dirs| ==> r.state.dirs[k] == dirs[k].(knownToExist := dirs[k].dir in existing)
    ensures forall x :: x in r.synchronized <==> x in dirs && x.dir in existing && !x.knownToExist
    ensures Distinct(keys, windows) ==> Distinct(r.state.keys, windows)
    decreases |dirs|
  {
    if |dirs| == 0 then Pass(State([], keys), [])
    else
      var c := CheckDir(dirs[0], keys, dirs[0].dir in existing, windows, registrable);
      var rest := CheckerPass(dirs[1..], c.keys, existing, windows, registrable);
      assert forall x :: x in dirs <==> x == dirs[0] || x in dirs[1..];
      Pass(State([c.dir] + rest.state.dirs, rest.state.keys),
           (if c.synchronize then [dirs[0]] else []) + rest.synchronized)
  }

  /** Every entry knows whether its directory exists. */
  predicate Settled(dirs: seq<SyncedDir>, existing: set<string>) {
    forall k :: 0 <= k < |dirs| ==> dirs[k].knownToExist == (dirs[k].dir in existing)
  }

  /** A pass over settled entries changes nothing and synchronizes nothing. */
  lemma {:induction false} SettledPassIsIdle(dirs: seq<SyncedDir>, keys: seq<string>, existing: set<string>,
                                             windows: bool, registrable: set<string>)
    requires Settled(dirs, existing)
    ensures CheckerPass(dirs, keys, existing, windows, registrable) == Pass(State(dirs, keys), [])
  {
    if |dirs| > 0 {
      assert Settled(dirs[1..], existing) by {
        forall k | 0 <= k < |dirs[1..]|
          ensures dirs[1..][k].knownToExist == (dirs[1..][k].dir in existing)
        {
          assert dirs[1..][k] == dirs[k + 1];
        }
      }
      SettledPassIsIdle(dirs[1..], keys, existing, windows, registrable);
      assert [dirs[0]] + dirs[1..] == dirs;
    }
  }

  /** While nothing appears or disappears, a second pass does nothing: the checker is idempotent. */
  lemma CheckerSettles(dirs: seq<SyncedDir>, keys: seq<string>, existing: set<string>, windows: bool,
                       registrable: set<string>)
    ensures var first := CheckerPass(dirs, keys, existing, windows, registrable);
            CheckerPass(first.state.dirs, first.state.keys, existing, windows, registrable) == Pass(first.state, [])
  {
    var first := CheckerPass(dirs, keys, existing, windows, registrable);
    SettledPassIsIdle(first.state.dirs, first.state.keys, existing, windows, registrable);
  }

  // ---------------------------------------------------------------------------------------------
  // File-system events

  /** The kind of a watch event; `Overflow` stands for an event whose context is not a path. */
  datatype Kind = Create | Delete | Modify | Overflow

  /** An event: its kind, the file name it carries and the path resolved against the watched directory. */
  datatype Event = Event(kind: Kind, name: string, path: string)

  /**
   * The file system as the event loop sees it: the platform, its separator, the paths that can
   * be registered, the regular files, the directories (not following links), and the sizes that
   * can be read (a missing size is an `IOException`).
   */
  datatype Env = Env(windows: bool, separator: char, registrable: set<string>, regularFiles: set<string>,
                     directories: set<string>, sizes: map<string, int>)

  /** What the event asks of the table. */
  datatype Reaction = Ignore | RemoveFile(path: string) | RemoveFiles(path: string) | AddFile(path: string)

  /** The keys after an event and the table's reaction. */
  datatype Handled = Handled(keys: seq<string>, reaction: Reaction)

  /**
   * `Path.startsWith` for the created directory: a component-wise prefix, whose components are
   * compared ignoring case on Windows and exactly elsewhere.
   */
  predicate PathStartsWith(path: string, directory: string, env: Env) {
    if env.windows then SortedIndex.IsUnder(Lower(path), Lower(directory), env.separator)
    else SortedIndex.IsUnder(path, directory, env.separator)
  }

  /**
   * The loop over the synchronized directories for a created directory: `addWatchKey` once for
   * every directory the path lies under (`Path.startsWith`), whatever that directory's recursion
   * flag.
   */
  function WatchCreated(dirs: seq<SyncedDir>, keys: seq<string>, path: string, env: Env): (r: seq<string>)
    ensures r == keys || r == keys + [path]
    ensures HasKey(keys, path, env.windows) ==> r == keys
    decreases |dirs|
  {
    if |dirs| == 0 then keys
    else
      var next := if PathStartsWith(path, dirs[0].dir, env)
                  then AddWatchKey(keys, path, env.windows, env.registrable) else keys;
      assert next != keys ==> HasKey(next, path, env.windows) by {
        if next != keys {
          assert next[|keys|] == path && Same(path, path, env.windows);
        }
      }
      WatchCreated(dirs[1..], next, path, env)
  }

  /** A created directory under some synchronized directory is added once; the recursion flags play no part. */
  lemma {:induction false} WatchCreatedOnce(dirs: seq<SyncedDir>, keys: seq<string>, path: string, env: Env)
    ensures WatchCreated(dirs, keys, path, env) ==
      if exists k :: 0 <= k < |dirs| && PathStartsWith(path, dirs[k].dir, env)
      then AddWatchKey(keys, path, env.windows, env.registrable)
      else keys
  {
    if |dirs| > 0 {
      var under := PathStartsWith(path, dirs[0].dir, env);
      var next := if under then AddWatchKey(keys, path, env.windows, env.registrable) else keys;
      WatchCreatedOnce(dirs[1..], next, path, env);
      var inRest := exists k :: 0 <= k < |dirs[1..]| && PathStartsWith(path, dirs[1..][k].dir, env);
      if inRest {
        var k :| 0 <= k < |dirs[1..]| && PathStartsWith(path, dirs[1..][k].dir, env);
        assert PathStartsWith(path, dirs[k + 1].dir, env);
      }
      if exists k :: 0 <= k < |dirs| && PathStartsWith(path, dirs[k].dir, env) {
        var k :| 0 <= k < |dirs| && PathStartsWith(path, dirs[k].dir, env);
        if k > 0 {
          assert PathStartsWith(path, dirs[1..][k - 1].dir, env);
        }
      }
      if under {
        AddWatchKeyIdempotent(keys, path, env.windows, env.registrable);
      }
    }
  }

  /** On Windows neither spelling's case matters to the test: lower-casing either side changes nothing. */
  lemma PathStartsWithIgnoresCase(path: string, directory: string, env: Env)
    requires env.windows
    ensures PathStartsWith(path, directory, env) == PathStartsWith(Lower(path), directory, env)
                                                == PathStartsWith(path, Lower(directory), env)
  {
    LowerIdempotent(path);
    LowerIdempotent(directory);
  }

  /** On Windows a created directory is watched under a synchronized directory spelled in another case. */
  lemma CreatedUnderOtherCaseWatched(dirs: seq<SyncedDir>, keys: seq<string>, env: Env)
    requires env.windows && env.separator == '\\'
    requires |dirs| > 0 && dirs[0].dir == "d:\\pkg"
    requires "D:\\PKG\\new" in env.registrable && !HasKey(keys, "D:\\PKG\\new", true)
    ensures WatchCreated(dirs, keys, "D:\\PKG\\new", env) == keys + ["D:\\PKG\\new"]
  {
    var path := "D:\\PKG\\new";
    assert Lower(path) == "d:\\pkg\\new";
    assert Lower(dirs[0].dir) == "d:\\pkg";
    assert SortedIndex.IsUnder(Lower(path), Lower(dirs[0].dir), env.separator) by {
      assert Lower(path)[..6] == "d:\\pkg";
      assert Lower(path)[6] == '\\';
    }
    assert PathStartsWith(path, dirs[0].dir, env);
    WatchCreatedOnce(dirs, keys, path, env);
  }

  /** Two directory lists with the same paths watch a created directory the same way. */
  lemma RecursionNotConsulted(dirs: seq<SyncedDir>, other: seq<SyncedDir>, keys: seq<string>, path: string, env: Env)
    requires SynchedDirs(dirs) == SynchedDirs(other)
    ensures WatchCreated(dirs, keys, path, env) == WatchCreated(other, keys, path, env)
  {
    WatchCreatedOnce(dirs, keys, path, env);
    WatchCreatedOnce(other, keys, path, env);
    assert forall k :: 0 <= k < |dirs| ==> dirs[k].dir == SynchedDirs(dirs)[k] == other[k].dir;
  }

  /** A created or modified watched file is added if it is a regular file of at least a header's size. */
  predicate AddsFile(e: Event, env: Env) {
    HasValidExtension(e.name) && e.path in env.regularFiles
    && e.path in env.sizes && env.sizes[e.path] >= MIN_FILE_SIZE
  }

  /**
   * The body of the event loop for one event. A deleted file with a watched extension is removed
   * from the table; any other deleted path whose watch key is removed removes every file below
   * it. A created or modified file with a watched extension is added when it is a regular file
   * of at least `MIN_FILE_SIZE` bytes, and the event ends there even when it is not added. A
   * created directory is watched when it lies under a synchronized directory.
   */
  function HandleEvent(s: State, e: Event, env: Env): (r: Handled)
    ensures e.kind == Overflow ==> r == Handled(s.keys, Ignore)
    ensures e.kind == Delete && HasValidExtension(e.name) ==> r == Handled(s.keys, RemoveFile(e.path))
    ensures e.kind == Delete && !HasValidExtension(e.name) ==>
              r.keys == RemoveWatchKey(s.keys, e.path).keys
              && (r.reaction == if e.path in s.keys then RemoveFiles(e.path) else Ignore)
    ensures e.kind in {Create, Modify} ==> (r.reaction.AddFile? <==> AddsFile(e, env))
    ensures r.reaction.AddFile? ==> r == Handled(s.keys, AddFile(e.path))
    ensures e.kind == Modify ==> r.keys == s.keys
    ensures e.kind == Create && !(HasValidExtension(e.name) && e.path in env.regularFiles) ==>
              r.reaction == Ignore
              && r.keys == if e.path in env.directories
                           && exists k :: 0 <= k < |s.dirs| && PathStartsWith(e.path, s.dirs[k].dir, env)
                           then AddWatchKey(s.keys, e.path, env.windows, env.registrable)
                           else s.keys
    ensures Distinct(s.keys, env.windows) ==> Distinct(r.keys, env.windows)
  {
    match e.kind
    case Overflow => Handled(s.keys, Ignore)
    case Delete =>
      if HasValidExtension(e.name) then Handled(s.keys, RemoveFile(e.path))
      else
        var removal := RemoveWatchKey(s.keys, e.path);
        RemoveKeepsDistinct(s.keys, e.path, env.windows);
        Handled(removal.keys, if removal.removed then RemoveFiles(e.path) else Ignore)
    case _ =>
      if HasValidExtension(e.name) && e.path in env.regularFiles then
        if e.path in env.sizes && env.sizes[e.path] >= MIN_FILE_SIZE then Handled(s.keys, AddFile(e.path))
        else Handled(s.keys, Ignore)
      else if e.kind == Create && e.path in env.directories then
        WatchCreatedOnce(s.dirs, s.keys, e.path, env);
        Handled(WatchCreated(s.dirs, s.keys, e.path, env), Ignore)
      else Handled(s.keys, Ignore)
  }

  /** A package smaller than a header is not added, however often it is modified. */
  lemma SmallFileSkipped(s: State, e: Event, env: Env)
    requires e.kind == Modify && e.path in env.sizes && env.sizes[e.path] < MIN_FILE_SIZE
    ensures HandleEvent(s, e, env) == Handled(s.keys, Ignore)
  {}

  /**
   * A directory whose name carries a watched extension is never unwatched by its deletion event:
   * the event is taken for a file.
   */
  lemma DeletedDirectoryWithExtension(s: State, path: string, env: Env)
    requires path in s.keys
    ensures HandleEvent(s, Event(Delete, "games.pkg", path), env) == Handled(s.keys, RemoveFile(path))
  {
    assert Lower("games.pkg") == "games.pkg";
    assert EndsWith("games.pkg", EXTENSIONS[0]);
  }
}

=== FILE: wrappers.dfy ===
/** Option and Result: the model's stand-ins for Java's null and for thrown exceptions. */
module Wrappers {

  /** A value or nothing; `None` is what the Java code represents with `null`. */
  datatype Option<+T> = None | Some(value: T) {

    predicate IsFailure() {
      None?
    }

    function PropagateFailure<U>(): Option<U>
      requires None?
    {
      None
    }

    function Extract(): T
      requires Some?
    {
      value
    }

    function GetOr(default: T): T {
      match this
      case Some(v) => v
      case None => default
    }
  }

  /** A computed value or the error that the Java code would have thrown instead. */
  datatype Result<+R, +E> = Success(value: R) | Failure(error: E) {

    predicate IsFailure() {
      Failure?
    }

    function PropagateFailure<U>(): Result<U, E>
      requires Failure?
    {
      Failure(error)
    }

    function Extract(): R
      requires Success?
    {
      value
    }
  }
}
